=== FILE: README.md ===
# ScratchTS block graph, in Dafny

This project models the block editor core of ScratchTS: the graph of blocks
that the workspace keeps in each block's `dataset` attributes, the
operations that rewire it and lay it out, and the save and load code built
on it. The model is functional. A workspace is an immutable arena
(`Model.Workspace`, a sequence of `Block` records). An id is an index into
the arena, and the id `NoId` stands for the empty string that the program
writes for "no link". Following a link is the program's
`querySelector('[data-instance-id=…]')`. It finds a block exactly when the
index lies inside the arena (`Model.Resolves`), so an empty link and a
dangling link behave alike, as they do in the program.

Each block record holds the fields the program keeps in the `dataset`:
- its type and opcode;
- the links `next`, `parent` and `substack`;
- the flags `topConnected`, `bottomConnected` and `topLevel`;
- its optional stored `height` and `innerHeight`;
- the ghost flag;
- its position, which the program keeps in the `transform` attribute.

Positions are integers. The `transform` text itself is modelled in `DomUtils`, and the
round trip proved there is what lets the rest of the model keep the two
numbers directly. The constants of the program (block forms, thresholds,
offsets) are the fields of an `Env` parameter.

Modules follow the program's files:

| module | file |
|---|---|
| `Model` | the block record, the arena and the frame predicates every operation is stated with |
| `BlockChain` | src/blocks/BlockChain.js (chains, break/connect/insert) |
| `Export` | `exportWorkspaceToJSON` and `exportCBlockToJSON` |
| `CBlocks` | src/blocks/CBlock.js (containers, their heights, insert and remove) |
| `Connectors` | src/blocks/BlockConnectors.js |
| `SpecialBlocks` | src/blocks/SpecialBlocks.js |
| `Connections` | src/ui/drag/ConnectionManager.js |
| `ChainSplit` | src/ui/drag/ChainSplitManager.js |
| `PositionCalculator` | src/ui/drag/BlockPositionCalculator.js |
| `DragHelpers` | src/ui/drag/DragHelpers.js |
| `PathUtils` | src/utils/PathUtils.js |
| `Alignment` | src/utils/BlockAlignment.js |
| `Loader` | src/utils/WorkspaceLoader.js |
| `DomUtils` | src/utils/DOMUtils.js |
| `Numbers` | an integer model of `parseFloat` and of number-to-text, used by `DomUtils` and `PathUtils` |

Walking a chain stops at the first block that repeats (`BlockChain.Walk`). On
acyclic links this is the program's walk. On a cycle, where the program would
loop forever, the model stops instead. `findContainingCBlock` is the one walk
that can leave a cycle: when the parent links lead back to the start block and
that block is a c-block, the program returns it, and so does
`Connections.FindContainingCBlock`.

`getTopLevelBlockInChain` in src/blocks/SpecialBlocks.js:176-194 is the same walk up through
`parent` as `getTopLevelBlock`. Both are `BlockChain.TopLevelBlock`.

`getAllChainBlocks` is not part of this model's sources. The code at
src/blocks/CBlock.js:540-541 uses it for "the whole chain after the
c-block, inner blocks of other c-blocks included", and
`BlockChain.AllChainBlocks` is that definition: the chain with every inner
chain expanded depth first.

`resizeCBlock` (src/blocks/CBlock.js:193-233) changes only the container's
own stored height and inner height and moves the blocks after it by the same
amount. It does not resize the containers that enclose it.

## Model

| member | source | states |
|---|---|---|
| Alignment.SnapToGrid | src/utils/BlockAlignment.js:6-8 | The snapped value is a multiple of the grid size and lies within half a grid step of the value, an exact half going up (the rounding of `Math.round`). |
| Alignment.SnapUnique | src/utils/BlockAlignment.js:6-8 | A multiple of the grid inside that half-step window is the snapped value, so the two facts above define snapping completely. |
| Alignment.SnapIdempotent | src/utils/BlockAlignment.js:6-8 | Snapping a snapped value gives it back. |
| Alignment.OnGridIffFixed | src/utils/BlockAlignment.js:6-8 | Snapping leaves a value where it is exactly when the value is on the grid. |
| Alignment.AlignBlock | src/utils/BlockAlignment.js:11-23 | It reports a change exactly when x or y was off the grid, and without a change the workspace is untouched. Afterwards the block sits at the snapped values of its old x and y (so on the grid), only its position has changed, and every other block is as it was. |
| Alignment.AlignBlockTwice | src/utils/BlockAlignment.js:11-23 | Aligning a block a second time reports no change. |
| Alignment.AlignChain | src/utils/BlockAlignment.js:25-55 | It reports a change exactly when the head exists and is off the grid; otherwise nothing changes. The head ends at the snapped values of its x and y, every block of its chain moves by that same offset, every other block is untouched, and only positions change. |
| Alignment.AlignChainKeepsOffsets | src/utils/BlockAlignment.js:25-55 | Any two blocks of the chain keep their offset from each other, and each block of the chain is moved by the offset that puts the head on its snapped position. |
| Alignment.AlignHead | src/utils/BlockAlignment.js:87-90 | The per-chain step (chain or single block) reports a change exactly when the head was off the grid. The head ends at its snapped x and y, every block of its chain moves by the same offset, and every other block is untouched. |
| Alignment.AlignAllBlocks | src/utils/BlockAlignment.js:57-104 | Only positions change. The aligned count is at most the number of chains processed, which is at most the number of blocks. Every top-level block ends up processed. |
| BlockChain.ChainBlocks | src/blocks/BlockChain.js:14-34 | Empty exactly when the start block is missing. Otherwise it is a walk down: it starts at the start block, each block is the `next` of the one before, no block repeats, and it ends at an empty or dangling `next` (or a repeat). |
| BlockChain.ChainUnique | src/blocks/BlockChain.js:14-34 | Any walk down from the start block with those properties is the chain, so the links alone determine the chain. |
| BlockChain.ChainSuffix | src/blocks/BlockChain.js:14-34 | The chain from the i-th block of a chain starts with the rest of that chain. |
| BlockChain.ChainSameLinks | src/blocks/BlockChain.js:14-34 | Two arenas with the same links have the same chains. |
| BlockChain.TopLevelBlock | src/blocks/BlockChain.js:42-60 | None exactly for a missing block. The block found resolves, and its `parent` is empty or dangling unless it points back into the path walked (a cycle). Which block of the walk it is: BlockChain.TopLevelIsWalkEnd. |
| BlockChain.TopLevelIsWalkEnd | src/blocks/BlockChain.js:42-60 | For any walk up through `parent` links from an existing block (each block the `parent` of the one before, no repeats, ending at an empty or dangling `parent` or a repeat), the block found is the last block of that walk. |
| BlockChain.MoveChain | src/blocks/BlockChain.js:78-87 | Every block of the chain moves by (dx, dy), every other block is unchanged, and nothing but positions changes. |
| BlockChain.MoveChainKeepsOffsets | src/blocks/BlockChain.js:78-87 | Any two blocks of the moved chain keep their offset from each other. |
| BlockChain.BreakChain | src/blocks/BlockChain.js:94-104 | A no-op when either block is missing. Otherwise the upper block loses its `next` and bottom connection, and the lower block loses its `parent` and top connection and becomes top-level. Nothing else changes. |
| BlockChain.ConnectChains | src/blocks/BlockChain.js:111-120 | A no-op when either block is missing. Otherwise the two blocks link to each other both ways, both connected flags are set, and the lower block stops being top-level. Nothing else changes. |
| BlockChain.BreakThenConnect | src/blocks/BlockChain.js:94-120 | For a properly joined adjacent pair, breaking and then reconnecting them gives back the same workspace. |
| BlockChain.ConnectJoins | src/blocks/BlockChain.js:111-120 | Connecting two different blocks leaves them a properly joined pair, which is the condition under which breaking is undone by connecting. |
| BlockChain.InsertBlockBetween | src/blocks/BlockChain.js:129-149 | A no-op when any of the three blocks is missing, and otherwise the arena keeps its size. |
| BlockChain.InsertBetweenLinks | src/blocks/BlockChain.js:129-149 | The exact writes: upper points at the inserted head, the head points back at upper, the inserted tail and the lower block link to each other, and every other block is unchanged. This covers the head-is-tail case. |
| BlockChain.InsertBetweenChain | src/blocks/BlockChain.js:129-149 | Afterwards the chain from the upper block runs through the whole inserted chain into the lower block. The inserted chain's own links are untouched. |
| BlockChain.AllChainBlocks | src/blocks/CBlock.js:540-541 | No block is listed twice and every listed block is in the arena. |
| BlockChain.NextInAllChainBlocks | src/blocks/CBlock.js:540-541 | The list is closed under `next`. |
| BlockChain.InnerInAllChainBlocks | src/blocks/CBlock.js:540-541 | The list is closed under the inner link of c-blocks. |
| BlockChain.ChainInAllChainBlocks | src/blocks/CBlock.js:540-541 | The plain chain from the start block is part of the list. |
| BlockChain.AllChainSameLinks | src/blocks/CBlock.js:540-541 | The list depends only on the links, so moving blocks does not change it. |
| CBlocks.InnerBlocks | src/blocks/CBlock.js:28-38 | Empty for a block that is not a c-block, or whose `substack` is empty or dangling. Otherwise it is the walk down from the first inner block. |
| CBlocks.InnerHeight | src/blocks/CBlock.js:69-85 | A container without inner blocks has inner height 0. |
| CBlocks.EffectiveInnerHeight | src/blocks/CBlock.js:457-460 | Never negative, and equal to either 0 or the inner height less the empty inner space of 24 (CBlock.js line 11), at least the latter: so it is `max(0, inner − 24)`. |
| CBlocks.SyncHeight | src/blocks/CBlock.js:154-168 | A block that is not a c-block, or a container already in sync, is left unchanged. Otherwise the container's stored height becomes the base height plus the effective inner height, its inner height grows by the same difference, and its x is kept. Every other block of the whole chain after the container moves down by that difference with x unchanged, and every other block is unchanged. |
| CBlocks.SyncSettles | src/blocks/CBlock.js:154-168 | After a sync the container is in sync with its inner chain. |
| CBlocks.SyncIdempotent | src/blocks/CBlock.js:154-168 | Syncing twice is syncing once. |
| CBlocks.InSyncKept | src/blocks/CBlock.js:69-86 | A container stays in sync when another block, outside its inner chain, changes position or stored heights: the inner height sums only the inner blocks' heights. |
| CBlocks.Resize | src/blocks/CBlock.js:193-233 | A no-op for a block that is not a c-block or for a zero delta. Otherwise the stored height and inner height each become their old value (or its default) plus the delta, and the container keeps its x. Every other block of the whole chain after the container (inner blocks included; none when `next` is empty or dangling) moves down by the delta with x unchanged, and every other block is unchanged. |
| CBlocks.UpdateBlocksAfter | src/blocks/CBlock.js:531-546 | A no-op without a resolvable `next` or with a zero delta. Otherwise exactly the blocks of the whole chain after the container, inner blocks included, move down by the delta with x unchanged. |
| CBlocks.UpdateMovesChainBelow | src/blocks/CBlock.js:531-546 | Every block of the plain chain below the container moves down by exactly the delta. |
| CBlocks.UpdateBlocksAfterInverse | src/blocks/CBlock.js:531-546 | Moving the blocks after a container by the delta and then by minus the delta gives back the workspace. |
| CBlocks.InsertIntoEmpty | src/blocks/CBlock.js:349-369 | The container's `substack` becomes the inserted head, which links up to the container, is connected at the top and is no longer top-level. No `next` link changes. |
| CBlocks.InsertIntoEmptyChain | src/blocks/CBlock.js:349-369 | Afterwards the container's inner blocks are exactly the inserted chain. |
| CBlocks.InsertAtBottom | src/blocks/CBlock.js:280-310 | The last inner block links down to the inserted head and the head links back up. No other `next` and no `substack` changes. |
| CBlocks.InsertAtBottomChain | src/blocks/CBlock.js:280-310 | Afterwards the inner blocks are the old inner blocks followed by the inserted chain. |
| CBlocks.InsertAtTop | src/blocks/CBlock.js:311-348 | `substack` becomes the inserted head, whose `parent` is the container. The inserted tail links down to the old first inner block, whose `parent` becomes that tail. No other `next` changes. Positions: CBlocks.InsertAtTopPlaces. |
| CBlocks.InsertAtTopPlaces | src/blocks/CBlock.js:311-333 | The inserted chain is stacked from (x, y), each block one stack step (form path height, else stored height, else 58) below the one before. The old inner blocks move down by the total of those steps with x kept, and every other block stays where it was. |
| CBlocks.InsertAtTopChain | src/blocks/CBlock.js:311-348 | Afterwards the inner blocks are the inserted chain followed by the old inner blocks. |
| CBlocks.InsertInside | src/blocks/CBlock.js:263-383 | A no-op on a block that is not a c-block. Otherwise, compared with the branch's insertion, only the container and positions change, and the container's stored height becomes the base height plus the effective height of the new inner chain. Positions: CBlocks.InsertInsidePositions and CBlocks.InsertInsideMoves. |
| CBlocks.InsertInsidePositions | src/blocks/CBlock.js:263-369 | Before the height sync: the inserted chain is stacked, each block one stack step below the one before, from (x, y), or at the bottom from the last inner block's y plus its stack step. On an insertion at the top of a non-empty container the old inner blocks move down by the inserted chain's total height with x kept; otherwise they stay. Every other block stays where it was. |
| CBlocks.InsertInsideMoves | src/blocks/CBlock.js:371-382 | The final sync moves only the blocks of the whole chain after the container, all down by the same height difference, and leaves every other block (except the container) as the insertion placed it. |
| CBlocks.InsertInsideChain | src/blocks/CBlock.js:263-383 | The new inner blocks are the inserted chain, the old ones followed by it (`atBottom`), or it followed by the old ones, depending on the branch. |
| CBlocks.InsertInsideInSync | src/blocks/CBlock.js:371-382 | After an insertion the container is in sync with its inner chain. |
| CBlocks.RemoveFromInside | src/blocks/CBlock.js:391-455 | A no-op unless the block is an inner block of a c-block. Otherwise, compared with the cut, only the container and positions change, and the container's stored height becomes the base height plus the effective height of the remaining inner chain. |
| CBlocks.RemoveInnerChain | src/blocks/CBlock.js:414-430 | Afterwards the inner blocks are those above the removed block. Its predecessor's `next` is cleared, or `substack` is cleared when it was first. |
| CBlocks.RemovedChainKept | src/blocks/CBlock.js:414-434 | The removed block keeps its own chain, the rest of the inner chain, and it has no parent, is not top-connected and is top-level. |
| CBlocks.RemoveLeavesNothingBelow | src/blocks/CBlock.js:414-430 | The chain of the removed block reaches the end of the inner chain, so the branch for a shorter removed chain never leaves blocks behind. |
| CBlocks.RemoveInSync | src/blocks/CBlock.js:443-454 | After a removal the container is in sync with its inner chain. |
| CBlocks.InsertThenRemove | src/blocks/CBlock.js:263-455 | Inserting a chain at the bottom (or into an empty container) and removing its head gives back the original inner blocks. |
| CBlocks.ConnectorCount | src/blocks/CBlock.js:467-472 | 0 exactly for a block that is not a c-block, 2 exactly when it has inner blocks, 3 exactly for a c-block with an empty `substack`. |
| CBlocks.InsertPosition | src/blocks/CBlock.js:512-523 | The insert position is the container's position moved by (16, 48). |
| Connectors.BaseConnectors | src/blocks/BlockConnectors.js:25-45 | TOP for default, c-block and stop blocks; BOTTOM for default, c-block and start blocks; INNER_TOP only for c-blocks; never MIDDLE. Round, sharp and unknown shapes get none. |
| Connectors.BlockConnectors | src/blocks/BlockConnectors.js:24-82 | An occupied TOP or BOTTOM is dropped from the base set, INNER_TOP is present exactly for a c-block, and MIDDLE is present exactly when the block is bottom-connected with a non-empty `next`. |
| Connectors.NoBlockIsBase | src/blocks/BlockConnectors.js:24-82 | Without a block the connectors are the base set of the type. |
| Connectors.ConnectorsDistinct | src/blocks/BlockConnectors.js:24-82 | No connector is listed twice. |
| Connectors.DraggedConnectors | src/blocks/BlockConnectors.js:245-250 | The dragged block's connectors, except that a dragged c-block offers neither INNER_TOP nor MIDDLE. |
| Connectors.CanConnectPairsTop | src/blocks/BlockConnectors.js:309-328 | Every allowed pair has exactly one TOP. A dragged TOP accepts BOTTOM, INNER_TOP and MIDDLE (not MIDDLE for a dragged c-block); every other dragged connector accepts only TOP. |
| Connectors.ConnectorPosition | src/blocks/BlockConnectors.js:84-111 | None exactly for a ghost block. Otherwise x is the rectangle's left edge, moved right by the inner offset for INNER_TOP. y is the top plus the TOP offset for TOP, the top plus the inner offset for INNER_TOP, the bottom less the socket height plus the BOTTOM offset for BOTTOM, and the bottom less the socket height for MIDDLE. |
| Connectors.ConnectorRelations | src/blocks/BlockConnectors.js:84-111 | MIDDLE lies the bottom offset above BOTTOM. TOP and INNER_TOP are measured from the same edge, each moved by its own offset. |
| Connectors.ZoneBoundsOf | src/blocks/BlockConnectors.js:120-178 | None exactly for a ghost block. The zone is as wide as the block. Its height is twice the half threshold, or twice the half c-block middle threshold for the MIDDLE connector of a c-block that has a block below it. |
| Connectors.ZoneCentredOnConnector | src/blocks/BlockConnectors.js:120-178 | The zone is vertically centred on the connector, shifted down in the c-block case, and starts at the connector's x (except INNER_TOP). |
| Connectors.ZoneOverlayIsTranslation | src/blocks/BlockConnectors.js:120-178 | Measuring against the overlay only translates the zone by the overlay's origin. |
| Connectors.ConnectorZone | src/blocks/BlockConnectors.js:183-193 | None exactly for a ghost block. |
| Connectors.IntersectsIffCommonPoint | src/blocks/BlockConnectors.js:198-210 | The intersection test holds exactly when the two closed rectangles share a point (touching edges count), and it is symmetric. |
| Connectors.FirstInChain | src/blocks/BlockConnectors.js:215-232 | The block found is the block itself or one of the listed blocks, and its `parent` is not a listed block outside the path walked. Which block of the walk it is: Connectors.FirstInChainIsWalkEnd. |
| Connectors.FirstInChainIsWalkEnd | src/blocks/BlockConnectors.js:215-232 | For any walk up through `parent` links that stays among the listed blocks (a `parent` outside the list ends it), the block found is the last block of that walk. |
| Connectors.FirstInChainWithAll | src/blocks/BlockConnectors.js:215-232 | With every block listed, the first block in the chain is the top-level block of the chain. |
| Connectors.CandidatesExactly | src/blocks/BlockConnectors.js:255-300 | A pair is a candidate exactly when the target is another non-ghost block, the two connectors are compatible, and the target's zone meets the chain's first block. |
| Connectors.BestIndex | src/blocks/BlockConnectors.js:262-300 | The index chosen has the least distance of all, and strictly less than every earlier one (ties keep the first, because the comparison is strict). |
| Connectors.BestIndexUnique | src/blocks/BlockConnectors.js:262-300 | Those two conditions pin the index down. |
| Connectors.FindNearest | src/blocks/BlockConnectors.js:234-307 | None for a missing dragged block or an empty block list. A match never targets the dragged block or a ghost block. |
| Connectors.FindNearestIsNearest | src/blocks/BlockConnectors.js:234-307 | None exactly when there is no candidate; otherwise the match is the first nearest candidate. |
| Connectors.FindNearestSound | src/blocks/BlockConnectors.js:234-307 | Whenever some candidate exists a match is found, no farther away than that candidate. |
| PositionCalculator.CalculatePosition | src/ui/drag/BlockPositionCalculator.js:14-195 | None for a missing block or a connector other than TOP and BOTTOM. The x is the target's x. For TOP the dragged block's bottom socket (its path height less the socket height) lands half a threshold below the target's top connector. For BOTTOM the dragged block lands at the target's bottom socket, less half a threshold. |
| PositionCalculator.PositionExistsUnlessUnknown | src/ui/drag/BlockPositionCalculator.js:29-192 | For TOP and BOTTOM the position is missing exactly when every block of the dragged chain is of unknown type. |
| PositionCalculator.TopBottomGap | src/ui/drag/BlockPositionCalculator.js:29-192 | For a known dragged type both positions exist. They are apart by the two path heights less two socket heights, plus the bottom offset less the top offset, less twice the half threshold. |
| SpecialBlocks.SpecialType | src/blocks/SpecialBlocks.js:12-21 | Some exactly for an existing start or stop block, and then it is that block's type. |
| SpecialBlocks.SpecialLacksConnector | src/blocks/SpecialBlocks.js:28-43 | A block lacks TOP exactly when it is a start block, lacks BOTTOM exactly when it is a stop block, and has both exactly when it is not special. |
| SpecialBlocks.StartCutShape | src/blocks/SpecialBlocks.js:74-82 | The cut is a prefix of the chain from the top-level block. It is empty exactly when the target is not on that chain, and otherwise it ends at the target. |
| SpecialBlocks.StartInsertionEffect | src/blocks/SpecialBlocks.js:72-115 | The target's `next` is cleared. The start block is top-level with no parent. With a lower block, start and lower are joined. Exactly the cut moves, by (+50, +50). Apart from start, target and lower, only positions change. |
| SpecialBlocks.StartSeversAbove | src/blocks/SpecialBlocks.js:72-115 | Afterwards the chain from the old top-level block is exactly the cut, ending at the target. |
| SpecialBlocks.StartHeadsLower | src/blocks/SpecialBlocks.js:100-113 | Afterwards the chain from the start block is the start block followed by the old lower chain. |
| SpecialBlocks.StopInsertion | src/blocks/SpecialBlocks.js:127-136 | Without a lower block the stop block is only attached below the target: the two link to each other, and nothing else changes. |
| SpecialBlocks.StopInsertionEffect | src/blocks/SpecialBlocks.js:138-167 | With a lower block: target and stop are joined, the stop block's `next` is cleared, and the lower block is cut loose and top-level. Exactly the lower chain moves, by (+50, +50). |
| SpecialBlocks.StopEndsChain | src/blocks/SpecialBlocks.js:138-167 | With a lower block, afterwards the chain from the target is the target and the stop block. |
| SpecialBlocks.StopKeepsLowerChain | src/blocks/SpecialBlocks.js:138-167 | The cut-off lower chain keeps its blocks. |
| SpecialBlocks.HandleSpecial | src/blocks/SpecialBlocks.js:204-222 | It reports true exactly for a start or stop block, and reporting false means nothing changed. |
| SpecialBlocks.HandleSpecialDispatch | src/blocks/SpecialBlocks.js:204-222 | A start block gets the start insertion and a stop block the stop insertion. |
| ChainSplit.SplitChainForInsertion | src/ui/drag/ChainSplitManager.js:35-72 | No reservation and no change when the target's `next` is empty or dangling. Otherwise the lower chain moves down by the dragged block's height, x unchanged. The reservation records that chain's positions, that height, and the dragged chain's total height. |
| ChainSplit.TotalInsertHeight | src/ui/drag/ChainSplitManager.js:45-49 | The recorded total is the sum of the dragged chain's path heights. |
| ChainSplit.AddHeightsIsSum | src/ui/drag/ChainSplitManager.js:45-49 | The program's running total equals that sum. |
| ChainSplit.SplitCBlockInner | src/ui/drag/ChainSplitManager.js:74-99 | No reservation and no change without the container or its first inner block. Otherwise every inner block moves down by the dragged block's height, and the inner blocks and their positions are recorded. |
| ChainSplit.Restore | src/ui/drag/ChainSplitManager.js:101-125 | Exactly the given blocks with a recorded position go back to it, and nothing but positions changes. |
| ChainSplit.CloseSplit | src/ui/drag/ChainSplitManager.js:101-125 | Only positions change, and without a reservation nothing changes. |
| ChainSplit.ShiftRestore | src/ui/drag/ChainSplitManager.js:101-125 | Restoring the recorded positions undoes a downward shift. |
| ChainSplit.ChainShiftRestore | src/ui/drag/ChainSplitManager.js:101-125 | Restoring the chain found again from the lower block after the shift undoes the shift. |
| ChainSplit.SplitThenClose | src/ui/drag/ChainSplitManager.js:35-125 | Opening a chain gap and closing it gives back the workspace. |
| ChainSplit.InnerSplitThenClose | src/ui/drag/ChainSplitManager.js:74-125 | Opening an inner gap and closing it gives back the workspace. |
| ChainSplit.EnsureSplit | src/ui/drag/ChainSplitManager.js:11-21 | The reservation afterwards is none or a chain gap at this target. A gap already open at this target is kept with no change. |
| ChainSplit.EnsureInnerSplit | src/ui/drag/ChainSplitManager.js:23-33 | The reservation afterwards is none or an inner gap in this container. A gap already open there is kept with no change. |
| ChainSplit.EnsureSplitIdempotent | src/ui/drag/ChainSplitManager.js:11-21 | Asking again for the same chain gap returns the same reservation and workspace. |
| ChainSplit.EnsureInnerSplitIdempotent | src/ui/drag/ChainSplitManager.js:23-33 | Asking again for the same inner gap returns the same reservation and workspace. |
| ChainSplit.EnsureThenClose | src/ui/drag/ChainSplitManager.js:11-21 | Whatever was open, ensuring a chain gap and closing ends where closing the old reservation would: at most one reservation is active, and the switch leaves no trace. |
| ChainSplit.EnsureInnerThenClose | src/ui/drag/ChainSplitManager.js:23-33 | The same for an inner gap. |
| Connections.FindContainingCBlock | src/ui/drag/ConnectionManager.js:46-60 | None for a missing block. A result is a c-block above the block through `parent` links with no c-block before it, or the block itself when no block above it is a c-block and the links lead back to it. None means neither happens: the walk ends first, or it cycles without a c-block. |
| Connections.ParentContains | src/ui/drag/ConnectionManager.js:46-60 | A block whose parent is a c-block is contained in that c-block, also when the parent is the block itself. |
| Connections.PositionChainBlocks | src/ui/drag/ConnectionManager.js:70-87 | Only the chain's positions change (an empty chain changes nothing). |
| Connections.PositionChainHead | src/ui/drag/ConnectionManager.js:70-87 | The head goes to (x, y). |
| Connections.PositionChainStep | src/ui/drag/ConnectionManager.js:70-87 | Every later block has the head's x, and its y is the block above plus that block's path height less the socket height. |
| Connections.ShiftInnerBlocks | src/ui/drag/ConnectionManager.js:89-111 | Only positions change, and nothing for a block that is not a c-block or has no inner chain. Only blocks reached from the inner chain move. For an inner chain without nested containers, every inner block moves down by the delta, with x set to the container's x plus its nesting level times the nesting offset. |
| Connections.ShiftInner | src/ui/drag/ConnectionManager.js:89-111 | The same, within a set of blocks closed under links, with the recursion into nested containers bounded by fuel. |
| Connections.ShiftInnerBlocksInChain | src/ui/drag/ConnectionManager.js:113-125 | Only positions change. When every c-block of the chain has a saved position whose y equals its current y, nothing changes. |
| Connections.ConnectBlocksTop | src/ui/drag/ConnectionManager.js:127-134 | The last dragged block and the target link to each other and are connected. The target stops being top-level and the dragged head becomes top-level. Only those blocks change, and only the last block's `next`. |
| Connections.ConnectTopIsConnectChains | src/ui/drag/ConnectionManager.js:127-134 | It is connectChains from the last dragged block to the target, with the dragged head marked top-level. |
| Connections.ConnectBlocksBottom | src/ui/drag/ConnectionManager.js:136-142 | The target and the dragged block link to each other and are connected, and the dragged block is not top-level. Nothing else changes. |
| Connections.ConnectBottomIsConnectChains | src/ui/drag/ConnectionManager.js:136-142 | It is connectChains from the target to the dragged block. |
| Connections.BottomConnectionChain | src/ui/drag/ConnectionManager.js:136-142 | Onto a target with no next block, the chain from the target becomes the target followed by the dragged chain. |
| Connections.JoinedChains | src/ui/drag/ConnectionManager.js:127-134 | Pointing the last block of one chain at a disjoint chain concatenates the two. |
| Connections.MiddleLinks | src/ui/drag/ConnectionManager.js:262-270 | Only the link fields of the target, the inserted head and bottom, and the lower block change. |
| Connections.MiddleLinksAreSplice | src/ui/drag/ConnectionManager.js:262-270 | These writes are those of insertBlockBetween, plus the target's bottom connection. |
| Connections.LowerFinalYIsSum | src/ui/drag/ConnectionManager.js:239-252 | The lower block's y is the start y plus the join step of every inserted block. |
| Connections.PlaceInsertion | src/ui/drag/ConnectionManager.js:234-260 | Only positions change, and only on the inserted chain and the lower chain. The lower block lands right below the inserted chain at its x. The whole lower chain is aligned to that x and moved by the lower block's delta. |
| Connections.MiddleWithLower | src/ui/drag/ConnectionManager.js:234-271 | The same placement, and no block outside the inserted chain and the lower chain moves. Outside the target, the inserted head and bottom, and the lower block, nothing but positions changes. When the target and the lower block are distinct and outside the inserted chain, the four blocks get the insertion links and flags: target to head, bottom to lower, each one connected, and the head not top-level. For a proper inserted chain the chain from the target then runs through it into the lower block. |
| Connections.LinkInsertion | src/ui/drag/ConnectionManager.js:262-270 | Only the link fields of the target, the inserted head and bottom, and the lower block change, and then only the insertion links and flags are written. Together with a placement that only moved blocks, nothing but positions changes outside those four blocks. |
| Connections.MiddleLinksChain | src/ui/drag/ConnectionManager.js:262-270 | The links splice the inserted chain between the target and the lower block. |
| Connections.TopLevelOnly | src/ui/drag/ConnectionManager.js:166-168 | The dragged block becomes top-level and nothing else changes: what every refused connection leaves. |
| Connections.HandleTopConnection | src/ui/drag/ConnectionManager.js:165-185 | A refused connection, or no position, only makes the dragged block top-level. Otherwise the links of connectBlocksTop are written, only positions change elsewhere, and a disjoint dragged chain comes first in the joined chain. |
| Connections.HandleBottomConnection | src/ui/drag/ConnectionManager.js:187-206 | A refused connection, or no position, only makes the dragged block top-level. Otherwise the links of connectBlocksBottom are written, and onto a target with no next block the chain becomes the target followed by the dragged chain. |
| Connections.MiddleStep | src/ui/drag/ConnectionManager.js:222-229 | A start or stop block gets its special insertion and then the special-chain call, nothing else. Otherwise, with a lower block that the call handles, the result is the arena the call left. With a lower block that the call declines, the insertion links and flags are written whatever else the call did. If the call only moved blocks, nothing else but positions changes and the chain from the target runs through the dragged chain into the lower block. Without a lower block the target and the dragged block are linked and connected. If the call only moved blocks, nothing but positions changes outside those two. |
| Connections.LowerStep | src/ui/drag/ConnectionManager.js:225-226 | The insertion links and flags are written on whatever arena the special-chain call left. When that call only moved blocks, nothing but positions changes outside the four linked blocks, and the chain from the target runs through the dragged chain into the lower block. |
| Connections.NoLowerStep | src/ui/drag/ConnectionManager.js:227-228 | The target and the dragged block are linked and connected on whatever arena the special-chain call left. When that call only moved blocks, nothing but positions changes outside those two. |
| Connections.HandleMiddleConnection | src/ui/drag/ConnectionManager.js:208-232 | The outcomes of Connections.MiddleStep for a dragged block that is not a start or stop block, after the inner blocks of the dragged chain are shifted. With a lower block the call declines, the insertion links and flags hold. If the call only moved blocks, the chain from the target runs through the dragged chain into the old lower block and nothing else but positions changes. Without a lower block the bottom links hold. With a lower block the call handles, the links are those the call left. |
| Connections.MiddleDoneKept | src/ui/drag/ConnectionManager.js:231 | Every middle outcome survives a later step that keeps links and flags, with the blocks that step may change added to the frame. That is how shiftInnerBlocksInChain and finalizeConnection keep it. |
| Connections.HandleInnerTopConnection | src/ui/drag/ConnectionManager.js:154-163 | A target that is not a c-block only makes the dragged block top-level. A c-block gets insertBlockInside at its insert position, not at the bottom: the dragged chain comes first in its inner chain, and the container ends in sync with it. |
| Connections.FinalizeConnection | src/ui/drag/ConnectionManager.js:144-152 | No link and no connection flag changes. Without a containing c-block nothing changes. Otherwise only the container changes beyond positions, nothing but positions changes outside the container, and the container ends in sync with its inner chain. |
| Connections.ConnectBlocks | src/ui/drag/ConnectionManager.js:273-310 | A ghost on either side only makes the dragged block top-level. INNER_TOP is insertBlockInside at the insert position (or, for a target that is not a c-block, only the top-level mark). TOP writes the top links, and the chains join when they share no block. BOTTOM writes the bottom links. MIDDLE gives the outcomes of Connections.ConnectAtMiddle. For TOP and BOTTOM, nothing but positions changes outside the blocks written and the containing c-block. For every connector but INNER_TOP the containing c-block ends in sync. |
| Connections.ConnectAtTop | src/ui/drag/ConnectionManager.js:292-296 | A refused or unplaceable connection changes no link, makes the dragged block top-level, and moves only positions outside it and the container. Otherwise the last dragged block and the target are linked and connected, the dragged head is top-level, a disjoint dragged chain comes first in the joined chain, and nothing but positions changes outside those blocks and the container. The container ends in sync. |
| Connections.ConnectAtBottom | src/ui/drag/ConnectionManager.js:298-302 | A refused or unplaceable connection changes no link, makes the dragged block top-level, and moves only positions outside it and the container. Otherwise the target and the dragged block are linked and connected, the dragged block is not top-level, onto a free target the chain becomes the target followed by the dragged chain, and nothing but positions changes outside those blocks and the container. The container ends in sync. |
| Connections.ConnectAtMiddle | src/ui/drag/ConnectionManager.js:304-309 | The outcomes of Connections.HandleMiddleConnection, with the containing c-block added to each frame. With a lower block the call declines, the insertion links and flags hold. If the call only moved blocks, the chain from the target runs through the dragged chain into the lower block. Without a lower block the target and the dragged block are linked. Where the call only moved blocks, nothing but positions changes outside the linked blocks and the container. With a lower block the call handles, the links are those the call left, and beyond the call's own writes only the container changes outside positions. The container ends in sync. |
| DragHelpers.PathHeight | src/ui/drag/DragHelpers.js:52-61 | The height is the form height, the stored height or the default, and it is 0 only if the default is. The order in which they are tried: DragHelpers.PathHeightSources. |
| DragHelpers.PathHeightSources | src/ui/drag/DragHelpers.js:56-60 | All five cases of the fallback order. A c-block takes its nonzero stored height, else a nonzero form height, else the default. Any other block takes a nonzero form height, else a nonzero stored height, else the default. |
| DragHelpers.PathHeightIgnoresPosition | src/ui/drag/DragHelpers.js:52-61 | The height does not depend on where the block is. |
| DragHelpers.ContainedBlockInside | src/ui/drag/DragHelpers.js:35-44 | A block lying entirely inside the sidebar counts as inside. |
| DragHelpers.SeparateBlockOutside | src/ui/drag/DragHelpers.js:35-44 | A block entirely to one side of the sidebar does not. |
| DragHelpers.CentreIsPointer | src/ui/drag/DragHelpers.js:35-44 | For even sizes, the block test is the inclusive pointer test applied to the block's centre. |
| DomUtils.GetTranslateValues | src/utils/DOMUtils.js:10-22 | A missing or empty attribute, or one with no `translate(a, b)` match, reads as (0, 0). |
| DomUtils.TranslateComponents | src/utils/DOMUtils.js:14-19 | A well-formed attribute reads as its two parsed components, each independently, an unparsable one as 0. |
| DomUtils.SetTranslate | src/utils/DOMUtils.js:30-34 | Nothing without an element. Otherwise reading the written attribute back gives exactly (x, y). |
| DomUtils.TranslateRoundTrip | src/utils/DOMUtils.js:10-34 | The text setTranslate writes reads back as the two integers. |
| Numbers.ParseIntToString | src/utils/DOMUtils.js:17-18 | `parseFloat` of a written integer, followed by a non-digit, gives the integer back. |
| Numbers.ParseSkipsSpaces | src/utils/DOMUtils.js:17-18 | Leading white space does not change what is parsed. |
| PathUtils.ParsePath | src/utils/PathUtils.js:8-20 | One command per letter of the path, in order. What each command holds: PathUtils.ParseCommand. |
| PathUtils.ParseCommand | src/utils/PathUtils.js:10-17 | For any text, a letter followed by a run without letters is one command. Its arguments are the tokens of that run, each read as a number, and parsing goes on after the run. |
| PathUtils.ParseSkipsLeading | src/utils/PathUtils.js:10-13 | Text before the first letter is skipped. |
| PathUtils.Tokens | src/utils/PathUtils.js:15 | The argument tokens are non-empty and contain no separator. Which tokens: PathUtils.TokensOfInterleave. |
| PathUtils.TokensSkipSeps | src/utils/PathUtils.js:15 | Leading white space and commas are skipped, as `trim` and the dropped empty piece do. |
| PathUtils.TokensOfInterleave | src/utils/PathUtils.js:15 | For every text written as separator runs around tokens, with non-empty runs between tokens, the tokens come back in order and nothing else. |
| PathUtils.SpacedTokens | src/utils/PathUtils.js:15 | The text ` 10  20` splits into `10` and `20`. |
| PathUtils.CommandsToPath | src/utils/PathUtils.js:25-32 | Empty exactly for no commands, and it starts with the first command's letter. |
| PathUtils.ArgsRoundTrip | src/utils/PathUtils.js:15-30 | Splitting the comma-joined written arguments reads the arguments back. |
| PathUtils.ParseCommandsToPath | src/utils/PathUtils.js:8-32 | Round trip: the parser reads back exactly the commands the writer wrote, for letters with integer arguments. |
| PathUtils.FindCommandsByType | src/utils/PathUtils.js:37-45 | Every entry is a command of the type, ignoring case, at its recorded position, in increasing position order. |
| PathUtils.FindComplete | src/utils/PathUtils.js:37-45 | No command of the type is missed. |
| PathUtils.AdjustMagnitude | src/utils/PathUtils.js:77-84 | The adjusted magnitude is `max(0, abs(v) + delta)`. |
| PathUtils.AdjustKeepsSign | src/utils/PathUtils.js:77-84 | A nonzero value keeps its sign while its magnitude stays positive. |
| PathUtils.AdjustZero | src/utils/PathUtils.js:77-84 | A zero value becomes the delta when the delta is positive and stays 0 otherwise. |
| PathUtils.AdjustInverse | src/utils/PathUtils.js:77-84 | Adjusting back by minus the delta undoes an adjustment that kept the value nonzero. |
| PathUtils.AdjustCompose | src/utils/PathUtils.js:77-84 | Two adjustments that keep the value nonzero add up. |
| PathUtils.AdjustSelectedHits | src/utils/PathUtils.js:86-96 | Each selected in-range command gets its first argument adjusted exactly once. |
| PathUtils.AdjustSelectedFrame | src/utils/PathUtils.js:86-96 | Commands no selected index reaches stay unchanged. |
| PathUtils.ResizeBlockPath | src/utils/PathUtils.js:66-68 | Both deltas zero gives back the path text unchanged. |
| PathUtils.ResizeBlockPathParses | src/utils/PathUtils.js:57-111 | For integer arguments, reading the resized path gives the command-level resize, so the text rewrite is exactly that resize. |
| PathUtils.ResizeHitsH | src/utils/PathUtils.js:86-96 | A selected h command (k-th h, counted case-insensitively) has its first argument grown by the horizontal delta. |
| PathUtils.ResizeHitsV | src/utils/PathUtils.js:99-109 | A selected v command has its first argument grown by the vertical delta. |
| PathUtils.ResizeFrame | src/utils/PathUtils.js:86-111 | Commands that neither list selects, and out-of-range indices, leave commands unchanged. |
| PathUtils.ResizeWritable | src/utils/PathUtils.js:86-111 | Resizing keeps integer arguments integers. |
| PathUtils.GetBlockResizeConfig | src/utils/PathUtils.js:117-141 | None exactly for an unknown shape. Indices are distinct, and only the c-block has vertical indices. |
| Loader.CreateBlockFromData | src/utils/WorkspaceLoader.js:18-42 | None exactly for an unknown opcode. Otherwise a fresh unlinked block of the table's type, top-level as saved, at the saved position with a missing coordinate read as 0. |
| Loader.CreateAll | src/utils/WorkspaceLoader.js:119-130 | Every entry of a known opcode gets a block under its key, and no other key is mapped. The map is injective into the arena, and with distinct keys each block is the one created from its entry. |
| Loader.RestoreNext | src/utils/WorkspaceLoader.js:48-65 | The block links down to the next block. The next block links up, is top-connected and is not top-level. The next block moves to the block's x, one join step lower: the block's path height, less its bottom offset, plus the next block's top offset. Only those two blocks change, and no type, opcode or stored height changes. |
| Loader.RestoreNextIsConnect | src/utils/WorkspaceLoader.js:48-65 | Restoring a `next` link is connectChains followed by placing the lower block. |
| Loader.RestoreParent | src/utils/WorkspaceLoader.js:69-76 | The block links up to its parent, is top-connected and not top-level, and nothing else changes. |
| Loader.RestoreSubstack | src/utils/WorkspaceLoader.js:79-105 | The c-block's `substack` is the inner head, which links up to the c-block and is not top-level. No `next` changes; elsewhere only positions change. |
| Loader.RestoreSubstackInner | src/utils/WorkspaceLoader.js:79-105 | Afterwards the c-block's inner blocks are the chain hanging from the inner head. |
| Loader.RestoreSubstackLayout | src/utils/WorkspaceLoader.js:89-104 | The inner head sits at the insert position, and every later inner block at the same x, one join step below the one before it. |
| Loader.RestoreEntry | src/utils/WorkspaceLoader.js:45-107 | The entry fails exactly when its own block was not created while its `next` or `parent` names a created block. Otherwise no type changes, only the entry's own block may get a new `next` (the created block its saved `next` names), and an entry naming nothing that was created changes nothing. |
| Loader.RestoreConnections | src/utils/WorkspaceLoader.js:44-108 | The load fails exactly when some entry fails. Otherwise, with distinct keys, every created block links down to the block its entry names as `next` when that was created. |
| Loader.SyncCBlocks | src/utils/WorkspaceLoader.js:136-142 | Only geometry changes, and only c-blocks' heights. Every c-block whose nested c-blocks all come before it in arena order ends in sync, in particular every c-block with no c-block among its inner blocks. |
| Loader.SyncKeepsSynced | src/utils/WorkspaceLoader.js:140-142 | One sync of the pass settles its c-block when the nested c-blocks come first, and leaves every earlier settled c-block in sync. |
| Loader.LoadWorkspace | src/utils/WorkspaceLoader.js:110-148 | Failure exactly when some entry fails. Otherwise every entry of a known opcode comes back with its opcode and type, linked to the block of its saved `next` when that was created and to nothing otherwise. Every loaded c-block whose nested c-blocks were created before it ends in sync. |
| Export.ExportBlock | src/blocks/CBlock.js:480-504 | The saved data keeps opcode, top-level flag, `next` and `parent`. It has a position exactly when the block is top-level, and then the block's own. It has a SUBSTACK exactly for a c-block whose `substack` resolves, naming that block. |
| Export.ExportThenCreate | src/blocks/CBlock.js:480-504 | Loading a saved block gives back its opcode, type, top-level flag and, when top-level, its position. |
| Export.ProcessBlock | src/blocks/BlockChain.js:200-243 | A block not seen before is visited once, after the inner blocks it brings in, and a seen block adds nothing. |
| Export.ExportOrder | src/blocks/BlockChain.js:245-257 | Each block at most once. Every block of a top-level chain of two or more blocks, and every inner block of a visited block, is visited, and only such blocks are. With no such chain, nothing. |
| Export.ExportWorkspace | src/blocks/BlockChain.js:189-259 | Entries have distinct keys and are the saved data of their blocks, with a position exactly when top-level. They cover every block of each saved chain and every inner block of a saved block, and only those blocks. With no saved chain, nothing. |
| Export.SaveThenLoad | src/blocks/BlockChain.js:189-259 | Saving then loading, with a block table that agrees with the arena, succeeds. Every saved block comes back with its opcode and type, its `next` pointing at the reloaded copy of its next block when that was saved, and at nothing otherwise. |

## Left out

- Rendering, the palette, the SVG `d` path rewrite inside `resizeCBlock`
  (src/blocks/CBlock.js:197-219, with its early returns), category colours and
  `getColorFromTemplate`: they draw, and carry no block-graph logic.
- Saving to and reading from storage, pointer events, timers (`throttle`,
  `debounce`, `requestAnimFrame`) and the debug overlay of the connector
  zones: input and output, not logic.
- PathUtils.ParsePath: a path argument is read with the integer `parseFloat` of the Numbers module. A fractional argument is read as its integer prefix (`12.5` as 12) and a leading point (`.5`) as NaN, where `parseFloat` gives 12.5 and 0.5. An exponent cannot occur there, because its letter starts a new command.
- PathUtils.ResizeBlockPath: with the integer reading, a fractional argument loses its fraction. Resizing `h12.5` by 3 writes `h15`, where the program writes `h15.5`. PathUtils.ResizeBlockPathParses is stated for integer arguments only.
- Numbers.ParseNumber: models `parseFloat` on integer text only: an optional sign and a digit run after leading white space. Decimals, exponents and `Infinity` are not modelled.
- Floating point: coordinates and heights are integers. `Math.round` in the
  export is the identity on them, `Math.sqrt` distance is compared squared
  (same order), and the 0.1 and 0.01 tolerances are "difference is not 0".
- `Constants.js`, `getNestedLevel`, `getChainHeight`, `canConnectFromTop`,
  `canConnectFromBottom`, `handleMiddleInsertionWithSpecialBlocks`,
  `getBoundingClientRectRounded` and `createWorkspaceBlock` are not part of
  this model. Constants are `Env` fields. The nesting level, the two connection
  verdicts and the rectangles are parameters.
  `handleMiddleInsertionWithSpecialBlocks` is a `Connections.SpecialChainCall`
  parameter: its verdict on the arena it receives, and the block it leaves at
  each id. It is assumed not to add or remove blocks.
  `getChainHeight` has no effect on the arena.
- `createWorkspaceBlock` is taken to give a block with no links, no
  connected flags, no stored heights, and not top-level. `Loader.CreateBlockFromData` rests on
  that reading.
- Blocks without an instance id: every arena block and every saved entry has
  a key.
- A `SUBSTACK` naming the empty key is ignored, as a key that was not created.
- Cyclic links: every walk stops at the first repeat, where the program would
  loop forever. The exception is `findContainingCBlock` on a cycle back to a
  c-block start block, which the model follows as the program does.
- `saveChainTransforms` is only a map of positions; the saved map is a
  parameter of `Connections.ShiftInnerBlocksInChain`.
- Alignment.AlignAllBlocks: does not state that every processed head ends on the grid, because a later chain sharing blocks with an earlier one may move it again.
- CBlocks.InnerHeight: states only that an empty container has inner height 0. The sum over the inner chain is its definition, and the sync lemmas use it.
- Connections.ShiftInner: the recursion into nested containers is bounded by a fuel count. Positions are stated only for the flat case, as for Connections.ShiftInnerBlocks.
- Connections.ShiftInnerBlocks: states the new positions only for inner chains without nested containers. With nesting it states which blocks may move, not where they go.
- Connections.ShiftInnerBlocksInChain: states only that positions alone change and the case where no c-block moved. The shifts themselves follow from Connections.ShiftInnerBlocks.
- DragHelpers.CentreIsPointer: stated for even widths and heights, where the centre is a whole number. The program's centre may be a half.
- Connections.MiddleStep: the frame and the chain through the dragged chain are stated only when the special-chain call changes nothing but positions, because that call may write any block. When it writes links, only the four insertion links are promised.
- Connections.HandleMiddleConnection: for a start or stop block dragged into the middle it states only the arena size. Connections.MiddleStep states that this path is the special insertion followed by the special-chain call.
- Loader.LoadWorkspace: a c-block is promised to end in sync only when every c-block nested in it was created before it. The final pass syncs c-blocks in creation order. A sync reads a nested c-block's stored height (src/blocks/CBlock.js:78-79) and never resizes the containers around the one it resizes (src/blocks/CBlock.js:193-233). So a container created before a c-block nested in it keeps the height it had before the nested one grew. The `parent` and SUBSTACK links are stated per entry (`Loader.RestoreParent`, `Loader.RestoreSubstackInner`), not for the whole load.
- Export.ExportWorkspace: a top-level chain of a single block is not saved, even a c-block with inner blocks, as the chain length check at src/blocks/BlockChain.js:250-252 does.
- Loader.RestoreEntry: a failing entry yields None. The program throws a TypeError at the first write to the missing block, and the arena it leaves behind is described under Loader.LoadWorkspace.
- Loader.RestoreConnections: a failure yields None. The program keeps the links restored before the failing entry (src/utils/WorkspaceLoader.js:44-108).
- Loader.LoadWorkspace: a failed load yields None. The program has by then removed the old blocks and appended the new ones (src/utils/WorkspaceLoader.js:112-130), keeps the partial links, and returns false.
- BlockChain.TopLevelBlock: its own contract does not say which block of the walk it returns. BlockChain.TopLevelIsWalkEnd states that it is the last one.
- Connectors.FirstInChain: its own contract does not say which block of the walk it returns. Connectors.FirstInChainIsWalkEnd states that it is the last one.
- CBlocks.InsertAtTop: its own contract gives the links. The positions are stated by CBlocks.InsertAtTopPlaces.
- DragHelpers.PathHeight: its own contract names the three sources. The order of the fallbacks is stated by DragHelpers.PathHeightSources.

=== FILE: alignment.dfy ===
/**
  Snapping blocks to a grid (src/utils/BlockAlignment.js). A free-standing
  block snaps on its own; a chain moves as a whole by the offset that puts its
  head on the grid, so the blocks keep their relative positions.
*/
module Alignment {
  import opened Model
  import opened BlockChain

  /** Division rounding toward minus infinity, for either sign of the divisor. */
  function FloorDiv(a: int, b: int): (q: int)
    requires b != 0
    ensures b > 0 ==> b * q <= a < b * q + b
    ensures b < 0 ==> b * q >= a > b * q + b
  {
    if b > 0 then a / b else (-a) / (-b)
  }

  /**
    snapToGrid: `Math.round(value / gridSize) * gridSize`. `Math.round` rounds
    halves up, so the quotient is floor((2v + g) / 2g).
  */
  function SnapToGrid(v: int, g: int): (r: int)
    requires g != 0
    ensures r % g == 0
    ensures g > 0 ==> -g < 2 * (r - v) <= g
    ensures g < 0 ==> g <= 2 * (r - v) < -g
  {
    var q := FloorDiv(2 * v + g, 2 * g);
    MultipleOf(q, g);
    q * g
  }

  /** A product with `g` leaves no remainder modulo `g`. */
  lemma {:induction false} MultipleOf(q: int, g: int)
    requires g != 0
    ensures (q * g) % g == 0
  {
    var a := q * g;
    var m := a / g;
    var k := a % g;
    assert a == g * m + k && 0 <= k < Mag(g);
    assert g * (q - m) == k;
    if q - m >= 1 {
      ProductAtLeast(g, q - m);
    } else if q - m <= -1 {
      ProductAtLeast(g, m - q);
    }
  }

  /** Two multiples of `g` less than |g| apart are equal. */
  lemma {:induction false} CloseMultiples(a: int, b: int, g: int)
    requires g != 0 && a % g == 0 && b % g == 0
    requires -2 * Mag(g) < 2 * (a - b) < 2 * Mag(g)
    ensures a == b
  {
    var m := a / g;
    var n := b / g;
    assert a == g * m && b == g * n;
    assert a - b == g * (m - n);
    if m - n >= 1 {
      ProductAtLeast(g, m - n);
    } else if m - n <= -1 {
      ProductAtLeast(g, n - m);
    }
  }

  /** |g * d| is at least |g| for a positive multiplier. */
  lemma ProductAtLeast(g: int, d: int)
    requires g != 0 && d >= 1
    ensures g * d >= Mag(g) || g * d <= -Mag(g)
    ensures g > 0 ==> g * d >= g
    ensures g < 0 ==> g * d <= g
  {
  }

  function Mag(g: int): int {
    if g < 0 then -g else g
  }

  /**
    The snapped value is the only multiple of `g` within the rounding window
    around `v`: snapToGrid is the nearest grid point, halves going up.
  */
  lemma {:induction false} SnapUnique(v: int, g: int, r: int)
    requires g != 0 && r % g == 0
    requires g > 0 ==> -g < 2 * (r - v) <= g
    requires g < 0 ==> g <= 2 * (r - v) < -g
    ensures r == SnapToGrid(v, g)
  {
    CloseMultiples(r, SnapToGrid(v, g), g);
  }

  /** A value already on the grid does not move. */
  lemma {:induction false} SnapOnGrid(v: int, g: int)
    requires g != 0 && v % g == 0
    ensures SnapToGrid(v, g) == v
  {
    SnapUnique(v, g, v);
  }

  /** snapToGrid is idempotent. */
  lemma {:induction false} SnapIdempotent(v: int, g: int)
    requires g != 0
    ensures SnapToGrid(SnapToGrid(v, g), g) == SnapToGrid(v, g)
  {
    SnapOnGrid(SnapToGrid(v, g), g);
  }

  /**
    alignBlock: snaps both coordinates of the block and reports whether its
    position changed; nothing is written when it did not.
  */
  function AlignBlock(ws: Workspace, id: Id, g: int): (r: (bool, Workspace))
    requires Resolves(ws, id) && g != 0
    ensures r.0 <==> ws[id].x % g != 0 || ws[id].y % g != 0
    ensures !r.0 ==> r.1 == ws
    ensures OnlyMoved(ws, r.1) && r.1[id].x % g == 0 && r.1[id].y % g == 0
    ensures r.1[id].x == SnapToGrid(ws[id].x, g) && r.1[id].y == SnapToGrid(ws[id].y, g)
    ensures forall k :: 0 <= k < |ws| && k != id ==> r.1[k] == ws[k]
  {
    var b := ws[id];
    var ax := SnapToGrid(b.x, g);
    var ay := SnapToGrid(b.y, g);
    OnGridIffFixed(b.x, g);
    OnGridIffFixed(b.y, g);
    if ax != b.x || ay != b.y then (true, SetPos(ws, id, ax, ay)) else (false, ws)
  }

  /** A value is left in place by snapping exactly when it is on the grid. */
  lemma {:induction false} OnGridIffFixed(v: int, g: int)
    requires g != 0
    ensures SnapToGrid(v, g) == v <==> v % g == 0
  {
    if v % g == 0 {
      SnapOnGrid(v, g);
    }
  }

  /** Aligning a block twice: the second call reports no change. */
  lemma {:induction false} AlignBlockTwice(ws: Workspace, id: Id, g: int)
    requires Resolves(ws, id) && g != 0
    ensures !AlignBlock(AlignBlock(ws, id, g).1, id, g).0
  {
  }

  /**
    alignChain: moves every block of the chain from `top` by the offset that
    snaps the head, and reports whether anything moved. An empty chain or a
    head already on the grid changes nothing.
  */
  function AlignChain(ws: Workspace, top: Id, g: int): (r: (bool, Workspace))
    requires g != 0
    ensures r.0 <==> Resolves(ws, top) && (ws[top].x % g != 0 || ws[top].y % g != 0)
    ensures |r.1| == |ws| && (!r.0 ==> r.1 == ws)
    ensures OnlyMoved(ws, r.1)
    ensures Resolves(ws, top) ==> r.1[top].x % g == 0 && r.1[top].y % g == 0
    ensures Resolves(ws, top) ==> r.1[top].x == SnapToGrid(ws[top].x, g) && r.1[top].y == SnapToGrid(ws[top].y, g)
    ensures Resolves(ws, top) ==>
      forall k :: 0 <= k < |ws| && k in ChainBlocks(ws, top) ==> r.1[k] == MovedBySnap(ws, top, g, k)
    ensures forall k :: 0 <= k < |ws| && k !in ChainBlocks(ws, top) ==> r.1[k] == ws[k]
  {
    if !Resolves(ws, top) then (false, ws)
    else
      var head := ws[top];
      var nx := SnapToGrid(head.x, g);
      var ny := SnapToGrid(head.y, g);
      OnGridIffFixed(head.x, g);
      OnGridIffFixed(head.y, g);
      SnapMoves(ws, top, g);
      if nx == head.x && ny == head.y then (false, ws)
      else (true, MoveChainHeadTo(ws, top, nx, ny))
  }

  /** Moving by the snap offset is moving the chain head to its snapped place, and nothing when the head is on the grid. */
  lemma {:induction false} SnapMoves(ws: Workspace, top: Id, g: int)
    requires Resolves(ws, top) && g != 0
    ensures var nx, ny := SnapToGrid(ws[top].x, g), SnapToGrid(ws[top].y, g);
      && (nx == ws[top].x && ny == ws[top].y ==> forall k :: 0 <= k < |ws| ==> MovedBySnap(ws, top, g, k) == ws[k])
      && forall k :: 0 <= k < |ws| && k in ChainBlocks(ws, top) ==> MoveChainHeadTo(ws, top, nx, ny)[k] == MovedBySnap(ws, top, g, k)
  {
  }

  /** Block `k` moved by the offset that puts block `top` on the grid. */
  function MovedBySnap(ws: Workspace, top: Id, g: int, k: Id): Block
    requires Resolves(ws, top) && Resolves(ws, k) && g != 0
  {
    ws[k].(x := ws[k].x + (SnapToGrid(ws[top].x, g) - ws[top].x),
           y := ws[k].y + (SnapToGrid(ws[top].y, g) - ws[top].y))
  }

  /** Moves the chain from `top` as a whole so that its head lands on (x, y). */
  function MoveChainHeadTo(ws: Workspace, top: Id, x: int, y: int): (r: Workspace)
    requires Resolves(ws, top)
    ensures OnlyMoved(ws, r) && r[top].x == x && r[top].y == y
    ensures forall k :: 0 <= k < |ws| && k in ChainBlocks(ws, top) ==>
      r[k] == ws[k].(x := ws[k].x + (x - ws[top].x), y := ws[k].y + (y - ws[top].y))
    ensures forall k :: 0 <= k < |ws| && k !in ChainBlocks(ws, top) ==> r[k] == ws[k]
  {
    var chain := ChainBlocks(ws, top);
    assert chain[0] == top;
    MoveChain(ws, top, x - ws[top].x, y - ws[top].y)
  }

  /**
    Aligning a chain keeps the offsets between any two of its blocks: each
    moves by the head's snap offset.
  */
  lemma {:induction false} AlignChainKeepsOffsets(ws: Workspace, top: Id, g: int, a: Id, b: Id)
    requires g != 0 && a in ChainBlocks(ws, top) && b in ChainBlocks(ws, top)
    ensures var r := AlignChain(ws, top, g).1;
      r[a].x - r[b].x == ws[a].x - ws[b].x && r[a].y - r[b].y == ws[a].y - ws[b].y
    ensures Resolves(ws, top) && Resolves(ws, a) && AlignChain(ws, top, g).1[a] == MovedBySnap(ws, top, g, a)
  {
    var head := ws[top];
    MoveChainKeepsOffsets(ws, top, SnapToGrid(head.x, g) - head.x, SnapToGrid(head.y, g) - head.y, a, b);
  }

  /** Every top-level block with a smaller index than `n` has been processed. */
  predicate Covered(ws: Workspace, processed: set<Id>, n: int) {
    forall k :: 0 <= k < n && k < |ws| && ws[k].topLevel ==> k in processed
  }

  /**
    The per-chain step of alignAllBlocks: a chain of more than one block is
    aligned as a chain, a single block on its own. Either way the head ends on
    the grid, and the step reports a change exactly when the head was off it.
  */
  function AlignHead(ws: Workspace, top: Id, g: int): (r: (bool, Workspace))
    requires Resolves(ws, top) && g != 0
    ensures r.0 <==> ws[top].x % g != 0 || ws[top].y % g != 0
    ensures OnlyMoved(ws, r.1) && r.1[top].x % g == 0 && r.1[top].y % g == 0
    ensures r.1[top].x == SnapToGrid(ws[top].x, g) && r.1[top].y == SnapToGrid(ws[top].y, g)
    ensures forall k :: 0 <= k < |ws| && k in ChainBlocks(ws, top) ==> r.1[k] == MovedBySnap(ws, top, g, k)
    ensures forall k :: 0 <= k < |ws| && k !in ChainBlocks(ws, top) ==> r.1[k] == ws[k]
  {
    assert ChainBlocks(ws, top)[0] == top;
    if |ChainBlocks(ws, top)| > 1 then AlignChain(ws, top, g) else AlignBlock(ws, top, g)
  }

  /**
    alignAllBlocks: every top-level block, in document order, that no earlier
    chain has covered heads a chain that is aligned as a whole (or, on its
    own, as a single block). Returns how many chains moved and how many were
    processed.
  */
  method AlignAllBlocks(ws: Workspace, g: int) returns (r: Workspace, aligned: nat, total: nat, processed: set<Id>)
    requires g != 0
    ensures OnlyMoved(ws, r)
    ensures aligned <= total <= |ws|
    ensures Covered(ws, processed, |ws|)
    ensures forall k :: k in processed ==> 0 <= k < |ws|
  {
    r := ws;
    aligned := 0;
    total := 0;
    processed := {};
    var i := 0;
    while i < |ws|
      invariant 0 <= i <= |ws|
      invariant OnlyMoved(ws, r)
      invariant aligned <= total <= i
      invariant Covered(ws, processed, i)
      invariant forall k :: k in processed ==> 0 <= k < |ws|
    {
      if ws[i].topLevel && i !in processed {
        var chain := ChainBlocks(r, i);
        processed := processed + Members(chain);
        var step := AlignHead(r, i, g);
        OnlyMovedTrans(ws, r, step.1);
        r := step.1;
        if step.0 {
          aligned := aligned + 1;
        }
        total := total + 1;
      }
      i := i + 1;
    }
  }
}

=== FILE: block_chain.dfy ===
/**
  Chain walking and link surgery (src/blocks/BlockChain.js). A chain is the
  sequence of blocks reached from a block by following `next`; the head of a
  chain is reached by following `parent`. A walk ends at an empty or dangling
  link. The program would loop forever on a cyclic link; here a walk that
  comes back to a block it has already visited ends there instead, which
  changes nothing on acyclic data.
*/
module BlockChain {
  import opened Model

  datatype Dir = Down | Up

  /** The ids of the arena's blocks. */
  function Ids(ws: Workspace): (r: set<Id>)
    ensures forall k :: k in r <==> 0 <= k < |ws|
  {
    Range(|ws|)
  }

  function Range(n: nat): (r: set<Id>)
    ensures forall k :: k in r <==> 0 <= k < n
  {
    if n == 0 then {} else Range(n - 1) + {n - 1}
  }

  /** The link a walk in direction `d` follows. */
  function Link(b: Block, d: Dir): Id {
    if d == Down then b.next else b.parent
  }

  /** Each block of `p` links in direction `d` to the one after it. */
  ghost predicate Linked(ws: Workspace, d: Dir, p: seq<Id>)
    decreases |p|
  {
    |p| <= 1 || (Resolves(ws, p[0]) && Link(ws[p[0]], d) == p[1] && Linked(ws, d, p[1..]))
  }

  /** A path of distinct arena blocks, each linked in direction `d` to the one after it. */
  ghost predicate LinkedPath(ws: Workspace, d: Dir, p: seq<Id>) {
    && (forall i :: 0 <= i < |p| ==> 0 <= p[i] < |ws|)
    && Distinct(p)
    && Linked(ws, d, p)
  }

  /** `p` is the complete walk from `s`: a linked path that cannot be extended. */
  ghost predicate IsWalkFrom(ws: Workspace, d: Dir, s: Id, p: seq<Id>) {
    && |p| >= 1 && p[0] == s
    && LinkedPath(ws, d, p)
    && var l := Link(ws[p[|p| - 1]], d); !Resolves(ws, l) || l in p
  }

  /** Position `i` of `p` is a block linked in direction `d` to position `i + 1`. */
  ghost predicate StepAt(ws: Workspace, d: Dir, p: seq<Id>, i: nat)
    requires i + 1 < |p|
  {
    0 <= p[i] < |ws| && Link(ws[p[i]], d) == p[i + 1]
  }

  /** The link relation read at one position of a linked path. */
  lemma {:induction false} LinkedAt(ws: Workspace, d: Dir, p: seq<Id>, i: nat)
    requires Linked(ws, d, p) && i + 1 < |p|
    ensures StepAt(ws, d, p, i)
  {
    if i > 0 {
      LinkedAt(ws, d, p[1..], i - 1);
    }
  }

  /** A path linked at every position is linked. */
  lemma {:induction false} LinkedFromSteps(ws: Workspace, d: Dir, p: seq<Id>)
    requires forall i :: 0 <= i < |p| - 1 ==> StepAt(ws, d, p, i)
    ensures Linked(ws, d, p)
    decreases |p|
  {
    if |p| > 1 {
      var q := p[1..];
      forall i | 0 <= i < |q| - 1
        ensures StepAt(ws, d, q, i)
      {
        assert StepAt(ws, d, p, i + 1);
      }
      LinkedFromSteps(ws, d, q);
      assert StepAt(ws, d, p, 0);
    }
  }

  /** Every suffix of a linked path is linked. */
  lemma {:induction false} LinkedSuffix(ws: Workspace, d: Dir, p: seq<Id>, i: nat)
    requires Linked(ws, d, p) && i <= |p|
    ensures Linked(ws, d, p[i..])
  {
    if i > 0 && |p| > 1 {
      LinkedSuffix(ws, d, p[1..], i - 1);
      assert p[1..][i - 1..] == p[i..];
    }
  }

  /** A linked path stays linked in an arena that keeps the links read along it. */
  lemma {:induction false} LinkedAgree(ws: Workspace, ws': Workspace, d: Dir, p: seq<Id>)
    requires Linked(ws, d, p) && forall i :: 0 <= i < |p| ==> 0 <= p[i] < |ws|
    requires forall i :: 0 <= i < |p| - 1 ==> 0 <= p[i] < |ws'| && Link(ws'[p[i]], d) == Link(ws[p[i]], d)
    ensures Linked(ws', d, p)
    decreases |p|
  {
    if |p| > 1 {
      var q := p[1..];
      assert forall i :: 0 <= i < |q| ==> q[i] == p[i + 1];
      LinkedAgree(ws, ws', d, q);
    }
  }

  /** Two linked paths joined by a link form a linked path. */
  lemma {:induction false} LinkedAppend(ws: Workspace, d: Dir, a: seq<Id>, b: seq<Id>)
    requires Linked(ws, d, a) && Linked(ws, d, b) && |a| >= 1 && |b| >= 1
    requires Resolves(ws, a[|a| - 1]) && Link(ws[a[|a| - 1]], d) == b[0]
    ensures Linked(ws, d, a + b)
    decreases |a|
  {
    if |a| == 1 {
      assert (a + b)[1..] == b;
    } else {
      LinkedAppend(ws, d, a[1..], b);
      assert (a + b)[1..] == a[1..] + b;
    }
  }

  function Walk(ws: Workspace, d: Dir, cur: Id, seen: set<Id>): (r: seq<Id>)
    requires Resolves(ws, cur) && cur !in seen
    ensures |r| >= 1 && r[0] == cur
    ensures forall i :: 0 <= i < |r| ==> 0 <= r[i] < |ws| && r[i] !in seen
    ensures Distinct(r) && Linked(ws, d, r)
    ensures var l := Link(ws[r[|r| - 1]], d); !Resolves(ws, l) || l in seen || l in r
    decreases Ids(ws) - seen
  {
    var l := Link(ws[cur], d);
    if Resolves(ws, l) && l != cur && l !in seen then
      var rest := Walk(ws, d, l, seen + {cur});
      var r := [cur] + rest;
      assert r[1..] == rest;
      assert r[|r| - 1] == rest[|rest| - 1];
      assert forall x :: x in rest ==> x in r;
      assert Linked(ws, d, r);
      r
    else [cur]
  }

  /** One step of a walk: a fresh resolving link is followed. */
  lemma {:induction false} WalkStep(ws: Workspace, d: Dir, cur: Id, seen: set<Id>)
    requires Resolves(ws, cur) && cur !in seen
    requires var l := Link(ws[cur], d); Resolves(ws, l) && l != cur && l !in seen
    ensures Walk(ws, d, cur, seen) == [cur] + Walk(ws, d, Link(ws[cur], d), seen + {cur})
  {
  }

  /** getChainBlocks: the blocks from `start` down to the end of its chain; empty when `start` is not a block. */
  function ChainBlocks(ws: Workspace, start: Id): (r: seq<Id>)
    ensures !Resolves(ws, start) <==> r == []
    ensures Resolves(ws, start) ==> IsWalkFrom(ws, Down, start, r)
  {
    if Resolves(ws, start) then Walk(ws, Down, start, {}) else []
  }

  /** The path from `b` up through `parent` links to the head of its chain. */
  function UpPath(ws: Workspace, b: Id): (r: seq<Id>)
    requires Resolves(ws, b)
    ensures IsWalkFrom(ws, Up, b, r)
  {
    Walk(ws, Up, b, {})
  }

  /** getTopLevelBlock: follows `parent` while it names a block. */
  function TopLevelBlock(ws: Workspace, b: Id): (r: Option<Id>)
    ensures !Resolves(ws, b) <==> r.None?
    ensures r.Some? ==> Resolves(ws, r.value)
    ensures r.Some? ==> var p := ws[r.value].parent; !Resolves(ws, p) || p in UpPath(ws, b)
  {
    if Resolves(ws, b) then
      var path := UpPath(ws, b);
      Some(path[|path| - 1])
    else None
  }

  /** A walk is determined by its start: every complete walk equals the computed one. */
  lemma {:induction false} WalkUnique(ws: Workspace, d: Dir, cur: Id, seen: set<Id>, p: seq<Id>)
    requires Resolves(ws, cur) && cur !in seen
    requires |p| >= 1 && p[0] == cur && LinkedPath(ws, d, p)
    requires forall i :: 0 <= i < |p| ==> p[i] !in seen
    requires var l := Link(ws[p[|p| - 1]], d); !Resolves(ws, l) || l in seen || l in p
    ensures p == Walk(ws, d, cur, seen)
    decreases Ids(ws) - seen
  {
    var l := Link(ws[cur], d);
    if |p| == 1 {
      assert !Resolves(ws, l) || l in seen || l == cur;
    } else {
      var q := p[1..];
      assert l == q[0] && cur !in q;
      assert forall i :: 0 <= i < |q| ==> q[i] == p[i + 1];
      assert q[|q| - 1] == p[|p| - 1];
      var lq := Link(ws[q[|q| - 1]], d);
      assert lq in p ==> lq == cur || lq in q;
      WalkUnique(ws, d, l, seen + {cur}, q);
      assert p == [cur] + q;
    }
  }

  /**
    The top-level block is where any complete upward walk from `b` ends:
    the last block before `parent` leaves the arena or returns to the walk.
  */
  lemma {:induction false} TopLevelIsWalkEnd(ws: Workspace, b: Id, p: seq<Id>)
    requires Resolves(ws, b) && IsWalkFrom(ws, Up, b, p)
    ensures TopLevelBlock(ws, b) == Some(p[|p| - 1])
  {
    UpPathIsWalk(ws, b, p);
  }

  /** Every complete upward walk from `b` is the computed one. */
  lemma {:induction false} UpPathIsWalk(ws: Workspace, b: Id, p: seq<Id>)
    requires Resolves(ws, b) && IsWalkFrom(ws, Up, b, p)
    ensures UpPath(ws, b) == p
  {
    WalkUnique(ws, Up, b, {}, p);
  }

  lemma {:induction false} ChainUnique(ws: Workspace, s: Id, p: seq<Id>)
    requires Resolves(ws, s) && IsWalkFrom(ws, Down, s, p)
    ensures p == ChainBlocks(ws, s)
  {
    WalkUnique(ws, Down, s, {}, p);
  }

  /** A linked path stays linked in an arena with the same links. */
  lemma {:induction false} LinkedSameLinks(ws: Workspace, ws': Workspace, d: Dir, p: seq<Id>)
    requires SameLinks(ws, ws') && Linked(ws, d, p)
    ensures Linked(ws', d, p)
    decreases |p|
  {
    if |p| > 1 {
      var k := p[0];
      assert Resolves(ws, k);
      assert ws'[k].next == ws[k].next && ws'[k].parent == ws[k].parent;
      LinkedSameLinks(ws, ws', d, p[1..]);
    }
  }

  /** A walk reads only the links of the arena, so moving blocks or changing flags does not change it. */
  lemma {:induction false} WalkSameLinks(ws: Workspace, ws': Workspace, d: Dir, s: Id)
    requires SameLinks(ws, ws') && Resolves(ws, s)
    ensures Walk(ws', d, s, {}) == Walk(ws, d, s, {})
  {
    var p := Walk(ws, d, s, {});
    LinkedSameLinks(ws, ws', d, p);
    var last := p[|p| - 1];
    assert Resolves(ws, last);
    assert ws'[last].next == ws[last].next && ws'[last].parent == ws[last].parent;
    WalkUnique(ws', d, s, {}, p);
  }

  lemma {:induction false} ChainSameLinks(ws: Workspace, ws': Workspace, s: Id)
    requires SameLinks(ws, ws')
    ensures ChainBlocks(ws', s) == ChainBlocks(ws, s)
  {
    if Resolves(ws, s) {
      WalkSameLinks(ws, ws', Down, s);
    }
  }

  /** The tail of a linked path is a linked path that the head links to and does not occur in. */
  lemma {:induction false} LinkedPathTail(ws: Workspace, d: Dir, p: seq<Id>)
    requires |p| > 1 && LinkedPath(ws, d, p)
    ensures LinkedPath(ws, d, p[1..]) && p[0] !in p[1..]
    ensures Resolves(ws, p[0]) && Link(ws[p[0]], d) == p[1]
  {
    var q := p[1..];
    assert forall i :: 0 <= i < |q| ==> q[i] == p[i + 1];
  }

  /** Any linked path from a block is a prefix of the walk from that block. */
  lemma {:induction false} PathPrefixOfWalk(ws: Workspace, d: Dir, p: seq<Id>, seen: set<Id>)
    requires |p| >= 1 && LinkedPath(ws, d, p)
    requires forall i :: 0 <= i < |p| ==> p[i] !in seen
    ensures var w := Walk(ws, d, p[0], seen); |w| >= |p| && w[..|p|] == p
    decreases |p|
  {
    if |p| > 1 {
      var q := p[1..];
      LinkedPathTail(ws, d, p);
      assert forall i :: 0 <= i < |q| ==> q[i] == p[i + 1];
      WalkStep(ws, d, p[0], seen);
      PathPrefixOfWalk(ws, d, q, seen + {p[0]});
      var w' := Walk(ws, d, q[0], seen + {p[0]});
      var w := [p[0]] + w';
      assert w[..|p|] == [p[0]] + w'[..|q|];
    }
  }

  lemma {:induction false} PathPrefixOfChain(ws: Workspace, p: seq<Id>)
    requires |p| >= 1 && LinkedPath(ws, Down, p)
    ensures var c := ChainBlocks(ws, p[0]); |c| >= |p| && c[..|p|] == p
  {
    PathPrefixOfWalk(ws, Down, p, {});
  }

  /** The walk from any member of a chain continues along the rest of that chain. */
  lemma {:induction false} ChainSuffix(ws: Workspace, s: Id, i: nat)
    requires Resolves(ws, s) && i < |ChainBlocks(ws, s)|
    ensures var c := ChainBlocks(ws, s); var c' := ChainBlocks(ws, c[i]);
      |c'| >= |c| - i && c'[..|c| - i] == c[i..]
  {
    var c := ChainBlocks(ws, s);
    var q := c[i..];
    LinkedPathSuffix(ws, Down, c, i);
    PathPrefixOfChain(ws, q);
    assert q[0] == c[i] && |q| == |c| - i;
  }

  /** Every non-empty suffix of a linked path is a linked path. */
  lemma {:induction false} LinkedPathSuffix(ws: Workspace, d: Dir, p: seq<Id>, i: nat)
    requires LinkedPath(ws, d, p) && i < |p|
    ensures LinkedPath(ws, d, p[i..]) && p[i..][0] == p[i]
  {
    var q := p[i..];
    DistinctSuffix(p, i);
    LinkedSuffix(ws, d, p, i);
    assert forall j :: 0 <= j < |q| ==> q[j] == p[i + j];
  }

  /** The walk down from a block is the same in an arena with the same `next` links. */
  lemma {:induction false} ChainSameNext(ws: Workspace, ws': Workspace, s: Id)
    requires |ws'| == |ws| && forall k :: 0 <= k < |ws| ==> ws'[k].next == ws[k].next
    ensures ChainBlocks(ws', s) == ChainBlocks(ws, s)
  {
    if Resolves(ws, s) {
      var p := ChainBlocks(ws, s);
      forall i | 0 <= i < |p| - 1
        ensures 0 <= p[i] < |ws'| && Link(ws'[p[i]], Down) == Link(ws[p[i]], Down)
      {
        var k := p[i];
        assert Resolves(ws, k);
      }
      LinkedAgree(ws, ws', Down, p);
      var last := p[|p| - 1];
      assert Resolves(ws, last) && ws'[last].next == ws[last].next;
      WalkUnique(ws', Down, s, {}, p);
    }
  }

  /** Moving blocks does not change the chain from a block. */
  lemma {:induction false} ChainOnlyMoved(ws: Workspace, w: Workspace, s: Id)
    requires OnlyMoved(ws, w)
    ensures ChainBlocks(w, s) == ChainBlocks(ws, s)
  {
    ChainSameNext(ws, w, s);
  }

  /**
    Splicing: when the last block of the complete walk `a` is relinked to the
    head of a disjoint complete walk `b`, and no other `next` link changes, the
    walk from `a`'s head is `a` followed by `b`.
  */
  lemma {:induction false} ChainSplice(ws: Workspace, ws': Workspace, a: seq<Id>, b: seq<Id>)
    requires |a| >= 1 && |b| >= 1
    requires IsWalkFrom(ws, Down, a[0], a) && IsWalkFrom(ws, Down, b[0], b)
    requires forall i :: 0 <= i < |a| ==> a[i] !in b
    requires |ws'| == |ws|
    requires forall k :: 0 <= k < |ws| && k != a[|a| - 1] ==> ws'[k].next == ws[k].next
    requires ws'[a[|a| - 1]].next == b[0]
    ensures ChainBlocks(ws', a[0]) == a + b
  {
    var al := a[|a| - 1];
    var bl := b[|b| - 1];
    assert al !in b;
    forall i | 0 <= i < |a| - 1
      ensures 0 <= a[i] < |ws'| && Link(ws'[a[i]], Down) == Link(ws[a[i]], Down)
    {
      DistinctAt(a, i, |a| - 1);
    }
    LinkedAgree(ws, ws', Down, a);
    forall i | 0 <= i < |b| - 1
      ensures 0 <= b[i] < |ws'| && Link(ws'[b[i]], Down) == Link(ws[b[i]], Down)
    {
      assert b[i] != al;
    }
    LinkedAgree(ws, ws', Down, b);
    LinkedAppend(ws', Down, a, b);
    DistinctAppend(a, b);
    var p := a + b;
    assert forall i :: 0 <= i < |p| ==> 0 <= p[i] < |ws'| by {
      forall i | 0 <= i < |p|
        ensures 0 <= p[i] < |ws'|
      {
        if i < |a| {
          assert p[i] == a[i];
        } else {
          assert p[i] == b[i - |a|];
        }
      }
    }
    assert bl != al;
    assert p[|p| - 1] == bl;
    assert ws'[bl].next == ws[bl].next;
    assert forall x :: x in b ==> x in p;
    ChainUnique(ws', a[0], p);
  }

  /** Every prefix of a linked path is linked. */
  lemma {:induction false} LinkedPrefix(ws: Workspace, d: Dir, p: seq<Id>, i: nat)
    requires Linked(ws, d, p) && i <= |p|
    ensures Linked(ws, d, p[..i])
    decreases |p|
  {
    if i > 1 {
      LinkedPrefix(ws, d, p[1..], i - 1);
      assert p[..i][1..] == p[1..][..i - 1];
    }
  }

  /** Every non-empty prefix of a linked path of distinct blocks is one too. */
  lemma {:induction false} LinkedPathPrefix(ws: Workspace, d: Dir, p: seq<Id>, i: nat)
    requires LinkedPath(ws, d, p) && 1 <= i <= |p|
    ensures LinkedPath(ws, d, p[..i]) && p[..i][0] == p[0] && p[..i][i - 1] == p[i - 1]
  {
    LinkedPrefix(ws, d, p, i);
    DistinctPrefix(p, i);
  }

  /** A complete walk stays the walk from its head in an arena that keeps the `next` links of its blocks. */
  lemma {:induction false} WalkKept(ws: Workspace, w: Workspace, p: seq<Id>)
    requires |p| >= 1 && IsWalkFrom(ws, Down, p[0], p)
    requires |w| == |ws| && forall j :: 0 <= j < |p| ==> w[p[j]].next == ws[p[j]].next
    ensures ChainBlocks(w, p[0]) == p
  {
    forall j | 0 <= j < |p| - 1
      ensures 0 <= p[j] < |w| && Link(w[p[j]], Down) == Link(ws[p[j]], Down)
    {
    }
    LinkedAgree(ws, w, Down, p);
    ChainUnique(w, p[0], p);
  }

  /**
    Cutting a complete walk: when the `next` link of block `i - 1` of the walk
    `a` no longer names a block, and no other link along `a` changes, the walk
    from `a`'s head stops after `i` blocks.
  */
  lemma {:induction false} ChainCut(ws: Workspace, w: Workspace, a: seq<Id>, i: nat)
    requires 1 <= i <= |a| && IsWalkFrom(ws, Down, a[0], a)
    requires |w| == |ws| && forall j :: 0 <= j < i - 1 ==> w[a[j]].next == ws[a[j]].next
    requires !Resolves(w, w[a[i - 1]].next)
    ensures ChainBlocks(w, a[0]) == a[..i]
  {
    var p := a[..i];
    LinkedPathPrefix(ws, Down, a, i);
    forall j | 0 <= j < |p| - 1
      ensures 0 <= p[j] < |w| && Link(w[p[j]], Down) == Link(ws[p[j]], Down)
    {
      assert p[j] == a[j];
    }
    LinkedAgree(ws, w, Down, p);
    ChainUnique(w, a[0], p);
  }

  /** The last block of the chain `p` has no `next` block: the chain ends rather than loops. */
  ghost predicate ChainEnds(ws: Workspace, p: seq<Id>) {
    |p| >= 1 && 0 <= p[|p| - 1] < |ws| && !Resolves(ws, ws[p[|p| - 1]].next)
  }

  /** The walk from block `i` of a complete walk `p` covers the rest of `p`. */
  lemma {:induction false} RestOfWalk(ws: Workspace, p: seq<Id>, i: nat)
    requires |p| >= 1 && IsWalkFrom(ws, Down, p[0], p) && i < |p|
    ensures |ChainBlocks(ws, p[i])| >= |p| - i
  {
    ChainUnique(ws, p[0], p);
    ChainSuffix(ws, p[0], i);
  }

  /** The walk from block `i` of a complete walk that ends is the rest of the walk. */
  lemma {:induction false} RestOfEndedWalk(ws: Workspace, p: seq<Id>, i: nat)
    requires |p| >= 1 && IsWalkFrom(ws, Down, p[0], p) && ChainEnds(ws, p) && i < |p|
    ensures ChainBlocks(ws, p[i]) == p[i..]
  {
    LinkedPathSuffix(ws, Down, p, i);
    var q := p[i..];
    assert q[|q| - 1] == p[|p| - 1];
    ChainUnique(ws, p[i], q);
  }

  /** moveChain: translates every block of the chain from `top` by (dx, dy). */
  function MoveChain(ws: Workspace, top: Id, dx: int, dy: int): (r: Workspace)
    ensures OnlyMoved(ws, r)
    ensures forall k :: 0 <= k < |ws| && k in ChainBlocks(ws, top) ==>
      r[k] == ws[k].(x := ws[k].x + dx, y := ws[k].y + dy)
    ensures forall k :: 0 <= k < |ws| && k !in ChainBlocks(ws, top) ==> r[k] == ws[k]
  {
    Shift(ws, (set k | k in ChainBlocks(ws, top)), dx, dy)
  }

  /** Moving a chain keeps the offsets between its blocks. */
  lemma {:induction false} MoveChainKeepsOffsets(ws: Workspace, top: Id, dx: int, dy: int, a: Id, b: Id)
    requires a in ChainBlocks(ws, top) && b in ChainBlocks(ws, top)
    ensures var r := MoveChain(ws, top, dx, dy);
      r[a].x - r[b].x == ws[a].x - ws[b].x && r[a].y - r[b].y == ws[a].y - ws[b].y
  {
    assert ChainBlocks(ws, top) != [];
  }

  /** breakChain: detaches `lower` from `upper`; a no-op unless both are blocks. */
  function BreakChain(ws: Workspace, upper: Id, lower: Id): (r: Workspace)
    ensures !Resolves(ws, upper) || !Resolves(ws, lower) ==> r == ws
    ensures Resolves(ws, upper) && Resolves(ws, lower) ==>
      && |r| == |ws|
      && r[upper].next == NoId && !r[upper].bottomConnected
      && r[lower].parent == NoId && !r[lower].topConnected && r[lower].topLevel
      && (upper != lower ==>
            && r[upper] == ws[upper].(next := NoId, bottomConnected := false)
            && r[lower] == ws[lower].(parent := NoId, topConnected := false, topLevel := true))
      && forall k :: 0 <= k < |ws| && k != upper && k != lower ==> r[k] == ws[k]
  {
    if !Resolves(ws, upper) || !Resolves(ws, lower) then ws
    else
      var w := ws[upper := ws[upper].(next := NoId, bottomConnected := false)];
      w[lower := w[lower].(parent := NoId, topConnected := false, topLevel := true)]
  }

  /** connectChains: links `upper` to `lower` in both directions; a no-op unless both are blocks. */
  function ConnectChains(ws: Workspace, upper: Id, lower: Id): (r: Workspace)
    ensures !Resolves(ws, upper) || !Resolves(ws, lower) ==> r == ws
    ensures Resolves(ws, upper) && Resolves(ws, lower) ==>
      && |r| == |ws|
      && r[upper].next == lower && r[upper].bottomConnected
      && r[lower].parent == upper && r[lower].topConnected && !r[lower].topLevel
      && (upper != lower ==>
            && r[upper] == ws[upper].(next := lower, bottomConnected := true)
            && r[lower] == ws[lower].(parent := upper, topConnected := true, topLevel := false))
      && forall k :: 0 <= k < |ws| && k != upper && k != lower ==> r[k] == ws[k]
  {
    if !Resolves(ws, upper) || !Resolves(ws, lower) then ws
    else
      var w := ws[upper := ws[upper].(next := lower, bottomConnected := true)];
      w[lower := w[lower].(parent := upper, topConnected := true, topLevel := false)]
  }

  /** Two distinct blocks correctly joined by a `next`/`parent` pair. */
  ghost predicate Joined(ws: Workspace, upper: Id, lower: Id) {
    && Resolves(ws, upper) && Resolves(ws, lower) && upper != lower
    && ws[upper].next == lower && ws[upper].bottomConnected
    && ws[lower].parent == upper && ws[lower].topConnected && !ws[lower].topLevel
  }

  /** Breaking a joined pair and connecting it again gives back the arena exactly. */
  lemma {:induction false} BreakThenConnect(ws: Workspace, upper: Id, lower: Id)
    requires Joined(ws, upper, lower)
    ensures ConnectChains(BreakChain(ws, upper, lower), upper, lower) == ws
  {
    var r := ConnectChains(BreakChain(ws, upper, lower), upper, lower);
    assert r[upper] == ws[upper];
    assert r[lower] == ws[lower];
  }

  /** Connecting leaves the pair joined, whatever their links were before. */
  lemma {:induction false} ConnectJoins(ws: Workspace, upper: Id, lower: Id)
    requires Resolves(ws, upper) && Resolves(ws, lower) && upper != lower
    ensures Joined(ConnectChains(ws, upper, lower), upper, lower)
  {
  }

  /**
    insertBlockBetween: splices the chain from `ins` between `upper` and `lower`.
    The writes are made in the program's order, so aliasing arguments behave as there.
  */
  function InsertBlockBetween(ws: Workspace, upper: Id, ins: Id, lower: Id): (r: Workspace)
    ensures !Resolves(ws, upper) || !Resolves(ws, ins) || !Resolves(ws, lower) ==> r == ws
    ensures Resolves(ws, upper) && Resolves(ws, ins) && Resolves(ws, lower) ==> |r| == |ws|
  {
    if !Resolves(ws, upper) || !Resolves(ws, ins) || !Resolves(ws, lower) then ws
    else Splice(ws, upper, ins, ChainTail(ws, ins), lower)
  }

  /** The last block of the chain from `b`. */
  function ChainTail(ws: Workspace, b: Id): (r: Id)
    requires Resolves(ws, b)
    ensures var chain := ChainBlocks(ws, b); r == chain[|chain| - 1] && Resolves(ws, r)
  {
    var chain := ChainBlocks(ws, b);
    chain[|chain| - 1]
  }

  /** The five link writes of insertBlockBetween, in the program's order. */
  function Splice(ws: Workspace, upper: Id, ins: Id, tail: Id, lower: Id): (r: Workspace)
    requires Resolves(ws, upper) && Resolves(ws, ins) && Resolves(ws, tail) && Resolves(ws, lower)
    ensures |r| == |ws|
  {
    seq(|ws|, k requires 0 <= k < |ws| => SpliceBlock(ws[k], k, upper, ins, tail, lower))
  }

  /** The writes of the splice to block `k`, in the program's order. */
  function SpliceBlock(b: Block, k: Id, upper: Id, ins: Id, tail: Id, lower: Id): Block {
    var b1 := if k == upper then b.(next := ins) else b;
    var b2 := if k == lower then b1.(parent := tail) else b1;
    var b3 := if k == ins then b2.(parent := upper, topConnected := true, topLevel := false) else b2;
    var b4 := if k == tail then b3.(next := lower, bottomConnected := true) else b3;
    if k == lower then b4.(topConnected := true) else b4
  }

  /**
    When `upper` and `lower` are distinct and outside the inserted chain, the
    splice rewrites exactly four blocks: `upper` now points at `ins`, `ins`
    hangs below `upper`, the chain's tail points at `lower`, and `lower` hangs
    below the tail. Every other block, including the inner blocks of the
    inserted chain, is left as it was.
  */
  lemma {:induction false} InsertBetweenLinks(ws: Workspace, upper: Id, ins: Id, lower: Id)
    requires Resolves(ws, upper) && Resolves(ws, ins) && Resolves(ws, lower)
    requires upper != lower && upper !in ChainBlocks(ws, ins) && lower !in ChainBlocks(ws, ins)
    ensures var chain := ChainBlocks(ws, ins); var tail := chain[|chain| - 1];
      var r := InsertBlockBetween(ws, upper, ins, lower);
      && |r| == |ws|
      && r[upper] == ws[upper].(next := ins)
      && r[lower] == ws[lower].(parent := tail, topConnected := true)
      && (ins != tail ==>
            && r[ins] == ws[ins].(parent := upper, topConnected := true, topLevel := false)
            && r[tail] == ws[tail].(next := lower, bottomConnected := true))
      && (ins == tail ==>
            r[ins] == ws[ins].(parent := upper, topConnected := true, topLevel := false,
                               next := lower, bottomConnected := true))
      && (forall k :: 0 <= k < |ws| && k != upper && k != lower && k != ins && k != tail ==> r[k] == ws[k])
  {
    var chain := ChainBlocks(ws, ins);
    var tail := ChainTail(ws, ins);
    assert chain[0] == ins && tail in chain;
    SpliceLinks(ws, upper, ins, tail, lower);
  }

  /** The five writes of a splice on pairwise distinct end blocks, block by block. */
  lemma {:induction false} SpliceLinks(ws: Workspace, upper: Id, ins: Id, tail: Id, lower: Id)
    requires Resolves(ws, upper) && Resolves(ws, ins) && Resolves(ws, tail) && Resolves(ws, lower)
    requires upper != lower && upper != ins && upper != tail && lower != ins && lower != tail
    ensures var r := Splice(ws, upper, ins, tail, lower);
      && r[upper] == ws[upper].(next := ins)
      && r[lower] == ws[lower].(parent := tail, topConnected := true)
      && (ins != tail ==>
            && r[ins] == ws[ins].(parent := upper, topConnected := true, topLevel := false)
            && r[tail] == ws[tail].(next := lower, bottomConnected := true))
      && (ins == tail ==>
            r[ins] == ws[ins].(parent := upper, topConnected := true, topLevel := false,
                               next := lower, bottomConnected := true))
      && (forall k :: 0 <= k < |ws| && k != upper && k != lower && k != ins && k != tail ==> r[k] == ws[k])
  {
  }

  /** In `r` the chain from `upper` starts with `upper`, runs through `chain` and goes on into `lower`. */
  ghost predicate Threaded(r: Workspace, upper: Id, chain: seq<Id>, lower: Id) {
    var c := ChainBlocks(r, upper);
    |c| >= |chain| + 2 && c[..|chain| + 2] == [upper] + (chain + [lower])
  }

  /** After the splice the chain from `upper` runs through the inserted chain into `lower`. */
  lemma {:induction false} InsertBetweenChain(ws: Workspace, upper: Id, ins: Id, lower: Id)
    requires Resolves(ws, upper) && Resolves(ws, ins) && Resolves(ws, lower)
    requires upper != lower && upper !in ChainBlocks(ws, ins) && lower !in ChainBlocks(ws, ins)
    ensures var chain := ChainBlocks(ws, ins);
      Threaded(InsertBlockBetween(ws, upper, ins, lower), upper, chain, lower)
  {
    var chain := ChainBlocks(ws, ins);
    var r := InsertBlockBetween(ws, upper, ins, lower);
    var p := [upper] + (chain + [lower]);
    InsertBetweenLinked(ws, upper, ins, lower);
    InsertBetweenDistinct(ws, upper, ins, lower);
    assert LinkedPath(r, Down, p);
    PathPrefixOfChain(r, p);
  }

  /** The spliced path is linked in the arena after the splice. */
  lemma {:induction false} InsertBetweenLinked(ws: Workspace, upper: Id, ins: Id, lower: Id)
    requires Resolves(ws, upper) && Resolves(ws, ins) && Resolves(ws, lower)
    requires upper != lower && upper !in ChainBlocks(ws, ins) && lower !in ChainBlocks(ws, ins)
    ensures Linked(InsertBlockBetween(ws, upper, ins, lower), Down, [upper] + (ChainBlocks(ws, ins) + [lower]))
  {
    var chain := ChainBlocks(ws, ins);
    assert chain[0] == ins;
    SpliceLinked(ws, upper, ChainTail(ws, ins), lower, chain);
  }

  /**
    Splicing a linked path of distinct blocks `p` between `upper` and `lower`
    (both outside it) links `upper`, the path and `lower` end to end.
  */
  lemma {:induction false} SpliceLinked(ws: Workspace, upper: Id, tail: Id, lower: Id, p: seq<Id>)
    requires Resolves(ws, upper) && Resolves(ws, lower) && upper != lower
    requires |p| >= 1 && tail == p[|p| - 1] && upper !in p && lower !in p
    requires LinkedPath(ws, Down, p)
    ensures Linked(Splice(ws, upper, p[0], tail, lower), Down, [upper] + (p + [lower]))
  {
    var r := Splice(ws, upper, p[0], tail, lower);
    InsertBetweenNext(ws, upper, p[0], tail, lower);
    forall i | 0 <= i < |p| - 1
      ensures 0 <= p[i] < |r| && Link(r[p[i]], Down) == Link(ws[p[i]], Down)
    {
      DistinctAt(p, i, |p| - 1);
    }
    LinkedAgree(ws, r, Down, p);
    SpliceEnds(ws, upper, p[0], tail, lower);
    LinkedBetween(r, Down, upper, p, lower);
  }

  /** After a splice `upper` links to `ins` and `tail` links to `lower`. */
  lemma {:induction false} SpliceEnds(ws: Workspace, upper: Id, ins: Id, tail: Id, lower: Id)
    requires Resolves(ws, upper) && Resolves(ws, ins) && Resolves(ws, tail) && Resolves(ws, lower)
    requires upper != tail && lower != tail
    ensures var r := Splice(ws, upper, ins, tail, lower);
      Link(r[upper], Down) == ins && Link(r[tail], Down) == lower
  {
  }

  /** A linked path with a block linking to its head and its last block linking on is linked end to end. */
  lemma {:induction false} LinkedBetween(ws: Workspace, d: Dir, upper: Id, p: seq<Id>, lower: Id)
    requires Linked(ws, d, p) && |p| >= 1
    requires Resolves(ws, upper) && Link(ws[upper], d) == p[0]
    requires Resolves(ws, p[|p| - 1]) && Link(ws[p[|p| - 1]], d) == lower
    ensures Linked(ws, d, [upper] + (p + [lower]))
  {
    LinkedAppend(ws, d, p, [lower]);
    LinkedAppend(ws, d, [upper], p + [lower]);
  }

  /** The splice writes `next` only on `upper` and on the inserted chain's tail. */
  lemma {:induction false} InsertBetweenNext(ws: Workspace, upper: Id, ins: Id, tail: Id, lower: Id)
    requires Resolves(ws, upper) && Resolves(ws, ins) && Resolves(ws, tail) && Resolves(ws, lower)
    ensures var r := Splice(ws, upper, ins, tail, lower);
      forall k :: 0 <= k < |ws| && k != upper && k != tail ==> r[k].next == ws[k].next
  {
  }

  /** The spliced path repeats no block and lies in the arena. */
  lemma {:induction false} InsertBetweenDistinct(ws: Workspace, upper: Id, ins: Id, lower: Id)
    requires Resolves(ws, upper) && Resolves(ws, ins) && Resolves(ws, lower)
    requires upper != lower && upper !in ChainBlocks(ws, ins) && lower !in ChainBlocks(ws, ins)
    ensures var p := [upper] + (ChainBlocks(ws, ins) + [lower]);
      Distinct(p) && forall i :: 0 <= i < |p| ==> 0 <= p[i] < |ws|
  {
    var chain := ChainBlocks(ws, ins);
    var q := chain + [lower];
    var p := [upper] + q;
    DistinctSnoc(chain, lower);
    assert p[1..] == q && upper !in q;
    forall i | 0 <= i < |p|
      ensures 0 <= p[i] < |ws|
    {
      if 0 < i <= |chain| {
        assert p[i] == chain[i - 1];
      }
    }
  }

  /**
    getAllChainBlocks, which is not part of this model's sources, read as the
    comment at src/blocks/CBlock.js:540 describes it: the chain from `start`
    with the inner chain of every c-block expanded right after the c-block,
    depth first. Computed with a work list; each block is listed once.
  */
  function Expand(ws: Workspace, stack: seq<Id>, seen: set<Id>): (r: seq<Id>)
    ensures forall i :: 0 <= i < |r| ==> 0 <= r[i] < |ws| && r[i] !in seen
    ensures Distinct(r)
    decreases Ids(ws) - seen, |stack|
  {
    if stack == [] then []
    else
      var cur := stack[0];
      if !Resolves(ws, cur) || cur in seen then Expand(ws, stack[1..], seen)
      else
        var rest := Expand(ws, Children(ws, cur) + stack[1..], seen + {cur});
        assert ([cur] + rest)[1..] == rest;
        [cur] + rest
  }

  /** The blocks expanded right after `cur`: its inner chain head (c-blocks only), then its `next`. */
  function Children(ws: Workspace, cur: Id): seq<Id>
    requires Resolves(ws, cur)
  {
    var b := ws[cur];
    (if b.kind == CBlock && Resolves(ws, b.substack) then [b.substack] else [])
    + (if Resolves(ws, b.next) then [b.next] else [])
  }

  function AllChainBlocks(ws: Workspace, start: Id): (r: seq<Id>)
    ensures Distinct(r)
    ensures forall i :: 0 <= i < |r| ==> 0 <= r[i] < |ws|
  {
    Expand(ws, [start], {})
  }

  /** Every block the work list reaches is expanded: its children are listed too. */
  lemma {:induction false} ExpandClosed(ws: Workspace, stack: seq<Id>, seen: set<Id>)
    ensures var r := Expand(ws, stack, seen);
      && (forall i :: 0 <= i < |stack| && 0 <= stack[i] < |ws| ==> stack[i] in r || stack[i] in seen)
      && (forall x :: x in r ==> forall c :: c in Children(ws, x) ==> c in r || c in seen)
    decreases Ids(ws) - seen, |stack|
  {
    ExpandCovers(ws, stack, seen);
    if stack != [] {
      var cur := stack[0];
      if !Resolves(ws, cur) || cur in seen {
        ExpandClosed(ws, stack[1..], seen);
      } else {
        var rest := Children(ws, cur) + stack[1..];
        ExpandClosed(ws, rest, seen + {cur});
        ExpandCovers(ws, rest, seen + {cur});
        var r' := Expand(ws, rest, seen + {cur});
        assert Expand(ws, stack, seen) == [cur] + r';
        forall c | c in Children(ws, cur)
          ensures c in r' || c in seen + {cur}
        {
          var i :| 0 <= i < |Children(ws, cur)| && Children(ws, cur)[i] == c;
          assert rest[i] == c;
        }
      }
    }
  }

  /** Every arena block on the work list is expanded or was already seen. */
  lemma {:induction false} ExpandCovers(ws: Workspace, stack: seq<Id>, seen: set<Id>)
    ensures forall i :: 0 <= i < |stack| && 0 <= stack[i] < |ws| ==> stack[i] in Expand(ws, stack, seen) || stack[i] in seen
    decreases Ids(ws) - seen, |stack|
  {
    if stack != [] {
      var cur := stack[0];
      if !Resolves(ws, cur) || cur in seen {
        ExpandCovers(ws, stack[1..], seen);
        forall i | 0 < i < |stack| && 0 <= stack[i] < |ws|
          ensures stack[i] in Expand(ws, stack, seen) || stack[i] in seen
        {
          assert stack[i] == stack[1..][i - 1];
        }
      } else {
        var rest := Children(ws, cur) + stack[1..];
        ExpandCovers(ws, rest, seen + {cur});
        var r' := Expand(ws, rest, seen + {cur});
        assert Expand(ws, stack, seen) == [cur] + r';
        forall i | 0 < i < |stack| && 0 <= stack[i] < |ws|
          ensures stack[i] in r' || stack[i] in seen + {cur}
        {
          assert rest[|Children(ws, cur)| + i - 1] == stack[i];
        }
      }
    }
  }

  /** The expansion is closed under `next`: the block below a listed block is listed. */
  lemma {:induction false} NextInAllChainBlocks(ws: Workspace, start: Id, a: Id)
    requires a in AllChainBlocks(ws, start) && Resolves(ws, ws[a].next)
    ensures ws[a].next in AllChainBlocks(ws, start)
  {
    ExpandClosed(ws, [start], {});
    assert ws[a].next in Children(ws, a);
  }

  /** The expansion is closed under `substack` for c-blocks: the first inner block of a listed c-block is listed. */
  lemma {:induction false} InnerInAllChainBlocks(ws: Workspace, start: Id, a: Id)
    requires a in AllChainBlocks(ws, start) && ws[a].kind == CBlock && Resolves(ws, ws[a].substack)
    ensures ws[a].substack in AllChainBlocks(ws, start)
  {
    ExpandClosed(ws, [start], {});
    assert ws[a].substack in Children(ws, a);
  }

  /** The expansion from a block contains the whole plain chain from it. */
  lemma {:induction false} ChainInAllChainBlocks(ws: Workspace, start: Id)
    ensures forall k :: k in ChainBlocks(ws, start) ==> k in AllChainBlocks(ws, start)
  {
    var c := ChainBlocks(ws, start);
    var r := AllChainBlocks(ws, start);
    if Resolves(ws, start) {
      var i := 0;
      while i < |c|
        invariant 0 <= i <= |c|
        invariant forall j :: 0 <= j < i ==> c[j] in r
      {
        if i > 0 {
          LinkedAt(ws, Down, c, i - 1);
          NextInAllChainBlocks(ws, start, c[i - 1]);
        }
        i := i + 1;
      }
    }
  }

  /** The expansion reads only links and types, so it is the same in an arena with the same links. */
  lemma {:induction false} ExpandSameLinks(ws: Workspace, ws': Workspace, stack: seq<Id>, seen: set<Id>)
    requires SameLinks(ws, ws')
    ensures Expand(ws', stack, seen) == Expand(ws, stack, seen)
    decreases Ids(ws) - seen, |stack|
  {
    if stack != [] {
      var cur := stack[0];
      if !Resolves(ws, cur) || cur in seen {
        ExpandSameLinks(ws, ws', stack[1..], seen);
      } else {
        assert Children(ws', cur) == Children(ws, cur);
        ExpandSameLinks(ws, ws', Children(ws, cur) + stack[1..], seen + {cur});
      }
    }
  }

  lemma {:induction false} AllChainSameLinks(ws: Workspace, ws': Workspace, start: Id)
    requires SameLinks(ws, ws')
    ensures AllChainBlocks(ws', start) == AllChainBlocks(ws, start)
  {
    ExpandSameLinks(ws, ws', [start], {});
  }
}

=== FILE: cblock.dfy ===
/**
  Container ("c-block") bookkeeping (src/blocks/CBlock.js). A c-block holds an
  inner chain whose head is named by its `substack` link. Its stored height is
  kept equal to the form height plus the part of the inner chain's height that
  does not fit the empty inner space; whenever it changes, every block below
  the container moves by the same amount.
*/
module CBlocks {
  import opened Model
  import opened BlockChain

  /** Inner space an empty container already has room for (C_BLOCK_EMPTY_INNER_SPACE). */
  const EmptyInnerSpace: int := 24
  /** Height of a block whose form height and stored height are both missing or zero. */
  const FallbackHeight: int := 58
  /** Offset of the first inner block from the container's origin. */
  const InnerOffsetX: int := 16
  const InnerOffsetY: int := 48

  /** The form height of a c-block: its height with an empty inner chain. */
  function BaseHeight(env: Env): int {
    FormOf(env, CBlock).height
  }

  /** The height a block adds to its container: a nested container counts its stored height first. */
  function InnerBlockHeight(env: Env, b: Block): int {
    if b.kind == CBlock then StoredOr(b.height, Or(FormOf(env, CBlock).pathHeight, FallbackHeight))
    else Or(FormOf(env, b.kind).pathHeight, StoredOr(b.height, FallbackHeight))
  }

  /** The height used to stack blocks inside a container: the form's path height first, for every type. */
  function StackHeight(env: Env, b: Block): int {
    Or(FormOf(env, b.kind).pathHeight, StoredOr(b.height, FallbackHeight))
  }

  /** A container's inner chain: empty unless `c` is a c-block whose `substack` names a block. */
  function InnerBlocks(ws: Workspace, c: Id): (r: seq<Id>)
    ensures !IsCBlockId(ws, c) || !Resolves(ws, ws[c].substack) ==> r == []
    ensures IsCBlockId(ws, c) && Resolves(ws, ws[c].substack) ==> IsWalkFrom(ws, Down, ws[c].substack, r)
  {
    if IsCBlockId(ws, c) && Resolves(ws, ws[c].substack) then ChainBlocks(ws, ws[c].substack) else []
  }

  /** hasInnerBlocks: a c-block with a non-empty `substack` link (dangling or not). */
  predicate HasInnerBlocks(ws: Workspace, c: Id) {
    IsCBlockId(ws, c) && ws[c].substack != NoId
  }

  /** Sum of the inner blocks' heights. */
  function InnerHeight(env: Env, ws: Workspace, c: Id): (r: int)
    ensures InnerBlocks(ws, c) == [] ==> r == 0
  {
    SumOver(ws, InnerBlocks(ws, c), b => InnerBlockHeight(env, b))
  }

  /** The part of the inner height beyond the empty inner space, never negative. */
  function EffectiveInnerHeight(env: Env, ws: Workspace, c: Id): (r: int)
    ensures r >= 0 && r >= InnerHeight(env, ws, c) - EmptyInnerSpace
    ensures r == 0 || r == InnerHeight(env, ws, c) - EmptyInnerSpace
  {
    var h := InnerHeight(env, ws, c) - EmptyInnerSpace;
    if h > 0 then h else 0
  }

  /** The container's stored height (read as the program reads it) fits its inner chain. */
  predicate InSync(env: Env, ws: Workspace, c: Id)
    requires Resolves(ws, c)
  {
    StoredOr(ws[c].height, BaseHeight(env)) == BaseHeight(env) + EffectiveInnerHeight(env, ws, c)
  }

  /** Blocks other than `c` change at most their position; `c` at most its position and stored heights. */
  predicate MovedExcept(ws: Workspace, ws': Workspace, c: Id) {
    && OnlyGeometry(ws, ws')
    && forall k :: 0 <= k < |ws| && k != c ==> ws'[k] == ws[k].(x := ws'[k].x, y := ws'[k].y)
  }

  /** The blocks updateBlocksAfterCBlock moves: everything hanging below the container, if its `next` link resolves. */
  function BlocksAfter(ws: Workspace, c: Id): seq<Id>
    requires Resolves(ws, c)
  {
    if Resolves(ws, ws[c].next) then AllChainBlocks(ws, ws[c].next) else []
  }

  /**
    updateBlocksAfterCBlock: moves every block hanging below the container, with
    the inner chains of nested containers, down by `delta`. No-op without a
    `next` link, for a zero delta, or when the link dangles.
  */
  function UpdateBlocksAfter(ws: Workspace, c: Id, delta: int): (r: Workspace)
    requires Resolves(ws, c)
    ensures OnlyMoved(ws, r)
    ensures !Resolves(ws, ws[c].next) || delta == 0 ==> r == ws
    ensures Resolves(ws, ws[c].next) ==> forall k :: 0 <= k < |ws| ==>
      r[k] == (if k in AllChainBlocks(ws, ws[c].next) then ws[k].(y := ws[k].y + delta) else ws[k])
    ensures forall k :: 0 <= k < |ws| ==> r[k] == (if k in BlocksAfter(ws, c) then ws[k].(y := ws[k].y + delta) else ws[k])
  {
    var n := ws[c].next;
    if n == NoId then ws
    else if delta == 0 then ws
    else if !Resolves(ws, n) then ws
    else Shift(ws, Members(AllChainBlocks(ws, n)), 0, delta)
  }

  /**
    resizeCBlock, height bookkeeping only: a c-block grows by `delta`, its stored
    inner height too, and the blocks below it move down by `delta`.
  */
  function Resize(env: Env, ws: Workspace, c: Id, delta: int): (r: Workspace)
    ensures !IsCBlockId(ws, c) || delta == 0 ==> r == ws
    ensures MovedExcept(ws, r, c)
    ensures IsCBlockId(ws, c) && delta != 0 ==>
      && r[c].height == Some(StoredOr(ws[c].height, BaseHeight(env)) + delta)
      && r[c].innerHeight == Some(StoredOr(ws[c].innerHeight, 0) + delta)
    ensures IsCBlockId(ws, c) && delta != 0 && Resolves(ws, ws[c].next) ==>
      forall k :: 0 <= k < |ws| && k != c ==>
        r[k].y == (if k in AllChainBlocks(ws, ws[c].next) then ws[k].y + delta else ws[k].y)
    ensures IsCBlockId(ws, c) && delta != 0 ==>
      forall k :: 0 <= k < |ws| && k != c ==>
        r[k] == (if k in BlocksAfter(ws, c) then ws[k].(y := ws[k].y + delta) else ws[k])
    ensures IsCBlockId(ws, c) && delta != 0 ==>
      r[c].x == ws[c].x && r[c].y == (if c in BlocksAfter(ws, c) then ws[c].y + delta else ws[c].y)
  {
    if !IsCBlockId(ws, c) || delta == 0 then ws
    else
      var b := ws[c];
      var w := ws[c := b.(height := Some(StoredOr(b.height, BaseHeight(env)) + delta),
                          innerHeight := Some(StoredOr(b.innerHeight, 0) + delta))];
      assert OnlyGeometry(ws, w);
      OnlyGeometrySameLinks(ws, w);
      AllChainSameLinks(ws, w, b.next);
      var r := UpdateBlocksAfter(w, c, delta);
      OnlyMovedGeometry(w, r);
      ResizeMovesAfter(ws, w, r, c, delta);
      r
  }

  /** Moving the blocks after `c` in an arena that differs from `ws` only in `c`'s sizes. */
  lemma {:induction false} ResizeMovesAfter(ws: Workspace, w: Workspace, r: Workspace, c: Id, delta: int)
    requires Resolves(ws, c) && |w| == |ws| && |r| == |ws|
    requires forall k :: 0 <= k < |ws| && k != c ==> w[k] == ws[k]
    requires w[c].x == ws[c].x && w[c].y == ws[c].y && BlocksAfter(w, c) == BlocksAfter(ws, c)
    requires forall k :: 0 <= k < |ws| ==> r[k] == (if k in BlocksAfter(w, c) then w[k].(y := w[k].y + delta) else w[k])
    ensures forall k :: 0 <= k < |ws| && k != c ==> r[k] == (if k in BlocksAfter(ws, c) then ws[k].(y := ws[k].y + delta) else ws[k])
    ensures r[c].x == ws[c].x && r[c].y == (if c in BlocksAfter(ws, c) then ws[c].y + delta else ws[c].y)
  {
  }

  /** How far syncCBlockHeight resizes a c-block: its correct height less its current one. */
  function SyncDelta(env: Env, ws: Workspace, c: Id): int
    requires Resolves(ws, c)
  {
    BaseHeight(env) + EffectiveInnerHeight(env, ws, c) - StoredOr(ws[c].height, BaseHeight(env))
  }

  /**
    syncCBlockHeight: resizes the container by the difference between its
    correct height (form height plus effective inner height) and its current one.
  */
  function SyncHeight(env: Env, ws: Workspace, c: Id): (r: Workspace)
    ensures !IsCBlockId(ws, c) ==> r == ws
    ensures MovedExcept(ws, r, c)
    ensures IsCBlockId(ws, c) && BaseHeight(env) >= 0 ==>
      StoredOr(r[c].height, BaseHeight(env)) == BaseHeight(env) + EffectiveInnerHeight(env, ws, c)
    ensures IsCBlockId(ws, c) && InSync(env, ws, c) ==> r == ws
    ensures IsCBlockId(ws, c) ==>
      forall k :: 0 <= k < |ws| && k != c ==>
        r[k] == (if k in BlocksAfter(ws, c) then ws[k].(y := ws[k].y + SyncDelta(env, ws, c)) else ws[k])
    ensures IsCBlockId(ws, c) ==> r[c].x == ws[c].x
    ensures IsCBlockId(ws, c) && SyncDelta(env, ws, c) != 0 ==>
      r[c].innerHeight == Some(StoredOr(ws[c].innerHeight, 0) + SyncDelta(env, ws, c))
  {
    if !IsCBlockId(ws, c) then ws
    else
      var diff := SyncDelta(env, ws, c);
      if diff != 0 then SyncResized(env, ws, c); Resize(env, ws, c, diff) else ws
  }

  /** Resizing by the sync difference gives the container its correct height. */
  lemma {:induction false} SyncResized(env: Env, ws: Workspace, c: Id)
    requires IsCBlockId(ws, c) && SyncDelta(env, ws, c) != 0
    ensures BaseHeight(env) >= 0 ==>
      StoredOr(Resize(env, ws, c, SyncDelta(env, ws, c))[c].height, BaseHeight(env)) == BaseHeight(env) + EffectiveInnerHeight(env, ws, c)
  {
    var d := SyncDelta(env, ws, c);
    var h := StoredOr(ws[c].height, BaseHeight(env)) + d;
    assert h == BaseHeight(env) + EffectiveInnerHeight(env, ws, c);
    var r := Resize(env, ws, c, d);
    assert r[c].height == Some(h);
  }

  /** The inner chain is the same in an arena with the same links. */
  lemma {:induction false} InnerBlocksSameLinks(ws: Workspace, ws': Workspace, c: Id)
    requires SameLinks(ws, ws')
    ensures InnerBlocks(ws', c) == InnerBlocks(ws, c)
  {
    if IsCBlockId(ws, c) && Resolves(ws, ws[c].substack) {
      ChainSameLinks(ws, ws', ws[c].substack);
    }
  }

  /** Changing only positions, and the geometry of a block `d` outside the inner chain of `c`, keeps the inner height of `c`. */
  lemma {:induction false} InnerHeightKeptBy(env: Env, ws: Workspace, ws': Workspace, c: Id, d: Id)
    requires MovedExcept(ws, ws', d) && d !in InnerBlocks(ws, c)
    ensures InnerHeight(env, ws', c) == InnerHeight(env, ws, c)
  {
    OnlyGeometrySameLinks(ws, ws');
    InnerBlocksSameLinks(ws, ws', c);
    var inner := InnerBlocks(ws, c);
    var f := b => InnerBlockHeight(env, b);
    forall i | 0 <= i < |inner|
      ensures 0 <= inner[i] < |ws| && 0 <= inner[i] < |ws'| && f(ws'[inner[i]]) == f(ws[inner[i]])
    {
      var k := inner[i];
      assert 0 <= k < |ws| && k != d;
    }
    SumOverFrame(ws, ws', inner, f);
  }

  /** Changing only positions, and the geometry of the container itself, keeps its inner height. */
  lemma {:induction false} InnerHeightMovedExcept(env: Env, ws: Workspace, ws': Workspace, c: Id)
    requires MovedExcept(ws, ws', c) && c !in InnerBlocks(ws, c)
    ensures InnerHeight(env, ws', c) == InnerHeight(env, ws, c)
  {
    InnerHeightKeptBy(env, ws, ws', c, c);
  }

  /**
    A container stays in sync when another block, not in its inner chain,
    changes its geometry: neither its stored height nor any height it sums
    changes.
  */
  lemma {:induction false} InSyncKept(env: Env, ws: Workspace, ws': Workspace, c: Id, d: Id)
    requires Resolves(ws, c) && InSync(env, ws, c)
    requires MovedExcept(ws, ws', d) && d != c && d !in InnerBlocks(ws, c)
    ensures InSync(env, ws', c)
  {
    InnerHeightKeptBy(env, ws, ws', c, d);
  }

  /**
    Every c-block in the inner chain of `c` comes before `c` in the arena, so
    a pass over the arena in order syncs them before it. Holds in particular
    when no inner block is a c-block.
  */
  predicate NestedFirst(ws: Workspace, c: Id) {
    forall i :: 0 <= i < |InnerBlocks(ws, c)| && IsCBlockId(ws, InnerBlocks(ws, c)[i]) ==> InnerBlocks(ws, c)[i] < c
  }

  /** After a sync the container is in sync, unless it sits inside its own inner chain. */
  lemma {:induction false} SyncSettles(env: Env, ws: Workspace, c: Id)
    requires IsCBlockId(ws, c) && BaseHeight(env) >= 0 && c !in InnerBlocks(ws, c)
    ensures InSync(env, SyncHeight(env, ws, c), c)
  {
    InnerHeightMovedExcept(env, ws, SyncHeight(env, ws, c), c);
  }

  /** Syncing twice is syncing once. */
  lemma {:induction false} SyncIdempotent(env: Env, ws: Workspace, c: Id)
    requires BaseHeight(env) >= 0 && c !in InnerBlocks(ws, c)
    ensures SyncHeight(env, SyncHeight(env, ws, c), c) == SyncHeight(env, ws, c)
  {
    if IsCBlockId(ws, c) {
      SyncSettles(env, ws, c);
    }
  }

  /** Every block of the plain chain below the container moves by exactly `delta`, keeping its x. */
  lemma {:induction false} UpdateMovesChainBelow(ws: Workspace, c: Id, delta: int, k: Id)
    requires Resolves(ws, c) && Resolves(ws, ws[c].next) && k in ChainBlocks(ws, ws[c].next)
    ensures var r := UpdateBlocksAfter(ws, c, delta); r[k].y == ws[k].y + delta && r[k].x == ws[k].x
  {
    ChainInAllChainBlocks(ws, ws[c].next);
  }

  /** Moving the blocks below back by the same amount restores the arena. */
  lemma {:induction false} UpdateBlocksAfterInverse(ws: Workspace, c: Id, delta: int)
    requires Resolves(ws, c)
    ensures UpdateBlocksAfter(UpdateBlocksAfter(ws, c, delta), c, -delta) == ws
  {
    var r := UpdateBlocksAfter(ws, c, delta);
    OnlyMovedSameLinks(ws, r);
    if Resolves(ws, ws[c].next) {
      AllChainSameLinks(ws, r, ws[c].next);
      var r2 := UpdateBlocksAfter(r, c, -delta);
      forall k | 0 <= k < |ws|
        ensures r2[k] == ws[k]
      {
      }
    }
  }

  /** The step between two stacked inner blocks. */
  function StackStep(env: Env): Block -> int {
    b => StackHeight(env, b)
  }

  /** Every id of `p` names a block of the arena. */
  ghost predicate InArena(ws: Workspace, p: seq<Id>) {
    forall i :: 0 <= i < |p| ==> 0 <= p[i] < |ws|
  }

  /**
    First insertion into an empty container: the container's inner link names
    `ins`, the chain `chain` from `ins` is stacked from (x, y), and `ins` hangs inside.
  */
  function InsertIntoEmpty(env: Env, ws: Workspace, c: Id, ins: Id, chain: seq<Id>, x: int, y: int): (r: Workspace)
    requires Resolves(ws, c) && Resolves(ws, ins) && InArena(ws, chain)
    ensures |r| == |ws| && r[c].kind == ws[c].kind
    ensures r[c].substack == ins
    ensures r[ins].parent == c && r[ins].topConnected && !r[ins].topLevel
    ensures forall k :: 0 <= k < |ws| ==> r[k].next == ws[k].next
  {
    var w1 := ws[c := ws[c].(substack := ins)];
    var w2 := Stack(w1, chain, x, y, StackStep(env));
    w2[ins := w2[ins].(parent := c, topConnected := true, topLevel := false)]
  }

  /** Insertion below the last inner block: the chain is stacked from the bottom of `last` and hung below it. */
  function InsertAtBottom(env: Env, ws: Workspace, last: Id, ins: Id, chain: seq<Id>, x: int): (r: Workspace)
    requires Resolves(ws, last) && Resolves(ws, ins) && InArena(ws, chain)
    ensures |r| == |ws|
    ensures forall k :: 0 <= k < |ws| ==> r[k].kind == ws[k].kind && r[k].substack == ws[k].substack
    ensures forall k :: 0 <= k < |ws| && k != last ==> r[k].next == ws[k].next
    ensures r[last].next == ins && r[last].bottomConnected
    ensures r[ins].parent == last && r[ins].topConnected && !r[ins].topLevel
  {
    var insertY := ws[last].y + StackHeight(env, ws[last]);
    var w1 := Stack(ws, chain, x, insertY, StackStep(env));
    var w2 := w1[last := w1[last].(next := ins, bottomConnected := true)];
    w2[ins := w2[ins].(parent := last, topConnected := true, topLevel := false)]
  }

  /** The link writes of an insertion above the first inner block, in the program's order. */
  function LinkAtTop(ws: Workspace, c: Id, ins: Id, tail: Id, first: Id): (r: Workspace)
    requires Resolves(ws, c) && Resolves(ws, ins) && Resolves(ws, tail) && Resolves(ws, first)
    ensures |r| == |ws|
    ensures r[c].substack == ins && r[c].kind == ws[c].kind
    ensures c != tail ==> r[tail].next == first
    ensures r[ins].parent == c && r[ins].topConnected && !r[ins].topLevel
    ensures first != ins ==> r[first].parent == tail && r[first].topConnected
    ensures forall k :: 0 <= k < |ws| && k != tail ==> r[k].next == ws[k].next
    ensures forall k :: 0 <= k < |ws| ==> SamePlace(r[k], ws[k])
  {
    var w1 := ws[tail := ws[tail].(next := first, bottomConnected := true)];
    var w2 := w1[first := w1[first].(parent := tail, topConnected := true)];
    var w3 := w2[ins := w2[ins].(parent := c, topConnected := true, topLevel := false)];
    w3[c := w3[c].(substack := ins)]
  }

  /**
    Insertion above the first inner block: the chain is stacked from (x, y), the
    existing inner blocks move down by its height, and it becomes the new head.
  */
  function InsertAtTop(env: Env, ws: Workspace, c: Id, ins: Id, chain: seq<Id>, inner: seq<Id>, x: int, y: int): (r: Workspace)
    requires Resolves(ws, c) && Resolves(ws, ins)
    requires |chain| >= 1 && |inner| >= 1 && InArena(ws, chain) && InArena(ws, inner)
    ensures |r| == |ws| && r[c].kind == ws[c].kind && r[c].substack == ins
    ensures c != chain[|chain| - 1] ==> r[chain[|chain| - 1]].next == inner[0]
    ensures r[ins].parent == c && r[ins].topConnected && !r[ins].topLevel
    ensures inner[0] != ins ==> r[inner[0]].parent == chain[|chain| - 1] && r[inner[0]].topConnected
    ensures forall k :: 0 <= k < |ws| && k != chain[|chain| - 1] ==> r[k].next == ws[k].next
  {
    var w := StackAboveInner(env, ws, chain, inner, x, y);
    LinkAtTop(w, c, ins, chain[|chain| - 1], inner[0])
  }

  /** The moves of an insertion at the top: the chain is stacked and the old inner blocks make room. */
  function StackAboveInner(env: Env, ws: Workspace, chain: seq<Id>, inner: seq<Id>, x: int, y: int): (r: Workspace)
    requires InArena(ws, chain)
    ensures OnlyMoved(ws, r)
  {
    var insertHeight := SumOver(ws, chain, StackStep(env));
    var w1 := Stack(ws, chain, x, y, StackStep(env));
    Shift(w1, Members(inner), 0, insertHeight)
  }

  /** insertBlockInside up to, not including, the final height sync. */
  function InsertInsideUnsynced(env: Env, ws: Workspace, c: Id, ins: Id, x: int, y: int, atBottom: bool): (r: Workspace)
    requires IsCBlockId(ws, c) && Resolves(ws, ins)
    ensures IsCBlockId(r, c) && |r| == |ws|
  {
    var chain := ChainBlocks(ws, ins);
    var inner := InnerBlocks(ws, c);
    if |inner| > 0 then
      if atBottom then InsertAtBottom(env, ws, inner[|inner| - 1], ins, chain, x)
      else InsertAtTop(env, ws, c, ins, chain, inner, x, y)
    else InsertIntoEmpty(env, ws, c, ins, chain, x, y)
  }

  /**
    insertBlockInside: the insertion followed by a sync of the container's
    height to the new inner chain. Nothing happens unless `c` is a c-block;
    for a c-block the inserted block must exist.
  */
  function InsertInside(env: Env, ws: Workspace, c: Id, ins: Id, x: int, y: int, atBottom: bool): (r: Workspace)
    requires IsCBlockId(ws, c) ==> Resolves(ws, ins)
    ensures !IsCBlockId(ws, c) ==> r == ws
    ensures IsCBlockId(ws, c) ==>
      var w := InsertInsideUnsynced(env, ws, c, ins, x, y, atBottom);
      && MovedExcept(w, r, c)
      && (BaseHeight(env) >= 0 ==>
            StoredOr(r[c].height, BaseHeight(env)) == BaseHeight(env) + EffectiveInnerHeight(env, w, c))
  {
    if !IsCBlockId(ws, c) then ws
    else SyncHeight(env, InsertInsideUnsynced(env, ws, c, ins, x, y, atBottom), c)
  }

  /** No block of `a` occurs in `b`. */
  ghost predicate Disjoint(a: seq<Id>, b: seq<Id>) {
    forall i :: 0 <= i < |a| ==> a[i] !in b
  }

  lemma {:induction false} DisjointSym(a: seq<Id>, b: seq<Id>)
    requires Disjoint(a, b)
    ensures Disjoint(b, a)
  {
    forall i, j | 0 <= i < |b| && 0 <= j < |a|
      ensures a[j] != b[i]
    {
      assert a[j] !in b;
    }
  }

  /**
    When the arena after a splice keeps every `next` link but the one from the
    last block of `a`, which now names the head of `b`, a container whose inner
    link names the head of `a` holds `a` followed by `b`.
  */
  lemma {:induction false} InnerSplice(ws: Workspace, w: Workspace, c: Id, a: seq<Id>, b: seq<Id>)
    requires |a| >= 1 && |b| >= 1
    requires IsWalkFrom(ws, Down, a[0], a) && IsWalkFrom(ws, Down, b[0], b)
    requires Disjoint(a, b)
    requires |w| == |ws|
    requires forall k :: 0 <= k < |ws| && k != a[|a| - 1] ==> w[k].next == ws[k].next
    requires w[a[|a| - 1]].next == b[0]
    requires IsCBlockId(w, c) && w[c].substack == a[0]
    ensures InnerBlocks(w, c) == a + b
  {
    ChainSplice(ws, w, a, b);
  }

  /** First insertion: the inner chain is the inserted chain. */
  lemma {:induction false} InsertIntoEmptyChain(env: Env, ws: Workspace, c: Id, ins: Id, x: int, y: int)
    requires IsCBlockId(ws, c) && Resolves(ws, ins)
    ensures InnerBlocks(InsertIntoEmpty(env, ws, c, ins, ChainBlocks(ws, ins), x, y), c) == ChainBlocks(ws, ins)
  {
    ChainSameNext(ws, InsertIntoEmpty(env, ws, c, ins, ChainBlocks(ws, ins), x, y), ins);
  }

  /** Insertion at the bottom: the old inner chain followed by the inserted chain. */
  lemma {:induction false} InsertAtBottomChain(env: Env, ws: Workspace, c: Id, ins: Id, x: int)
    requires IsCBlockId(ws, c) && Resolves(ws, ins) && InnerBlocks(ws, c) != []
    requires Disjoint(InnerBlocks(ws, c), ChainBlocks(ws, ins))
    ensures var inner := InnerBlocks(ws, c); var chain := ChainBlocks(ws, ins);
      InnerBlocks(InsertAtBottom(env, ws, inner[|inner| - 1], ins, chain, x), c) == inner + chain
  {
    var inner := InnerBlocks(ws, c);
    var chain := ChainBlocks(ws, ins);
    assert IsWalkFrom(ws, Down, ws[c].substack, inner);
    assert IsWalkFrom(ws, Down, ins, chain);
    ChainInArena(ws, ins);
    var last := inner[|inner| - 1];
    assert Resolves(ws, last);
    var r := InsertAtBottom(env, ws, last, ins, chain, x);
    assert IsCBlockId(r, c) && r[c].substack == inner[0];
    InnerSplice(ws, r, c, inner, chain);
  }

  /** Insertion at the top: the inserted chain followed by the old inner chain. */
  lemma {:induction false} InsertAtTopChain(env: Env, ws: Workspace, c: Id, ins: Id, x: int, y: int)
    requires IsCBlockId(ws, c) && Resolves(ws, ins) && InnerBlocks(ws, c) != []
    requires Disjoint(InnerBlocks(ws, c), ChainBlocks(ws, ins)) && c !in ChainBlocks(ws, ins)
    ensures var inner := InnerBlocks(ws, c); var chain := ChainBlocks(ws, ins);
      InnerBlocks(InsertAtTop(env, ws, c, ins, chain, inner, x, y), c) == chain + inner
  {
    var inner := InnerBlocks(ws, c);
    DisjointSym(inner, ChainBlocks(ws, ins));
    TopSplice(env, ws, c, ChainBlocks(ws, ins), inner, x, y);
  }

  /** The top insertion on explicit walks: the inserted walk, then the old inner walk. */
  lemma {:induction false} TopSplice(env: Env, ws: Workspace, c: Id, chain: seq<Id>, inner: seq<Id>, x: int, y: int)
    requires IsCBlockId(ws, c) && |chain| >= 1 && |inner| >= 1
    requires IsWalkFrom(ws, Down, chain[0], chain) && IsWalkFrom(ws, Down, inner[0], inner)
    requires Disjoint(chain, inner) && c !in chain
    ensures InnerBlocks(InsertAtTop(env, ws, c, chain[0], chain, inner, x, y), c) == chain + inner
  {
    var r := InsertAtTop(env, ws, c, chain[0], chain, inner, x, y);
    assert c != chain[|chain| - 1];
    InnerSplice(ws, r, c, chain, inner);
  }

  /**
    The inner chain after an insertion: the inserted chain alone in an empty
    container, after the old inner chain at the bottom, before it at the top.
  */
  lemma {:induction false} InsertInsideChain(env: Env, ws: Workspace, c: Id, ins: Id, x: int, y: int, atBottom: bool)
    requires IsCBlockId(ws, c) && Resolves(ws, ins)
    requires Disjoint(InnerBlocks(ws, c), ChainBlocks(ws, ins)) && c !in ChainBlocks(ws, ins)
    ensures var inner := InnerBlocks(ws, c); var chain := ChainBlocks(ws, ins);
      InnerBlocks(InsertInside(env, ws, c, ins, x, y, atBottom), c) ==
        if inner == [] then chain else if atBottom then inner + chain else chain + inner
  {
    var inner := InnerBlocks(ws, c);
    var w := InsertInsideUnsynced(env, ws, c, ins, x, y, atBottom);
    var r := InsertInside(env, ws, c, ins, x, y, atBottom);
    OnlyGeometrySameLinks(w, r);
    InnerBlocksSameLinks(w, r, c);
    if inner == [] {
      InsertIntoEmptyChain(env, ws, c, ins, x, y);
    } else if atBottom {
      InsertAtBottomChain(env, ws, c, ins, x);
    } else {
      InsertAtTopChain(env, ws, c, ins, x, y);
    }
  }

  /** After an insertion the container is in sync with its new inner chain. */
  lemma {:induction false} InsertInsideInSync(env: Env, ws: Workspace, c: Id, ins: Id, x: int, y: int, atBottom: bool)
    requires IsCBlockId(ws, c) && Resolves(ws, ins) && BaseHeight(env) >= 0
    requires Disjoint(InnerBlocks(ws, c), ChainBlocks(ws, ins))
    requires c !in InnerBlocks(ws, c) && c !in ChainBlocks(ws, ins)
    ensures InSync(env, InsertInside(env, ws, c, ins, x, y, atBottom), c)
  {
    var w := InsertInsideUnsynced(env, ws, c, ins, x, y, atBottom);
    InsertInsideChain(env, ws, c, ins, x, y, atBottom);
    var r := InsertInside(env, ws, c, ins, x, y, atBottom);
    OnlyGeometrySameLinks(w, r);
    InnerBlocksSameLinks(w, r, c);
    InnerHeightMovedExcept(env, w, r, c);
  }

  /** The two blocks stand at the same place. */
  predicate SamePlace(a: Block, b: Block) {
    a.x == b.x && a.y == b.y
  }

  /**
    In `r`, the blocks of `chain` stand one below the other from (x, y), each
    `step` of its predecessor (measured in `ws`) below it.
  */
  ghost predicate StackedFrom(ws: Workspace, r: Workspace, chain: seq<Id>, x: int, y: int, step: Block -> int) {
    && InArena(ws, chain) && |r| == |ws|
    && forall i :: 0 <= i < |chain| ==>
         r[chain[i]].x == x && r[chain[i]].y == y + SumOver(ws, chain[..i], step)
  }

  /**
    The places after an insertion into a container: `chain` stacked from
    (x, y), the old inner blocks `inner` moved down by `moved`, and every
    other block where it was.
  */
  ghost predicate InsidePlaced(ws: Workspace, r: Workspace, chain: seq<Id>, inner: seq<Id>, x: int, y: int, moved: int, step: Block -> int) {
    && StackedFrom(ws, r, chain, x, y, step) && InArena(ws, inner)
    && (forall j :: 0 <= j < |inner| ==> r[inner[j]].x == ws[inner[j]].x && r[inner[j]].y == ws[inner[j]].y + moved)
    && forall k :: 0 <= k < |ws| && k !in chain && k !in inner ==> SamePlace(r[k], ws[k])
  }

  /** An insertion that moves nothing but the chain leaves the inner blocks in place. */
  lemma {:induction false} UnmovedInner(ws: Workspace, r: Workspace, chain: seq<Id>, inner: seq<Id>, x: int, y: int, step: Block -> int)
    requires StackedFrom(ws, r, chain, x, y, step) && InArena(ws, inner) && Disjoint(inner, chain)
    requires forall k :: 0 <= k < |ws| && k !in chain ==> SamePlace(r[k], ws[k])
    ensures InsidePlaced(ws, r, chain, inner, x, y, 0, step)
  {
    forall j | 0 <= j < |inner|
      ensures r[inner[j]].x == ws[inner[j]].x && r[inner[j]].y == ws[inner[j]].y
    {
      assert inner[j] !in chain;
    }
  }

  /** Stacking in an arena whose steps agree with those of `ws` places the chain as in `ws`. */
  lemma {:induction false} StackedPlaces(ws: Workspace, w: Workspace, chain: seq<Id>, x: int, y: int, step: Block -> int)
    requires InArena(ws, chain) && Distinct(chain) && |w| == |ws|
    requires forall k :: 0 <= k < |ws| ==> step(w[k]) == step(ws[k])
    ensures StackedFrom(ws, Stack(w, chain, x, y, step), chain, x, y, step)
  {
    var r := Stack(w, chain, x, y, step);
    forall i | 0 <= i < |chain|
      ensures r[chain[i]].x == x && r[chain[i]].y == y + SumOver(ws, chain[..i], step)
    {
      StackAt(w, chain, x, y, step, i);
      var above := chain[..i];
      forall j | 0 <= j < |above|
        ensures 0 <= above[j] < |ws| && 0 <= above[j] < |w| && step(w[above[j]]) == step(ws[above[j]])
      {
        assert above[j] == chain[j];
      }
      SumOverFrame(ws, w, above, step);
    }
  }

  /** First insertion: the chain is stacked from (x, y); no other block moves. */
  lemma {:induction false} InsertIntoEmptyPlaces(env: Env, ws: Workspace, c: Id, ins: Id, chain: seq<Id>, x: int, y: int)
    requires Resolves(ws, c) && Resolves(ws, ins) && InArena(ws, chain) && Distinct(chain)
    ensures var r := InsertIntoEmpty(env, ws, c, ins, chain, x, y);
      && StackedFrom(ws, r, chain, x, y, StackStep(env))
      && forall k :: 0 <= k < |ws| && k !in chain ==> SamePlace(r[k], ws[k])
  {
    var w1 := ws[c := ws[c].(substack := ins)];
    var w2 := Stack(w1, chain, x, y, StackStep(env));
    StackedPlaces(ws, w1, chain, x, y, StackStep(env));
  }

  /** Insertion at the bottom: the chain is stacked from the bottom edge of `last`; no other block moves. */
  lemma {:induction false} InsertAtBottomPlaces(env: Env, ws: Workspace, last: Id, ins: Id, chain: seq<Id>, x: int)
    requires Resolves(ws, last) && Resolves(ws, ins) && InArena(ws, chain) && Distinct(chain)
    ensures var r := InsertAtBottom(env, ws, last, ins, chain, x);
      && StackedFrom(ws, r, chain, x, ws[last].y + StackHeight(env, ws[last]), StackStep(env))
      && forall k :: 0 <= k < |ws| && k !in chain ==> SamePlace(r[k], ws[k])
  {
    StackedPlaces(ws, ws, chain, x, ws[last].y + StackHeight(env, ws[last]), StackStep(env));
  }

  /**
    Insertion at the top: the chain is stacked from (x, y), the old inner
    blocks keep their x and move down by the chain's height, and no other
    block moves.
  */
  lemma {:induction false} InsertAtTopPlaces(env: Env, ws: Workspace, c: Id, ins: Id, chain: seq<Id>, inner: seq<Id>, x: int, y: int)
    requires Resolves(ws, c) && Resolves(ws, ins)
    requires |chain| >= 1 && |inner| >= 1 && InArena(ws, chain) && InArena(ws, inner)
    requires Distinct(chain) && Disjoint(inner, chain)
    ensures InsidePlaced(ws, InsertAtTop(env, ws, c, ins, chain, inner, x, y), chain, inner, x, y, SumOver(ws, chain, StackStep(env)), StackStep(env))
  {
    var w := StackAboveInner(env, ws, chain, inner, x, y);
    StackAboveInnerPlaces(env, ws, chain, inner, x, y);
    var r := LinkAtTop(w, c, ins, chain[|chain| - 1], inner[0]);
    assert r == InsertAtTop(env, ws, c, ins, chain, inner, x, y);
    PlacedKept(ws, w, r, chain, inner, x, y, SumOver(ws, chain, StackStep(env)), StackStep(env));
  }

  /** Writes that keep every block's place keep the places an insertion made. */
  lemma {:induction false} PlacedKept(ws: Workspace, w: Workspace, r: Workspace, chain: seq<Id>, inner: seq<Id>, x: int, y: int, moved: int, step: Block -> int)
    requires InsidePlaced(ws, w, chain, inner, x, y, moved, step)
    requires |r| == |w| && forall k :: 0 <= k < |w| ==> SamePlace(r[k], w[k])
    ensures InsidePlaced(ws, r, chain, inner, x, y, moved, step)
  {
    forall i | 0 <= i < |chain|
      ensures r[chain[i]].x == x && r[chain[i]].y == y + SumOver(ws, chain[..i], step)
    {
      assert SamePlace(r[chain[i]], w[chain[i]]);
    }
    forall j | 0 <= j < |inner|
      ensures r[inner[j]].x == ws[inner[j]].x && r[inner[j]].y == ws[inner[j]].y + moved
    {
      assert SamePlace(r[inner[j]], w[inner[j]]);
    }
  }

  /** The moves of a top insertion, before any link is written. */
  lemma {:induction false} StackAboveInnerPlaces(env: Env, ws: Workspace, chain: seq<Id>, inner: seq<Id>, x: int, y: int)
    requires InArena(ws, chain) && InArena(ws, inner) && Distinct(chain) && Disjoint(inner, chain)
    ensures InsidePlaced(ws, StackAboveInner(env, ws, chain, inner, x, y), chain, inner, x, y, SumOver(ws, chain, StackStep(env)), StackStep(env))
  {
    var step := StackStep(env);
    var w1 := Stack(ws, chain, x, y, step);
    var r := Shift(w1, Members(inner), 0, SumOver(ws, chain, step));
    StackedPlaces(ws, ws, chain, x, y, step);
    DisjointSym(inner, chain);
    forall i | 0 <= i < |chain|
      ensures r[chain[i]].x == x && r[chain[i]].y == y + SumOver(ws, chain[..i], step)
    {
      assert chain[i] !in Members(inner);
    }
    forall j | 0 <= j < |inner|
      ensures r[inner[j]].x == ws[inner[j]].x && r[inner[j]].y == ws[inner[j]].y + SumOver(ws, chain, step)
    {
      assert inner[j] !in chain && inner[j] in Members(inner);
    }
    forall k | 0 <= k < |ws| && k !in chain && k !in inner
      ensures SamePlace(r[k], ws[k])
    {
      assert k !in Members(inner);
    }
  }

  /** Where the inserted chain starts: below the last inner block at the bottom of a non-empty container, else at `y`. */
  function InsertY(env: Env, ws: Workspace, c: Id, y: int, atBottom: bool): int
    requires IsCBlockId(ws, c)
  {
    var inner := InnerBlocks(ws, c);
    if |inner| > 0 && atBottom then
      var last := inner[|inner| - 1];
      assert last in inner;
      ws[last].y + StackHeight(env, ws[last])
    else y
  }

  /**
    The positions insertBlockInside writes before its sync: the inserted
    chain is stacked at `x` from its start height; at the top of a
    non-empty container the old inner blocks move down by the inserted
    chain's height; nothing else moves.
  */
  lemma {:induction false} InsertInsidePositions(env: Env, ws: Workspace, c: Id, ins: Id, x: int, y: int, atBottom: bool)
    requires IsCBlockId(ws, c) && Resolves(ws, ins)
    requires Disjoint(InnerBlocks(ws, c), ChainBlocks(ws, ins))
    ensures var chain := ChainBlocks(ws, ins); var inner := InnerBlocks(ws, c);
      InsidePlaced(ws, InsertInsideUnsynced(env, ws, c, ins, x, y, atBottom), chain, inner, x, InsertY(env, ws, c, y, atBottom),
                   if |inner| > 0 && !atBottom then SumOver(ws, chain, StackStep(env)) else 0, StackStep(env))
  {
    if |InnerBlocks(ws, c)| == 0 {
      PositionsIntoEmpty(env, ws, c, ins, x, y, atBottom);
    } else if atBottom {
      PositionsAtBottom(env, ws, c, ins, x, y);
    } else {
      PositionsAtTop(env, ws, c, ins, x, y);
    }
  }

  lemma {:induction false} PositionsIntoEmpty(env: Env, ws: Workspace, c: Id, ins: Id, x: int, y: int, atBottom: bool)
    requires IsCBlockId(ws, c) && Resolves(ws, ins) && InnerBlocks(ws, c) == []
    ensures InsidePlaced(ws, InsertInsideUnsynced(env, ws, c, ins, x, y, atBottom), ChainBlocks(ws, ins), [], x, y, 0, StackStep(env))
  {
    var chain := ChainBlocks(ws, ins);
    var r := InsertInsideUnsynced(env, ws, c, ins, x, y, atBottom);
    assert IsWalkFrom(ws, Down, ins, chain);
    assert r == InsertIntoEmpty(env, ws, c, ins, chain, x, y);
    InsertIntoEmptyPlaces(env, ws, c, ins, chain, x, y);
    UnmovedInner(ws, r, chain, [], x, y, StackStep(env));
  }

  lemma {:induction false} PositionsAtBottom(env: Env, ws: Workspace, c: Id, ins: Id, x: int, y: int)
    requires IsCBlockId(ws, c) && Resolves(ws, ins) && |InnerBlocks(ws, c)| > 0
    requires Disjoint(InnerBlocks(ws, c), ChainBlocks(ws, ins))
    ensures InsidePlaced(ws, InsertInsideUnsynced(env, ws, c, ins, x, y, true), ChainBlocks(ws, ins), InnerBlocks(ws, c), x,
                         InsertY(env, ws, c, y, true), 0, StackStep(env))
  {
    AtBottomIs(env, ws, c, ins, x, y);
    BottomStacked(env, ws, c, ins, x, y);
    BottomInnerKept(env, ws, c, ins, x, y);
    BottomOthersKept(env, ws, c, ins, x, y);
  }

  /** At the bottom, the chain is stacked from the bottom of the last inner block. */
  lemma {:induction false} BottomStacked(env: Env, ws: Workspace, c: Id, ins: Id, x: int, y: int)
    requires IsCBlockId(ws, c) && Resolves(ws, ins) && |InnerBlocks(ws, c)| > 0
    ensures StackedFrom(ws, InsertInsideUnsynced(env, ws, c, ins, x, y, true), ChainBlocks(ws, ins), x, InsertY(env, ws, c, y, true), StackStep(env))
  {
    var inner := InnerBlocks(ws, c);
    AtBottomIs(env, ws, c, ins, x, y);
    ChainInArena(ws, ins);
    InsertAtBottomPlaces(env, ws, inner[|inner| - 1], ins, ChainBlocks(ws, ins), x);
  }

  /** At the bottom, the old inner blocks stay where they were. */
  lemma {:induction false} BottomInnerKept(env: Env, ws: Workspace, c: Id, ins: Id, x: int, y: int)
    requires IsCBlockId(ws, c) && Resolves(ws, ins) && |InnerBlocks(ws, c)| > 0
    requires Disjoint(InnerBlocks(ws, c), ChainBlocks(ws, ins))
    ensures var r := InsertInsideUnsynced(env, ws, c, ins, x, y, true); var inner := InnerBlocks(ws, c);
      forall j :: 0 <= j < |inner| ==> r[inner[j]].x == ws[inner[j]].x && r[inner[j]].y == ws[inner[j]].y
  {
    var inner := InnerBlocks(ws, c);
    AtBottomIs(env, ws, c, ins, x, y);
    ChainInArena(ws, ins);
    BelowLastPlaced(env, ws, inner[|inner| - 1], ins, inner, x);
  }

  /** At the bottom, no block outside the chain and the inner blocks moves. */
  lemma {:induction false} BottomOthersKept(env: Env, ws: Workspace, c: Id, ins: Id, x: int, y: int)
    requires IsCBlockId(ws, c) && Resolves(ws, ins) && |InnerBlocks(ws, c)| > 0
    requires Disjoint(InnerBlocks(ws, c), ChainBlocks(ws, ins))
    ensures var r := InsertInsideUnsynced(env, ws, c, ins, x, y, true); var chain := ChainBlocks(ws, ins); var inner := InnerBlocks(ws, c);
      forall k :: 0 <= k < |ws| && k !in chain && k !in inner ==> SamePlace(r[k], ws[k])
  {
    var inner := InnerBlocks(ws, c);
    AtBottomIs(env, ws, c, ins, x, y);
    ChainInArena(ws, ins);
    BelowLastPlaced(env, ws, inner[|inner| - 1], ins, inner, x);
  }

  /** Stacking a chain below `last` moves nothing but the chain. */
  lemma {:induction false} BelowLastPlaced(env: Env, ws: Workspace, last: Id, ins: Id, inner: seq<Id>, x: int)
    requires Resolves(ws, last) && Resolves(ws, ins) && InArena(ws, inner) && Disjoint(inner, ChainBlocks(ws, ins))
    requires InArena(ws, ChainBlocks(ws, ins))
    ensures InsidePlaced(ws, InsertAtBottom(env, ws, last, ins, ChainBlocks(ws, ins), x), ChainBlocks(ws, ins), inner, x,
                         ws[last].y + StackHeight(env, ws[last]), 0, StackStep(env))
  {
    var chain := ChainBlocks(ws, ins);
    ChainInArena(ws, ins);
    InsertAtBottomPlaces(env, ws, last, ins, chain, x);
    UnmovedInner(ws, InsertAtBottom(env, ws, last, ins, chain, x), chain, inner, x, ws[last].y + StackHeight(env, ws[last]), StackStep(env));
  }

  /** Insertion at the bottom of a non-empty container: below its last inner block. */
  lemma {:induction false} AtBottomIs(env: Env, ws: Workspace, c: Id, ins: Id, x: int, y: int)
    requires IsCBlockId(ws, c) && Resolves(ws, ins) && |InnerBlocks(ws, c)| > 0
    ensures var inner := InnerBlocks(ws, c); var last := inner[|inner| - 1];
      && Resolves(ws, last) && InArena(ws, inner)
      && InsertY(env, ws, c, y, true) == ws[last].y + StackHeight(env, ws[last])
  {
    assert IsWalkFrom(ws, Down, ws[c].substack, InnerBlocks(ws, c));
  }

  /** The chain from an arena block is made of distinct arena blocks. */
  lemma {:induction false} ChainInArena(ws: Workspace, s: Id)
    requires Resolves(ws, s)
    ensures InArena(ws, ChainBlocks(ws, s)) && Distinct(ChainBlocks(ws, s))
  {
    assert IsWalkFrom(ws, Down, s, ChainBlocks(ws, s));
  }

  lemma {:induction false} PositionsAtTop(env: Env, ws: Workspace, c: Id, ins: Id, x: int, y: int)
    requires IsCBlockId(ws, c) && Resolves(ws, ins) && |InnerBlocks(ws, c)| > 0
    requires Disjoint(InnerBlocks(ws, c), ChainBlocks(ws, ins))
    ensures InsidePlaced(ws, InsertInsideUnsynced(env, ws, c, ins, x, y, false), ChainBlocks(ws, ins), InnerBlocks(ws, c), x, y,
                         SumOver(ws, ChainBlocks(ws, ins), StackStep(env)), StackStep(env))
  {
    var chain := ChainBlocks(ws, ins);
    var inner := InnerBlocks(ws, c);
    var r := InsertInsideUnsynced(env, ws, c, ins, x, y, false);
    assert IsWalkFrom(ws, Down, ins, chain);
    assert IsWalkFrom(ws, Down, ws[c].substack, inner);
    assert r == InsertAtTop(env, ws, c, ins, chain, inner, x, y);
    InsertAtTopPlaces(env, ws, c, ins, chain, inner, x, y);
  }

  /**
    The sync that ends insertBlockInside moves only the blocks below the
    container, all by the same amount, and leaves every other block as the
    insertion placed it.
  */
  lemma {:induction false} InsertInsideMoves(env: Env, ws: Workspace, c: Id, ins: Id, x: int, y: int, atBottom: bool)
    requires IsCBlockId(ws, c) && Resolves(ws, ins)
    ensures var w := InsertInsideUnsynced(env, ws, c, ins, x, y, atBottom);
      var r := InsertInside(env, ws, c, ins, x, y, atBottom);
      forall k :: 0 <= k < |ws| && k != c ==>
        r[k] == (if k in BlocksAfter(w, c) then w[k].(y := w[k].y + SyncDelta(env, w, c)) else w[k])
  {
    var w := InsertInsideUnsynced(env, ws, c, ins, x, y, atBottom);
    assert InsertInside(env, ws, c, ins, x, y, atBottom) == SyncHeight(env, w, c);
    SyncMovesAfter(env, w, c);
  }

  /** A sync moves the blocks below the container by its sync difference, and nothing else but the container. */
  lemma {:induction false} SyncMovesAfter(env: Env, w: Workspace, c: Id)
    requires IsCBlockId(w, c)
    ensures forall k :: 0 <= k < |w| && k != c ==>
      SyncHeight(env, w, c)[k] == (if k in BlocksAfter(w, c) then w[k].(y := w[k].y + SyncDelta(env, w, c)) else w[k])
  {
  }

  /** `s.slice(n)`: the ids from position `n` on, empty past the end. */
  function Drop(s: seq<Id>, n: nat): (r: seq<Id>)
    ensures |s| <= n ==> r == []
  {
    if n < |s| then s[n..] else []
  }

  /**
    removeBlockFromInside after its early returns and before its final height
    sync, for the block `rem` at position `i` of the inner chain `inner` and the
    chain `removeChain` from `rem`: the removed chain is cut off the inner
    chain, `rem` becomes a top-level block, and the inner blocks after the
    removed chain move up by its height.
  */
  function RemoveUnsynced(env: Env, ws: Workspace, c: Id, rem: Id, inner: seq<Id>, i: nat, removeChain: seq<Id>): (r: Workspace)
    requires Resolves(ws, c) && Resolves(ws, rem) && i < |inner| && InArena(ws, inner) && InArena(ws, removeChain)
    ensures |r| == |ws| && r[c].kind == ws[c].kind
    ensures r[rem].parent == NoId && !r[rem].topConnected && r[rem].topLevel
  {
    var h := SumOver(ws, removeChain, StackStep(env));
    var w1 :=
      if i == 0 then
        if |removeChain| < |inner| then
          var nb := inner[|removeChain|];
          var v := ws[c := ws[c].(substack := nb)];
          v[nb := v[nb].(parent := c)]
        else ws[c := ws[c].(substack := NoId)]
      else
        var prev := inner[i - 1];
        ws[prev := ws[prev].(next := NoId, bottomConnected := false)];
    var w2 := w1[rem := w1[rem].(parent := NoId, topConnected := false, topLevel := true)];
    Shift(w2, Members(Drop(inner, i + |removeChain|)), 0, -h)
  }

  /** The unsynced removal with the values the program computes for it. */
  function RemoveCut(env: Env, ws: Workspace, c: Id, rem: Id): (r: Workspace)
    requires IsCBlockId(ws, c) && rem in InnerBlocks(ws, c)
    ensures |r| == |ws| && Resolves(ws, rem) && IsCBlockId(r, c)
  {
    var inner := InnerBlocks(ws, c);
    RemoveUnsynced(env, ws, c, rem, inner, IndexOf(inner, rem), ChainBlocks(ws, rem))
  }

  /**
    removeBlockFromInside: nothing happens unless `c` is a c-block and `rem` is
    one of its inner blocks; otherwise the removal is followed by a height sync.
  */
  function RemoveFromInside(env: Env, ws: Workspace, c: Id, rem: Id): (r: Workspace)
    ensures !IsCBlockId(ws, c) || rem !in InnerBlocks(ws, c) ==> r == ws
    ensures IsCBlockId(ws, c) && rem in InnerBlocks(ws, c) ==>
      var w := RemoveCut(env, ws, c, rem);
      && MovedExcept(w, r, c)
      && (BaseHeight(env) >= 0 ==>
            StoredOr(r[c].height, BaseHeight(env)) == BaseHeight(env) + EffectiveInnerHeight(env, w, c))
  {
    if !IsCBlockId(ws, c) then ws
    else
      var inner := InnerBlocks(ws, c);
      if |inner| == 0 then ws
      else if IndexOf(inner, rem) == -1 then ws
      else SyncHeight(env, RemoveCut(env, ws, c, rem), c)
  }

  /**
    The chain from a removed block is exactly the rest of the inner chain, so
    the removed chain and the blocks before it make up the whole inner chain.
  */
  lemma {:induction false} RemovedChainIsRest(ws: Workspace, c: Id, rem: Id)
    requires IsCBlockId(ws, c) && rem in InnerBlocks(ws, c) && ChainEnds(ws, InnerBlocks(ws, c))
    ensures var inner := InnerBlocks(ws, c);
      ChainBlocks(ws, rem) == inner[IndexOf(inner, rem)..]
  {
    var inner := InnerBlocks(ws, c);
    RestOfEndedWalk(ws, inner, IndexOf(inner, rem));
  }

  /**
    Nothing is left below the removed chain: the chain from the removed block
    reaches the end of the inner chain, so the branch for a first block whose
    chain is shorter than the inner chain is never taken and no inner block
    moves up.
  */
  lemma {:induction false} RemoveLeavesNothingBelow(ws: Workspace, c: Id, rem: Id)
    requires IsCBlockId(ws, c) && rem in InnerBlocks(ws, c)
    ensures var inner := InnerBlocks(ws, c);
      IndexOf(inner, rem) + |ChainBlocks(ws, rem)| >= |inner|
  {
    var inner := InnerBlocks(ws, c);
    RestOfWalk(ws, inner, IndexOf(inner, rem));
  }

  /**
    The link writes of a removal that takes the rest of the inner chain: a
    removal from the top empties the container, a later one ends the inner
    chain at the block before `rem`; no other `next` link changes.
  */
  lemma {:induction false} RemoveUnsyncedLinks(env: Env, ws: Workspace, c: Id, rem: Id, inner: seq<Id>, i: nat, removeChain: seq<Id>)
    requires Resolves(ws, c) && Resolves(ws, rem) && i < |inner| && InArena(ws, inner) && InArena(ws, removeChain)
    requires c != rem && (i > 0 ==> c != inner[i - 1]) && (i == 0 ==> |removeChain| >= |inner|)
    ensures var r := RemoveUnsynced(env, ws, c, rem, inner, i, removeChain);
      && (i == 0 ==> r[c].substack == NoId)
      && (i > 0 ==> r[c].substack == ws[c].substack && r[inner[i - 1]].next == NoId)
      && forall k :: 0 <= k < |ws| && (i == 0 || k != inner[i - 1]) ==> r[k].next == ws[k].next
  {
  }

  /** A removal at a later position leaves the inner chain up to the removed block. */
  lemma {:induction false} CutInnerLater(env: Env, ws: Workspace, c: Id, inner: seq<Id>, i: nat, removeChain: seq<Id>)
    requires 0 < i < |inner| && IsWalkFrom(ws, Down, inner[0], inner) && InArena(ws, removeChain)
    requires IsCBlockId(ws, c) && ws[c].substack == inner[0] && c !in inner
    ensures InnerBlocks(RemoveUnsynced(env, ws, c, inner[i], inner, i, removeChain), c) == inner[..i]
  {
    CutKeepsAbove(env, ws, c, inner, i, removeChain);
    ChainCut(ws, RemoveUnsynced(env, ws, c, inner[i], inner, i, removeChain), inner, i);
  }

  /** A removal at a later position keeps the links above the block before it, and ends the chain there. */
  lemma {:induction false} CutKeepsAbove(env: Env, ws: Workspace, c: Id, inner: seq<Id>, i: nat, removeChain: seq<Id>)
    requires 0 < i < |inner| && LinkedPath(ws, Down, inner) && InArena(ws, removeChain)
    requires Resolves(ws, c) && c !in inner
    ensures var w := RemoveUnsynced(env, ws, c, inner[i], inner, i, removeChain);
      && w[c].substack == ws[c].substack
      && !Resolves(w, w[inner[i - 1]].next)
      && forall j :: 0 <= j < i - 1 ==> w[inner[j]].next == ws[inner[j]].next
  {
    assert InArena(ws, inner) && Distinct(inner) && c != inner[i] && c != inner[i - 1];
    RemoveUnsyncedLinks(env, ws, c, inner[i], inner, i, removeChain);
    CutAt(ws, RemoveUnsynced(env, ws, c, inner[i], inner, i, removeChain), inner, i);
  }

  /** Ending the chain at `inner[i - 1]` and changing no other `next` keeps the links above it. */
  lemma {:induction false} CutAt(ws: Workspace, w: Workspace, inner: seq<Id>, i: nat)
    requires 0 < i < |inner| && InArena(ws, inner) && Distinct(inner) && |w| == |ws|
    requires w[inner[i - 1]].next == NoId
    requires forall k :: 0 <= k < |ws| && k != inner[i - 1] ==> w[k].next == ws[k].next
    ensures !Resolves(w, w[inner[i - 1]].next)
    ensures forall j :: 0 <= j < i - 1 ==> w[inner[j]].next == ws[inner[j]].next
  {
    DistinctBefore(inner, i - 1);
  }

  /**
    After a removal the container holds the inner blocks above the removed
    one: none when the first inner block is removed.
  */
  lemma {:induction false} RemoveInnerChain(env: Env, ws: Workspace, c: Id, rem: Id)
    requires IsCBlockId(ws, c) && rem in InnerBlocks(ws, c) && c !in InnerBlocks(ws, c)
    ensures var inner := InnerBlocks(ws, c);
      InnerBlocks(RemoveFromInside(env, ws, c, rem), c) == inner[..IndexOf(inner, rem)]
  {
    var inner := InnerBlocks(ws, c);
    var i := IndexOf(inner, rem);
    var w := RemoveCut(env, ws, c, rem);
    var r := RemoveFromInside(env, ws, c, rem);
    OnlyGeometrySameLinks(w, r);
    InnerBlocksSameLinks(w, r, c);
    RemoveLeavesNothingBelow(ws, c, rem);
    if i == 0 {
      RemoveUnsyncedLinks(env, ws, c, rem, inner, i, ChainBlocks(ws, rem));
    } else {
      CutInnerLater(env, ws, c, inner, i, ChainBlocks(ws, rem));
    }
  }

  /** A removal keeps the `next` links along the rest of the inner chain from the removed block. */
  lemma {:induction false} CutKeepsRest(env: Env, ws: Workspace, c: Id, inner: seq<Id>, i: nat, removeChain: seq<Id>)
    requires i < |inner| && LinkedPath(ws, Down, inner) && InArena(ws, removeChain)
    requires Resolves(ws, c) && c !in inner && (i == 0 ==> |removeChain| >= |inner|)
    ensures var w := RemoveUnsynced(env, ws, c, inner[i], inner, i, removeChain); var p := inner[i..];
      forall j :: 0 <= j < |p| ==> w[p[j]].next == ws[p[j]].next
  {
    assert InArena(ws, inner) && Distinct(inner) && c != inner[i] && (i > 0 ==> c != inner[i - 1]);
    RemoveUnsyncedLinks(env, ws, c, inner[i], inner, i, removeChain);
    RestAt(ws, RemoveUnsynced(env, ws, c, inner[i], inner, i, removeChain), inner, i);
  }

  /** Changing no `next` but, past the first position, the one of `inner[i - 1]` keeps the links from `inner[i]` on. */
  lemma {:induction false} RestAt(ws: Workspace, w: Workspace, inner: seq<Id>, i: nat)
    requires i < |inner| && InArena(ws, inner) && Distinct(inner) && |w| == |ws|
    requires forall k :: 0 <= k < |ws| && (i == 0 || k != inner[i - 1]) ==> w[k].next == ws[k].next
    ensures var p := inner[i..]; forall j :: 0 <= j < |p| ==> w[p[j]].next == ws[p[j]].next
  {
    if i > 0 {
      DistinctAfter(inner, i - 1);
    }
    var p := inner[i..];
    forall j | 0 <= j < |p|
      ensures w[p[j]].next == ws[p[j]].next
    {
      assert p[j] == inner[i + j];
    }
  }

  /**
    The removed chain leaves the container whole: it is the rest of the inner
    chain from the removed block, in the same order, and its head is now a
    top-level block with no parent.
  */
  lemma {:induction false} RemovedChainKept(env: Env, ws: Workspace, c: Id, rem: Id)
    requires IsCBlockId(ws, c) && rem in InnerBlocks(ws, c) && c !in InnerBlocks(ws, c)
    requires ChainEnds(ws, InnerBlocks(ws, c))
    ensures var inner := InnerBlocks(ws, c); var r := RemoveFromInside(env, ws, c, rem);
      && ChainBlocks(r, rem) == inner[IndexOf(inner, rem)..]
      && r[rem].parent == NoId && r[rem].topLevel && !r[rem].topConnected
  {
    var inner := InnerBlocks(ws, c);
    var i := IndexOf(inner, rem);
    var w := RemoveCut(env, ws, c, rem);
    var r := RemoveFromInside(env, ws, c, rem);
    RemovedChainIsRest(ws, c, rem);
    RemoveLeavesNothingBelow(ws, c, rem);
    CutKeepsRest(env, ws, c, inner, i, ChainBlocks(ws, rem));
    WalkKept(ws, w, inner[i..]);
    OnlyGeometrySameLinks(w, r);
    ChainSameLinks(w, r, rem);
  }

  /** After a removal the container is in sync with what is left inside it. */
  lemma {:induction false} RemoveInSync(env: Env, ws: Workspace, c: Id, rem: Id)
    requires IsCBlockId(ws, c) && rem in InnerBlocks(ws, c) && c !in InnerBlocks(ws, c)
    requires BaseHeight(env) >= 0
    ensures InSync(env, RemoveFromInside(env, ws, c, rem), c)
  {
    var inner := InnerBlocks(ws, c);
    var w := RemoveCut(env, ws, c, rem);
    var r := RemoveFromInside(env, ws, c, rem);
    RemoveInnerChain(env, ws, c, rem);
    OnlyGeometrySameLinks(w, r);
    InnerBlocksSameLinks(w, r, c);
    assert c !in inner[..IndexOf(inner, rem)];
    InnerHeightMovedExcept(env, w, r, c);
  }

  /**
    Dropping a chain at the bottom of a container, or into an empty one, and
    then dragging it out by its head gives back the container's inner chain.
  */
  lemma {:induction false} InsertThenRemove(env: Env, ws: Workspace, c: Id, ins: Id, x: int, y: int, atBottom: bool)
    requires IsCBlockId(ws, c) && Resolves(ws, ins)
    requires Disjoint(InnerBlocks(ws, c), ChainBlocks(ws, ins))
    requires c !in InnerBlocks(ws, c) && c !in ChainBlocks(ws, ins)
    requires atBottom || InnerBlocks(ws, c) == []
    ensures InnerBlocks(RemoveFromInside(env, InsertInside(env, ws, c, ins, x, y, atBottom), c, ins), c) == InnerBlocks(ws, c)
  {
    var inner := InnerBlocks(ws, c);
    var chain := ChainBlocks(ws, ins);
    var r1 := InsertInside(env, ws, c, ins, x, y, atBottom);
    InsertInsideChain(env, ws, c, ins, x, y, atBottom);
    var inner1 := inner + chain;
    assert inner == [] ==> inner1 == chain;
    assert InnerBlocks(r1, c) == inner1;
    assert inner1[|inner|] == ins;
    DisjointSym(inner, chain);
    assert ins !in inner;
    IndexOfAppend(inner, chain, ins);
    RemoveInnerChain(env, r1, c, ins);
    assert inner1[..|inner|] == inner;
  }

  /** getCBlockConnectorCount: 0 for other blocks, 2 with inner blocks, 3 when empty. */
  function ConnectorCount(ws: Workspace, c: Id): (r: nat)
    ensures !IsCBlockId(ws, c) <==> r == 0
    ensures r == 2 <==> HasInnerBlocks(ws, c)
    ensures r == 3 <==> IsCBlockId(ws, c) && ws[c].substack == NoId
  {
    if !IsCBlockId(ws, c) then 0 else if HasInnerBlocks(ws, c) then 2 else 3
  }

  /** getInsertPosition: the slot of the first inner block, offset from the container's origin. */
  function InsertPosition(ws: Workspace, c: Id): (r: Point)
    requires Resolves(ws, c)
    ensures r.x - ws[c].x == InnerOffsetX && r.y - ws[c].y == InnerOffsetY
  {
    Point(ws[c].x + InnerOffsetX, ws[c].y + InnerOffsetY)
  }
}

=== FILE: chain_split.dfy ===
/**
  The insertion preview while a chain is dragged (src/ui/drag/ChainSplitManager.js).
  To show where a dragged chain would go, the blocks below the insertion point
  are pushed down by the dragged block's height, and their original positions
  are recorded so that closing the preview puts them back. At most one such
  reservation exists at a time: asking for a different one first closes the
  current one.

  The manager works on two documents: the workspace, where the blocks that move
  live, and the drag overlay, where the dragged chain lives while it is dragged.
  Both are arenas here.
*/
module ChainSplit {
  import opened Model
  import opened BlockChain
  import opened DragHelpers

  /**
    The manager's current reservation: none, a gap opened in a chain below
    `target`, or a gap opened at the top of a c-block's inner chain.
  */
  datatype SplitState =
    | NoSplit
    | ChainSplit(target: Id, lower: Id, original: map<Id, Point>, splitHeight: int, totalInsertHeight: int)
    | InnerSplit(cBlock: Id, innerBlocks: seq<Id>, original: map<Id, Point>, splitHeight: int)

  /** The height of a block's shape, as a function of the block alone. */
  function Heights(env: Env): Block -> int {
    b => PathHeight(env, b)
  }

  /** The program's running total: the heights of `chain` added to `acc` one block at a time. */
  function AddHeights(ws: Workspace, env: Env, chain: seq<Id>, acc: int): int
    requires forall i :: 0 <= i < |chain| ==> 0 <= chain[i] < |ws|
    decreases |chain|
  {
    if chain == [] then acc else AddHeights(ws, env, chain[1..], acc + PathHeight(env, ws[chain[0]]))
  }

  /** The running total is the sum of the heights. */
  lemma {:induction false} AddHeightsIsSum(ws: Workspace, env: Env, chain: seq<Id>, acc: int)
    requires forall i :: 0 <= i < |chain| ==> 0 <= chain[i] < |ws|
    ensures AddHeights(ws, env, chain, acc) == acc + SumOver(ws, chain, Heights(env))
    decreases |chain|
  {
    if chain != [] {
      AddHeightsIsSum(ws, env, chain[1..], acc + PathHeight(env, ws[chain[0]]));
    }
  }

  /** Puts every block of `ids` that has a recorded position back at it. */
  function Restore(ws: Workspace, ids: set<Id>, original: map<Id, Point>): (r: Workspace)
    ensures |r| == |ws| && OnlyMoved(ws, r)
    ensures forall k :: 0 <= k < |ws| ==>
      r[k] == if k in ids && k in original then ws[k].(x := original[k].x, y := original[k].y) else ws[k]
  {
    seq(|ws|, k requires 0 <= k < |ws| =>
      if k in ids && k in original then ws[k].(x := original[k].x, y := original[k].y) else ws[k])
  }

  /**
    splitChainForInsertion: nothing happens when `target` has no next block
    or it is missing. Otherwise the chain below `target` moves down by the
    dragged block's height, x unchanged, and the reservation records its
    original positions, that height and the dragged chain's total height.
  */
  function SplitChainForInsertion(ws: Workspace, overlay: Workspace, env: Env, target: Id, dragged: Id): (r: (SplitState, Workspace))
    requires Resolves(ws, target) && Resolves(overlay, dragged)
    ensures !Resolves(ws, ws[target].next) ==> r == (NoSplit, ws)
    ensures Resolves(ws, ws[target].next) ==>
      && r.0.ChainSplit? && r.0.target == target && r.0.lower == ws[target].next
      && r.0.original == Positions(ws, ChainBlocks(ws, ws[target].next))
      && r.0.splitHeight == PathHeight(env, overlay[dragged])
      && r.0.totalInsertHeight == SumOver(overlay, ChainBlocks(overlay, dragged), Heights(env))
      && r.1 == OpenGap(ws, ChainBlocks(ws, ws[target].next), PathHeight(env, overlay[dragged]))
  {
    var lower := ws[target].next;
    if !Resolves(ws, lower) then (NoSplit, ws)
    else
      var h := PathHeight(env, overlay[dragged]);
      var lowerChain := ChainBlocks(ws, lower);
      (ChainSplit(target, lower, Positions(ws, lowerChain), h, TotalInsertHeight(overlay, env, dragged)),
       OpenGap(ws, lowerChain, h))
  }

  /** The dragged chain's total height, added up block by block as the program does. */
  function TotalInsertHeight(overlay: Workspace, env: Env, dragged: Id): (t: int)
    ensures t == SumOver(overlay, ChainBlocks(overlay, dragged), Heights(env))
  {
    var chain := ChainBlocks(overlay, dragged);
    AddHeightsIsSum(overlay, env, chain, 0);
    AddHeights(overlay, env, chain, 0)
  }

  /** Moves the blocks `ids` down by `h`, leaving x and every other block as they are. */
  function OpenGap(ws: Workspace, ids: seq<Id>, h: int): (r: Workspace)
    ensures |r| == |ws| && OnlyMoved(ws, r)
    ensures forall k :: 0 <= k < |ws| ==> r[k] == if k in ids then ws[k].(y := ws[k].y + h) else ws[k]
  {
    Shift(ws, Members(ids), 0, h)
  }

  /**
    splitCBlockInner: nothing happens without a block, without an inner
    chain, or when its first block is missing. Otherwise every inner block
    moves down by the dragged block's height, and the reservation records the
    inner blocks and their original positions.
  */
  function SplitCBlockInner(ws: Workspace, overlay: Workspace, env: Env, c: Id, dragged: Id): (r: (SplitState, Workspace))
    requires Resolves(overlay, dragged)
    ensures !Resolves(ws, c) || !Resolves(ws, ws[c].substack) ==> r == (NoSplit, ws)
    ensures Resolves(ws, c) && Resolves(ws, ws[c].substack) ==>
      && r.0.InnerSplit? && r.0.cBlock == c && r.0.innerBlocks == ChainBlocks(ws, ws[c].substack)
      && r.0.original == Positions(ws, r.0.innerBlocks)
      && r.0.splitHeight == PathHeight(env, overlay[dragged])
      && r.1 == OpenGap(ws, r.0.innerBlocks, PathHeight(env, overlay[dragged]))
  {
    if !Resolves(ws, c) || !Resolves(ws, ws[c].substack) then (NoSplit, ws)
    else
      var inner := ChainBlocks(ws, ws[c].substack);
      var h := PathHeight(env, overlay[dragged]);
      (InnerSplit(c, inner, Positions(ws, inner), h), OpenGap(ws, inner, h))
  }

  /**
    closeSplit: the blocks of the reservation go back to their recorded
    positions and the reservation ends. For a chain gap these are the blocks
    now in the chain below the lower block; for an inner gap, the recorded
    inner blocks. Without a reservation nothing happens.
  */
  function CloseSplit(s: SplitState, ws: Workspace): (r: Workspace)
    ensures OnlyMoved(ws, r)
    ensures s.NoSplit? ==> r == ws
  {
    match s
    case NoSplit => ws
    case ChainSplit(_, lower, original, _, _) => Restore(ws, Members(ChainBlocks(ws, lower)), original)
    case InnerSplit(_, inner, original, _) => Restore(ws, Members(inner), original)
  }

  /** Pushing the blocks `ids` down and restoring their recorded positions gives the arena back. */
  lemma {:induction false} ShiftRestore(ws: Workspace, ids: seq<Id>, h: int)
    ensures Restore(OpenGap(ws, ids, h), Members(ids), Positions(ws, ids)) == ws
  {
    var w := OpenGap(ws, ids, h);
    var r := Restore(w, Members(ids), Positions(ws, ids));
    assert forall k :: 0 <= k < |ws| ==> r[k] == ws[k];
  }

  /** Closing a chain gap right after opening it puts every block back: the preview leaves no trace. */
  lemma {:induction false} SplitThenClose(ws: Workspace, overlay: Workspace, env: Env, target: Id, dragged: Id)
    requires Resolves(ws, target) && Resolves(overlay, dragged)
    ensures var r := SplitChainForInsertion(ws, overlay, env, target, dragged);
      CloseSplit(r.0, r.1) == ws
  {
    var lower := ws[target].next;
    if Resolves(ws, lower) {
      ChainShiftRestore(ws, lower, ChainBlocks(ws, lower), PathHeight(env, overlay[dragged]));
    }
  }

  /** Pushing a chain down and restoring the chain found from the same block gives the arena back. */
  lemma {:induction false} ChainShiftRestore(ws: Workspace, lower: Id, chain: seq<Id>, h: int)
    requires chain == ChainBlocks(ws, lower)
    ensures var w := OpenGap(ws, chain, h);
      Restore(w, Members(ChainBlocks(w, lower)), Positions(ws, chain)) == ws
  {
    var w := OpenGap(ws, chain, h);
    ChainOnlyMoved(ws, w, lower);
    ShiftRestore(ws, chain, h);
  }

  /** Closing an inner gap right after opening it puts every block back. */
  lemma {:induction false} InnerSplitThenClose(ws: Workspace, overlay: Workspace, env: Env, c: Id, dragged: Id)
    requires Resolves(overlay, dragged)
    ensures var r := SplitCBlockInner(ws, overlay, env, c, dragged);
      CloseSplit(r.0, r.1) == ws
  {
    if Resolves(ws, c) && Resolves(ws, ws[c].substack) {
      var inner := ChainBlocks(ws, ws[c].substack);
      var h := PathHeight(env, overlay[dragged]);
      assert SplitCBlockInner(ws, overlay, env, c, dragged) == (InnerSplit(c, inner, Positions(ws, inner), h), OpenGap(ws, inner, h));
      CloseInnerGap(ws, c, inner, h);
    }
  }

  /** Closing the inner gap recorded for `inner` restores the arena it was opened in. */
  lemma {:induction false} CloseInnerGap(ws: Workspace, c: Id, inner: seq<Id>, h: int)
    ensures CloseSplit(InnerSplit(c, inner, Positions(ws, inner), h), OpenGap(ws, inner, h)) == ws
  {
    var w := OpenGap(ws, inner, h);
    assert CloseSplit(InnerSplit(c, inner, Positions(ws, inner), h), w) == Restore(w, Members(inner), Positions(ws, inner));
    ShiftRestore(ws, inner, h);
  }

  /**
    ensureSplit: a chain gap below `target` that is already open stays as it
    is; otherwise the current reservation is closed first and a new gap is
    opened below `target`.
  */
  function EnsureSplit(s: SplitState, ws: Workspace, overlay: Workspace, env: Env, target: Id, dragged: Id): (r: (SplitState, Workspace))
    requires Resolves(ws, target) && Resolves(overlay, dragged)
    ensures r.0.NoSplit? || (r.0.ChainSplit? && r.0.target == target)
    ensures s.ChainSplit? && s.target == target ==> r == (s, ws)
    ensures |r.1| == |ws|
  {
    if s.ChainSplit? && s.target == target then (s, ws)
    else SplitChainForInsertion(CloseSplit(s, ws), overlay, env, target, dragged)
  }

  /**
    ensureCBlockInnerSplit: an inner gap in `c` that is already open stays as
    it is; otherwise the current reservation is closed first and a new inner
    gap is opened in `c`.
  */
  function EnsureInnerSplit(s: SplitState, ws: Workspace, overlay: Workspace, env: Env, c: Id, dragged: Id): (r: (SplitState, Workspace))
    requires Resolves(overlay, dragged)
    ensures r.0.NoSplit? || (r.0.InnerSplit? && r.0.cBlock == c)
    ensures s.InnerSplit? && s.cBlock == c ==> r == (s, ws)
    ensures |r.1| == |ws|
  {
    if s.InnerSplit? && s.cBlock == c then (s, ws)
    else SplitCBlockInner(CloseSplit(s, ws), overlay, env, c, dragged)
  }

  /** ensureSplit is idempotent: asking again for the same gap shifts nothing more. */
  lemma {:induction false} EnsureSplitIdempotent(s: SplitState, ws: Workspace, overlay: Workspace, env: Env, target: Id, dragged: Id)
    requires Resolves(ws, target) && Resolves(overlay, dragged)
    ensures var r := EnsureSplit(s, ws, overlay, env, target, dragged);
      EnsureSplit(r.0, r.1, overlay, env, target, dragged) == r
  {
  }

  /** ensureCBlockInnerSplit is idempotent. */
  lemma {:induction false} EnsureInnerSplitIdempotent(s: SplitState, ws: Workspace, overlay: Workspace, env: Env, c: Id, dragged: Id)
    requires Resolves(overlay, dragged)
    ensures var r := EnsureInnerSplit(s, ws, overlay, env, c, dragged);
      EnsureInnerSplit(r.0, r.1, overlay, env, c, dragged) == r
  {
  }

  /**
    Whatever reservation was open, opening a chain gap and closing it ends
    where closing the old reservation would have: the gap adds nothing that
    closing does not undo.
  */
  lemma {:induction false} EnsureThenClose(s: SplitState, ws: Workspace, overlay: Workspace, env: Env, target: Id, dragged: Id)
    requires Resolves(ws, target) && Resolves(overlay, dragged)
    ensures var r := EnsureSplit(s, ws, overlay, env, target, dragged);
      CloseSplit(r.0, r.1) == CloseSplit(s, ws)
  {
    if !(s.ChainSplit? && s.target == target) {
      var w := CloseSplit(s, ws);
      SplitThenClose(w, overlay, env, target, dragged);
    }
  }

  /** The same for an inner gap. */
  lemma {:induction false} EnsureInnerThenClose(s: SplitState, ws: Workspace, overlay: Workspace, env: Env, c: Id, dragged: Id)
    requires Resolves(overlay, dragged)
    ensures var r := EnsureInnerSplit(s, ws, overlay, env, c, dragged);
      CloseSplit(r.0, r.1) == CloseSplit(s, ws)
  {
    if !(s.InnerSplit? && s.cBlock == c) {
      InnerSplitThenClose(CloseSplit(s, ws), overlay, env, c, dragged);
    }
  }
}

=== FILE: connection_manager.dfy ===
/**
  What happens when a dragged chain is dropped on a connector
  (src/ui/drag/ConnectionManager.js): the chain is laid out at its snap
  position, nested containers carry their inner blocks along, and the links
  are rewired for a top, bottom, inner or middle connection.

  `getNestedLevel` is not part of this model: the nesting level of a block is
  the parameter `level`. The layout never changes links, so the level of a
  block is the same before and after.
*/
module Connections {
  import opened Model
  import opened BlockChain
  import opened CBlocks
  import opened DragHelpers
  import opened Connectors
  import opened PositionCalculator
  import opened SpecialBlocks

  // ----- findContainingCBlock -----

  /** The position of the first c-block in `p`, or `|p|` when there is none. */
  function FirstCBlockAt(ws: Workspace, p: seq<Id>): (r: nat)
    ensures r <= |p|
    ensures r < |p| ==> IsCBlockId(ws, p[r])
    ensures forall j :: 0 <= j < r ==> !IsCBlockId(ws, p[j])
    decreases |p|
  {
    if p == [] then 0
    else if IsCBlockId(ws, p[0]) then 0
    else 1 + FirstCBlockAt(ws, p[1..])
  }

  /** The blocks above `b` through `parent` links, nearest first. */
  function Ancestors(ws: Workspace, b: Id): seq<Id>
    requires Resolves(ws, b)
  {
    UpPath(ws, b)[1..]
  }

  /**
    The parent walk from `b` stopped on a repeat that leads back to `b`
    itself, so the program's loop, after the blocks above `b`, looks at `b`
    again.
  */
  predicate BackToStart(ws: Workspace, b: Id)
    requires Resolves(ws, b)
  {
    var p := UpPath(ws, b);
    ws[p[|p| - 1]].parent == b
  }

  /**
    findContainingCBlock: the nearest block above `b`, through `parent`
    links, that is a c-block. When no block above `b` is a c-block but the
    parent links lead back to `b`, the program's loop meets `b` as a parent
    and returns it if it is a c-block. There is none for a missing block, or
    when the walk ends at an empty or dangling `parent` before meeting one;
    on any other cycle the program loops forever.
  */
  function FindContainingCBlock(ws: Workspace, b: Id): (r: Option<Id>)
    ensures !Resolves(ws, b) ==> r.None?
    ensures r.Some? ==> Resolves(ws, b) && IsCBlockId(ws, r.value) && (r.value in Ancestors(ws, b) || r.value == b)
    ensures r.Some? && r.value in Ancestors(ws, b) ==>
      forall j :: 0 <= j < IndexOf(Ancestors(ws, b), r.value) ==> !IsCBlockId(ws, Ancestors(ws, b)[j])
    ensures r.Some? && r.value !in Ancestors(ws, b) ==>
      BackToStart(ws, b) && forall a :: a in Ancestors(ws, b) ==> !IsCBlockId(ws, a)
    ensures Resolves(ws, b) && r.None? ==>
      && (forall a :: a in Ancestors(ws, b) ==> !IsCBlockId(ws, a))
      && !(BackToStart(ws, b) && IsCBlockId(ws, b))
  {
    if !Resolves(ws, b) then None
    else
      var anc := Ancestors(ws, b);
      var i := FirstCBlockAt(ws, anc);
      if i < |anc| then
        assert IndexOf(anc, anc[i]) <= i;
        Some(anc[i])
      else if BackToStart(ws, b) && IsCBlockId(ws, b) then
        Some(b)
      else None
  }

  /** A block whose parent is a c-block is contained in that c-block, even when that parent is the block itself. */
  lemma {:induction false} ParentContains(ws: Workspace, b: Id)
    requires Resolves(ws, b) && IsCBlockId(ws, ws[b].parent)
    ensures FindContainingCBlock(ws, b) == Some(ws[b].parent)
  {
    var p := UpPath(ws, b);
    if |p| == 1 {
      assert ws[b].parent == b by {
        assert !Resolves(ws, ws[b].parent) || ws[b].parent in p;
      }
      assert BackToStart(ws, b);
    } else {
      LinkedAt(ws, Up, p, 0);
    }
  }

  // ----- positionChainBlocks -----

  /** The step between two joined blocks: the upper block's height less the socket they share. */
  function JoinStep(env: Env): Block -> int {
    b => PathHeight(env, b) - env.socketHeight
  }

  /**
    positionChainBlocks: the first block of the chain goes to (x, y) and every
    later block below the one before it, overlapping it by the socket height.
    Only the positions of the chain's blocks change.
  */
  function PositionChainBlocks(env: Env, ws: Workspace, chain: seq<Id>, x: int, y: int): (r: Workspace)
    requires forall i :: 0 <= i < |chain| ==> 0 <= chain[i] < |ws|
    ensures OnlyMoved(ws, r)
    ensures forall k :: 0 <= k < |ws| && k !in chain ==> r[k] == ws[k]
  {
    Stack(ws, chain, x, y, JoinStep(env))
  }

  /** The first block of a laid-out chain sits at (x, y). */
  lemma {:induction false} PositionChainHead(env: Env, ws: Workspace, chain: seq<Id>, x: int, y: int)
    requires forall i :: 0 <= i < |chain| ==> 0 <= chain[i] < |ws|
    requires |chain| >= 1 && Distinct(chain)
    ensures var r := PositionChainBlocks(env, ws, chain, x, y);
      r[chain[0]].x == x && r[chain[0]].y == y
  {
    StackAt(ws, chain, x, y, JoinStep(env), 0);
    assert chain[..0] == [];
  }

  /**
    In a laid-out chain of distinct blocks every block shares the head's x,
    and each block sits at the y of the block above it plus that block's
    height less the socket height.
  */
  lemma {:induction false} PositionChainStep(env: Env, ws: Workspace, chain: seq<Id>, x: int, y: int, i: nat)
    requires forall j :: 0 <= j < |chain| ==> 0 <= chain[j] < |ws|
    requires Distinct(chain) && i + 1 < |chain|
    ensures var r := PositionChainBlocks(env, ws, chain, x, y);
      && r[chain[i + 1]].x == x
      && r[chain[i + 1]].y == r[chain[i]].y + PathHeight(env, ws[chain[i]]) - env.socketHeight
  {
    var f := JoinStep(env);
    StackAt(ws, chain, x, y, f, i);
    StackAt(ws, chain, x, y, f, i + 1);
    assert chain[..i + 1] == chain[..i] + [chain[i]];
    SumOverAppend(ws, chain[..i], [chain[i]], f);
    assert SumOver(ws, [chain[i]], f) == f(ws[chain[i]]) by {
      assert [chain[i]][1..] == [];
    }
  }

  // ----- shiftInnerBlocks -----

  /**
    A set of blocks closed under `next` and under the inner link of c-blocks:
    everything reachable from it by those links lies in it.
  */
  ghost predicate Closed(ws: Workspace, s: set<Id>) {
    forall k :: k in s ==>
      && 0 <= k < |ws|
      && (Resolves(ws, ws[k].next) ==> ws[k].next in s)
      && (ws[k].kind == CBlock && Resolves(ws, ws[k].substack) ==> ws[k].substack in s)
  }

  /** A closed set stays closed when blocks only move. */
  lemma {:induction false} ClosedOnlyMoved(ws: Workspace, w: Workspace, s: set<Id>)
    requires Closed(ws, s) && OnlyMoved(ws, w)
    ensures Closed(w, s)
  {
    forall k | k in s
      ensures ws[k].next == w[k].next && ws[k].kind == w[k].kind && ws[k].substack == w[k].substack
    {
    }
  }

  /** The chain from a block of a closed set lies in the set. */
  lemma {:induction false} ChainInClosed(ws: Workspace, s: set<Id>, b: Id)
    requires Closed(ws, s) && b in s
    ensures forall i :: 0 <= i < |ChainBlocks(ws, b)| ==> ChainBlocks(ws, b)[i] in s
  {
    var c := ChainBlocks(ws, b);
    var i := 0;
    while i < |c|
      invariant 0 <= i <= |c|
      invariant forall j :: 0 <= j < i ==> c[j] in s
    {
      if i > 0 {
        LinkedAt(ws, Down, c, i - 1);
      }
      i := i + 1;
    }
  }

  /** getAllChainBlocks from a block is closed under links. */
  lemma {:induction false} AllChainClosed(ws: Workspace, start: Id)
    requires Resolves(ws, start)
    ensures Closed(ws, Members(AllChainBlocks(ws, start))) && start in Members(AllChainBlocks(ws, start))
  {
    var all := AllChainBlocks(ws, start);
    forall k | k in Members(all)
      ensures && (Resolves(ws, ws[k].next) ==> ws[k].next in Members(all))
              && (ws[k].kind == CBlock && Resolves(ws, ws[k].substack) ==> ws[k].substack in Members(all))
    {
      if Resolves(ws, ws[k].next) {
        NextInAllChainBlocks(ws, start, k);
      }
      if ws[k].kind == CBlock && Resolves(ws, ws[k].substack) {
        InnerInAllChainBlocks(ws, start, k);
      }
    }
  }

  /** Where shiftInnerBlocks puts an inner block of a container at x `cx`. */
  function Aligned(env: Env, b: Block, id: Id, cx: int, dy: int, level: Id -> int): Block {
    b.(x := cx + level(id) * env.nestedXOffset, y := b.y + dy)
  }

  /** No block of `chain` is a c-block. */
  predicate Flat(ws: Workspace, chain: seq<Id>)
    requires forall i :: 0 <= i < |chain| ==> 0 <= chain[i] < |ws|
  {
    forall i :: 0 <= i < |chain| ==> ws[chain[i]].kind != CBlock
  }

  /**
    shiftInnerBlocks, within a set `s` of blocks closed under links that holds
    the container's inner chain: every block of the inner chain moves down by
    `dy` and is aligned to the container's x plus its nesting level times the
    nesting offset, and each nested c-block carries its own inner chain along.
    Only positions change, and only of blocks in `s`. When the inner chain
    holds no c-block, each of its blocks is moved exactly once. The recursion
    into nested containers is bounded by `fuel`.
  */
  method ShiftInner(env: Env, ws: Workspace, c: Id, dy: int, level: Id -> int, fuel: nat, ghost s: set<Id>)
    returns (r: Workspace)
    requires Closed(ws, s)
    requires IsCBlockId(ws, c) && Resolves(ws, ws[c].substack) ==> ws[c].substack in s
    ensures OnlyMoved(ws, r) && Closed(r, s)
    ensures forall k :: 0 <= k < |ws| && k !in s ==> r[k] == ws[k]
    ensures !IsCBlockId(ws, c) || !Resolves(ws, ws[c].substack) ==> r == ws
    ensures fuel > 0 && IsCBlockId(ws, c) && Resolves(ws, ws[c].substack) ==>
      var inner := ChainBlocks(ws, ws[c].substack);
      Flat(ws, inner) ==>
        forall i :: 0 <= i < |inner| ==> r[inner[i]] == Aligned(env, ws[inner[i]], inner[i], ws[c].x, dy, level)
    decreases fuel, 0
  {
    if fuel == 0 || !IsCBlockId(ws, c) || !Resolves(ws, ws[c].substack) {
      return ws;
    }
    var inner := ChainBlocks(ws, ws[c].substack);
    ChainInClosed(ws, s, ws[c].substack);
    var cx := ws[c].x;
    ghost var flat := Flat(ws, inner);
    r := ws;
    var i := 0;
    while i < |inner|
      invariant 0 <= i <= |inner|
      invariant OnlyMoved(ws, r) && Closed(r, s)
      invariant forall k :: 0 <= k < |ws| && k !in s ==> r[k] == ws[k]
      invariant flat ==> forall j :: 0 <= j < i ==> r[inner[j]] == Aligned(env, ws[inner[j]], inner[j], cx, dy, level)
      invariant flat ==> forall j :: i <= j < |inner| ==> r[inner[j]] == ws[inner[j]]
    {
      var b := inner[i];
      var w := ShiftStep(env, r, b, cx + level(b) * env.nestedXOffset, dy, level, fuel - 1, s);
      OnlyMovedTrans(ws, r, w);
      if flat {
        FlatAdvance(env, ws, r, w, inner, i, cx, dy, level);
      }
      r := w;
      i := i + 1;
    }
  }

  /**
    One block of the loop of shiftInnerBlocks: `b` goes to x and down by `dy`,
    and a c-block carries its inner chain along.
  */
  method ShiftStep(env: Env, ws: Workspace, b: Id, x: int, dy: int, level: Id -> int, fuel: nat, ghost s: set<Id>)
    returns (r: Workspace)
    requires Closed(ws, s) && b in s
    ensures OnlyMoved(ws, r) && Closed(r, s)
    ensures forall k :: 0 <= k < |ws| && k !in s ==> r[k] == ws[k]
    ensures ws[b].kind != CBlock ==>
      r[b] == ws[b].(x := x, y := ws[b].y + dy) && forall k :: 0 <= k < |ws| && k != b ==> r[k] == ws[k]
    decreases fuel, 1
  {
    r := SetPos(ws, b, x, ws[b].y + dy);
    ClosedOnlyMoved(ws, r, s);
    if r[b].kind == CBlock {
      var w := ShiftInner(env, r, b, dy, level, fuel, s);
      OnlyMovedTrans(ws, r, w);
      r := w;
    }
  }

  /** The flat-chain invariant of shiftInnerBlocks carries over one step of the loop. */
  lemma {:induction false} FlatAdvance(env: Env, ws: Workspace, r: Workspace, w: Workspace, inner: seq<Id>, i: nat,
                                       cx: int, dy: int, level: Id -> int)
    requires forall j :: 0 <= j < |inner| ==> 0 <= inner[j] < |ws|
    requires Distinct(inner) && i < |inner| && |r| == |ws| && |w| == |ws|
    requires forall j :: 0 <= j < i ==> r[inner[j]] == Aligned(env, ws[inner[j]], inner[j], cx, dy, level)
    requires forall j :: i <= j < |inner| ==> r[inner[j]] == ws[inner[j]]
    requires var b := inner[i];
      && w[b] == r[b].(x := cx + level(b) * env.nestedXOffset, y := r[b].y + dy)
      && forall k :: 0 <= k < |ws| && k != b ==> w[k] == r[k]
    ensures forall j :: 0 <= j < i + 1 ==> w[inner[j]] == Aligned(env, ws[inner[j]], inner[j], cx, dy, level)
    ensures forall j :: i + 1 <= j < |inner| ==> w[inner[j]] == ws[inner[j]]
  {
    forall j | 0 <= j < |inner| && j != i
      ensures inner[j] != inner[i]
    {
      if j < i {
        DistinctAt(inner, j, i);
      } else {
        DistinctAt(inner, i, j);
      }
    }
  }

  /**
    shiftInnerBlocks: only positions change, nothing happens for a block that
    is not a c-block or has no inner chain, and every block that moves is an
    inner block of the container, directly or through nested containers. The
    recursion into nested containers is bounded by the number of blocks.
  */
  method ShiftInnerBlocks(env: Env, ws: Workspace, c: Id, dy: int, level: Id -> int) returns (r: Workspace)
    ensures OnlyMoved(ws, r)
    ensures !IsCBlockId(ws, c) || !Resolves(ws, ws[c].substack) ==> r == ws
    ensures IsCBlockId(ws, c) && Resolves(ws, ws[c].substack) ==>
      forall k :: 0 <= k < |ws| && k !in AllChainBlocks(ws, ws[c].substack) ==> r[k] == ws[k]
    ensures IsCBlockId(ws, c) && Resolves(ws, ws[c].substack) ==>
      var inner := ChainBlocks(ws, ws[c].substack);
      Flat(ws, inner) ==>
        forall i :: 0 <= i < |inner| ==> r[inner[i]] == Aligned(env, ws[inner[i]], inner[i], ws[c].x, dy, level)
  {
    if !IsCBlockId(ws, c) || !Resolves(ws, ws[c].substack) {
      return ws;
    }
    ghost var all := Members(AllChainBlocks(ws, ws[c].substack));
    AllChainClosed(ws, ws[c].substack);
    r := ShiftInner(env, ws, c, dy, level, |ws|, all);
  }

  // ----- shiftInnerBlocksInChain -----

  /**
    shiftInnerBlocksInChain: every c-block of the chain whose y differs from
    its saved y (0 when none was saved) carries its inner blocks along by the
    difference. Only positions change; when no c-block of the chain has moved,
    nothing changes.
  */
  method ShiftInnerBlocksInChain(env: Env, ws: Workspace, chain: seq<Id>, saved: map<Id, Point>, level: Id -> int)
    returns (r: Workspace)
    requires forall i :: 0 <= i < |chain| ==> 0 <= chain[i] < |ws|
    ensures OnlyMoved(ws, r)
    ensures (forall i :: 0 <= i < |chain| ==> ws[chain[i]].kind == CBlock ==>
               chain[i] in saved && saved[chain[i]].y == ws[chain[i]].y) ==> r == ws
  {
    ghost var settled := forall i :: 0 <= i < |chain| ==> ws[chain[i]].kind == CBlock ==>
      chain[i] in saved && saved[chain[i]].y == ws[chain[i]].y;
    r := ws;
    var i := 0;
    while i < |chain|
      invariant 0 <= i <= |chain|
      invariant OnlyMoved(ws, r)
      invariant settled ==> r == ws
    {
      var b := chain[i];
      if r[b].kind == CBlock {
        var oldY := if b in saved then saved[b].y else 0;
        var dy := r[b].y - oldY;
        if dy != 0 {
          var w := ShiftInnerBlocks(env, r, b, dy, level);
          OnlyMovedTrans(ws, r, w);
          r := w;
        }
      }
      i := i + 1;
    }
  }

  // ----- link rewiring -----

  /** The dragged block becomes top-level and nothing else changes: what every refused connection leaves. */
  function TopLevelOnly(ws: Workspace, dragged: Id): (r: Workspace)
    requires Resolves(ws, dragged)
    ensures |r| == |ws| && r[dragged] == ws[dragged].(topLevel := true)
    ensures forall k :: 0 <= k < |ws| && k != dragged ==> r[k] == ws[k]
  {
    ws[dragged := ws[dragged].(topLevel := true)]
  }

  /** The writes of connectBlocksTop to block `k`, in the program's order. */
  function ConnectTopBlock(b: Block, k: Id, dragged: Id, last: Id, target: Id): Block {
    var b1 := if k == target then b.(parent := last, topConnected := true, topLevel := false) else b;
    var b2 := if k == last then b1.(next := target, bottomConnected := true) else b1;
    if k == dragged then b2.(topLevel := true) else b2
  }

  /**
    connectBlocksTop: the dragged chain's last block `last` is joined above
    `target`, and the dragged chain's head becomes the top-level block.
  */
  function ConnectBlocksTop(ws: Workspace, dragged: Id, last: Id, target: Id): (r: Workspace)
    requires Resolves(ws, dragged) && Resolves(ws, last) && Resolves(ws, target)
    ensures |r| == |ws|
    ensures r[last].next == target && r[last].bottomConnected
    ensures r[target].parent == last && r[target].topConnected
    ensures r[dragged].topLevel && (target != dragged ==> !r[target].topLevel)
    ensures forall k :: 0 <= k < |ws| && k != last ==> r[k].next == ws[k].next
    ensures forall k :: 0 <= k < |ws| && k != dragged && k != last && k != target ==> r[k] == ws[k]
  {
    seq(|ws|, k requires 0 <= k < |ws| => ConnectTopBlock(ws[k], k, dragged, last, target))
  }

  /** connectBlocksTop is connectChains from `last` to `target` with the dragged head marked top-level. */
  lemma {:induction false} ConnectTopIsConnectChains(ws: Workspace, dragged: Id, last: Id, target: Id)
    requires Resolves(ws, dragged) && Resolves(ws, last) && Resolves(ws, target)
    ensures var c := ConnectChains(ws, last, target);
      ConnectBlocksTop(ws, dragged, last, target) == c[dragged := c[dragged].(topLevel := true)]
  {
    var c := ConnectChains(ws, last, target);
    var r := ConnectBlocksTop(ws, dragged, last, target);
    var e := c[dragged := c[dragged].(topLevel := true)];
    forall k | 0 <= k < |ws|
      ensures r[k] == e[k]
    {
    }
  }

  /** Re-pointing only the last block of one chain at a disjoint chain concatenates the two. */
  lemma {:induction false} JoinedChains(ws: Workspace, r: Workspace, s: Id, t: Id)
    requires Resolves(ws, s) && Resolves(ws, t)
    requires var a := ChainBlocks(ws, s); forall i :: 0 <= i < |a| ==> a[i] !in ChainBlocks(ws, t)
    requires var a := ChainBlocks(ws, s);
      && |r| == |ws| && r[a[|a| - 1]].next == t
      && forall k :: 0 <= k < |ws| && k != a[|a| - 1] ==> r[k].next == ws[k].next
    ensures ChainBlocks(r, s) == ChainBlocks(ws, s) + ChainBlocks(ws, t)
  {
    var a := ChainBlocks(ws, s);
    var b := ChainBlocks(ws, t);
    ChainSplice(ws, r, a, b);
  }

  /** The writes of connectBlocksBottom to block `k`. */
  function ConnectBottomBlock(b: Block, k: Id, dragged: Id, target: Id): Block {
    var b1 := if k == dragged then b.(parent := target, topConnected := true, topLevel := false) else b;
    if k == target then b1.(next := dragged, bottomConnected := true) else b1
  }

  /** connectBlocksBottom: `dragged` is joined below `target`. */
  function ConnectBlocksBottom(ws: Workspace, dragged: Id, target: Id): (r: Workspace)
    requires Resolves(ws, dragged) && Resolves(ws, target)
    ensures |r| == |ws|
    ensures r[target].next == dragged && r[target].bottomConnected
    ensures r[dragged].parent == target && r[dragged].topConnected && !r[dragged].topLevel
    ensures forall k :: 0 <= k < |ws| && k != target ==> r[k].next == ws[k].next
    ensures forall k :: 0 <= k < |ws| && k != dragged && k != target ==> r[k] == ws[k]
  {
    seq(|ws|, k requires 0 <= k < |ws| => ConnectBottomBlock(ws[k], k, dragged, target))
  }

  /** connectBlocksBottom is connectChains from `target` to `dragged`. */
  lemma {:induction false} ConnectBottomIsConnectChains(ws: Workspace, dragged: Id, target: Id)
    requires Resolves(ws, dragged) && Resolves(ws, target)
    ensures ConnectBlocksBottom(ws, dragged, target) == ConnectChains(ws, target, dragged)
  {
    var c := ConnectChains(ws, target, dragged);
    var r := ConnectBlocksBottom(ws, dragged, target);
    forall k | 0 <= k < |ws|
      ensures r[k] == c[k]
    {
    }
  }

  /**
    After a bottom connection onto a block with no next block, the chain from
    the target is the target followed by the dragged chain.
  */
  lemma {:induction false} BottomConnectionChain(ws: Workspace, dragged: Id, target: Id)
    requires Resolves(ws, dragged) && Resolves(ws, target) && !Resolves(ws, ws[target].next)
    requires target !in ChainBlocks(ws, dragged)
    ensures ChainBlocks(ConnectBlocksBottom(ws, dragged, target), target) == [target] + ChainBlocks(ws, dragged)
  {
    var a := [target];
    assert Distinct(a) by {
      assert a[1..] == [];
    }
    ChainSplice(ws, ConnectBlocksBottom(ws, dragged, target), a, ChainBlocks(ws, dragged));
  }

  // ----- handleMiddleInsertionWithLowerBlock -----

  /** The link writes of handleMiddleInsertionWithLowerBlock to block `k`, in the program's order. */
  function MiddleLinkBlock(b: Block, k: Id, target: Id, head: Id, bottom: Id, lower: Id): Block {
    var b1 := if k == target then b.(next := head, bottomConnected := true) else b;
    var b2 := if k == head then b1.(parent := target, topConnected := true, topLevel := false) else b1;
    var b3 := if k == bottom then b2.(next := lower, bottomConnected := true) else b2;
    if k == lower then b3.(parent := bottom, topConnected := true) else b3
  }

  /** The link writes of handleMiddleInsertionWithLowerBlock: target, inserted head, inserted bottom, lower block. */
  function MiddleLinks(ws: Workspace, target: Id, head: Id, bottom: Id, lower: Id): (r: Workspace)
    requires Resolves(ws, target) && Resolves(ws, head) && Resolves(ws, bottom) && Resolves(ws, lower)
    ensures OnlyLinksAt(ws, r, {target, head, bottom, lower})
    ensures MiddleApart(target, head, bottom, lower) ==> MiddleJoined(r, target, head, bottom, lower)
  {
    seq(|ws|, k requires 0 <= k < |ws| => MiddleLinkBlock(ws[k], k, target, head, bottom, lower))
  }

  /** The four blocks a middle insertion links are distinct where the program's writes would clash. */
  predicate MiddleApart(target: Id, head: Id, bottom: Id, lower: Id) {
    target != head && target != bottom && target != lower && head != lower && bottom != lower
  }

  /**
    The links of a middle insertion in `r`: `target` runs into the inserted
    head and the inserted chain's last block `bottom` runs into `lower`, both
    ways, with the connected flags set and the inserted head not top-level.
  */
  predicate MiddleJoined(r: Workspace, target: Id, head: Id, bottom: Id, lower: Id) {
    && Resolves(r, target) && Resolves(r, head) && Resolves(r, bottom) && Resolves(r, lower)
    && r[target].next == head && r[target].bottomConnected
    && r[head].parent == target && r[head].topConnected && !r[head].topLevel
    && r[bottom].next == lower && r[bottom].bottomConnected
    && r[lower].parent == bottom && r[lower].topConnected
  }

  /** The middle-insertion links survive any change that keeps links and connection flags. */
  lemma {:induction false} MiddleJoinedKept(w: Workspace, r: Workspace, target: Id, head: Id, bottom: Id, lower: Id)
    requires MiddleJoined(w, target, head, bottom, lower) && SameLinks(w, r)
    requires forall k :: 0 <= k < |w| ==>
      r[k].topLevel == w[k].topLevel && r[k].topConnected == w[k].topConnected && r[k].bottomConnected == w[k].bottomConnected
    ensures MiddleJoined(r, target, head, bottom, lower)
  {
  }

  /** The two arenas differ only in the link fields, and only at the blocks of `s`. */
  predicate OnlyLinksAt(ws: Workspace, r: Workspace, s: set<Id>) {
    && |r| == |ws|
    && (forall k :: 0 <= k < |ws| ==> r[k].x == ws[k].x && r[k].y == ws[k].y && r[k].kind == ws[k].kind)
    && (forall k :: 0 <= k < |ws| && k !in s ==> r[k] == ws[k])
  }

  /**
    Unless the inserted head is the lower block itself, the middle insertion
    writes the links insertBlockBetween writes, and also marks the target's
    bottom as connected.
  */
  lemma {:induction false} MiddleLinksAreSplice(ws: Workspace, target: Id, head: Id, bottom: Id, lower: Id)
    requires Resolves(ws, target) && Resolves(ws, head) && Resolves(ws, bottom) && Resolves(ws, lower)
    requires head != lower
    ensures var sp := Splice(ws, target, head, bottom, lower);
      MiddleLinks(ws, target, head, bottom, lower) == sp[target := sp[target].(bottomConnected := true)]
  {
    var sp := Splice(ws, target, head, bottom, lower);
    var e := sp[target := sp[target].(bottomConnected := true)];
    var r := MiddleLinks(ws, target, head, bottom, lower);
    forall k | 0 <= k < |ws|
      ensures r[k] == e[k]
    {
    }
  }

  /** Moves the blocks `ids` to x and down by `dy`. */
  function MoveTo(ws: Workspace, ids: seq<Id>, x: int, dy: int): (r: Workspace)
    ensures OnlyMoved(ws, r)
    ensures forall k :: 0 <= k < |ws| ==> r[k] == if k in ids then ws[k].(x := x, y := ws[k].y + dy) else ws[k]
  {
    seq(|ws|, k requires 0 <= k < |ws| => if k in ids then ws[k].(x := x, y := ws[k].y + dy) else ws[k])
  }

  /**
    The y the program computes for the lower block: below the last inserted
    block, which the layout loop left at `currentY` (or at `y` for a single
    block).
  */
  function LowerFinalY(env: Env, ws: Workspace, chain: seq<Id>, y: int): int
    requires |chain| >= 1 && forall i :: 0 <= i < |chain| ==> 0 <= chain[i] < |ws|
  {
    var currentY := y + SumOver(ws, chain[..|chain| - 1], JoinStep(env));
    (if |chain| == 1 then y else currentY) + PathHeight(env, ws[chain[|chain| - 1]]) - env.socketHeight
  }

  /** The lower block lands below the whole inserted chain: y plus every join step of the chain. */
  lemma {:induction false} LowerFinalYIsSum(env: Env, ws: Workspace, chain: seq<Id>, y: int)
    requires |chain| >= 1 && forall i :: 0 <= i < |chain| ==> 0 <= chain[i] < |ws|
    ensures LowerFinalY(env, ws, chain, y) == y + SumOver(ws, chain, JoinStep(env))
  {
    var n := |chain|;
    var f := JoinStep(env);
    assert chain == chain[..n - 1] + [chain[n - 1]];
    SumOverAppend(ws, chain[..n - 1], [chain[n - 1]], f);
    assert SumOver(ws, [chain[n - 1]], f) == f(ws[chain[n - 1]]) by {
      assert [chain[n - 1]][1..] == [];
    }
    if n == 1 {
      assert chain[..0] == [];
    }
  }

  /**
    The moves of handleMiddleInsertionWithLowerBlock: the inserted chain is
    laid out from (x, y), and the chain below `lower` is aligned to x and
    moved by one common difference that puts `lower` right below the
    inserted chain; every other block of the lower chain keeps its offset
    from `lower`.
  */
  method PlaceInsertion(env: Env, ws: Workspace, chain: seq<Id>, lower: Id, x: int, y: int) returns (r: Workspace)
    requires |chain| >= 1 && forall i :: 0 <= i < |chain| ==> 0 <= chain[i] < |ws|
    requires Resolves(ws, lower)
    ensures OnlyMoved(ws, r)
    ensures lower !in chain ==> r[lower].x == x && r[lower].y == y + SumOver(ws, chain, JoinStep(env))
    ensures lower !in chain ==> forall k :: k in ChainBlocks(ws, lower) && k !in chain ==>
      r[k].x == x && r[k].y - ws[k].y == r[lower].y - ws[lower].y
    ensures forall k :: 0 <= k < |ws| && k !in chain && k !in ChainBlocks(ws, lower) ==> r[k] == ws[k]
  {
    var w1 := PositionChainBlocks(env, ws, chain, x, y);
    LowerFinalYMoved(env, ws, w1, chain, y);
    ChainOnlyMoved(ws, w1, lower);
    var lowerChain := ChainBlocks(w1, lower);
    assert lowerChain[0] == lower;
    assert forall k :: k in lowerChain && k !in chain ==> w1[k] == ws[k];
    r := MoveLowerChain(w1, lowerChain, x, LowerFinalY(env, w1, chain, y));
    OnlyMovedTrans(ws, w1, r);
  }

  /** The lower block's y computed on a rearranged arena is still y plus every join step of the chain. */
  lemma {:induction false} LowerFinalYMoved(env: Env, ws: Workspace, w: Workspace, chain: seq<Id>, y: int)
    requires |chain| >= 1 && forall i :: 0 <= i < |chain| ==> 0 <= chain[i] < |ws|
    requires OnlyMoved(ws, w)
    ensures LowerFinalY(env, w, chain, y) == y + SumOver(ws, chain, JoinStep(env))
  {
    LowerFinalYIsSum(env, w, chain, y);
    SumOverFrame(ws, w, chain, JoinStep(env));
  }

  /** Aligns the blocks `ids` to x and moves them by the one difference that puts the first at `lowerY`. */
  method MoveLowerChain(ws: Workspace, ids: seq<Id>, x: int, lowerY: int) returns (r: Workspace)
    requires |ids| >= 1 && forall i :: 0 <= i < |ids| ==> 0 <= ids[i] < |ws|
    ensures OnlyMoved(ws, r)
    ensures r[ids[0]].x == x && r[ids[0]].y == lowerY
    ensures forall k :: k in ids ==> 0 <= k < |ws| && r[k].x == x && r[k].y - ws[k].y == lowerY - ws[ids[0]].y
    ensures forall k :: 0 <= k < |ws| && k !in ids ==> r[k] == ws[k]
  {
    r := MoveTo(ws, ids, x, lowerY - ws[ids[0]].y);
  }

  /**
    handleMiddleInsertionWithLowerBlock: the blocks are placed, and the
    inserted chain is linked between `target` and `lower`, so the chain from
    `target` runs through the inserted chain into `lower`, with `lower` right
    below the inserted chain.
  */
  method MiddleWithLower(env: Env, ws: Workspace, chain: seq<Id>, target: Id, lower: Id, x: int, y: int) returns (r: Workspace)
    requires |chain| >= 1 && forall i :: 0 <= i < |chain| ==> 0 <= chain[i] < |ws|
    requires Resolves(ws, target) && Resolves(ws, lower)
    ensures |r| == |ws|
    ensures lower !in chain ==> r[lower].x == x && r[lower].y == y + SumOver(ws, chain, JoinStep(env))
    ensures lower !in chain ==> forall k :: k in ChainBlocks(ws, lower) && k !in chain ==>
      r[k].x == x && r[k].y - ws[k].y == r[lower].y - ws[lower].y
    ensures chain == ChainBlocks(ws, chain[0]) && target != lower && target !in chain && lower !in chain ==>
      Threaded(r, target, chain, lower)
    ensures target != lower && target !in chain && lower !in chain ==>
      MiddleJoined(r, target, chain[0], chain[|chain| - 1], lower)
    ensures MovedOutside(ws, r, {target, chain[0], chain[|chain| - 1], lower})
    ensures forall k :: 0 <= k < |ws| && k !in chain && k !in ChainBlocks(ws, lower) ==>
      r[k].x == ws[k].x && r[k].y == ws[k].y
  {
    var w := PlaceInsertion(env, ws, chain, lower, x, y);
    r := LinkInsertion(ws, w, chain, target, lower);
  }

  /**
    The link writes of handleMiddleInsertionWithLowerBlock on the placed
    arena `w`: no block moves, and the chain from `target` runs through the
    inserted chain into `lower`.
  */
  method LinkInsertion(ws: Workspace, w: Workspace, chain: seq<Id>, target: Id, lower: Id) returns (r: Workspace)
    requires |chain| >= 1 && forall i :: 0 <= i < |chain| ==> 0 <= chain[i] < |ws|
    requires Resolves(ws, target) && Resolves(ws, lower) && OnlyMoved(ws, w)
    ensures |r| == |ws| && OnlyLinksAt(w, r, {target, chain[0], chain[|chain| - 1], lower})
    ensures chain == ChainBlocks(ws, chain[0]) && target != lower && target !in chain && lower !in chain ==>
      Threaded(r, target, chain, lower)
    ensures target != lower && target !in chain && lower !in chain ==>
      MiddleJoined(r, target, chain[0], chain[|chain| - 1], lower)
    ensures MovedOutside(ws, r, {target, chain[0], chain[|chain| - 1], lower})
  {
    r := MiddleLinks(w, target, chain[0], chain[|chain| - 1], lower);
    if chain == ChainBlocks(ws, chain[0]) && target != lower && target !in chain && lower !in chain {
      assert Threaded(r, target, chain, lower) by {
        MiddleLinksChain(ws, w, chain[0], target, lower);
      }
    }
    MiddleLinksFrame(ws, w, chain, target, lower);
  }

  /** The middle links on the placed arena change nothing but positions outside the four linked blocks. */
  lemma {:induction false} MiddleLinksFrame(ws: Workspace, w: Workspace, chain: seq<Id>, target: Id, lower: Id)
    requires |chain| >= 1 && forall i :: 0 <= i < |chain| ==> 0 <= chain[i] < |ws|
    requires Resolves(ws, target) && Resolves(ws, lower) && OnlyMoved(ws, w)
    ensures var r := MiddleLinks(w, target, chain[0], chain[|chain| - 1], lower);
      && MovedOutside(ws, r, {target, chain[0], chain[|chain| - 1], lower})
      && (target != lower && target !in chain && lower !in chain ==>
            MiddleJoined(r, target, chain[0], chain[|chain| - 1], lower))
  {
    var r := MiddleLinks(w, target, chain[0], chain[|chain| - 1], lower);
    if target != lower && target !in chain && lower !in chain {
      assert chain[0] in chain && chain[|chain| - 1] in chain;
      assert MiddleApart(target, chain[0], chain[|chain| - 1], lower);
    }
    MovedThenLinked(ws, w, r, {target, chain[0], chain[|chain| - 1], lower});
  }

  /** Moving blocks and then rewriting the links of the blocks `s` changes nothing but positions outside `s`. */
  lemma {:induction false} MovedThenLinked(ws: Workspace, w: Workspace, r: Workspace, s: set<Id>)
    requires OnlyMoved(ws, w) && OnlyLinksAt(w, r, s)
    ensures MovedOutside(ws, r, s)
  {
    forall k | 0 <= k < |ws| && k !in s
      ensures r[k] == ws[k].(x := r[k].x, y := r[k].y)
    {
      assert r[k] == w[k];
    }
  }

  /** The middle links written on a rearranged copy of the arena splice the chain from `head` below `target`. */
  lemma {:induction false} MiddleLinksChain(ws: Workspace, w: Workspace, head: Id, target: Id, lower: Id)
    requires Resolves(ws, head) && Resolves(ws, target) && Resolves(ws, lower) && OnlyMoved(ws, w)
    requires target != lower && target !in ChainBlocks(ws, head) && lower !in ChainBlocks(ws, head)
    ensures var chain := ChainBlocks(ws, head);
      Threaded(MiddleLinks(w, target, head, chain[|chain| - 1], lower), target, chain, lower)
  {
    var chain := ChainBlocks(ws, head);
    var bottom := chain[|chain| - 1];
    var r := MiddleLinks(w, target, head, bottom, lower);
    assert head == chain[0];
    MiddleLinksAreSplice(w, target, head, bottom, lower);
    var ib := InsertBlockBetween(ws, target, head, lower);
    assert ib == Splice(ws, target, head, bottom, lower);
    SpliceSameNext(ws, w, target, head, bottom, lower);
    ChainSameNext(ib, r, target);
    InsertBetweenChain(ws, target, head, lower);
  }

  /** A splice writes the same `next` links on arenas that agree on them. */
  lemma {:induction false} SpliceSameNext(ws: Workspace, w: Workspace, upper: Id, ins: Id, tail: Id, lower: Id)
    requires Resolves(ws, upper) && Resolves(ws, ins) && Resolves(ws, tail) && Resolves(ws, lower)
    requires OnlyMoved(ws, w)
    ensures var a := Splice(ws, upper, ins, tail, lower);
      var b := Splice(w, upper, ins, tail, lower);
      var b' := b[upper := b[upper].(bottomConnected := true)];
      |b'| == |a| && forall k :: 0 <= k < |a| ==> b'[k].next == a[k].next
  {
  }

  // ----- the connection handlers -----

  /** Blocks outside `s` differ at most in their positions. */
  predicate MovedOutside(ws: Workspace, r: Workspace, s: set<Id>) {
    && |r| == |ws|
    && forall k :: 0 <= k < |ws| && k !in s ==> r[k] == ws[k].(x := r[k].x, y := r[k].y)
  }

  /**
    The layout shared by the top and bottom connections: the positions of
    the chain are saved, the chain is laid out from (x, y), and the inner
    chains of its c-blocks follow their containers.
  */
  method PlaceChain(env: Env, ws: Workspace, chain: seq<Id>, x: int, y: int, level: Id -> int) returns (r: Workspace)
    requires forall i :: 0 <= i < |chain| ==> 0 <= chain[i] < |ws|
    ensures OnlyMoved(ws, r)
  {
    var saved := Positions(ws, chain);
    var w := PositionChainBlocks(env, ws, chain, x, y);
    r := ShiftInnerBlocksInChain(env, w, chain, saved, level);
    OnlyMovedTrans(ws, w, r);
  }

  /** No block of the chain from `a` is in the chain from `b`. */
  ghost predicate Apart(ws: Workspace, a: Id, b: Id) {
    var c := ChainBlocks(ws, a);
    forall i :: 0 <= i < |c| ==> c[i] !in ChainBlocks(ws, b)
  }

  /**
    The top connection is made in `r`: the last block of the dragged chain
    sits above `target`, the dragged head is top-level, and nothing but
    positions changes outside the dragged head, its last block, `target`
    and the blocks `t`.
  */
  predicate TopJoined(ws: Workspace, r: Workspace, dragged: Id, target: Id, t: set<Id>)
    requires Resolves(ws, dragged) && Resolves(ws, target)
  {
    var chain := ChainBlocks(ws, dragged); var last := chain[|chain| - 1];
    && |r| == |ws|
    && r[last].next == target && r[last].bottomConnected
    && r[target].parent == last && r[target].topConnected
    && r[dragged].topLevel
    && MovedOutside(ws, r, {dragged, last, target} + t)
  }

  /** The top-connection links written on a rearranged copy `w` of the arena. */
  method LinkTop(ws: Workspace, w: Workspace, dragged: Id, target: Id) returns (r: Workspace)
    requires Resolves(ws, dragged) && Resolves(ws, target) && OnlyMoved(ws, w)
    ensures |r| == |ws|
    ensures var chain := ChainBlocks(ws, dragged); var last := chain[|chain| - 1];
      && r[last].next == target && r[last].bottomConnected
      && r[target].parent == last && r[target].topConnected
      && r[dragged].topLevel
      && MovedOutside(ws, r, {dragged, last, target})
      && forall k :: 0 <= k < |ws| && k != last ==> r[k].next == ws[k].next
  {
    var chain := ChainBlocks(ws, dragged);
    r := ConnectBlocksTop(w, dragged, chain[|chain| - 1], target);
  }

  /** The bottom-connection links written on a rearranged copy `w` of the arena. */
  method LinkBottom(ws: Workspace, w: Workspace, dragged: Id, target: Id) returns (r: Workspace)
    requires Resolves(ws, dragged) && Resolves(ws, target) && OnlyMoved(ws, w)
    ensures |r| == |ws|
    ensures && r[target].next == dragged && r[target].bottomConnected
            && r[dragged].parent == target && r[dragged].topConnected && !r[dragged].topLevel
            && MovedOutside(ws, r, {dragged, target})
            && forall k :: 0 <= k < |ws| && k != target ==> r[k].next == ws[k].next
  {
    r := ConnectBlocksBottom(w, dragged, target);
  }

  /** A block whose `next` link resolves nowhere is a chain of its own. */
  lemma {:induction false} ChainOfEnd(ws: Workspace, t: Id)
    requires Resolves(ws, t) && !Resolves(ws, ws[t].next)
    ensures ChainBlocks(ws, t) == [t]
  {
    var p := ChainBlocks(ws, t);
    if |p| > 1 {
      assert false;
    }
  }

  /**
    handleTopConnection: unless the top connection is refused or the dragged
    chain has no position, the dragged chain is laid out above the target,
    the inner chains of its c-blocks follow, and its last block is linked
    above the target. Nothing but positions changes outside the dragged
    head, its last block and the target; a refused connection only makes the
    dragged block top-level. `canTop` is the verdict of canConnectFromTop.
  */
  method HandleTopConnection(env: Env, ws: Workspace, dragged: Id, target: Id, canTop: bool, level: Id -> int)
    returns (r: Workspace)
    requires Resolves(ws, dragged) && Resolves(ws, target)
    ensures |r| == |ws|
    ensures !canTop || CalculatePosition(ws, env, target, dragged, Top).None? ==> r == TopLevelOnly(ws, dragged)
    ensures canTop && CalculatePosition(ws, env, target, dragged, Top).Some? ==> TopJoined(ws, r, dragged, target, {})
    ensures canTop && CalculatePosition(ws, env, target, dragged, Top).Some? && Apart(ws, dragged, target) ==>
      ChainBlocks(r, dragged) == ChainBlocks(ws, dragged) + ChainBlocks(ws, target)
  {
    if !canTop {
      return TopLevelOnly(ws, dragged);
    }
    var chain := ChainBlocks(ws, dragged);
    var position := CalculatePosition(ws, env, target, dragged, Top);
    if position.None? {
      return TopLevelOnly(ws, dragged);
    }
    var w := PlaceChain(env, ws, chain, position.value.x, position.value.y, level);
    r := LinkTop(ws, w, dragged, target);
    assert {dragged, chain[|chain| - 1], target} + {} == {dragged, chain[|chain| - 1], target};
    if Apart(ws, dragged, target) {
      JoinedChains(ws, r, dragged, target);
    }
  }

  /**
    handleBottomConnection: unless the bottom connection is refused or the
    dragged chain has no position, the dragged chain is laid out below the
    target, the inner chains of its c-blocks follow, and the dragged block is
    linked below the target; when the target had no next block, its chain
    becomes the target followed by the dragged chain. `canBottom` is the
    verdict of canConnectFromBottom.
  */
  method HandleBottomConnection(env: Env, ws: Workspace, dragged: Id, target: Id, canBottom: bool, level: Id -> int)
    returns (r: Workspace)
    requires Resolves(ws, dragged) && Resolves(ws, target)
    ensures |r| == |ws|
    ensures !canBottom || CalculatePosition(ws, env, target, dragged, Bottom).None? ==> r == TopLevelOnly(ws, dragged)
    ensures canBottom && CalculatePosition(ws, env, target, dragged, Bottom).Some? ==>
      && r[target].next == dragged && r[target].bottomConnected
      && r[dragged].parent == target && r[dragged].topConnected && !r[dragged].topLevel
      && MovedOutside(ws, r, {dragged, target})
    ensures canBottom && CalculatePosition(ws, env, target, dragged, Bottom).Some?
      && !Resolves(ws, ws[target].next) && target !in ChainBlocks(ws, dragged)
      ==> ChainBlocks(r, target) == [target] + ChainBlocks(ws, dragged)
  {
    if !canBottom {
      return TopLevelOnly(ws, dragged);
    }
    var position := CalculatePosition(ws, env, target, dragged, Bottom);
    if position.None? {
      return TopLevelOnly(ws, dragged);
    }
    var chain := ChainBlocks(ws, dragged);
    var w := PlaceChain(env, ws, chain, position.value.x, position.value.y, level);
    r := LinkBottom(ws, w, dragged, target);
    if !Resolves(ws, ws[target].next) && target !in chain {
      ChainOfEnd(ws, target);
      JoinedChains(ws, r, target, dragged);
    }
  }

  /** Moving blocks after a change confined to `s` keeps the change confined to `s`. */
  lemma {:induction false} MovedOutsideThenMoved(ws: Workspace, w: Workspace, r: Workspace, s: set<Id>)
    requires MovedOutside(ws, w, s) && OnlyMoved(w, r)
    ensures MovedOutside(ws, r, s)
  {
  }

  /**
    handleMiddleInsertionWithSpecialBlocks is not part of this model. For one
    drop it is any call that receives the arena: `handled` is its verdict on
    the arena it receives, and `write` the block it leaves at each id.
  */
  datatype SpecialChainCall = SpecialChainCall(handled: Workspace -> bool, write: (Workspace, Id) -> Block)

  /** The arena the call leaves behind when it receives `w`. */
  function CallArena(call: SpecialChainCall, w: Workspace): (r: Workspace)
    ensures |r| == |w|
    ensures forall k :: 0 <= k < |w| ==> r[k] == call.write(w, k)
  {
    seq(|w|, k requires 0 <= k < |w| => call.write(w, k))
  }

  /** The call changes nothing but positions on `w`. */
  predicate CallOnlyMoves(call: SpecialChainCall, w: Workspace) {
    OnlyMoved(w, CallArena(call, w))
  }

  /** The call declines the drop and changes nothing but positions on `w`. */
  predicate CallPassesOver(call: SpecialChainCall, w: Workspace) {
    !call.handled(w) && CallOnlyMoves(call, w)
  }

  /** Where handleMiddleConnection lays out the dragged chain: the target's bottom socket, a c-block measured 10 units shorter. */
  function MiddleSocket(env: Env, ws: Workspace, target: Id): Point
    requires Resolves(ws, target)
  {
    var targetPathHeight := PathHeight(env, ws[target]) - (if IsCBlockId(ws, target) then 10 else 0);
    Point(ws[target].x, ws[target].y + targetPathHeight - env.socketHeight)
  }

  /** The arena after positionChainBlocks in handleMiddleConnection, which the special-block calls receive. */
  function MiddleLaidOut(env: Env, ws: Workspace, dragged: Id, target: Id): (r: Workspace)
    requires Resolves(ws, dragged) && Resolves(ws, target)
    ensures OnlyMoved(ws, r)
  {
    var p := MiddleSocket(env, ws, target);
    PositionChainBlocks(env, ws, ChainBlocks(ws, dragged), p.x, p.y)
  }

  /**
    The outcome of a middle drop in `r`, for the arena `w` the special-block
    calls received; outside the blocks it names, nothing but positions
    changes except at the blocks `t`.
    - No start or stop block, the special-chain call declines, a lower block:
      the four insertion links are written (MiddleJoined), whatever else the
      call did.
    - The same, and the call changed nothing but positions: nothing else
      changes but positions, and the chain from the target runs through the
      dragged chain into the lower block.
    - No lower block: the dragged block is linked below the target, and when
      the call changed nothing but positions nothing else changes but
      positions.
    - The call handles the drop with a lower block: the links are those the
      call left.
  */
  ghost predicate MiddleDone(ws: Workspace, w: Workspace, r: Workspace, dragged: Id, target: Id, lower: Id,
                             call: SpecialChainCall, t: set<Id>)
    requires Resolves(ws, dragged) && Resolves(ws, target)
  {
    var plain := SpecialType(ws, dragged).None?;
    && |r| == |ws|
    && (plain && Resolves(ws, lower) ==> WithLower(ws, w, r, ChainBlocks(ws, dragged), target, lower, call, t))
    && (plain && !Resolves(ws, lower) ==> WithoutLower(ws, w, r, dragged, target, call, t))
  }

  /** The middle outcome when there is a lower block, for the dragged chain `chain`. */
  ghost predicate WithLower(ws: Workspace, w: Workspace, r: Workspace, chain: seq<Id>, target: Id, lower: Id,
                            call: SpecialChainCall, t: set<Id>)
    requires |chain| > 0
  {
    && (!call.handled(w) && target != lower && target !in chain && lower !in chain ==>
          MiddleJoined(r, target, chain[0], chain[|chain| - 1], lower))
    && (CallPassesOver(call, w) ==>
          && MovedOutside(ws, r, {target, chain[0], chain[|chain| - 1], lower} + t)
          && (target != lower && target !in chain && lower !in chain ==> Threaded(r, target, chain, lower)))
    && (call.handled(w) ==> SameLinks(CallArena(call, w), r) && MovedOutside(CallArena(call, w), r, t))
  }

  /** The middle outcome when there is no lower block. */
  ghost predicate WithoutLower(ws: Workspace, w: Workspace, r: Workspace, dragged: Id, target: Id,
                               call: SpecialChainCall, t: set<Id>)
    requires |r| == |ws| && Resolves(ws, dragged) && Resolves(ws, target)
  {
    && r[target].next == dragged && r[target].bottomConnected
    && r[dragged].parent == target && r[dragged].topConnected && !r[dragged].topLevel
    && (CallOnlyMoves(call, w) ==> MovedOutside(ws, r, {dragged, target} + t))
  }

  /**
    The linking step of handleMiddleConnection on the laid-out arena `w`: the
    special treatment of a start or stop block, then the special-chain call,
    then, unless either handled the drop, the insertion between the target
    and its lower block, or (no lower block) a plain bottom connection.
  */
  method MiddleStep(env: Env, ws: Workspace, w: Workspace, dragged: Id, target: Id, lower: Id,
                    call: SpecialChainCall, x: int, y: int) returns (r: Workspace)
    requires Resolves(ws, dragged) && Resolves(ws, target) && OnlyMoved(ws, w)
    ensures MiddleDone(ws, w, r, dragged, target, lower, call, {})
    ensures SpecialType(ws, dragged).None? && call.handled(w) && Resolves(ws, lower) ==> r == CallArena(call, w)
    ensures SpecialType(ws, dragged).Some? ==> r == CallArena(call, HandleSpecial(w, dragged, target, lower).1)
  {
    assert SpecialType(w, dragged) == SpecialType(ws, dragged);
    var special := HandleSpecial(w, dragged, target, lower);
    var w2 := CallArena(call, special.1);
    var chain := ChainBlocks(ws, dragged);
    if special.0 {
      r := w2;
    } else if call.handled(w) && Resolves(ws, lower) {
      r := w2;
      HandledStepDone(ws, w, r, dragged, target, lower, call);
    } else if Resolves(ws, lower) {
      r := LowerStep(env, ws, w, w2, chain, dragged, target, lower, x, y);
      LowerStepDone(ws, w, r, chain, dragged, target, lower, call);
    } else {
      r := NoLowerStep(ws, w, w2, dragged, target);
      NoLowerStepDone(ws, w, r, dragged, target, lower, call);
    }
  }

  /** The outcome when the special-chain call handles a drop with a lower block: the arena it left. */
  lemma {:induction false} HandledStepDone(ws: Workspace, w: Workspace, r: Workspace, dragged: Id, target: Id, lower: Id,
                                       call: SpecialChainCall)
    requires Resolves(ws, dragged) && Resolves(ws, target) && |w| == |ws|
    requires call.handled(w) && Resolves(ws, lower) && r == CallArena(call, w)
    ensures MiddleDone(ws, w, r, dragged, target, lower, call, {})
  {
  }

  /** The outcome of the insertion between the target and its lower block. */
  lemma {:induction false} LowerStepDone(ws: Workspace, w: Workspace, r: Workspace, chain: seq<Id>, dragged: Id, target: Id,
                                     lower: Id, call: SpecialChainCall)
    requires Resolves(ws, dragged) && Resolves(ws, target) && Resolves(ws, lower)
    requires SpecialType(ws, dragged).None? && !call.handled(w) && chain == ChainBlocks(ws, dragged) && |r| == |ws|
    requires target != lower && target !in chain && lower !in chain ==>
      MiddleJoined(r, target, chain[0], chain[|chain| - 1], lower)
    requires OnlyMoved(w, CallArena(call, w)) ==>
      && MovedOutside(ws, r, {target, chain[0], chain[|chain| - 1], lower})
      && (target != lower && target !in chain && lower !in chain ==> Threaded(r, target, chain, lower))
    ensures MiddleDone(ws, w, r, dragged, target, lower, call, {})
  {
    var linked := {target, chain[0], chain[|chain| - 1], lower};
    assert linked + {} == linked;
    assert WithLower(ws, w, r, chain, target, lower, call, {});
  }

  /** The outcome of the plain bottom connection when there is no lower block. */
  lemma {:induction false} NoLowerStepDone(ws: Workspace, w: Workspace, r: Workspace, dragged: Id, target: Id, lower: Id,
                                       call: SpecialChainCall)
    requires Resolves(ws, dragged) && Resolves(ws, target) && !Resolves(ws, lower) && |r| == |ws|
    requires && r[target].next == dragged && r[target].bottomConnected
             && r[dragged].parent == target && r[dragged].topConnected && !r[dragged].topLevel
    requires OnlyMoved(w, CallArena(call, w)) ==> MovedOutside(ws, r, {dragged, target})
    ensures MiddleDone(ws, w, r, dragged, target, lower, call, {})
  {
    assert {dragged, target} + {} == {dragged, target};
    assert WithoutLower(ws, w, r, dragged, target, call, {});
  }

  /**
    The insertion between the target and its lower block on the arena `w2`
    the special-chain call left behind. The links it writes do not depend on
    the call; the rest holds when the call changed only positions.
  */
  method LowerStep(env: Env, ws: Workspace, w: Workspace, w2: Workspace, chain: seq<Id>, dragged: Id, target: Id,
                   lower: Id, x: int, y: int) returns (r: Workspace)
    requires Resolves(ws, dragged) && Resolves(ws, target) && Resolves(ws, lower)
    requires OnlyMoved(ws, w) && |w2| == |ws| && chain == ChainBlocks(ws, dragged)
    ensures |r| == |ws|
    ensures target != lower && target !in chain && lower !in chain ==>
      MiddleJoined(r, target, chain[0], chain[|chain| - 1], lower)
    ensures OnlyMoved(w, w2) ==>
      && MovedOutside(ws, r, {target, chain[0], chain[|chain| - 1], lower})
      && (target != lower && target !in chain && lower !in chain ==> Threaded(r, target, chain, lower))
  {
    r := MiddleWithLower(env, w2, chain, target, lower, x, y);
    LowerFacts(ws, w, w2, r, chain, dragged, target, lower);
  }

  /** The facts of LowerStep, from those of handleMiddleInsertionWithLowerBlock on the arena the call left. */
  lemma {:induction false} LowerFacts(ws: Workspace, w: Workspace, w2: Workspace, r: Workspace, chain: seq<Id>,
                                      dragged: Id, target: Id, lower: Id)
    requires Resolves(ws, dragged) && Resolves(ws, target) && Resolves(ws, lower)
    requires OnlyMoved(ws, w) && |w2| == |ws| && chain == ChainBlocks(ws, dragged)
    requires chain == ChainBlocks(w2, chain[0]) && target != lower && target !in chain && lower !in chain ==>
      Threaded(r, target, chain, lower)
    requires target != lower && target !in chain && lower !in chain ==>
      MiddleJoined(r, target, chain[0], chain[|chain| - 1], lower)
    requires MovedOutside(w2, r, {target, chain[0], chain[|chain| - 1], lower})
    ensures |r| == |ws|
    ensures OnlyMoved(w, w2) ==>
      && MovedOutside(ws, r, {target, chain[0], chain[|chain| - 1], lower})
      && (target != lower && target !in chain && lower !in chain ==> Threaded(r, target, chain, lower))
  {
    if OnlyMoved(w, w2) {
      OnlyMovedTrans(ws, w, w2);
      ChainOnlyMoved(ws, w2, dragged);
      OnlyMovedThenMovedOutside(ws, w2, r, {target, chain[0], chain[|chain| - 1], lower});
    }
  }

  /**
    The plain bottom connection of a middle drop without a lower block, on
    the arena `w2` the special-chain call left behind.
  */
  method NoLowerStep(ws: Workspace, w: Workspace, w2: Workspace, dragged: Id, target: Id) returns (r: Workspace)
    requires Resolves(ws, dragged) && Resolves(ws, target)
    requires OnlyMoved(ws, w) && |w2| == |ws|
    ensures |r| == |ws|
    ensures && r[target].next == dragged && r[target].bottomConnected
            && r[dragged].parent == target && r[dragged].topConnected && !r[dragged].topLevel
    ensures OnlyMoved(w, w2) ==> MovedOutside(ws, r, {dragged, target})
  {
    r := ConnectBlocksBottom(w2, dragged, target);
    if OnlyMoved(w, w2) {
      OnlyMovedTrans(ws, w, w2);
    }
  }

  /** A change confined to `s` after moving blocks is still confined to `s`. */
  lemma {:induction false} OnlyMovedThenMovedOutside(ws: Workspace, w: Workspace, r: Workspace, s: set<Id>)
    requires OnlyMoved(ws, w) && MovedOutside(w, r, s)
    ensures MovedOutside(ws, r, s)
  {
  }

  /**
    handleMiddleConnection: the dragged chain is laid out at the target's
    bottom socket, linked in by the middle step, and the inner chains of its
    c-blocks follow.
  */
  method HandleMiddleConnection(env: Env, ws: Workspace, dragged: Id, target: Id, lower: Id,
                                call: SpecialChainCall, level: Id -> int) returns (r: Workspace)
    requires Resolves(ws, dragged) && Resolves(ws, target)
    ensures MiddleDone(ws, MiddleLaidOut(env, ws, dragged, target), r, dragged, target, lower, call, {})
  {
    var p := MiddleSocket(env, ws, target);
    var chain := ChainBlocks(ws, dragged);
    var saved := Positions(ws, chain);
    var w1 := MiddleLaidOut(env, ws, dragged, target);
    var w2 := MiddleStep(env, ws, w1, dragged, target, lower, call, p.x, p.y);
    r := ShiftInnerBlocksInChain(env, w2, chain, saved, level);
    MiddleDoneMoved(ws, w1, w2, r, dragged, target, lower, call, {});
  }

  /** A middle outcome survives any change that keeps links and connection flags and is confined to `u`. */
  lemma {:induction false} MiddleDoneKept(ws: Workspace, w: Workspace, r: Workspace, r': Workspace, dragged: Id, target: Id,
                                          lower: Id, call: SpecialChainCall, t: set<Id>, u: set<Id>)
    requires Resolves(ws, dragged) && Resolves(ws, target)
    requires MiddleDone(ws, w, r, dragged, target, lower, call, t)
    requires SameLinks(r, r') && MovedOutside(r, r', u)
    requires forall k :: 0 <= k < |r| ==>
      r'[k].topLevel == r[k].topLevel && r'[k].topConnected == r[k].topConnected && r'[k].bottomConnected == r[k].bottomConnected
    ensures MiddleDone(ws, w, r', dragged, target, lower, call, t + u)
  {
    if SpecialType(ws, dragged).None? && Resolves(ws, lower) {
      WithLowerKept(ws, w, r, r', ChainBlocks(ws, dragged), target, lower, call, t, u);
    } else if SpecialType(ws, dragged).None? {
      WithoutLowerKept(ws, w, r, r', dragged, target, call, t, u);
    }
  }

  /** The outcome with a lower block survives a change that keeps links and flags and is confined to `u`. */
  lemma {:induction false} WithLowerKept(ws: Workspace, w: Workspace, r: Workspace, r': Workspace, chain: seq<Id>,
                                         target: Id, lower: Id, call: SpecialChainCall, t: set<Id>, u: set<Id>)
    requires |chain| > 0 && WithLower(ws, w, r, chain, target, lower, call, t)
    requires SameLinks(r, r') && MovedOutside(r, r', u)
    requires forall k :: 0 <= k < |r| ==>
      r'[k].topLevel == r[k].topLevel && r'[k].topConnected == r[k].topConnected && r'[k].bottomConnected == r[k].bottomConnected
    ensures WithLower(ws, w, r', chain, target, lower, call, t + u)
  {
    if !call.handled(w) && target != lower && target !in chain && lower !in chain {
      MiddleJoinedKept(r, r', target, chain[0], chain[|chain| - 1], lower);
    }
    if CallPassesOver(call, w) {
      var linked := {target, chain[0], chain[|chain| - 1], lower};
      MovedOutsideTrans(ws, r, r', linked + t, u);
      assert linked + t + u == linked + (t + u);
      ChainSameNext(r, r', target);
    }
    if call.handled(w) {
      MovedOutsideTrans(CallArena(call, w), r, r', t, u);
    }
  }

  /** The outcome without a lower block survives a change that keeps links and flags and is confined to `u`. */
  lemma {:induction false} WithoutLowerKept(ws: Workspace, w: Workspace, r: Workspace, r': Workspace, dragged: Id,
                                            target: Id, call: SpecialChainCall, t: set<Id>, u: set<Id>)
    requires |r| == |ws| && Resolves(ws, dragged) && Resolves(ws, target)
    requires WithoutLower(ws, w, r, dragged, target, call, t)
    requires SameLinks(r, r') && MovedOutside(r, r', u)
    requires forall k :: 0 <= k < |r| ==>
      r'[k].topLevel == r[k].topLevel && r'[k].topConnected == r[k].topConnected && r'[k].bottomConnected == r[k].bottomConnected
    ensures WithoutLower(ws, w, r', dragged, target, call, t + u)
  {
    if CallOnlyMoves(call, w) {
      MovedOutsideTrans(ws, r, r', {dragged, target} + t, u);
      assert {dragged, target} + t + u == {dragged, target} + (t + u);
    }
  }

  /** A middle outcome survives moving blocks. */
  lemma {:induction false} MiddleDoneMoved(ws: Workspace, w: Workspace, r: Workspace, r': Workspace, dragged: Id, target: Id,
                                           lower: Id, call: SpecialChainCall, t: set<Id>)
    requires Resolves(ws, dragged) && Resolves(ws, target)
    requires MiddleDone(ws, w, r, dragged, target, lower, call, t) && OnlyMoved(r, r')
    ensures MiddleDone(ws, w, r', dragged, target, lower, call, t)
  {
    assert MovedOutside(r, r', {});
    MiddleDoneKept(ws, w, r, r', dragged, target, lower, call, t, {});
    assert t + {} == t;
  }

  /**
    handleInnerTopConnection: a non-c-block target refuses the inner
    connector and the dragged block only becomes top-level; a c-block takes
    the dragged chain at the top of its inner chain, at its insert position,
    and ends in sync with its new inner chain.
  */
  method HandleInnerTopConnection(env: Env, ws: Workspace, dragged: Id, target: Id) returns (r: Workspace)
    requires Resolves(ws, dragged) && Resolves(ws, target)
    ensures |r| == |ws|
    ensures !IsCBlockId(ws, target) ==> r == TopLevelOnly(ws, dragged)
    ensures var inner := InnerBlocks(ws, target); var chain := ChainBlocks(ws, dragged);
      IsCBlockId(ws, target) && Disjoint(inner, chain) && target !in chain ==>
      InnerBlocks(r, target) == if inner == [] then chain else chain + inner
    ensures IsCBlockId(ws, target) && BaseHeight(env) >= 0 && Disjoint(InnerBlocks(ws, target), ChainBlocks(ws, dragged))
      && target !in InnerBlocks(ws, target) && target !in ChainBlocks(ws, dragged)
      ==> InSync(env, r, target)
    ensures IsCBlockId(ws, target) ==>
      r == InsertInside(env, ws, target, dragged, InsertPosition(ws, target).x, InsertPosition(ws, target).y, false)
  {
    if !IsCBlockId(ws, target) {
      return TopLevelOnly(ws, dragged);
    }
    var p := InsertPosition(ws, target);
    r := InsertInside(env, ws, target, dragged, p.x, p.y, false);
    var inner := InnerBlocks(ws, target);
    var chain := ChainBlocks(ws, dragged);
    if Disjoint(inner, chain) && target !in chain {
      InsertInsideChain(env, ws, target, dragged, p.x, p.y, false);
      if BaseHeight(env) >= 0 && target !in inner {
        InsertInsideInSync(env, ws, target, dragged, p.x, p.y, false);
      }
    }
  }

  /**
    finalizeConnection: the c-block that contained the target is synced to
    its inner chain; no link changes, and nothing else changes but positions
    and that container's stored heights.
  */
  method FinalizeConnection(env: Env, ws: Workspace, containing: Option<Id>) returns (r: Workspace)
    ensures containing.None? ==> r == ws
    ensures containing.Some? ==> MovedExcept(ws, r, containing.value)
    ensures SameLinks(ws, r)
    ensures containing.Some? && IsCBlockId(ws, containing.value) && BaseHeight(env) >= 0
      && containing.value !in InnerBlocks(ws, containing.value)
      ==> InSync(env, r, containing.value)
    ensures MovedOutside(ws, r, ContainerIds(containing))
    ensures forall k :: 0 <= k < |ws| ==>
      r[k].topLevel == ws[k].topLevel && r[k].topConnected == ws[k].topConnected && r[k].bottomConnected == ws[k].bottomConnected
    ensures Settled(env, r, containing)
  {
    r := ws;
    if containing.Some? {
      var c := containing.value;
      r := SyncHeight(env, ws, c);
      OnlyGeometrySameLinks(ws, r);
      InnerBlocksSameLinks(ws, r, c);
      if IsCBlockId(ws, c) && BaseHeight(env) >= 0 && c !in InnerBlocks(ws, c) {
        SyncSettles(env, ws, c);
      }
    }
  }

  /** The container named by a findContainingCBlock result, if any. */
  function ContainerIds(containing: Option<Id>): set<Id> {
    if containing.Some? then {containing.value} else {}
  }

  /**
    The container, if any, is in sync with its inner chain, provided it is a
    c-block with a stable form height that does not sit in its own inner chain.
  */
  predicate Settled(env: Env, ws: Workspace, containing: Option<Id>) {
    containing.Some? && IsCBlockId(ws, containing.value) && BaseHeight(env) >= 0
    && containing.value !in InnerBlocks(ws, containing.value)
    ==> InSync(env, ws, containing.value)
  }

  /** Two changes each confined to a set are together confined to their union. */
  lemma {:induction false} MovedOutsideTrans(ws: Workspace, w: Workspace, r: Workspace, s: set<Id>, t: set<Id>)
    requires MovedOutside(ws, w, s) && MovedOutside(w, r, t)
    ensures MovedOutside(ws, r, s + t)
  {
  }

  /** findContainingCBlock, taken before the handler runs. */
  method ContainingCBlock(ws: Workspace, b: Id) returns (r: Option<Id>)
    ensures r == FindContainingCBlock(ws, b)
  {
    r := FindContainingCBlock(ws, b);
  }

  /** The top connector: handleTopConnection, then finalizeConnection. */
  method ConnectAtTop(env: Env, ws: Workspace, dragged: Id, target: Id, containing: Option<Id>, canTop: bool, level: Id -> int)
    returns (r: Workspace)
    requires Resolves(ws, dragged) && Resolves(ws, target)
    ensures |r| == |ws|
    ensures canTop && CalculatePosition(ws, env, target, dragged, Top).Some? && Apart(ws, dragged, target)
      ==> ChainBlocks(r, dragged) == ChainBlocks(ws, dragged) + ChainBlocks(ws, target)
    ensures !canTop || CalculatePosition(ws, env, target, dragged, Top).None? ==>
      SameLinks(ws, r) && r[dragged].topLevel && MovedOutside(ws, r, {dragged} + ContainerIds(containing))
    ensures canTop && CalculatePosition(ws, env, target, dragged, Top).Some? ==>
      TopJoined(ws, r, dragged, target, ContainerIds(containing))
    ensures Settled(env, r, containing)
  {
    var w := HandleTopConnection(env, ws, dragged, target, canTop, level);
    r := FinalizeConnection(env, w, containing);
    ChainSameNext(w, r, dragged);
    if !canTop || CalculatePosition(ws, env, target, dragged, Top).None? {
      RefusedKept(ws, w, r, dragged, ContainerIds(containing));
    } else {
      TopLinksKept(ws, w, r, dragged, target, ContainerIds(containing));
    }
  }

  /** A refused connection stays refused through a change that keeps links and flags and is confined to `t`. */
  lemma {:induction false} RefusedKept(ws: Workspace, w: Workspace, r: Workspace, dragged: Id, t: set<Id>)
    requires Resolves(ws, dragged) && w == TopLevelOnly(ws, dragged)
    requires SameLinks(w, r) && MovedOutside(w, r, t)
    requires forall k :: 0 <= k < |w| ==> r[k].topLevel == w[k].topLevel
    ensures SameLinks(ws, r) && r[dragged].topLevel && MovedOutside(ws, r, {dragged} + t)
  {
    MovedOutsideTrans(ws, w, r, {dragged}, t);
  }

  /** The top-connection links survive a change that keeps links and flags and is confined to `t`. */
  lemma {:induction false} TopLinksKept(ws: Workspace, w: Workspace, r: Workspace, dragged: Id, target: Id, t: set<Id>)
    requires Resolves(ws, dragged) && Resolves(ws, target) && TopJoined(ws, w, dragged, target, {})
    requires SameLinks(w, r) && MovedOutside(w, r, t)
    requires forall k :: 0 <= k < |w| ==>
      r[k].topLevel == w[k].topLevel && r[k].topConnected == w[k].topConnected && r[k].bottomConnected == w[k].bottomConnected
    ensures TopJoined(ws, r, dragged, target, t)
  {
    var chain := ChainBlocks(ws, dragged);
    var s := {dragged, chain[|chain| - 1], target};
    assert s + {} == s;
    MovedOutsideTrans(ws, w, r, s, t);
  }

  /** The bottom connector: handleBottomConnection, then finalizeConnection. */
  method ConnectAtBottom(env: Env, ws: Workspace, dragged: Id, target: Id, containing: Option<Id>, canBottom: bool, level: Id -> int)
    returns (r: Workspace)
    requires Resolves(ws, dragged) && Resolves(ws, target)
    ensures |r| == |ws|
    ensures canBottom && CalculatePosition(ws, env, target, dragged, Bottom).Some?
      && !Resolves(ws, ws[target].next) && target !in ChainBlocks(ws, dragged)
      ==> ChainBlocks(r, target) == [target] + ChainBlocks(ws, dragged)
    ensures !canBottom || CalculatePosition(ws, env, target, dragged, Bottom).None? ==>
      SameLinks(ws, r) && r[dragged].topLevel && MovedOutside(ws, r, {dragged} + ContainerIds(containing))
    ensures canBottom && CalculatePosition(ws, env, target, dragged, Bottom).Some? ==>
      && r[target].next == dragged && r[target].bottomConnected
      && r[dragged].parent == target && r[dragged].topConnected && !r[dragged].topLevel
      && MovedOutside(ws, r, {dragged, target} + ContainerIds(containing))
    ensures Settled(env, r, containing)
  {
    var w := HandleBottomConnection(env, ws, dragged, target, canBottom, level);
    r := FinalizeConnection(env, w, containing);
    ChainSameNext(w, r, target);
    if !canBottom || CalculatePosition(ws, env, target, dragged, Bottom).None? {
      RefusedKept(ws, w, r, dragged, ContainerIds(containing));
    } else {
      MovedOutsideTrans(ws, w, r, {dragged, target}, ContainerIds(containing));
    }
  }

  /** The middle connector: handleMiddleConnection with the target's next block, then finalizeConnection. */
  method ConnectAtMiddle(env: Env, ws: Workspace, dragged: Id, target: Id, containing: Option<Id>,
                         call: SpecialChainCall, level: Id -> int) returns (r: Workspace)
    requires Resolves(ws, dragged) && Resolves(ws, target)
    ensures MiddleDone(ws, MiddleLaidOut(env, ws, dragged, target), r, dragged, target, ws[target].next, call,
                       ContainerIds(containing))
    ensures Settled(env, r, containing)
  {
    var w := HandleMiddleConnection(env, ws, dragged, target, ws[target].next, call, level);
    r := FinalizeConnection(env, w, containing);
    MiddleDoneKept(ws, MiddleLaidOut(env, ws, dragged, target), w, r, dragged, target, ws[target].next, call,
                   {}, ContainerIds(containing));
    assert {} + ContainerIds(containing) == ContainerIds(containing);
  }

  /**
    connectBlocks: a ghost block on either side only makes the dragged block
    top-level; otherwise the target connector picks the handler, and for the
    top, bottom and middle connectors the c-block that contained the target
    beforehand is synced afterwards. The verdicts of canConnectFromTop and
    canConnectFromBottom, the call of handleMiddleInsertionWithSpecialBlocks
    (its verdict and the arena it leaves), the two rectangles and the nesting
    levels are parameters.
  */
  method ConnectBlocks(env: Env, ws: Workspace, dragged: Id, target: Id, targetConnector: ConnectorType,
                       draggedConnector: ConnectorType, targetRect: Rect, draggedRect: Rect,
                       canTop: bool, canBottom: bool, specialChain: SpecialChainCall, level: Id -> int)
    returns (r: Workspace)
    requires Resolves(ws, dragged) && Resolves(ws, target)
    ensures |r| == |ws|
    ensures ws[target].isGhost || ws[dragged].isGhost ==> r == TopLevelOnly(ws, dragged)
    ensures !ws[target].isGhost && !ws[dragged].isGhost && targetConnector == InnerTop ==>
      && (!IsCBlockId(ws, target) ==> r == TopLevelOnly(ws, dragged))
      && (var inner := InnerBlocks(ws, target); var chain := ChainBlocks(ws, dragged);
          IsCBlockId(ws, target) && Disjoint(inner, chain) && target !in chain ==>
          InnerBlocks(r, target) == if inner == [] then chain else chain + inner)
    ensures !ws[target].isGhost && !ws[dragged].isGhost && targetConnector == Top && canTop
      && CalculatePosition(ws, env, target, dragged, Top).Some? && Apart(ws, dragged, target)
      ==> ChainBlocks(r, dragged) == ChainBlocks(ws, dragged) + ChainBlocks(ws, target)
    ensures !ws[target].isGhost && !ws[dragged].isGhost && targetConnector == Bottom && canBottom
      && CalculatePosition(ws, env, target, dragged, Bottom).Some?
      && !Resolves(ws, ws[target].next) && target !in ChainBlocks(ws, dragged)
      ==> ChainBlocks(r, target) == [target] + ChainBlocks(ws, dragged)
    ensures !ws[target].isGhost && !ws[dragged].isGhost && targetConnector == Middle ==>
      MiddleDone(ws, MiddleLaidOut(env, ws, dragged, target), r, dragged, target, ws[target].next, specialChain,
                 ContainerIds(FindContainingCBlock(ws, target)))
    ensures !ws[target].isGhost && !ws[dragged].isGhost && targetConnector == InnerTop && IsCBlockId(ws, target) ==>
      r == InsertInside(env, ws, target, dragged, InsertPosition(ws, target).x, InsertPosition(ws, target).y, false)
    ensures !ws[target].isGhost && !ws[dragged].isGhost && targetConnector == Top && canTop
      && CalculatePosition(ws, env, target, dragged, Top).Some?
      ==> TopJoined(ws, r, dragged, target, ContainerIds(FindContainingCBlock(ws, target)))
    ensures !ws[target].isGhost && !ws[dragged].isGhost && targetConnector == Bottom && canBottom
      && CalculatePosition(ws, env, target, dragged, Bottom).Some?
      ==> && r[target].next == dragged && r[target].bottomConnected
          && r[dragged].parent == target && r[dragged].topConnected && !r[dragged].topLevel
          && MovedOutside(ws, r, {dragged, target} + ContainerIds(FindContainingCBlock(ws, target)))
    ensures !ws[target].isGhost && !ws[dragged].isGhost && targetConnector != InnerTop ==>
      Settled(env, r, FindContainingCBlock(ws, target))
  {
    var targetPos := ConnectorPosition(env, ws[target], targetRect, targetConnector);
    var draggedPos := ConnectorPosition(env, ws[dragged], draggedRect, draggedConnector);
    if targetPos.None? || draggedPos.None? {
      return TopLevelOnly(ws, dragged);
    }
    var containing := ContainingCBlock(ws, target);
    match targetConnector {
      case InnerTop =>
        r := HandleInnerTopConnection(env, ws, dragged, target);
      case Top =>
        r := ConnectAtTop(env, ws, dragged, target, containing, canTop, level);
      case Bottom =>
        r := ConnectAtBottom(env, ws, dragged, target, containing, canBottom, level);
      case Middle =>
        r := ConnectAtMiddle(env, ws, dragged, target, containing, specialChain, level);
    }
  }
}

=== FILE: connectors.dfy ===
/**
  Connector matching (src/blocks/BlockConnectors.js). Every block type offers a
  fixed list of connectors; an occupied top or bottom connector disappears and
  a block with a block below it offers a middle connector. While a chain is
  dragged, each pair of a dragged connector and a compatible connector of
  another block whose catch zone the chain's first block touches is a
  candidate, and the candidate nearest to that block's centre wins, the first
  one found on ties.

  Screen rectangles come from the layout (`getBoundingClientRectRounded`, not
  part of this model): `rects[k]` is the rectangle of block `k`. Distances are
  compared squared and at twice the scale, which has the same order as the
  program's `Math.sqrt` distance between the centre and the connector.
*/
module Connectors {
  import opened Model
  import opened BlockChain

  datatype ConnectorType = Top | Bottom | InnerTop | Middle

  /** The connectors each block type offers, in the order the program lists them. */
  function BaseConnectors(kind: BlockType): (r: seq<ConnectorType>)
    ensures Top in r <==> kind == DefaultBlock || kind == CBlock || kind == StopBlock
    ensures Bottom in r <==> kind == DefaultBlock || kind == CBlock || kind == StartBlock
    ensures InnerTop in r <==> kind == CBlock
    ensures Middle !in r
  {
    match kind
    case StartBlock => [Bottom]
    case DefaultBlock => [Top, Bottom]
    case CBlock => [Top, InnerTop, Bottom]
    case StopBlock => [Top]
    case _ => []
  }

  /** A link attribute the program reads as true: anything but the empty string. */
  predicate HasLink(l: Id) {
    l != NoId
  }

  /** Leaves `c` out of `s`, keeping the order of the rest. */
  function Without(s: seq<ConnectorType>, c: ConnectorType): (r: seq<ConnectorType>)
    ensures forall x :: x in r <==> x in s && x != c
    ensures |r| <= |s|
  {
    if s == [] then []
    else if s[0] == c then Without(s[1..], c)
    else [s[0]] + Without(s[1..], c)
  }

  /**
    getBlockConnectors: the base list of the type; with a block given, an
    occupied top or bottom connector is left out and a middle connector is
    added at the end when the block is connected to a block below. The program
    treats c-blocks and other blocks alike here.
  */
  function BlockConnectors(kind: BlockType, b: Option<Block>): (r: seq<ConnectorType>)
    ensures Top in r <==> Top in BaseConnectors(kind) && !(b.Some? && b.value.topConnected)
    ensures Bottom in r <==> Bottom in BaseConnectors(kind) && !(b.Some? && b.value.bottomConnected)
    ensures InnerTop in r <==> kind == CBlock
    ensures Middle in r <==> b.Some? && b.value.bottomConnected && HasLink(b.value.next)
  {
    var base := BaseConnectors(kind);
    if b.None? then base
    else
      var t := if b.value.topConnected then Without(base, Top) else base;
      var u := if b.value.bottomConnected then Without(t, Bottom) else t;
      if b.value.bottomConnected && HasLink(b.value.next) then u + [Middle] else u
  }

  /** Without a block the list is the base list of the type. */
  lemma NoBlockIsBase(kind: BlockType)
    ensures BlockConnectors(kind, None) == BaseConnectors(kind)
  {
  }

  /** No connector is listed twice. */
  predicate NoRepeats(s: seq<ConnectorType>) {
    forall i, j :: 0 <= i < j < |s| ==> s[i] != s[j]
  }

  /** Every connector the program offers is listed once. */
  lemma {:induction false} ConnectorsDistinct(kind: BlockType, b: Option<Block>)
    ensures NoRepeats(BlockConnectors(kind, b))
  {
    var base := BaseConnectors(kind);
    assert NoRepeats(base);
    if b.Some? {
      var t := if b.value.topConnected then Without(base, Top) else base;
      WithoutDistinct(base, Top);
      var u := if b.value.bottomConnected then Without(t, Bottom) else t;
      WithoutDistinct(t, Bottom);
      SnocNoRepeats(u, Middle);
    }
  }

  lemma SnocNoRepeats(u: seq<ConnectorType>, x: ConnectorType)
    requires NoRepeats(u) && x !in u
    ensures NoRepeats(u + [x])
  {
    var v := u + [x];
    forall i, j | 0 <= i < j < |v|
      ensures v[i] != v[j]
    {
      assert v[i] == u[i] && u[i] in u;
      if j < |u| {
        assert v[j] == u[j];
      }
    }
  }

  lemma ConsNoRepeats(x: ConnectorType, u: seq<ConnectorType>)
    requires NoRepeats(u) && x !in u
    ensures NoRepeats([x] + u)
  {
    var v := [x] + u;
    forall i, j | 0 <= i < j < |v|
      ensures v[i] != v[j]
    {
      assert v[j] == u[j - 1] && u[j - 1] in u;
      if i > 0 {
        assert v[i] == u[i - 1];
      }
    }
  }

  lemma {:induction false} WithoutDistinct(s: seq<ConnectorType>, c: ConnectorType)
    requires NoRepeats(s)
    ensures NoRepeats(Without(s, c))
    decreases |s|
  {
    if s != [] {
      assert s == [s[0]] + s[1..];
      assert NoRepeats(s[1..]) by {
        forall i, j | 0 <= i < j < |s[1..]|
          ensures s[1..][i] != s[1..][j]
        {
          assert s[1..][i] == s[i + 1] && s[1..][j] == s[j + 1];
        }
      }
      assert s[0] !in s[1..] by {
        forall k | 0 <= k < |s[1..]|
          ensures s[1..][k] != s[0]
        {
          assert s[1..][k] == s[k + 1];
        }
      }
      WithoutDistinct(s[1..], c);
      if s[0] != c {
        ConsNoRepeats(s[0], Without(s[1..], c));
      }
    }
  }

  /**
    The connectors a dragged block offers: its own list, except that a dragged
    c-block offers neither its inner connector nor its middle one.
  */
  function DraggedConnectors(b: Block): (r: seq<ConnectorType>)
    ensures forall c :: c in r <==> c in BlockConnectors(b.kind, Some(b)) && !(b.kind == CBlock && (c == InnerTop || c == Middle))
  {
    var own := BlockConnectors(b.kind, Some(b));
    if b.kind == CBlock then Without(Without(own, InnerTop), Middle) else own
  }

  /**
    canConnect: a top connector meets a bottom, inner or middle one, and any
    of those meets a top one, except that a dragged c-block never targets a
    middle connector.
  */
  function CanConnect(dragged: ConnectorType, target: ConnectorType, draggedKind: BlockType): bool {
    if target == Middle && draggedKind == CBlock then false
    else match dragged
      case Top => target == Bottom || target == InnerTop || target == Middle
      case _ => target == Top
  }

  /**
    Every allowed connection pairs a top connector with one that is not a top
    connector; a top connector accepts every other kind (a dragged c-block
    excepted for the middle one), and every other kind accepts only a top one.
  */
  lemma CanConnectPairsTop(d: ConnectorType, t: ConnectorType, k: BlockType)
    ensures CanConnect(d, t, k) ==> (d == Top) != (t == Top)
    ensures CanConnect(Top, t, k) <==> t != Top && !(t == Middle && k == CBlock)
    ensures d != Top ==> (CanConnect(d, t, k) <==> t == Top)
  {
  }

  /**
    getConnectorPosition: none for a ghost block; otherwise a point on the
    left edge of the block's rectangle (moved right for the inner connector),
    at the height of the connector.
  */
  function ConnectorPosition(env: Env, b: Block, rect: Rect, c: ConnectorType): (r: Option<Point>)
    ensures r.None? <==> b.isGhost
    ensures r.Some? && c != InnerTop ==> r.value.x == rect.left
    ensures r.Some? && c == InnerTop ==> r.value.x == rect.left + env.innerTopX
    ensures r.Some? && c == Top ==> r.value.y == rect.top + env.topY
    ensures r.Some? && c == Bottom ==> r.value.y == rect.Bottom() - env.socketHeight + env.bottomY
    ensures r.Some? && c == InnerTop ==> r.value.y == rect.top + env.innerTopY
    ensures r.Some? && c == Middle ==> r.value.y == rect.Bottom() - env.socketHeight
  {
    if b.isGhost then None
    else match c
      case Top => Some(Point(rect.left, rect.top + env.topY))
      case Bottom => Some(Point(rect.left, rect.Bottom() - env.socketHeight + env.bottomY))
      case InnerTop => Some(Point(rect.left + env.innerTopX, rect.top + env.innerTopY))
      case Middle => Some(Point(rect.left, rect.Bottom() - env.socketHeight))
  }

  /** The middle connector sits where the bottom connector would, without its offset; top and inner are measured from the top edge. */
  lemma ConnectorRelations(env: Env, b: Block, rect: Rect)
    requires !b.isGhost
    ensures ConnectorPosition(env, b, rect, Middle).value.y + env.bottomY == ConnectorPosition(env, b, rect, Bottom).value.y
    ensures ConnectorPosition(env, b, rect, Top).value.y - env.topY == ConnectorPosition(env, b, rect, InnerTop).value.y - env.innerTopY
  {
  }

  /** A catch zone and the connector point it belongs to. */
  datatype ZoneBounds = ZoneBounds(zone: Rect, centre: Point)

  /** A c-block's middle connector with a block below it gets the narrower, lower zone. */
  predicate NarrowZone(b: Block, c: ConnectorType) {
    b.kind == CBlock && c == Middle && b.bottomConnected && HasLink(b.next)
  }

  /** The zone width: the stored width, else the form's width, else 150. */
  function ZoneWidth(env: Env, b: Block): int {
    StoredOr(b.width, Or(FormOf(env, b.kind).width, 150))
  }

  /**
    getConnectorZoneBounds: none for a ghost block. Otherwise the zone starts
    at the block's left edge, is as wide as the block and as high as the catch
    threshold, and is centred vertically on the connector; a c-block's middle
    connector with a block below it gets the narrower threshold and is moved
    down. With an overlay rectangle every coordinate is made relative to it.
  */
  function ZoneBoundsOf(env: Env, b: Block, rect: Rect, c: ConnectorType, overlay: Option<Rect>): (r: Option<ZoneBounds>)
    ensures r.None? <==> b.isGhost
    ensures r.Some? ==> r.value.zone.width == ZoneWidth(env, b)
    ensures r.Some? ==> r.value.zone.height == 2 * (if NarrowZone(b, c) then env.halfCBlockMiddleThreshold else env.halfThreshold)
  {
    match ConnectorPosition(env, b, rect, c)
    case None => None
    case Some(pos) =>
      var half := if NarrowZone(b, c) then env.halfCBlockMiddleThreshold else env.halfThreshold;
      var y := pos.y - half + (if NarrowZone(b, c) then env.cBlockMiddleZoneY else 0);
      var z := Rect(rect.left, y, ZoneWidth(env, b), 2 * half);
      match overlay
      case None => Some(ZoneBounds(z, pos))
      case Some(o) => Some(ZoneBounds(z.(left := rect.left - o.left, top := y - o.top), Point(pos.x - o.left, pos.y - o.top)))
  }

  /**
    The zone is centred on its connector point: the connector lies on the
    zone's left edge halfway down, except that the narrow c-block zone is
    shifted down by its offset.
  */
  lemma ZoneCentredOnConnector(env: Env, b: Block, rect: Rect, c: ConnectorType, overlay: Option<Rect>)
    requires !b.isGhost
    ensures var zb := ZoneBoundsOf(env, b, rect, c, overlay).value;
      && 2 * zb.zone.top + zb.zone.height == 2 * zb.centre.y + (if NarrowZone(b, c) then 2 * env.cBlockMiddleZoneY else 0)
      && (c != InnerTop ==> zb.zone.left == zb.centre.x)
  {
  }

  /** The overlay only changes the frame of reference: every coordinate is moved by the overlay's corner. */
  lemma ZoneOverlayIsTranslation(env: Env, b: Block, rect: Rect, c: ConnectorType, o: Rect)
    requires !b.isGhost
    ensures var plain := ZoneBoundsOf(env, b, rect, c, None).value;
      ZoneBoundsOf(env, b, rect, c, Some(o)).value ==
        ZoneBounds(plain.zone.(left := plain.zone.left - o.left, top := plain.zone.top - o.top),
                   Point(plain.centre.x - o.left, plain.centre.y - o.top))
  {
  }

  /** getConnectorZone: the zone rectangle alone. */
  function ConnectorZone(env: Env, b: Block, rect: Rect, c: ConnectorType): (r: Option<Rect>)
    ensures r.None? <==> b.isGhost
  {
    match ZoneBoundsOf(env, b, rect, c, None)
    case None => None
    case Some(zb) => Some(zb.zone)
  }

  /** isBlockIntersectingZone: the two rectangles overlap, touching edges included; nothing overlaps a missing one. */
  predicate Intersects(block: Option<Rect>, zone: Option<Rect>) {
    && block.Some? && zone.Some?
    && !(block.value.Right() < zone.value.left || block.value.left > zone.value.Right()
         || block.value.Bottom() < zone.value.top || block.value.top > zone.value.Bottom())
  }

  /** A point of the plane lies in the closed rectangle. */
  predicate Covers(r: Rect, p: Point) {
    r.left <= p.x <= r.Right() && r.top <= p.y <= r.Bottom()
  }

  /**
    For rectangles of non-negative size the intersection test is exactly
    "some point lies in both", and it does not depend on which rectangle is
    the block.
  */
  lemma IntersectsIffCommonPoint(a: Rect, z: Rect)
    requires a.width >= 0 && a.height >= 0 && z.width >= 0 && z.height >= 0
    ensures Intersects(Some(a), Some(z)) <==> exists p :: Covers(a, p) && Covers(z, p)
    ensures Intersects(Some(a), Some(z)) <==> Intersects(Some(z), Some(a))
  {
    if Intersects(Some(a), Some(z)) {
      var p := Point(if a.left < z.left then z.left else a.left, if a.top < z.top then z.top else a.top);
      assert Covers(a, p) && Covers(z, p);
    }
  }

  /**
    The arena as `getFirstBlockInChain` sees it: a `parent` naming a block
    that is not among the candidate blocks is not followed.
  */
  function Restrict(ws: Workspace, all: seq<Id>): (r: Workspace)
    ensures |r| == |ws|
    ensures forall k :: 0 <= k < |ws| ==> r[k] == ws[k].(parent := r[k].parent)
    ensures forall k :: 0 <= k < |ws| ==>
      r[k].parent == if Resolves(ws, ws[k].parent) && ws[k].parent !in all then NoId else ws[k].parent
  {
    seq(|ws|, k requires 0 <= k < |ws| =>
      ws[k].(parent := if Resolves(ws, ws[k].parent) && ws[k].parent !in all then NoId else ws[k].parent))
  }

  /**
    getFirstBlockInChain: follows `parent` from `b` while the parent is one of
    the candidate blocks `all`. The walk stops on a revisit, where the program
    would loop.
  */
  function FirstInChain(ws: Workspace, all: seq<Id>, b: Id): (r: Id)
    requires Resolves(ws, b) && forall i :: 0 <= i < |all| ==> Resolves(ws, all[i])
    ensures Resolves(ws, r) && (r == b || r in all)
    ensures var p := ws[r].parent; p in all ==> p in UpPath(Restrict(ws, all), b)
  {
    var path := UpPath(Restrict(ws, all), b);
    assert path[|path| - 1] in path;
    LastOfUpPath(Restrict(ws, all), b, all, path);
    path[|path| - 1]
  }

  /**
    The first block of the chain is where any complete upward walk from `b`
    through candidate parents ends.
  */
  lemma {:induction false} FirstInChainIsWalkEnd(ws: Workspace, all: seq<Id>, b: Id, p: seq<Id>)
    requires Resolves(ws, b) && forall i :: 0 <= i < |all| ==> Resolves(ws, all[i])
    requires IsWalkFrom(Restrict(ws, all), Up, b, p)
    ensures FirstInChain(ws, all, b) == p[|p| - 1]
  {
    var w := Restrict(ws, all);
    assert Resolves(w, b);
    UpPathIsWalk(w, b, p);
  }

  /** Every block of the restricted upward walk after its start is a candidate block. */
  lemma {:induction false} LastOfUpPath(w: Workspace, b: Id, all: seq<Id>, path: seq<Id>)
    requires IsWalkFrom(w, Up, b, path)
    requires forall k :: 0 <= k < |w| && Resolves(w, w[k].parent) ==> w[k].parent in all
    ensures path[|path| - 1] == b || path[|path| - 1] in all
  {
    if |path| > 1 {
      LinkedStep(w, path, |path| - 2);
    }
  }

  /** Consecutive blocks of a linked upward path: the later one is the parent of the earlier. */
  lemma {:induction false} LinkedStep(w: Workspace, p: seq<Id>, i: nat)
    requires LinkedPath(w, Up, p) && i + 1 < |p|
    ensures Resolves(w, p[i]) && w[p[i]].parent == p[i + 1] && Resolves(w, p[i + 1])
    decreases i
  {
    if i > 0 {
      LinkedPathTail(w, p);
      LinkedStep(w, p[1..], i - 1);
    }
  }

  lemma {:induction false} LinkedPathTail(w: Workspace, p: seq<Id>)
    requires LinkedPath(w, Up, p) && |p| >= 1
    ensures LinkedPath(w, Up, p[1..])
  {
    DistinctSuffix(p, 1);
  }

  /** When every block is a candidate, the first block of the chain is its top-level block. */
  lemma {:induction false} FirstInChainWithAll(ws: Workspace, all: seq<Id>, b: Id)
    requires Resolves(ws, b) && forall i :: 0 <= i < |all| ==> Resolves(ws, all[i])
    requires forall k :: 0 <= k < |ws| ==> k in all
    ensures FirstInChain(ws, all, b) == TopLevelBlock(ws, b).value
  {
    assert Restrict(ws, all) == ws;
  }

  /** One pairing of a dragged connector with a connector of another block. */
  datatype Candidate = Candidate(target: Id, targetConnector: ConnectorType, draggedConnector: ConnectorType, position: Point)

  /** Where a drop would be previewed: at the dragged block's connector, or at the first block's centre when it has none. */
  datatype Anchor = ConnectorAt(p: Point) | CentreOf(r: Rect)

  /** The result of findNearestConnector; `distance2` is four times the squared distance. */
  datatype Match = Match(target: Id, targetConnector: ConnectorType, draggedConnector: ConnectorType,
                         distance2: int, position: Point, anchor: Anchor)

  /** The inputs of one search: the arena, its layout and the dragged block. */
  datatype Search = Search(ws: Workspace, env: Env, rects: seq<Rect>, dragged: Id, all: seq<Id>)

  /** A search over blocks that all exist and all have a rectangle. */
  predicate ValidSearch(s: Search) {
    && |s.rects| == |s.ws|
    && Resolves(s.ws, s.dragged)
    && forall i :: 0 <= i < |s.all| ==> Resolves(s.ws, s.all[i])
  }

  /** The rectangle of the dragged chain's first block. */
  function FirstRect(s: Search): Rect
    requires ValidSearch(s)
  {
    s.rects[FirstInChain(s.ws, s.all, s.dragged)]
  }

  /** Whether pairing dragged connector `d` with connector `tc` of block `t` is a candidate. */
  predicate Acceptable(s: Search, t: Id, d: ConnectorType, tc: ConnectorType)
    requires ValidSearch(s) && Resolves(s.ws, t)
  {
    && CanConnect(d, tc, s.ws[s.dragged].kind)
    && Intersects(Some(FirstRect(s)), ConnectorZone(s.env, s.ws[t], s.rects[t], tc))
  }

  /** The point of connector `tc` of block `t`, which is not a ghost. */
  function TargetPoint(s: Search, t: Id, tc: ConnectorType): Point
    requires ValidSearch(s) && Resolves(s.ws, t) && !s.ws[t].isGhost
  {
    ConnectorPosition(s.env, s.ws[t], s.rects[t], tc).value
  }

  /** The candidates pairing `d` with the connectors `ts` of block `t`, in order. */
  function PairsWith(s: Search, t: Id, d: ConnectorType, ts: seq<ConnectorType>): (r: seq<Candidate>)
    requires ValidSearch(s) && Resolves(s.ws, t) && !s.ws[t].isGhost
    decreases |ts|
  {
    if ts == [] then []
    else
      (if Acceptable(s, t, d, ts[0]) then [Candidate(t, ts[0], d, TargetPoint(s, t, ts[0]))] else [])
      + PairsWith(s, t, d, ts[1..])
  }

  /** The candidates of block `t` for the dragged connectors `ds`, in order. */
  function PairsOf(s: Search, t: Id, ds: seq<ConnectorType>): (r: seq<Candidate>)
    requires ValidSearch(s) && Resolves(s.ws, t) && !s.ws[t].isGhost
    decreases |ds|
  {
    if ds == [] then []
    else PairsWith(s, t, ds[0], BlockConnectors(s.ws[t].kind, Some(s.ws[t]))) + PairsOf(s, t, ds[1..])
  }

  /** The candidates over the blocks `ts`, skipping the dragged block and ghosts, in the program's loop order. */
  function CandidatesFrom(s: Search, ts: seq<Id>): (r: seq<Candidate>)
    requires ValidSearch(s) && forall i :: 0 <= i < |ts| ==> Resolves(s.ws, ts[i])
    decreases |ts|
  {
    if ts == [] then []
    else
      var t := ts[0];
      assert Resolves(s.ws, t);
      (if t != s.dragged && !s.ws[t].isGhost then PairsOf(s, t, DraggedConnectors(s.ws[s.dragged])) else [])
      + CandidatesFrom(s, ts[1..])
  }

  function Candidates(s: Search): seq<Candidate>
    requires ValidSearch(s)
  {
    CandidatesFrom(s, s.all)
  }

  /**
    The independent description of a candidate: a connector pairing between
    the dragged block and a non-ghost candidate block other than it, allowed by
    canConnect, whose zone the first block of the dragged chain touches, at the
    target connector's point.
  */
  predicate IsCandidate(s: Search, c: Candidate)
    requires ValidSearch(s)
  {
    && c.target in s.all && c.target != s.dragged && !s.ws[c.target].isGhost
    && c.draggedConnector in DraggedConnectors(s.ws[s.dragged])
    && c.targetConnector in BlockConnectors(s.ws[c.target].kind, Some(s.ws[c.target]))
    && Acceptable(s, c.target, c.draggedConnector, c.targetConnector)
    && c.position == TargetPoint(s, c.target, c.targetConnector)
  }

  lemma {:induction false} PairsWithMembers(s: Search, t: Id, d: ConnectorType, ts: seq<ConnectorType>, c: Candidate)
    requires ValidSearch(s) && Resolves(s.ws, t) && !s.ws[t].isGhost
    ensures c in PairsWith(s, t, d, ts) <==>
      c.target == t && c.draggedConnector == d && c.targetConnector in ts
      && Acceptable(s, t, d, c.targetConnector) && c.position == TargetPoint(s, t, c.targetConnector)
    decreases |ts|
  {
    if ts != [] {
      PairsWithMembers(s, t, d, ts[1..], c);
      assert forall x :: x in ts <==> x == ts[0] || x in ts[1..] by {
        assert ts == [ts[0]] + ts[1..];
      }
    }
  }

  lemma {:induction false} PairsOfMembers(s: Search, t: Id, ds: seq<ConnectorType>, c: Candidate)
    requires ValidSearch(s) && Resolves(s.ws, t) && !s.ws[t].isGhost
    ensures c in PairsOf(s, t, ds) <==>
      c.target == t && c.draggedConnector in ds
      && c.targetConnector in BlockConnectors(s.ws[t].kind, Some(s.ws[t]))
      && Acceptable(s, t, c.draggedConnector, c.targetConnector) && c.position == TargetPoint(s, t, c.targetConnector)
    decreases |ds|
  {
    if ds != [] {
      PairsWithMembers(s, t, ds[0], BlockConnectors(s.ws[t].kind, Some(s.ws[t])), c);
      PairsOfMembers(s, t, ds[1..], c);
      assert forall x :: x in ds <==> x == ds[0] || x in ds[1..] by {
        assert ds == [ds[0]] + ds[1..];
      }
    }
  }

  lemma {:induction false} CandidatesFromMembers(s: Search, ts: seq<Id>, c: Candidate)
    requires ValidSearch(s) && forall i :: 0 <= i < |ts| ==> Resolves(s.ws, ts[i])
    ensures c in CandidatesFrom(s, ts) <==>
      c.target in ts && Resolves(s.ws, c.target) && c.target != s.dragged && !s.ws[c.target].isGhost
      && c in PairsOf(s, c.target, DraggedConnectors(s.ws[s.dragged]))
    decreases |ts|
  {
    if ts != [] {
      var t, rest := ts[0], ts[1..];
      var ds := DraggedConnectors(s.ws[s.dragged]);
      var head := if t != s.dragged && !s.ws[t].isGhost then PairsOf(s, t, ds) else [];
      assert CandidatesFrom(s, ts) == head + CandidatesFrom(s, rest);
      assert c.target in ts <==> c.target == t || c.target in rest by {
        assert ts == [t] + rest;
      }
      CandidatesFromMembers(s, rest, c);
      if t != s.dragged && !s.ws[t].isGhost {
        PairsOfMembers(s, t, ds, c);
      }
    }
  }

  /** The candidate list holds exactly the pairings the independent description admits. */
  lemma {:induction false} CandidatesExactly(s: Search, c: Candidate)
    requires ValidSearch(s)
    ensures c in Candidates(s) <==> IsCandidate(s, c)
  {
    CandidatesFromMembers(s, s.all, c);
    if c.target in s.all && c.target != s.dragged && !s.ws[c.target].isGhost {
      PairsOfMembers(s, c.target, DraggedConnectors(s.ws[s.dragged]), c);
    }
  }

  /** Four times the squared distance between the centre of `r` and `p`. */
  function Distance2(r: Rect, p: Point): (d: int)
    ensures d >= 0
  {
    var dx := 2 * r.left + r.width - 2 * p.x;
    var dy := 2 * r.top + r.height - 2 * p.y;
    dx * dx + dy * dy
  }

  /**
    The index the program's loop keeps: it walks the list in order and takes
    a candidate only when it is strictly nearer than the best so far, so the
    first of several nearest candidates stays.
  */
  function BestIndex(cs: seq<Candidate>, centre: Rect): (i: int)
    ensures cs == [] <==> i == -1
    ensures cs != [] ==> 0 <= i < |cs|
    ensures cs != [] ==> forall j :: 0 <= j < |cs| ==> Distance2(centre, cs[i].position) <= Distance2(centre, cs[j].position)
    ensures cs != [] ==> forall j :: 0 <= j < i ==> Distance2(centre, cs[i].position) < Distance2(centre, cs[j].position)
    decreases |cs|
  {
    if cs == [] then -1
    else
      var n := |cs| - 1;
      var b := BestIndex(cs[..n], centre);
      assert forall j :: 0 <= j < n ==> cs[..n][j] == cs[j];
      if b == -1 || Distance2(centre, cs[n].position) < Distance2(centre, cs[b].position) then n else b
  }

  /** The nearest candidate, first among equals, is unique: any index with both properties is the loop's choice. */
  lemma {:induction false} BestIndexUnique(cs: seq<Candidate>, centre: Rect, i: int)
    requires 0 <= i < |cs|
    requires forall j :: 0 <= j < |cs| ==> Distance2(centre, cs[i].position) <= Distance2(centre, cs[j].position)
    requires forall j :: 0 <= j < i ==> Distance2(centre, cs[i].position) < Distance2(centre, cs[j].position)
    ensures BestIndex(cs, centre) == i
  {
  }

  /**
    findNearestConnector: nothing without a dragged block or candidate blocks;
    otherwise the nearest candidate, first among equals, or nothing when there
    is no candidate.
  */
  function FindNearest(s: Search): (r: Option<Match>)
    requires |s.rects| == |s.ws| && forall i :: 0 <= i < |s.all| ==> Resolves(s.ws, s.all[i])
    ensures !Resolves(s.ws, s.dragged) || s.all == [] ==> r.None?
    ensures r.Some? ==> ValidSearch(s) && r.value.target in s.all && r.value.target != s.dragged && !s.ws[r.value.target].isGhost
  {
    if !Resolves(s.ws, s.dragged) || s.all == [] then None
    else
      var cs := Candidates(s);
      var i := BestIndex(cs, FirstRect(s));
      if i == -1 then None
      else
        var c := cs[i];
        CandidatesExactly(s, c);
        var anchor := match ConnectorPosition(s.env, s.ws[s.dragged], s.rects[s.dragged], c.draggedConnector)
          case Some(p) => ConnectorAt(p)
          case None => CentreOf(FirstRect(s));
        Some(Match(c.target, c.targetConnector, c.draggedConnector, Distance2(FirstRect(s), c.position), c.position, anchor))
  }

  /**
    Position `i` of the candidate list `cs` holds the match `m`, no candidate
    is nearer, and every candidate before it is strictly farther.
  */
  predicate NearestAt(s: Search, cs: seq<Candidate>, i: int, m: Match)
    requires ValidSearch(s)
  {
    && 0 <= i < |cs|
    && cs[i] == Candidate(m.target, m.targetConnector, m.draggedConnector, m.position)
    && m.distance2 == Distance2(FirstRect(s), cs[i].position)
    && (forall j :: 0 <= j < |cs| ==> m.distance2 <= Distance2(FirstRect(s), cs[j].position))
    && (forall j :: 0 <= j < i ==> m.distance2 < Distance2(FirstRect(s), cs[j].position))
  }

  /**
    The match is a candidate nearest to the first block's centre, and every
    candidate found before it in the program's loop order is strictly
    farther; there is no match exactly when there is no candidate.
  */
  lemma {:induction false} FindNearestIsNearest(s: Search)
    requires ValidSearch(s) && s.all != []
    ensures var r := FindNearest(s); var cs := Candidates(s);
      && (r.None? <==> cs == [])
      && (r.Some? ==> (exists i :: NearestAt(s, cs, i, r.value)))
  {
    var cs := Candidates(s);
    var i := BestIndex(cs, FirstRect(s));
    if i != -1 {
      assert NearestAt(s, cs, i, FindNearest(s).value);
    }
  }

  /** No match pairs with anything the independent description rules out, and a match exists whenever a candidate does. */
  lemma {:induction false} FindNearestSound(s: Search, c: Candidate)
    requires ValidSearch(s) && s.all != [] && IsCandidate(s, c)
    ensures FindNearest(s).Some?
    ensures FindNearest(s).value.distance2 <= Distance2(FirstRect(s), c.position)
  {
    CandidatesExactly(s, c);
    FindNearestIsNearest(s);
    var cs := Candidates(s);
    var k :| 0 <= k < |cs| && cs[k] == c;
  }
}

=== FILE: dom_utils.dfy ===
/**
  Reading and writing the `transform` attribute of a block (src/utils/DOMUtils.js).
  A block's position lives in that attribute as the text `translate(x, y)`; the
  arena keeps the two numbers directly, and the round trip below is what makes
  the two views agree.
*/
module DomUtils {
  import opened Model
  import opened Numbers

  const TranslateOpen: string := "translate("

  /**
    The two capture groups of the pattern `translate\(([^,]+),\s*([^)]+)\)` when
    it matches starting at position `i` of `s`.
  */
  function MatchAt(s: string, i: nat): (r: Option<(string, string)>)
    requires i <= |s|
    ensures r.Some? ==> |r.value.0| >= 1 && ',' !in r.value.0 && |r.value.1| >= 1 && ')' !in r.value.1
  {
    var n := |TranslateOpen|;
    if i + n <= |s| && s[i..i + n] == TranslateOpen then Groups(s[i + n..]) else None
  }

  /**
    The groups read from the text after `translate(`. The first group runs up
    to the first comma and must not be empty; the second is read from the text
    between that comma and the first `)` after it, which must not be empty.
  */
  function Groups(rest: string): (r: Option<(string, string)>)
    ensures r.Some? ==> |r.value.0| >= 1 && ',' !in r.value.0 && |r.value.1| >= 1 && ')' !in r.value.1
  {
    var c := IndexOf(rest, ',');
    if c < 1 then None
    else
      var p := IndexOf(rest[c + 1..], ')');
      if p < 1 then None
      else Some((rest[..c], SecondGroupOf(rest[c + 1..][..p])))
  }

  /**
    The second group inside the text `t` between the comma and the `)`: `\s*`
    takes the leading white space, except that when only white space stands
    there it gives the last character back so that the group is not empty.
  */
  function SecondGroupOf(t: string): (r: string)
    requires |t| >= 1 && ')' !in t
    ensures 1 <= |r| <= |t| && ')' !in r && r == t[|t| - |r|..]
    ensures |r| < |t| ==> IsSpace(t[0])
  {
    var w := |t| - |SkipSpaces(t)|;
    var g := if w == |t| then |t| - 1 else w;
    assert forall k :: g <= k < |t| ==> t[k] in t;
    t[g..]
  }

  /** `RegExp.exec`: the groups of the leftmost match at or after position `i`. */
  function FindMatch(s: string, i: nat): (r: Option<(string, string)>)
    requires i <= |s|
    ensures r.None? <==> forall j :: i <= j <= |s| ==> MatchAt(s, j).None?
    decreases |s| - i
  {
    var m := MatchAt(s, i);
    if m.Some? then m
    else if i == |s| then None
    else FindMatch(s, i + 1)
  }

  /**
    getTranslateValues: the two numbers of the first `translate(a, b)` in the
    attribute; a missing or empty attribute, or one without a match, gives
    (0, 0), and a component that does not parse gives 0 on its own.
  */
  function GetTranslateValues(attr: Option<string>): (r: Point)
    ensures attr.None? || attr.value == [] ==> r == Point(0, 0)
    ensures attr.Some? && (forall j :: 0 <= j <= |attr.value| ==> MatchAt(attr.value, j).None?) ==> r == Point(0, 0)
  {
    if attr.None? || attr.value == [] then Point(0, 0)
    else
      match FindMatch(attr.value, 0)
      case None => Point(0, 0)
      case Some(groups) => Point(OrZero(ParseNumber(groups.0)), OrZero(ParseNumber(groups.1)))
  }

  /** The text `setTranslate` writes. */
  function TranslateText(x: int, y: int): string {
    TranslateOpen + IntToString(x) + ", " + IntToString(y) + ")"
  }

  /** An element as far as its `transform` attribute goes. */
  datatype Element = Element(transform: Option<string>)

  /**
    setTranslate: writes `translate(x, y)` on an element and does nothing
    without one; reading the attribute back gives (x, y).
  */
  function SetTranslate(el: Option<Element>, x: int, y: int): (r: Option<Element>)
    ensures r.None? <==> el.None?
    ensures r.Some? ==> GetTranslateValues(r.value.transform) == Point(x, y)
  {
    if el.None? then None
    else
      TranslateRoundTrip(x, y);
      Some(el.value.(transform := Some(TranslateText(x, y))))
  }

  /**
    A well-formed attribute `translate(a,b)`, with `a` free of commas and `b`
    non-empty and free of `)`, reads as the two parsed components, each
    independently of the other.
  */
  lemma {:induction false} TranslateComponents(a: string, b: string)
    requires |a| >= 1 && ',' !in a && |b| >= 1 && ')' !in b
    ensures GetTranslateValues(Some(TranslateOpen + a + "," + b + ")")) ==
      Point(OrZero(ParseNumber(a)), OrZero(ParseNumber(b)))
  {
    var s := TranslateOpen + a + "," + b + ")";
    MatchWellFormed(a, b);
    SecondGroup(b);
  }

  /** The pattern matches a well-formed attribute at its start, with the groups `a` and the second group of `b`. */
  lemma {:induction false} MatchWellFormed(a: string, b: string)
    requires |a| >= 1 && ',' !in a && |b| >= 1 && ')' !in b
    ensures MatchAt(TranslateOpen + a + "," + b + ")", 0) == Some((a, SecondGroupOf(b)))
  {
    var s := TranslateOpen + a + "," + b + ")";
    var rest := a + ("," + (b + ")"));
    assert s[..|TranslateOpen|] == TranslateOpen && s[|TranslateOpen|..] == rest;
    GroupsWellFormed(a, b);
  }

  lemma {:induction false} GroupsWellFormed(a: string, b: string)
    requires |a| >= 1 && ',' !in a && |b| >= 1 && ')' !in b
    ensures Groups(a + ("," + (b + ")"))) == Some((a, SecondGroupOf(b)))
  {
    var rest := a + ("," + (b + ")"));
    assert IndexOf(rest, ',') == |a| by {
      IndexOfAppend(a, "," + (b + ")"), ',');
    }
    var tail := rest[|a| + 1..];
    assert tail == b + ")";
    assert IndexOf(tail, ')') == |b| by {
      IndexOfAppend(b, ")", ')');
    }
    assert tail[..|b|] == b;
    assert rest[..|a|] == a;
  }

  /** The second group read from `b` parses like `b` itself: only leading white space is left out. */
  lemma {:induction false} SecondGroup(b: string)
    requires |b| >= 1 && ')' !in b
    ensures ParseNumber(SecondGroupOf(b)) == ParseNumber(b)
  {
    var w := |b| - |SkipSpaces(b)|;
    assert b == b[..w] + b[w..];
    ParseSkipsSpaces(b[..w], b[w..]);
    if w == |b| {
      var g := |b| - 1;
      assert b[g..] == b[g..g + 1] + [];
      ParseSkipsSpaces(b[g..], []);
      assert b[w..] == [];
    }
  }

  /** Reading back what setTranslate wrote gives the two integers written. */
  lemma {:induction false} TranslateRoundTrip(x: int, y: int)
    ensures GetTranslateValues(Some(TranslateText(x, y))) == Point(x, y)
  {
    var a := IntToString(x);
    var b := " " + IntToString(y);
    assert TranslateText(x, y) == TranslateOpen + a + "," + b + ")";
    TranslateComponents(a, b);
    assert ParseNumber(a) == Some(x) by {
      ParseIntToString(x, []);
      assert a + [] == a;
    }
    assert ParseNumber(b) == Some(y) by {
      ParseIntToString(y, []);
      assert IntToString(y) + [] == IntToString(y);
      ParseSkipsSpaces(" ", IntToString(y));
    }
  }
}

=== FILE: drag_helpers.dfy ===
/**
  Helpers of the drag code (src/ui/drag/DragHelpers.js): the height a block's
  shape occupies, and the inclusive point-in-rectangle tests used to decide
  whether the pointer is over the workspace, the sidebar or the trash, and
  whether a dropped block's centre is over the sidebar. The rectangles come
  from the layout and are parameters here.
*/
module DragHelpers {
  import opened Model

  /**
    getBlockPathHeight. A c-block's stored height comes first, because it
    grows with its contents; every other shape uses its form's height first.
    Either way a missing or zero value falls through to the next source, and
    the default block height is the last resort.
  */
  function PathHeight(env: Env, b: Block): (r: int)
    ensures var form := FormOf(env, b.kind).height;
      r == form || r == env.defaultBlockHeight || (b.height.Some? && r == b.height.value)
    ensures r == 0 ==> env.defaultBlockHeight == 0
  {
    var form := FormOf(env, b.kind);
    if b.kind == CBlock then StoredOr(b.height, Or(form.height, env.defaultBlockHeight))
    else Or(form.height, StoredOr(b.height, env.defaultBlockHeight))
  }

  /**
    Which source decides the height, in every case: a c-block's own nonzero
    height, else its nonzero form height; any other shape's nonzero form
    height, else its own nonzero height; the default when both are missing
    or zero.
  */
  lemma PathHeightSources(env: Env, b: Block)
    ensures b.kind == CBlock && b.height.Some? && b.height.value != 0 ==> PathHeight(env, b) == b.height.value
    ensures b.kind != CBlock && FormOf(env, b.kind).height != 0 ==> PathHeight(env, b) == FormOf(env, b.kind).height
    ensures FormOf(env, b.kind).height == 0 && (b.height.None? || b.height.value == 0) ==>
      PathHeight(env, b) == env.defaultBlockHeight
    ensures b.kind == CBlock && (b.height.None? || b.height.value == 0) && FormOf(env, b.kind).height != 0 ==>
      PathHeight(env, b) == FormOf(env, b.kind).height
    ensures b.kind != CBlock && FormOf(env, b.kind).height == 0 && b.height.Some? && b.height.value != 0 ==>
      PathHeight(env, b) == b.height.value
  {
  }

  /** Changing only the position of a block does not change its height. */
  lemma PathHeightIgnoresPosition(env: Env, b: Block, x: int, y: int)
    ensures PathHeight(env, b.(x := x, y := y)) == PathHeight(env, b)
  {
  }

  /**
    isPointerInsideWorkspace, isPointerInsideSidebar and isPointerInsideTrash:
    the pointer is inside when it lies within the rectangle, edges included.
  */
  predicate PointerInside(rect: Rect, p: Point) {
    rect.left <= p.x <= rect.Right() && rect.top <= p.y <= rect.Bottom()
  }

  /**
    isBlockInsideSidebar: the centre of the block's rectangle lies within the
    sidebar's, edges included. The centre may fall on a half pixel, so both
    sides are compared at twice the scale.
  */
  predicate BlockInsideSidebar(block: Rect, sidebar: Rect) {
    var cx2 := 2 * block.left + block.width;
    var cy2 := 2 * block.top + block.height;
    2 * sidebar.left <= cx2 <= 2 * sidebar.Right() && 2 * sidebar.top <= cy2 <= 2 * sidebar.Bottom()
  }

  /** A rectangle that lies wholly inside the sidebar has its centre there. */
  lemma ContainedBlockInside(block: Rect, sidebar: Rect)
    requires block.width >= 0 && block.height >= 0
    requires sidebar.left <= block.left && block.Right() <= sidebar.Right()
    requires sidebar.top <= block.top && block.Bottom() <= sidebar.Bottom()
    ensures BlockInsideSidebar(block, sidebar)
  {
  }

  /** A rectangle that lies wholly to one side of the sidebar does not have its centre there. */
  lemma SeparateBlockOutside(block: Rect, sidebar: Rect)
    requires block.width >= 0 && block.height >= 0
    requires block.left > sidebar.Right() || block.Right() < sidebar.left
      || block.top > sidebar.Bottom() || block.Bottom() < sidebar.top
    ensures !BlockInsideSidebar(block, sidebar)
  {
  }

  /** For a block whose size is even, the centre test is the pointer test at the centre. */
  lemma CentreIsPointer(block: Rect, sidebar: Rect)
    requires block.width % 2 == 0 && block.height % 2 == 0
    ensures BlockInsideSidebar(block, sidebar) <==>
      PointerInside(sidebar, Point(block.left + block.width / 2, block.top + block.height / 2))
  {
  }
}

=== FILE: export_json.dfy ===
/**
  Saving the workspace (exportWorkspaceToJSON in src/blocks/BlockChain.js,
  exportCBlockToJSON in src/blocks/CBlock.js). Only chains of two or more
  blocks that hang from a top-level block are saved, each block together
  with the inner blocks of its c-blocks, nested ones included; a block is
  saved once, under its own id, and carries a position only when it is
  top-level. The saved entries are in the program's order: top-level blocks
  in arena order, each chain from the top, and a c-block's entry after the
  entries of the inner blocks it brought in.
*/
module Export {
  import opened Model
  import opened BlockChain
  import opened CBlocks
  import opened Loader

  /**
    The saved data of one block: its opcode, top-level flag and links as they
    are, its first inner block when it is a c-block with an inner chain, and
    its position only when it is top-level.
  */
  function ExportBlock(ws: Workspace, k: Id): (r: BlockData)
    requires Resolves(ws, k)
    ensures r.opcode == ws[k].opcode && r.topLevel == ws[k].topLevel
    ensures r.next == ws[k].next && r.parent == ws[k].parent
    ensures r.x.Some? <==> ws[k].topLevel
    ensures r.y.Some? <==> ws[k].topLevel
    ensures ws[k].topLevel ==> r.x.value == ws[k].x && r.y.value == ws[k].y
    ensures r.substack.Some? <==> IsCBlockId(ws, k) && Resolves(ws, ws[k].substack)
    ensures r.substack.Some? ==> r.substack.value == ws[k].substack
  {
    var b := ws[k];
    var inner := InnerBlocks(ws, k);
    BlockData(
      b.opcode,
      if b.topLevel then Some(b.x) else None,
      if b.topLevel then Some(b.y) else None,
      b.topLevel,
      b.next,
      b.parent,
      if b.kind == CBlock && |inner| > 0 then Some(inner[0]) else None)
  }

  /**
    Loading a saved block gives back a block of the same opcode, type and
    top-level flag, at the saved position when it is top-level, as long as
    the block table agrees with the arena on its type.
  */
  lemma {:induction false} ExportThenCreate(configs: Configs, ws: Workspace, k: Id)
    requires Resolves(ws, k) && ws[k].opcode in configs && configs[ws[k].opcode] == ws[k].kind
    ensures var r := CreateBlockFromData(configs, ExportBlock(ws, k));
      && r.Some?
      && r.value.opcode == ws[k].opcode && r.value.kind == ws[k].kind
      && r.value.topLevel == ws[k].topLevel
      && (ws[k].topLevel ==> r.value.x == ws[k].x && r.value.y == ws[k].y)
  {
  }

  /** The keys of a list of entries. */
  function KeySet(es: seq<Entry>): (r: set<Id>)
    ensures forall i :: 0 <= i < |es| ==> es[i].key in r
  {
    set i | 0 <= i < |es| :: es[i].key
  }

  /** Every entry is the saved data of an arena block, under that block's id. */
  predicate Exported(ws: Workspace, es: seq<Entry>) {
    forall i :: 0 <= i < |es| ==> Resolves(ws, es[i].key) && es[i].data == ExportBlock(ws, es[i].key)
  }

  /** A table of every block's inner blocks, all in the arena; a block that is not a c-block has none. */
  predicate InnerTable(kinds: seq<BlockType>, inner: seq<seq<Id>>) {
    && |inner| == |kinds|
    && (forall k :: 0 <= k < |kinds| && kinds[k] != CBlock ==> inner[k] == [])
    && forall k, j :: 0 <= k < |kinds| && 0 <= j < |inner[k]| ==> 0 <= inner[k][j] < |kinds|
  }

  /**
    What the saving walk keeps: the blocks it visits, in order, are arena
    blocks not seen before, each visited once, and the inner blocks of every
    visited block are seen by its end.
  */
  predicate Visited(inner: seq<seq<Id>>, order: seq<Id>, seen: set<Id>, seen': set<Id>) {
    && seen' == seen + Members(order)
    && (forall i :: 0 <= i < |order| ==> order[i] !in seen && 0 <= order[i] < |inner|)
    && (forall i, j :: 0 <= i < j < |order| ==> order[i] != order[j])
    && (forall i :: 0 <= i < |order| ==> Members(inner[order[i]]) <= seen')
  }

  /**
    Nothing is visited without a reason: every visited block is one of the
    `roots` or an inner block of the visited block at position `why[i]`.
  */
  ghost predicate Reached(inner: seq<seq<Id>>, order: seq<Id>, roots: set<Id>, why: seq<int>) {
    && |why| == |order|
    && forall i :: 0 <= i < |order| ==>
         || order[i] in roots
         || (0 <= why[i] < |order| && 0 <= order[why[i]] < |inner| && order[i] in inner[order[why[i]]])
  }

  /** Two walks in a row reach their blocks from the union of their roots. */
  lemma {:induction false} ReachedAppend(inner: seq<seq<Id>>, a: seq<Id>, b: seq<Id>, ra: set<Id>, rb: set<Id>,
                                         wa: seq<int>, wb: seq<int>) returns (w: seq<int>)
    requires Reached(inner, a, ra, wa) && Reached(inner, b, rb, wb)
    ensures Reached(inner, a + b, ra + rb, w)
  {
    var c := a + b;
    w := seq(|c|, i requires 0 <= i < |c| => if i < |a| then wa[i] else wb[i - |a|] + |a|);
    forall i | 0 <= i < |c| && c[i] !in ra + rb
      ensures 0 <= w[i] < |c| && 0 <= c[w[i]] < |inner| && c[i] in inner[c[w[i]]]
    {
      if i < |a| {
        assert c[i] == a[i] && c[wa[i]] == a[wa[i]];
      } else {
        assert c[i] == b[i - |a|] && c[w[i]] == b[wb[i - |a|]];
      }
    }
  }

  /** The walk of a list: its head's walk, then the walk of the rest. */
  lemma {:induction false} ReachedList(inner: seq<seq<Id>>, a: seq<Id>, b: seq<Id>, list: seq<Id>,
                                       wa: seq<int>, wb: seq<int>) returns (w: seq<int>)
    requires |list| >= 1 && Reached(inner, a, {list[0]}, wa) && Reached(inner, b, Members(list[1..]), wb)
    ensures Reached(inner, a + b, Members(list), w)
  {
    w := ReachedAppend(inner, a, b, {list[0]}, Members(list[1..]), wa, wb);
    assert {list[0]} + Members(list[1..]) == Members(list) by {
      assert list == [list[0]] + list[1..];
    }
  }

  /** A block visited after a walk from its inner blocks is reached from itself alone. */
  lemma {:induction false} ReachedSnoc(inner: seq<seq<Id>>, a: seq<Id>, k: Id, wa: seq<int>) returns (w: seq<int>)
    requires 0 <= k < |inner| && Reached(inner, a, Members(inner[k]), wa)
    ensures Reached(inner, a + [k], {k}, w)
  {
    var c := a + [k];
    w := seq(|c|, i requires 0 <= i < |c| => if i < |a| && a[i] !in inner[k] then wa[i] else |a|);
    forall i | 0 <= i < |c| && c[i] != k
      ensures 0 <= w[i] < |c| && 0 <= c[w[i]] < |inner| && c[i] in inner[c[w[i]]]
    {
      assert c[i] == a[i];
      if a[i] in inner[k] {
        assert c[|a|] == k;
      } else {
        assert a[i] !in Members(inner[k]);
        assert c[wa[i]] == a[wa[i]];
      }
    }
  }

  /** Two visits in a row make one visit. */
  lemma {:induction false} VisitedAppend(inner: seq<seq<Id>>, a: seq<Id>, b: seq<Id>, s0: set<Id>, s1: set<Id>, s2: set<Id>)
    requires Visited(inner, a, s0, s1) && Visited(inner, b, s1, s2)
    ensures Visited(inner, a + b, s0, s2)
  {
    var c := a + b;
    assert Members(c) == Members(a) + Members(b);
    forall i, j | 0 <= i < j < |c|
      ensures c[i] != c[j]
    {
      if j < |a| {
        assert c[i] == a[i] && c[j] == a[j];
      } else if i >= |a| {
        assert c[i] == b[i - |a|] && c[j] == b[j - |a|];
      } else {
        assert c[i] == a[i] && c[j] == b[j - |a|];
        assert c[i] in s1;
      }
    }
    forall i | 0 <= i < |c|
      ensures c[i] !in s0 && 0 <= c[i] < |inner| && Members(inner[c[i]]) <= s2
    {
      if i < |a| {
        assert c[i] == a[i];
      } else {
        assert c[i] == b[i - |a|];
      }
    }
  }

  /** A block visited after the visit of its inner blocks extends that visit. */
  lemma {:induction false} VisitedSnoc(inner: seq<seq<Id>>, a: seq<Id>, k: Id, s0: set<Id>, s: set<Id>)
    requires Visited(inner, a, s0 + {k}, s) && k !in s0 && 0 <= k < |inner| && Members(inner[k]) <= s
    ensures Visited(inner, a + [k], s0, s)
  {
    var c := a + [k];
    assert Members(c) == Members(a) + {k};
    forall i, j | 0 <= i < j < |c|
      ensures c[i] != c[j]
    {
      assert c[i] == a[i];
      if j < |a| {
        assert c[j] == a[j];
      }
    }
    forall i | 0 <= i < |c|
      ensures c[i] !in s0 && 0 <= c[i] < |inner| && Members(inner[c[i]]) <= s
    {
      if i < |a| {
        assert c[i] == a[i];
      }
    }
  }

  /** Fewer blocks are unseen once more are seen. */
  lemma {:induction false} FewerUnseen(n: nat, seen: set<Id>, seen': set<Id>)
    requires seen <= seen'
    ensures |Range(n) - seen'| <= |Range(n) - seen|
  {
    SubsetSize(Range(n) - seen', Range(n) - seen);
  }

  lemma {:induction false} SubsetSize(a: set<Id>, b: set<Id>)
    requires a <= b
    ensures |a| <= |b|
    decreases b
  {
    if b != {} {
      assert !forall y :: y !in b by {
        if forall y :: y !in b {
          assert false;
        }
      }
      var x :| x in b;
      SubsetSize(a - {x}, b - {x});
    }
  }

  /**
    processBlock: a block not seen before is visited once; a c-block first
    visits its inner blocks, which come before it in the order.
  */
  method ProcessBlock(kinds: seq<BlockType>, inner: seq<seq<Id>>, k: Id, seen: set<Id>)
    returns (order: seq<Id>, seen': set<Id>, ghost why: seq<int>)
    requires InnerTable(kinds, inner) && 0 <= k < |kinds|
    ensures Visited(inner, order, seen, seen')
    ensures seen <= seen' && k in seen'
    ensures k !in seen ==> |order| >= 1 && order[|order| - 1] == k
    ensures k in seen ==> order == []
    ensures Reached(inner, order, {k}, why)
    decreases |Range(|kinds|) - seen|, 0, 0
  {
    if k in seen {
      return [], seen, [];
    }
    var s := seen + {k};
    var before: seq<Id> := [];
    ghost var wb: seq<int> := [];
    if kinds[k] == CBlock {
      assert Range(|kinds|) - seen == (Range(|kinds|) - s) + {k};
      before, s, wb := ProcessList(kinds, inner, inner[k], s);
      assert Members(inner[k]) <= s;
    } else {
      assert Members(before) == {} && Members(inner[k]) == {};
    }
    VisitedSnoc(inner, before, k, seen, s);
    why := ReachedSnoc(inner, before, k, wb);
    order, seen' := before + [k], s;
  }

  /** The blocks of a list are visited in order, each with its inner blocks. */
  method ProcessList(kinds: seq<BlockType>, inner: seq<seq<Id>>, list: seq<Id>, seen: set<Id>)
    returns (order: seq<Id>, seen': set<Id>, ghost why: seq<int>)
    requires InnerTable(kinds, inner) && forall i :: 0 <= i < |list| ==> 0 <= list[i] < |kinds|
    ensures Visited(inner, order, seen, seen')
    ensures seen <= seen' && forall i :: 0 <= i < |list| ==> list[i] in seen'
    ensures Reached(inner, order, Members(list), why)
    decreases |Range(|kinds|) - seen|, 1, |list|
  {
    if list == [] {
      assert Members([]) == {};
      return [], seen, [];
    }
    var a, s, wa := ProcessBlock(kinds, inner, list[0], seen);
    FewerUnseen(|kinds|, seen, s);
    var b, s2, wb := ProcessList(kinds, inner, list[1..], s);
    VisitedAppend(inner, a, b, seen, s, s2);
    why := ReachedList(inner, a, b, list, wa, wb);
    forall i | 0 <= i < |list|
      ensures list[i] in s2
    {
      if i > 0 {
        assert list[i] == list[1..][i - 1];
      }
    }
    order, seen' := a + b, s2;
  }

  /** A top-level block that heads a chain of two or more blocks: the chains the program saves. */
  predicate SavedChainHead(ws: Workspace, t: Id) {
    Resolves(ws, t) && ws[t].topLevel && |ChainBlocks(ws, t)| >= 2
  }

  /** The inner blocks of every block, as the saving walk reads them. */
  function InnerOf(ws: Workspace): (r: seq<seq<Id>>)
    ensures |r| == |ws| && forall k :: 0 <= k < |ws| ==> r[k] == InnerBlocks(ws, k)
  {
    seq(|ws|, k requires 0 <= k < |ws| => InnerBlocks(ws, k))
  }

  /** The type of every block. */
  function KindsOf(ws: Workspace): (r: seq<BlockType>)
    ensures |r| == |ws| && forall k :: 0 <= k < |ws| ==> r[k] == ws[k].kind
  {
    seq(|ws|, k requires 0 <= k < |ws| => ws[k].kind)
  }

  lemma {:induction false} InnerOfIsTable(ws: Workspace)
    ensures InnerTable(KindsOf(ws), InnerOf(ws))
  {
    var inner := InnerOf(ws);
    forall k, j | 0 <= k < |ws| && 0 <= j < |inner[k]|
      ensures 0 <= inner[k][j] < |ws|
    {
      assert inner[k] == InnerBlocks(ws, k);
    }
  }

  /** Lists of arena blocks, one per arena block. */
  predicate ListTable(n: nat, lists: seq<seq<Id>>) {
    |lists| == n && forall t, j :: 0 <= t < n && 0 <= j < |lists[t]| ==> 0 <= lists[t][j] < n
  }

  /**
    The saving walk over the saved chains, `chains[t]` being the chain of
    block `t` when it is saved and empty otherwise, in arena order.
  */
  method VisitChains(kinds: seq<BlockType>, inner: seq<seq<Id>>, chains: seq<seq<Id>>) returns (order: seq<Id>, ghost why: seq<int>)
    requires InnerTable(kinds, inner) && ListTable(|kinds|, chains)
    ensures Visited(inner, order, {}, Members(order))
    ensures forall t, j :: 0 <= t < |chains| && 0 <= j < |chains[t]| ==> chains[t][j] in Members(order)
    ensures order != [] ==> exists t :: 0 <= t < |chains| && chains[t] != []
    ensures Reached(inner, order, Listed(chains), why)
  {
    order, why := [], [];
    var seen: set<Id> := {};
    WalkedNone(inner, chains);
    for t := 0 to |chains|
      invariant Walked(inner, chains, t, order, seen, why)
    {
      order, seen, why := VisitChain(kinds, inner, chains, t, order, seen, why);
    }
    WalkedAll(inner, chains, order, seen, why);
  }

  /** Before any list is visited, nothing is seen. */
  lemma {:induction false} WalkedNone(inner: seq<seq<Id>>, chains: seq<seq<Id>>)
    ensures Walked(inner, chains, 0, [], {}, [])
  {
    assert Members([]) == {};
  }

  /** Once every list is visited, the walk has seen exactly the visited blocks, every listed one among them. */
  lemma {:induction false} WalkedAll(inner: seq<seq<Id>>, chains: seq<seq<Id>>, order: seq<Id>, seen: set<Id>, why: seq<int>)
    requires Walked(inner, chains, |chains|, order, seen, why)
    ensures Visited(inner, order, {}, Members(order))
    ensures forall t, j :: 0 <= t < |chains| && 0 <= j < |chains[t]| ==> chains[t][j] in Members(order)
    ensures order != [] ==> exists t :: 0 <= t < |chains| && chains[t] != []
    ensures Reached(inner, order, Listed(chains), why)
  {
    assert seen == Members(order);
    assert chains[..|chains|] == chains;
  }

  /** The state of the walk over the saved chains once the first `t` lists are visited. */
  ghost predicate Walked(inner: seq<seq<Id>>, chains: seq<seq<Id>>, t: nat, order: seq<Id>, seen: set<Id>, why: seq<int>)
    requires t <= |chains|
  {
    && Visited(inner, order, {}, seen)
    && Covered(chains, t, seen)
    && (order != [] ==> SomeChainBefore(chains, t))
    && Reached(inner, order, Listed(chains[..t]), why)
  }

  /**
    One step of the walk over the saved chains: the chain `chains[t]`, when
    there is one, is visited after `order`.
  */
  method VisitChain(kinds: seq<BlockType>, inner: seq<seq<Id>>, chains: seq<seq<Id>>, t: nat, order: seq<Id>, seen: set<Id>,
                    ghost why: seq<int>) returns (order': seq<Id>, seen': set<Id>, ghost why': seq<int>)
    requires InnerTable(kinds, inner) && ListTable(|kinds|, chains) && t < |chains|
    requires Walked(inner, chains, t, order, seen, why)
    ensures Walked(inner, chains, t + 1, order', seen', why')
  {
    ListedStep(chains, t);
    if chains[t] == [] {
      assert Members(chains[t]) == {};
      forall u, j | 0 <= u < t + 1 && 0 <= j < |chains[u]|
        ensures chains[u][j] in seen
      {
        assert u != t;
      }
      return order, seen, why;
    }
    var a, s, wa := ProcessList(kinds, inner, chains[t], seen);
    VisitedAppend(inner, order, a, {}, seen, s);
    why' := ReachedAppend(inner, order, a, Listed(chains[..t]), Members(chains[t]), why, wa);
    order', seen' := order + a, s;
  }

  /** Every block on the first `t` lists is in `seen`. */
  predicate Covered(lists: seq<seq<Id>>, t: nat, seen: set<Id>)
    requires t <= |lists|
  {
    forall u, j :: 0 <= u < t && 0 <= j < |lists[u]| ==> lists[u][j] in seen
  }

  /** One of the first `t` lists is not empty. */
  predicate SomeChainBefore(lists: seq<seq<Id>>, t: nat)
    requires t <= |lists|
  {
    exists u :: 0 <= u < t && lists[u] != []
  }

  /** Every block of every list. */
  function Listed(lists: seq<seq<Id>>): set<Id>
    decreases |lists|
  {
    if lists == [] then {} else Listed(lists[..|lists| - 1]) + Members(lists[|lists| - 1])
  }

  /** One more list adds its blocks. */
  lemma {:induction false} ListedStep(lists: seq<seq<Id>>, t: nat)
    requires t < |lists|
    ensures Listed(lists[..t + 1]) == Listed(lists[..t]) + Members(lists[t])
  {
    assert lists[..t + 1][..t] == lists[..t];
  }

  /** A listed block lies on one of the lists. */
  lemma {:induction false} ListedOn(lists: seq<seq<Id>>, x: Id)
    requires x in Listed(lists)
    ensures exists t :: 0 <= t < |lists| && x in lists[t]
    decreases |lists|
  {
    var n := |lists| - 1;
    if x in Members(lists[n]) {
      assert x in lists[n];
    } else {
      ListedOn(lists[..n], x);
      var t :| 0 <= t < n && x in lists[..n][t];
      assert lists[..n][t] == lists[t];
    }
  }

  /** Why block `k` is saved: it lies on a saved chain, or inside one of the `saved` blocks. */
  ghost predicate SaveReason(ws: Workspace, saved: set<Id>, k: Id) {
    || (exists t :: SavedChainHead(ws, t) && k in ChainBlocks(ws, t))
    || (exists s :: s in saved && k in InnerBlocks(ws, s))
  }

  /** The chain each block heads when it is saved, and nothing for the other blocks. */
  function SavedChains(ws: Workspace): (r: seq<seq<Id>>)
    ensures |r| == |ws|
    ensures forall t :: 0 <= t < |ws| ==> r[t] == (if SavedChainHead(ws, t) then ChainBlocks(ws, t) else [])
  {
    seq(|ws|, t requires 0 <= t < |ws| => if SavedChainHead(ws, t) then ChainBlocks(ws, t) else [])
  }

  lemma {:induction false} SavedChainsTable(ws: Workspace)
    ensures ListTable(|ws|, SavedChains(ws))
  {
    var chains := SavedChains(ws);
    forall t, j | 0 <= t < |ws| && 0 <= j < |chains[t]|
      ensures 0 <= chains[t][j] < |ws|
    {
      assert chains[t] == ChainBlocks(ws, t);
    }
  }

  /**
    The visiting order of exportWorkspaceToJSON: the chains of the top-level
    blocks, in arena order, that have two or more blocks. Every block is
    visited at most once; every block of such a chain, and every inner block
    of a visited block, is visited.
  */
  method ExportOrder(ws: Workspace) returns (order: seq<Id>)
    ensures forall i :: 0 <= i < |order| ==> 0 <= order[i] < |ws|
    ensures forall i, j :: 0 <= i < j < |order| ==> order[i] != order[j]
    ensures forall t, j :: SavedChainHead(ws, t) && 0 <= j < |ChainBlocks(ws, t)| ==> ChainBlocks(ws, t)[j] in Members(order)
    ensures forall i :: 0 <= i < |order| ==> Members(InnerBlocks(ws, order[i])) <= Members(order)
    ensures (forall t :: 0 <= t < |ws| ==> !SavedChainHead(ws, t)) ==> order == []
    ensures forall i :: 0 <= i < |order| ==> SaveReason(ws, Members(order), order[i])
  {
    var kinds, inner, chains := KindsOf(ws), InnerOf(ws), SavedChains(ws);
    InnerOfIsTable(ws);
    SavedChainsTable(ws);
    ghost var why;
    order, why := VisitChains(kinds, inner, chains);
    forall t, j | SavedChainHead(ws, t) && 0 <= j < |ChainBlocks(ws, t)|
      ensures ChainBlocks(ws, t)[j] in Members(order)
    {
      assert chains[t] == ChainBlocks(ws, t);
    }
    forall i | 0 <= i < |order|
      ensures Members(InnerBlocks(ws, order[i])) <= Members(order)
    {
      assert inner[order[i]] == InnerBlocks(ws, order[i]);
    }
    if order != [] {
      var t :| 0 <= t < |chains| && chains[t] != [];
      assert SavedChainHead(ws, t);
    }
    forall i | 0 <= i < |order|
      ensures SaveReason(ws, Members(order), order[i])
    {
      ReasonOf(ws, inner, chains, order, why, i);
    }
  }

  /** A block the walk reached is saved for a reason. */
  lemma {:induction false} ReasonOf(ws: Workspace, inner: seq<seq<Id>>, chains: seq<seq<Id>>, order: seq<Id>, why: seq<int>, i: nat)
    requires inner == InnerOf(ws) && chains == SavedChains(ws)
    requires Reached(inner, order, Listed(chains), why) && i < |order|
    ensures SaveReason(ws, Members(order), order[i])
  {
    var k := order[i];
    if k in Listed(chains) {
      ListedOn(chains, k);
      var t :| 0 <= t < |chains| && k in chains[t];
      assert SavedChainHead(ws, t) && k in ChainBlocks(ws, t);
    } else {
      var j := why[i];
      assert order[j] in Members(order) && k in InnerBlocks(ws, order[j]);
    }
  }

  /** The entries of the blocks of `order` are saved for the reasons the blocks are. */
  lemma {:induction false} EntriesReasons(ws: Workspace, order: seq<Id>)
    requires forall i :: 0 <= i < |order| ==> 0 <= order[i] < |ws|
    requires forall i :: 0 <= i < |order| ==> SaveReason(ws, Members(order), order[i])
    ensures var es := EntriesOf(ws, order); forall i :: 0 <= i < |es| ==> SaveReason(ws, KeySet(es), es[i].key)
  {
    EntriesKeys(ws, order);
  }

  /** The saved entries of the blocks of `order`, in that order. */
  function EntriesOf(ws: Workspace, order: seq<Id>): (es: seq<Entry>)
    requires forall i :: 0 <= i < |order| ==> 0 <= order[i] < |ws|
    ensures |es| == |order|
    ensures forall i :: 0 <= i < |order| ==> es[i].key == order[i] && es[i].data == ExportBlock(ws, order[i])
  {
    seq(|order|, i requires 0 <= i < |order| => Entry(order[i], ExportBlock(ws, order[i])))
  }

  lemma {:induction false} EntriesKeys(ws: Workspace, order: seq<Id>)
    requires forall i :: 0 <= i < |order| ==> 0 <= order[i] < |ws|
    ensures KeySet(EntriesOf(ws, order)) == Members(order)
  {
    var es := EntriesOf(ws, order);
    forall x | x in KeySet(es)
      ensures x in Members(order)
    {
      var i :| 0 <= i < |es| && es[i].key == x;
    }
    forall x | x in Members(order)
      ensures x in KeySet(es)
    {
      var i :| 0 <= i < |order| && order[i] == x;
      assert es[i].key == x;
    }
  }

  /**
    exportWorkspaceToJSON: every block of a saved chain, and every inner
    block of a saved block, is saved exactly once, under its own id, with its
    exported data, so with a position exactly when it is top-level. An arena
    without a top-level chain of two or more blocks saves nothing.
  */
  method ExportWorkspace(ws: Workspace) returns (es: seq<Entry>)
    ensures DistinctKeys(es) && Exported(ws, es)
    ensures forall i :: 0 <= i < |es| ==> (es[i].data.x.Some? <==> es[i].data.topLevel)
    ensures forall t, j :: SavedChainHead(ws, t) && 0 <= j < |ChainBlocks(ws, t)| ==> ChainBlocks(ws, t)[j] in KeySet(es)
    ensures forall i :: 0 <= i < |es| ==> Members(InnerBlocks(ws, es[i].key)) <= KeySet(es)
    ensures (forall t :: 0 <= t < |ws| ==> !SavedChainHead(ws, t)) ==> es == []
    ensures forall i :: 0 <= i < |es| ==> SaveReason(ws, KeySet(es), es[i].key)
  {
    var order := ExportOrder(ws);
    es := EntriesOf(ws, order);
    EntriesFacts(ws, order);
  }

  /** The entries of a saving order carry over what the order promises, keyed by block id. */
  lemma {:induction false} EntriesFacts(ws: Workspace, order: seq<Id>)
    requires forall i :: 0 <= i < |order| ==> 0 <= order[i] < |ws|
    requires forall i, j :: 0 <= i < j < |order| ==> order[i] != order[j]
    requires forall t, j :: SavedChainHead(ws, t) && 0 <= j < |ChainBlocks(ws, t)| ==> ChainBlocks(ws, t)[j] in Members(order)
    requires forall i :: 0 <= i < |order| ==> Members(InnerBlocks(ws, order[i])) <= Members(order)
    requires forall i :: 0 <= i < |order| ==> SaveReason(ws, Members(order), order[i])
    ensures var es := EntriesOf(ws, order);
      && DistinctKeys(es) && Exported(ws, es)
      && (forall i :: 0 <= i < |es| ==> (es[i].data.x.Some? <==> es[i].data.topLevel))
      && (forall t, j :: SavedChainHead(ws, t) && 0 <= j < |ChainBlocks(ws, t)| ==> ChainBlocks(ws, t)[j] in KeySet(es))
      && (forall i :: 0 <= i < |es| ==> Members(InnerBlocks(ws, es[i].key)) <= KeySet(es))
      && (forall i :: 0 <= i < |es| ==> SaveReason(ws, KeySet(es), es[i].key))
  {
    var es := EntriesOf(ws, order);
    EntriesKeys(ws, order);
    EntriesReasons(ws, order);
    forall i | 0 <= i < |es|
      ensures es[i].data.x.Some? <==> es[i].data.topLevel
    {
      assert es[i].data == ExportBlock(ws, es[i].key);
    }
  }

  /** The block table knows every opcode of the arena, with the arena's type. */
  predicate TableAgrees(configs: Configs, ws: Workspace) {
    forall k :: 0 <= k < |ws| ==> ws[k].opcode in configs && configs[ws[k].opcode] == ws[k].kind
  }

  /**
    Saving and loading again: when the block table agrees with the arena the
    load succeeds, every saved block comes back with its opcode and type, and
    its `next` link comes back to the reloaded copy of its `next` block when
    that block was saved too, and to nothing otherwise.
  */
  method SaveThenLoad(env: Env, configs: Configs, ws: Workspace) returns (es: seq<Entry>, r: Option<Workspace>, m: BlockMap)
    requires TableAgrees(configs, ws)
    ensures DistinctKeys(es) && Exported(ws, es)
    ensures r.Some? && MapInArena(m, r.value)
    ensures forall i :: 0 <= i < |es| ==> es[i].key in m
    ensures forall i :: 0 <= i < |es| ==>
      var k := es[i].key;
      var b := r.value[m[k]];
      && b.opcode == ws[k].opcode && b.kind == ws[k].kind
      && b.next == (if ws[k].next in KeySet(es) then m[ws[k].next] else NoId)
  {
    es := ExportWorkspace(ws);
    forall i | 0 <= i < |es|
      ensures es[i].data.opcode in configs && configs[es[i].data.opcode] == ws[es[i].key].kind
    {
      assert es[i].data == ExportBlock(ws, es[i].key);
    }
    r, m := LoadWorkspace(env, configs, es);
    forall x | x in m
      ensures x in KeySet(es)
    {
      var i :| 0 <= i < |es| && es[i].key == x && es[i].data.opcode in configs;
    }
    forall i | 0 <= i < |es|
      ensures (ws[es[i].key].next in KeySet(es)) == Found(m, es[i].data.next)
    {
      var n := ws[es[i].key].next;
      assert es[i].data.next == n;
      if n in KeySet(es) {
        var j :| 0 <= j < |es| && es[j].key == n;
        assert n != NoId;
      }
    }
  }
}

=== FILE: model.dfy ===
/**
  The block graph of the editor. In the program every workspace block is an SVG
  element whose `dataset` attributes hold its links and flags, and blocks are
  found by a document query on `data-instance-id`. Here the document is an
  arena: a sequence of `Block` records whose positions are the instance ids, and
  a query is an index check followed by a lookup. A link is an id; `NoId` (the
  empty string) means "no link", and a link to an id outside the arena is a
  dangling link.
*/
module Model {

  datatype Option<+T> = None | Some(value: T)

  /** The `data-type` attribute of a block. Any other string is `UnknownBlock`. */
  datatype BlockType = StartBlock | StopBlock | DefaultBlock | CBlock | RoundBlock | SharpBlock | UnknownBlock

  /**
    An instance id. The program compares ids only for equality and tests for the
    empty string, so ids are modelled as integers: a block's id is its position
    in the arena, `NoId` stands for the empty string (no link) and `UndefinedId`
    for the string "undefined" that a missing id prints as. Neither names a block.
  */
  type Id = int
  const NoId: Id := -1
  const UndefinedId: Id := -2

  /** A block's opcode (`data-id`); only compared for equality, like an id. */
  type Opcode = int

  datatype Point = Point(x: int, y: int)

  /** A screen rectangle as returned by the layout; right = left + width, bottom = top + height. */
  datatype Rect = Rect(left: int, top: int, width: int, height: int) {
    function Right(): int { left + width }
    function Bottom(): int { top + height }
  }

  /**
    One workspace block. `height`, `innerHeight` and `width` are the optional
    numeric attributes `data-height`, `data-inner-height` and `data-width`;
    `x`, `y` are the two numbers of its `translate(x, y)` transform.
  */
  datatype Block = Block(
    opcode: Opcode,
    kind: BlockType,
    next: Id,
    parent: Id,
    substack: Id,
    topConnected: bool,
    bottomConnected: bool,
    topLevel: bool,
    x: int,
    y: int,
    height: Option<int>,
    innerHeight: Option<int>,
    width: Option<int>,
    isGhost: bool)

  type Workspace = seq<Block>

  /** A link that names a block of the arena; the empty link never does. */
  predicate Resolves(ws: Workspace, link: Id) {
    0 <= link < |ws|
  }

  predicate IsCBlockId(ws: Workspace, id: Id) {
    Resolves(ws, id) && ws[id].kind == CBlock
  }

  /** JavaScript `a || b` on numbers: zero is falsy. */
  function Or(a: int, b: int): int {
    if a != 0 then a else b
  }

  /** JavaScript `parseFloat(attr) || d`: an absent or zero attribute yields the default. */
  function StoredOr(v: Option<int>, d: int): int {
    if v.Some? && v.value != 0 then v.value else d
  }

  /**
    One entry of the form table. A dimension the table does not define is 0,
    which every use in the program treats like an absent one (`form.x || ...`).
  */
  datatype Form = Form(height: int, pathHeight: int, width: int, topOffset: int, bottomOffset: int)

  /**
    The layout constants the program imports from its constants module, which is
    not part of this model. `halfThreshold` is half of the connector catch-zone
    height and `halfCBlockMiddleThreshold` half of the narrower zone used for the
    middle connector of a c-block.
  */
  datatype Env = Env(
    forms: map<BlockType, Form>,
    socketHeight: int,
    topY: int,
    bottomY: int,
    innerTopX: int,
    innerTopY: int,
    halfThreshold: int,
    halfCBlockMiddleThreshold: int,
    cBlockMiddleZoneY: int,
    defaultBlockHeight: int,
    nestedXOffset: int)

  function FormOf(env: Env, t: BlockType): Form {
    if t in env.forms then env.forms[t] else Form(0, 0, 0, 0, 0)
  }

  /** Writes the transform of one block. */
  function SetPos(ws: Workspace, id: Id, x: int, y: int): (r: Workspace)
    requires Resolves(ws, id)
    ensures |r| == |ws|
    ensures r[id] == ws[id].(x := x, y := y)
    ensures forall k :: 0 <= k < |ws| && k != id ==> r[k] == ws[k]
  {
    ws[id := ws[id].(x := x, y := y)]
  }

  /** Translates every block of `ids` by (dx, dy); each block of the set moves once. */
  function Shift(ws: Workspace, ids: set<Id>, dx: int, dy: int): (r: Workspace)
    ensures OnlyMoved(ws, r)
    ensures forall k :: 0 <= k < |ws| && k in ids ==> r[k] == ws[k].(x := ws[k].x + dx, y := ws[k].y + dy)
    ensures forall k :: 0 <= k < |ws| && k !in ids ==> r[k] == ws[k]
  {
    seq(|ws|, k requires 0 <= k < |ws| => if k in ids then ws[k].(x := ws[k].x + dx, y := ws[k].y + dy) else ws[k])
  }

  /** The two arenas have the same blocks with the same links, types and flags. */
  predicate SameLinks(ws: Workspace, ws': Workspace) {
    && |ws'| == |ws|
    && forall k :: 0 <= k < |ws| ==>
         && ws'[k].kind == ws[k].kind
         && ws'[k].next == ws[k].next
         && ws'[k].parent == ws[k].parent
         && ws'[k].substack == ws[k].substack
  }

  /** The two arenas differ at most in the positions of their blocks. */
  predicate OnlyMoved(ws: Workspace, ws': Workspace) {
    && |ws'| == |ws|
    && forall k :: 0 <= k < |ws| ==> ws'[k] == ws[k].(x := ws'[k].x, y := ws'[k].y)
  }

  /** The two arenas differ at most in positions and in the two stored heights. */
  predicate OnlyGeometry(ws: Workspace, ws': Workspace) {
    && |ws'| == |ws|
    && forall k :: 0 <= k < |ws| ==>
         ws'[k] == ws[k].(x := ws'[k].x, y := ws'[k].y, height := ws'[k].height, innerHeight := ws'[k].innerHeight)
  }

  lemma {:induction false} OnlyMovedGeometry(ws: Workspace, ws': Workspace)
    requires OnlyMoved(ws, ws')
    ensures OnlyGeometry(ws, ws')
  {
  }

  lemma {:induction false} OnlyGeometryTrans(a: Workspace, b: Workspace, c: Workspace)
    requires OnlyGeometry(a, b) && OnlyGeometry(b, c)
    ensures OnlyGeometry(a, c)
  {
  }

  lemma {:induction false} OnlyGeometrySameLinks(ws: Workspace, ws': Workspace)
    requires OnlyGeometry(ws, ws')
    ensures SameLinks(ws, ws')
  {
  }

  /** The ids of a sequence as a set. */
  function Members(s: seq<Id>): set<Id> {
    set k | k in s
  }

  lemma {:induction false} OnlyMovedSameLinks(ws: Workspace, ws': Workspace)
    requires OnlyMoved(ws, ws')
    ensures SameLinks(ws, ws')
  {
  }

  lemma {:induction false} OnlyMovedTrans(a: Workspace, b: Workspace, c: Workspace)
    requires OnlyMoved(a, b) && OnlyMoved(b, c)
    ensures OnlyMoved(a, c)
  {
  }

  lemma {:induction false} SameLinksTrans(a: Workspace, b: Workspace, c: Workspace)
    requires SameLinks(a, b) && SameLinks(b, c)
    ensures SameLinks(a, c)
  {
  }

  /** The positions of the blocks `ids`, keyed by id. */
  function Positions(ws: Workspace, ids: seq<Id>): (m: map<Id, Point>)
    ensures forall k :: k in m <==> k in ids && 0 <= k < |ws|
    ensures forall k :: k in m ==> m[k] == Point(ws[k].x, ws[k].y)
  {
    map k | k in Members(ids) && 0 <= k < |ws| :: Point(ws[k].x, ws[k].y)
  }

  /** Sum of `f` over the blocks named by `ids`. */
  function SumOver(ws: Workspace, ids: seq<Id>, f: Block -> int): int
    requires forall i :: 0 <= i < |ids| ==> 0 <= ids[i] < |ws|
  {
    if ids == [] then 0 else f(ws[ids[0]]) + SumOver(ws, ids[1..], f)
  }

  lemma {:induction false} SumOverAppend(ws: Workspace, a: seq<Id>, b: seq<Id>, f: Block -> int)
    requires forall i :: 0 <= i < |a| ==> 0 <= a[i] < |ws|
    requires forall i :: 0 <= i < |b| ==> 0 <= b[i] < |ws|
    ensures SumOver(ws, a + b, f) == SumOver(ws, a, f) + SumOver(ws, b, f)
  {
    if a != [] {
      var c := a + b;
      assert c[0] == a[0] && c[1..] == a[1..] + b;
      assert forall i :: 0 <= i < |c| ==> 0 <= c[i] < |ws| by {
        forall i | 0 <= i < |c|
          ensures 0 <= c[i] < |ws|
        {
          if i < |a| {
            assert c[i] == a[i];
          } else {
            assert c[i] == b[i - |a|];
          }
        }
      }
      SumOverAppend(ws, a[1..], b, f);
    } else {
      assert a + b == b;
    }
  }

  /** Equal sums when `f` agrees on every listed block of the two arenas. */
  lemma {:induction false} SumOverFrame(ws: Workspace, ws': Workspace, ids: seq<Id>, f: Block -> int)
    requires forall i :: 0 <= i < |ids| ==> 0 <= ids[i] < |ws| && 0 <= ids[i] < |ws'| && f(ws'[ids[i]]) == f(ws[ids[i]])
    ensures SumOver(ws', ids, f) == SumOver(ws, ids, f)
    decreases |ids|
  {
    if ids != [] {
      SumOverFrame(ws, ws', ids[1..], f);
    }
  }

  /** `findIndex` / `indexOf`: the position of the first occurrence of `x` in `s`, or -1. */
  function IndexOf<T(==)>(s: seq<T>, x: T): (r: int)
    ensures -1 <= r < |s|
    ensures r == -1 <==> x !in s
    ensures r >= 0 ==> s[r] == x && forall j :: 0 <= j < r ==> s[j] != x
    decreases |s|
  {
    if s == [] then -1
    else if s[0] == x then 0
    else
      var i := IndexOf(s[1..], x);
      if i == -1 then -1 else i + 1
  }

  /** The first occurrence of the head of `b` in `a + b`, when `a` does not hold it, is right after `a`. */
  lemma {:induction false} IndexOfAppend<T>(a: seq<T>, b: seq<T>, x: T)
    requires |b| >= 1 && b[0] == x && x !in a
    ensures IndexOf(a + b, x) == |a|
  {
    var s := a + b;
    assert s[|a|] == x;
    assert forall j :: 0 <= j < |a| ==> s[j] == a[j];
  }

  /** No id occurs twice in `p`. */
  ghost predicate Distinct(p: seq<Id>)
    decreases |p|
  {
    |p| == 0 || (p[0] !in p[1..] && Distinct(p[1..]))
  }

  lemma {:induction false} DistinctAt(p: seq<Id>, i: nat, j: nat)
    requires Distinct(p) && i < j < |p|
    ensures p[i] != p[j]
  {
    if i == 0 {
      assert p[j] == p[1..][j - 1];
    } else {
      DistinctAt(p[1..], i - 1, j - 1);
    }
  }

  /** In a sequence of distinct ids no earlier position repeats the id at `n`. */
  lemma {:induction false} DistinctBefore(p: seq<Id>, n: nat)
    requires Distinct(p) && n < |p|
    ensures forall j :: 0 <= j < n ==> p[j] != p[n]
  {
    forall j | 0 <= j < n
      ensures p[j] != p[n]
    {
      DistinctAt(p, j, n);
    }
  }

  /** In a sequence of distinct ids no later position repeats the id at `n`. */
  lemma {:induction false} DistinctAfter(p: seq<Id>, n: nat)
    requires Distinct(p) && n < |p|
    ensures forall j :: n < j < |p| ==> p[j] != p[n]
  {
    forall j | n < j < |p|
      ensures p[j] != p[n]
    {
      DistinctAt(p, n, j);
    }
  }

  lemma {:induction false} DistinctSuffix(p: seq<Id>, i: nat)
    requires Distinct(p) && i <= |p|
    ensures Distinct(p[i..])
  {
    if i > 0 {
      DistinctSuffix(p[1..], i - 1);
      assert p[1..][i - 1..] == p[i..];
    }
  }

  lemma {:induction false} DistinctPrefix(p: seq<Id>, i: nat)
    requires Distinct(p) && i <= |p|
    ensures Distinct(p[..i])
  {
    if i > 0 {
      DistinctPrefix(p[1..], i - 1);
      assert p[..i][1..] == p[1..][..i - 1];
      assert forall x :: x in p[1..][..i - 1] ==> x in p[1..];
    }
  }

  /** Appending an id that does not occur keeps a sequence duplicate-free. */
  lemma {:induction false} DistinctSnoc(p: seq<Id>, x: Id)
    requires Distinct(p) && x !in p
    ensures Distinct(p + [x])
  {
    if p != [] {
      DistinctSnoc(p[1..], x);
      assert (p + [x])[1..] == p[1..] + [x];
    } else {
      assert (p + [x])[1..] == [];
    }
  }

  /** Two duplicate-free sequences with no common id concatenate to a duplicate-free one. */
  lemma {:induction false} DistinctAppend(a: seq<Id>, b: seq<Id>)
    requires Distinct(a) && Distinct(b) && forall i :: 0 <= i < |a| ==> a[i] !in b
    ensures Distinct(a + b)
  {
    if a != [] {
      DistinctAppend(a[1..], b);
      assert (a + b)[1..] == a[1..] + b;
      assert forall i :: 0 <= i < |a[1..]| ==> a[1..][i] == a[i + 1];
      assert a[0] !in a[1..] + b;
    } else {
      assert a + b == b;
    }
  }

  /**
    Lays a chain out as a vertical stack: the first block goes to (x, y) and
    each later block to the previous block's y plus `step` of the previous block.
  */
  function Stack(ws: Workspace, chain: seq<Id>, x: int, y: int, step: Block -> int): (r: Workspace)
    requires forall i :: 0 <= i < |chain| ==> 0 <= chain[i] < |ws|
    ensures OnlyMoved(ws, r)
    ensures forall k :: 0 <= k < |ws| && k !in chain ==> r[k] == ws[k]
    decreases |chain|
  {
    if chain == [] then ws
    else
      var ws1 := SetPos(ws, chain[0], x, y);
      assert OnlyMoved(ws, ws1);
      var r := Stack(ws1, chain[1..], x, y + step(ws[chain[0]]), step);
      OnlyMovedTrans(ws, ws1, r);
      assert forall k :: 0 <= k < |ws| && k !in chain ==> k !in chain[1..] && k != chain[0];
      r
  }

  /** Block `i` of a stacked chain sits at x and at y plus the steps of the blocks above it. */
  lemma {:induction false} StackAt(ws: Workspace, chain: seq<Id>, x: int, y: int, step: Block -> int, i: nat)
    requires forall j :: 0 <= j < |chain| ==> 0 <= chain[j] < |ws|
    requires Distinct(chain) && i < |chain|
    ensures var r := Stack(ws, chain, x, y, step);
      r[chain[i]] == ws[chain[i]].(x := x, y := y + SumOver(ws, chain[..i], step))
    decreases |chain|
  {
    assert Resolves(ws, chain[0]);
    var ws1 := SetPos(ws, chain[0], x, y);
    var y1 := y + step(ws[chain[0]]);
    var rest := chain[1..];
    var r := Stack(ws1, rest, x, y1, step);
    assert Stack(ws, chain, x, y, step) == r;
    if i == 0 {
      assert chain[0] !in rest;
      assert chain[..0] == [];
    } else {
      StackAt(ws1, rest, x, y1, step, i - 1);
      assert rest[i - 1] == chain[i];
      DistinctAt(chain, 0, i);
      assert ws1[chain[i]] == ws[chain[i]];
      var above := rest[..i - 1];
      assert chain[..i][1..] == above;
      assert SumOver(ws, chain[..i], step) == step(ws[chain[0]]) + SumOver(ws, above, step);
      forall j | 0 <= j < |above|
        ensures 0 <= above[j] < |ws| && 0 <= above[j] < |ws1| && step(ws1[above[j]]) == step(ws[above[j]])
      {
        assert above[j] == chain[j + 1];
        DistinctAt(chain, 0, j + 1);
      }
      SumOverFrame(ws, ws1, above, step);
    }
  }
}

=== FILE: numbers.dfy ===
/**
  The two JavaScript number conversions the program leans on when it keeps
  coordinates and path arguments in strings: `parseFloat` (reading) and the
  default number-to-string conversion of a template literal (writing). The
  model works on integers: a number is read as an optional sign and a run of
  decimal digits, and written as its decimal digits.
*/
module Numbers {
  import opened Model

  /** JavaScript white space and line terminators: the set that `\s`, `trim` and `parseFloat` skip. */
  predicate IsSpace(c: char) {
    || c == '\t' || c == '\n' || c == '\U{000B}' || c == '\U{000C}' || c == '\r' || c == ' '
    || c == '\U{00A0}' || c == '\U{1680}' || ('\U{2000}' <= c <= '\U{200A}')
    || c == '\U{2028}' || c == '\U{2029}' || c == '\U{202F}' || c == '\U{205F}' || c == '\U{3000}' || c == '\U{FEFF}'
  }

  predicate IsDigit(c: char) {
    '0' <= c <= '9'
  }

  /** The characters of `s` after its leading white space. */
  function SkipSpaces(s: string): (r: string)
    ensures |r| <= |s| && r == s[|s| - |r|..]
    ensures r == [] || !IsSpace(r[0])
    ensures forall i :: 0 <= i < |s| - |r| ==> IsSpace(s[i])
  {
    if s != [] && IsSpace(s[0]) then SkipSpaces(s[1..]) else s
  }

  /** The longest prefix of `s` whose characters all satisfy `p`. */
  function TakeWhile(s: string, p: char -> bool): (r: string)
    ensures |r| <= |s| && r == s[..|r|]
    ensures forall i :: 0 <= i < |r| ==> p(r[i])
    ensures |r| == |s| || !p(s[|r|])
  {
    if s != [] && p(s[0]) then [s[0]] + TakeWhile(s[1..], p) else []
  }

  /** The longest prefix of `s` made of decimal digits. */
  function DigitPrefix(s: string): (r: string)
    ensures forall i :: 0 <= i < |r| ==> IsDigit(r[i])
  {
    TakeWhile(s, IsDigit)
  }

  /** The value of a string of decimal digits, most significant first. */
  function DigitsValue(ds: string): (r: nat)
    requires forall i :: 0 <= i < |ds| ==> IsDigit(ds[i])
    decreases |ds|
  {
    if ds == [] then 0
    else
      assert IsDigit(ds[|ds| - 1]);
      10 * DigitsValue(ds[..|ds| - 1]) + (ds[|ds| - 1] as int - '0' as int)
  }

  /**
    `parseFloat` restricted to integers: leading white space is skipped, then an
    optional sign and the longest run of digits is read; anything after it is
    ignored. `None` is NaN (no digits where the number should start).
  */
  function ParseNumber(s: string): Option<int> {
    ParseSigned(SkipSpaces(s))
  }

  /** The number at the very start of `t`: an optional sign, then the digit run. */
  function ParseSigned(t: string): Option<int> {
    var signed := t != [] && (t[0] == '-' || t[0] == '+');
    var ds := DigitPrefix(if signed then t[1..] else t);
    if ds == [] then None
    else
      var v: int := DigitsValue(ds);
      if signed && t[0] == '-' then Some(-v) else Some(v)
  }

  /** JavaScript `n || 0` on a parsed number: NaN becomes 0. */
  function OrZero(n: Option<int>): int {
    if n.Some? then n.value else 0
  }

  function DigitChar(d: nat): (c: char)
    requires d < 10
    ensures IsDigit(c) && c as int - '0' as int == d
  {
    ('0' as int + d) as char
  }

  /** The decimal digits of a natural number, without leading zeros. */
  function NatToString(n: nat): (r: string)
    ensures |r| >= 1 && forall i :: 0 <= i < |r| ==> IsDigit(r[i])
  {
    if n < 10 then [DigitChar(n)] else NatToString(n / 10) + [DigitChar(n % 10)]
  }

  /** The template-literal spelling of an integer: a minus sign for negatives, then the digits. */
  function IntToString(n: int): (r: string)
    ensures |r| >= 1 && (r[0] == '-' || IsDigit(r[0]))
    ensures forall i :: 0 <= i < |r| ==> r[i] != ',' && r[i] != ')' && !IsSpace(r[i])
  {
    if n < 0 then "-" + NatToString(-n) else NatToString(n)
  }

  /** Reading the digits written for `n` gives `n` back. */
  lemma {:induction false} NatToStringValue(n: nat)
    ensures DigitsValue(NatToString(n)) == n
  {
    if n >= 10 {
      NatToStringValue(n / 10);
      var s := NatToString(n);
      assert s[..|s| - 1] == NatToString(n / 10);
    }
  }

  /** A run of characters satisfying `p`, followed by one that does not, is what TakeWhile takes. */
  lemma {:induction false} TakeWhileOf(ds: string, rest: string, p: char -> bool)
    requires forall i :: 0 <= i < |ds| ==> p(ds[i])
    requires rest == [] || !p(rest[0])
    ensures TakeWhile(ds + rest, p) == ds
    decreases |ds|
  {
    if ds != [] {
      assert (ds + rest)[1..] == ds[1..] + rest;
      TakeWhileOf(ds[1..], rest, p);
    } else {
      assert ds + rest == rest;
    }
  }

  /**
    Round trip: `parseFloat` of the written form of an integer, followed by any
    text that does not continue the number, is that integer.
  */
  lemma {:induction false} ParseIntToString(n: int, rest: string)
    requires rest == [] || !IsDigit(rest[0])
    ensures ParseNumber(IntToString(n) + rest) == Some(n)
  {
    if n < 0 {
      ParseNegativeInt(n, rest);
    } else {
      NatToStringValue(n);
      ParseUnsigned(NatToString(n), rest);
    }
  }

  lemma {:induction false} ParseNegativeInt(n: int, rest: string)
    requires n < 0
    requires rest == [] || !IsDigit(rest[0])
    ensures ParseNumber(IntToString(n) + rest) == Some(n)
  {
    var ds := NatToString(-n);
    assert IntToString(n) + rest == "-" + (ds + rest);
    NatToStringValue(-n);
    ParseNegative(ds, rest);
  }

  /** `parseFloat` of a digit string followed by a non-digit reads the digits. */
  lemma {:induction false} ParseUnsigned(ds: string, rest: string)
    requires |ds| >= 1 && forall i :: 0 <= i < |ds| ==> IsDigit(ds[i])
    requires rest == [] || !IsDigit(rest[0])
    ensures ParseNumber(ds + rest) == Some(DigitsValue(ds))
  {
    var s := ds + rest;
    assert s[0] == ds[0];
    assert SkipSpaces(s) == s;
    TakeWhileOf(ds, rest, IsDigit);
  }

  /** `parseFloat` of a minus sign, a digit string and a non-digit reads the negated digits. */
  lemma {:induction false} ParseNegative(ds: string, rest: string)
    requires |ds| >= 1 && forall i :: 0 <= i < |ds| ==> IsDigit(ds[i])
    requires rest == [] || !IsDigit(rest[0])
    ensures ParseNumber("-" + (ds + rest)) == Some(-(DigitsValue(ds) as int))
  {
    var s := "-" + (ds + rest);
    assert SkipSpaces(s) == s;
    assert s[1..] == ds + rest;
    TakeWhileOf(ds, rest, IsDigit);
  }

  /** Leading white space never changes what `parseFloat` reads. */
  lemma {:induction false} ParseSkipsSpaces(sp: string, t: string)
    requires forall i :: 0 <= i < |sp| ==> IsSpace(sp[i])
    ensures ParseNumber(sp + t) == ParseNumber(t)
  {
    SkipSpacesOf(sp, t);
  }

  lemma {:induction false} SkipSpacesOf(sp: string, t: string)
    requires forall i :: 0 <= i < |sp| ==> IsSpace(sp[i])
    ensures SkipSpaces(sp + t) == SkipSpaces(t)
    decreases |sp|
  {
    if sp != [] {
      assert (sp + t)[1..] == sp[1..] + t;
      SkipSpacesOf(sp[1..], t);
    } else {
      assert sp + t == t;
    }
  }
}

=== FILE: path_utils.dfy ===
/**
  SVG path strings of the block shapes (src/utils/PathUtils.js): parsing a path
  into commands, writing commands back, finding the `h`/`v` commands, and the
  resize that lengthens chosen `h`/`v` segments. Arguments are read with the
  integer model of `parseFloat` from the Numbers module; `None` is NaN.
*/
module PathUtils {
  import opened Model
  import opened Numbers

  /** One path command: its letter and its numeric arguments. */
  datatype Cmd = Cmd(letter: char, args: seq<Option<int>>)

  predicate IsLetter(c: char) {
    ('a' <= c <= 'z') || ('A' <= c <= 'Z')
  }

  predicate NotLetter(c: char) {
    !IsLetter(c)
  }

  /** The argument separators: white space or a comma. */
  predicate IsSep(c: char) {
    IsSpace(c) || c == ','
  }

  predicate NotSep(c: char) {
    !IsSep(c)
  }

  predicate IsToken(t: string) {
    |t| >= 1 && forall i :: 0 <= i < |t| ==> !IsSep(t[i])
  }

  /** The letters of `s`, in order. */
  function LettersOf(s: string): (r: string)
    ensures forall i :: 0 <= i < |r| ==> IsLetter(r[i])
  {
    if s == [] then [] else (if IsLetter(s[0]) then [s[0]] else []) + LettersOf(s[1..])
  }

  function CommandLetters(cmds: seq<Cmd>): (r: string)
    ensures |r| == |cmds| && forall i :: 0 <= i < |cmds| ==> r[i] == cmds[i].letter
  {
    seq(|cmds|, i requires 0 <= i < |cmds| => cmds[i].letter)
  }

  /**
    The tokens of an argument text: the maximal runs of characters that are
    neither white space nor a comma. This is `trim`, then `split(/[\s,]+/)`,
    then dropping the empty strings.
  */
  function Tokens(s: string): (r: seq<string>)
    ensures forall i :: 0 <= i < |r| ==> IsToken(r[i])
    decreases |s|
  {
    if s == [] then []
    else if IsSep(s[0]) then Tokens(s[1..])
    else
      var t := TakeWhile(s, NotSep);
      [t] + Tokens(s[|t|..])
  }

  function ParseArgs(toks: seq<string>): (r: seq<Option<int>>)
    ensures |r| == |toks| && forall i :: 0 <= i < |toks| ==> r[i] == ParseNumber(toks[i])
  {
    seq(|toks|, i requires 0 <= i < |toks| => ParseNumber(toks[i]))
  }

  /**
    parsePath: every letter starts a command whose argument text runs up to
    the next letter; text before the first letter is skipped.
  */
  function ParsePath(s: string): (r: seq<Cmd>)
    ensures CommandLetters(r) == LettersOf(s)
    decreases |s|
  {
    if s == [] then []
    else if !IsLetter(s[0]) then ParsePath(s[1..])
    else
      var run := TakeWhile(s[1..], NotLetter);
      NoLettersIn(run, s[1 + |run|..]);
      assert s[1..] == run + s[1 + |run|..];
      [Cmd(s[0], ParseArgs(Tokens(run)))] + ParsePath(s[1 + |run|..])
  }

  /** A run without letters contributes no letters. */
  lemma {:induction false} NoLettersIn(run: string, rest: string)
    requires forall i :: 0 <= i < |run| ==> !IsLetter(run[i])
    ensures LettersOf(run + rest) == LettersOf(rest)
    decreases |run|
  {
    if run != [] {
      assert (run + rest)[1..] == run[1..] + rest;
      NoLettersIn(run[1..], rest);
    } else {
      assert run + rest == rest;
    }
  }

  /** `parts.join(sep)`. */
  function Join(parts: seq<string>, sep: string): string {
    if parts == [] then []
    else if |parts| == 1 then parts[0]
    else parts[0] + sep + Join(parts[1..], sep)
  }

  /** The template-literal spelling of a parsed argument; NaN is written `NaN`. */
  function ArgText(a: Option<int>): string {
    if a.None? then "NaN" else IntToString(a.value)
  }

  function ArgTexts(args: seq<Option<int>>): (r: seq<string>)
    ensures |r| == |args| && forall i :: 0 <= i < |args| ==> r[i] == ArgText(args[i])
  {
    seq(|args|, i requires 0 <= i < |args| => ArgText(args[i]))
  }

  /** One command as commandsToPath writes it: the bare letter, or the letter and the comma-joined arguments. */
  function CmdText(c: Cmd): (r: string)
    ensures |r| >= 1 && r[0] == c.letter
  {
    if |c.args| == 0 then [c.letter] else [c.letter] + Join(ArgTexts(c.args), ",")
  }

  /** commandsToPath: the commands' texts joined by single spaces. */
  function CommandsToPath(cmds: seq<Cmd>): (r: string)
    ensures cmds == [] <==> r == []
    ensures cmds != [] ==> r[0] == cmds[0].letter
  {
    if cmds == [] then []
    else if |cmds| == 1 then CmdText(cmds[0])
    else CmdText(cmds[0]) + " " + CommandsToPath(cmds[1..])
  }

  /** Commands that commandsToPath writes and parsePath reads back unchanged. */
  predicate Writable(cmds: seq<Cmd>) {
    forall i :: 0 <= i < |cmds| ==> IsLetter(cmds[i].letter) && AllNumbers(cmds[i].args)
  }

  predicate AllNumbers(args: seq<Option<int>>) {
    forall j :: 0 <= j < |args| ==> args[j].Some?
  }

  /** White space and commas only. */
  predicate AllSeps(s: string) {
    forall i :: 0 <= i < |s| ==> IsSep(s[i])
  }

  lemma {:induction false} TokensOfSeps(s: string)
    requires AllSeps(s)
    ensures Tokens(s) == []
    decreases |s|
  {
    if s != [] {
      TokensOfSeps(s[1..]);
    }
  }

  /** A token followed by separators or nothing is read as that token first. */
  lemma {:induction false} TokensCons(t: string, rest: string)
    requires IsToken(t) && (rest == [] || IsSep(rest[0]))
    ensures Tokens(t + rest) == [t] + Tokens(rest)
  {
    var s := t + rest;
    assert s[0] == t[0];
    TakeWhileOf(t, rest, NotSep);
    assert s[|t|..] == rest;
  }

  /** Splitting comma-joined tokens (with trailing separators) gives the tokens back. */
  lemma {:induction false} TokensJoin(toks: seq<string>, sfx: string)
    requires forall i :: 0 <= i < |toks| ==> IsToken(toks[i])
    requires AllSeps(sfx)
    ensures Tokens(Join(toks, ",") + sfx) == toks
    decreases |toks|
  {
    if toks == [] {
      assert Join(toks, ",") + sfx == sfx;
      TokensOfSeps(sfx);
    } else if |toks| == 1 {
      TokensCons(toks[0], sfx);
      TokensOfSeps(sfx);
    } else {
      var more := Join(toks[1..], ",") + sfx;
      assert Join(toks, ",") + sfx == toks[0] + ("," + more);
      TokensCons(toks[0], "," + more);
      assert ("," + more)[1..] == more;
      TokensJoin(toks[1..], sfx);
    }
  }

  /** The written form of an integer argument is a token. */
  /** Leading separators are skipped: `trim` at the front, and an empty first piece of `split` dropped. */
  lemma {:induction false} TokensSkipSeps(sp: string, s: string)
    requires AllSeps(sp)
    ensures Tokens(sp + s) == Tokens(s)
    decreases |sp|
  {
    if sp == [] {
      assert sp + s == s;
    } else {
      assert (sp + s)[0] == sp[0];
      assert (sp + s)[1..] == sp[1..] + s;
      TokensSkipSeps(sp[1..], s);
    }
  }

  /**
    Argument text laid out as separator runs around tokens: `seps[0]`,
    `toks[0]`, `seps[1]`, ..., `toks[n-1]`, `seps[n]`. Every text has this
    form, with non-empty runs between two tokens.
  */
  function Interleave(seps: seq<string>, toks: seq<string>): string
    requires |seps| == |toks| + 1
    decreases |toks|
  {
    if toks == [] then seps[0] else seps[0] + toks[0] + Interleave(seps[1..], toks[1..])
  }

  /** The inner separator runs of an interleaving are non-empty, and every run holds separators only. */
  predicate SeparatedBy(seps: seq<string>, toks: seq<string>) {
    && |seps| == |toks| + 1
    && (forall i :: 0 <= i < |seps| ==> AllSeps(seps[i]))
    && (forall i :: 1 <= i < |toks| ==> seps[i] != [])
    && (forall i :: 0 <= i < |toks| ==> IsToken(toks[i]))
  }

  /**
    The split rule of parsePath for any argument text: however many white
    space characters and commas stand around and between the tokens, the
    tokens are read back in order and nothing else.
  */
  lemma {:induction false} TokensOfInterleave(seps: seq<string>, toks: seq<string>)
    requires SeparatedBy(seps, toks)
    ensures Tokens(Interleave(seps, toks)) == toks
    decreases |toks|
  {
    if toks == [] {
      TokensOfSeps(seps[0]);
    } else {
      var rest := Interleave(seps[1..], toks[1..]);
      assert SeparatedBy(seps[1..], toks[1..]) by {
        forall i | 1 <= i < |toks[1..]|
          ensures seps[1..][i] != []
        {
          assert seps[1..][i] == seps[i + 1];
        }
      }
      TokensOfInterleave(seps[1..], toks[1..]);
      if |toks| > 1 {
        assert seps[1] != [] && rest == seps[1] + toks[1] + Interleave(seps[2..], toks[2..]);
        assert rest[0] == seps[1][0];
      } else {
        assert rest == seps[1];
      }
      TokensCons(toks[0], rest);
      assert Interleave(seps, toks) == seps[0] + (toks[0] + rest);
      TokensSkipSeps(seps[0], toks[0] + rest);
    }
  }

  /** Two numbers with a run of spaces before and between them, as in `h 10  20`. */
  lemma SpacedTokens()
    ensures Tokens(" 10  20") == ["10", "20"]
  {
    assert " 10  20" == Interleave([" ", "  ", ""], ["10", "20"]);
    TokensOfInterleave([" ", "  ", ""], ["10", "20"]);
  }

  /** Reading the tokens of written integer arguments gives the arguments back. */
  lemma {:induction false} ArgsRoundTrip(args: seq<Option<int>>, sfx: string)
    requires AllNumbers(args) && AllSeps(sfx)
    ensures ParseArgs(Tokens(Join(ArgTexts(args), ",") + sfx)) == args
  {
    var texts := ArgTexts(args);
    TokensJoin(texts, sfx);
    forall i | 0 <= i < |args|
      ensures ParseNumber(texts[i]) == args[i]
    {
      ParseIntToString(args[i].value, []);
      assert IntToString(args[i].value) + [] == IntToString(args[i].value);
    }
  }

  /** The argument text of a written command contains no letter. */
  lemma {:induction false} ArgTextNoLetters(args: seq<Option<int>>)
    requires AllNumbers(args)
    ensures forall i :: 0 <= i < |Join(ArgTexts(args), ",")| ==> !IsLetter(Join(ArgTexts(args), ",")[i])
    decreases |args|
  {
    var texts := ArgTexts(args);
    if |args| >= 2 {
      ArgTextNoLetters(args[1..]);
      assert ArgTexts(args[1..]) == texts[1..];
      assert Join(texts, ",") == texts[0] + "," + Join(texts[1..], ",");
    }
  }

  /** Every written command reads as its letter followed by a letter-free argument text. */
  lemma {:induction false} CmdTextShape(c: Cmd)
    requires AllNumbers(c.args)
    ensures CmdText(c) == [c.letter] + Join(ArgTexts(c.args), ",")
  {
    if |c.args| == 0 {
      assert ArgTexts(c.args) == [];
    }
  }

  /** Parsing one written command followed by `sfx` and the rest of the path. */
  lemma {:induction false} ParseCmdText(c: Cmd, sfx: string, rest: string)
    requires IsLetter(c.letter) && AllNumbers(c.args)
    requires AllSeps(sfx) && forall i :: 0 <= i < |sfx| ==> !IsLetter(sfx[i])
    requires rest == [] || IsLetter(rest[0])
    ensures ParsePath(CmdText(c) + sfx + rest) == [c] + ParsePath(rest)
  {
    var a := Join(ArgTexts(c.args), ",");
    CmdTextShape(c);
    ArgTextNoLetters(c.args);
    var s := CmdText(c) + sfx + rest;
    assert s[0] == c.letter;
    assert s[1..] == (a + sfx) + rest;
    TakeWhileOf(a + sfx, rest, NotLetter);
    assert s[1 + |a + sfx|..] == rest;
    ArgsRoundTrip(c.args, sfx);
  }

  /**
    parsePath on any text: a letter followed by a run without letters is one
    command, whose arguments are the tokens of that run read as numbers.
  */
  lemma {:induction false} ParseCommand(l: char, run: string, rest: string)
    requires IsLetter(l) && forall i :: 0 <= i < |run| ==> !IsLetter(run[i])
    requires rest == [] || IsLetter(rest[0])
    ensures ParsePath([l] + run + rest) == [Cmd(l, ParseArgs(Tokens(run)))] + ParsePath(rest)
  {
    var s := [l] + run + rest;
    assert s[0] == l;
    assert s[1..] == run + rest;
    TakeWhileOf(run, rest, NotLetter);
    assert s[1 + |run|..] == rest;
  }

  /** Text before the first letter is skipped. */
  lemma {:induction false} ParseSkipsLeading(pre: string, s: string)
    requires forall i :: 0 <= i < |pre| ==> !IsLetter(pre[i])
    ensures ParsePath(pre + s) == ParsePath(s)
    decreases |pre|
  {
    if pre == [] {
      assert pre + s == s;
    } else {
      assert (pre + s)[0] == pre[0];
      assert (pre + s)[1..] == pre[1..] + s;
      ParseSkipsLeading(pre[1..], s);
    }
  }

  /** The rest of writable commands is writable, and its text starts with a letter. */
  lemma {:induction false} WritableTail(cmds: seq<Cmd>)
    requires Writable(cmds) && |cmds| >= 2
    ensures Writable(cmds[1..]) && IsLetter(CommandsToPath(cmds[1..])[0])
  {
    assert cmds[1..][0] == cmds[1];
  }

  /** The single space between two commands is a separator and no letter. */
  lemma {:induction false} SpaceSeparates()
    ensures AllSeps(" ") && forall i :: 0 <= i < |" "| ==> !IsLetter(" "[i])
  {
  }

  /** Round trip: parsePath reads back what commandsToPath wrote, for integer arguments. */
  lemma {:induction false} ParseCommandsToPath(cmds: seq<Cmd>)
    requires Writable(cmds)
    ensures ParsePath(CommandsToPath(cmds)) == cmds
    decreases |cmds|
  {
    if |cmds| == 1 {
      ParseCmdText(cmds[0], [], []);
      assert CmdText(cmds[0]) + [] + [] == CommandsToPath(cmds);
    } else if |cmds| >= 2 {
      var tail := cmds[1..];
      var rest := CommandsToPath(tail);
      WritableTail(cmds);
      SpaceSeparates();
      ParseCmdText(cmds[0], " ", rest);
      ParseCommandsToPath(tail);
      assert CommandsToPath(cmds) == CmdText(cmds[0]) + " " + rest;
      assert [cmds[0]] + tail == cmds;
    }
  }

  /** The ASCII lower case of a letter; other characters are kept. */
  function Lower(c: char): (r: char)
    ensures IsLetter(c) <==> IsLetter(r)
    ensures 'A' <= c <= 'Z' ==> r as int == c as int + 32
  {
    if 'A' <= c <= 'Z' then (c as int + 32) as char else c
  }

  /** A command found by findCommandsByType: its position and the command itself. */
  datatype Found = Found(index: nat, command: Cmd)

  predicate OfType(c: Cmd, t: char) {
    Lower(c.letter) == Lower(t)
  }

  /** The found entries from position `i` on. */
  function FindFrom(cmds: seq<Cmd>, t: char, i: nat): (r: seq<Found>)
    requires i <= |cmds|
    ensures forall k :: 0 <= k < |r| ==> i <= r[k].index < |cmds| && r[k].command == cmds[r[k].index] && OfType(r[k].command, t)
    ensures forall k, l :: 0 <= k < l < |r| ==> r[k].index < r[l].index
    decreases |cmds| - i
  {
    if i == |cmds| then []
    else if OfType(cmds[i], t) then [Found(i, cmds[i])] + FindFrom(cmds, t, i + 1)
    else FindFrom(cmds, t, i + 1)
  }

  /**
    findCommandsByType: every command whose letter equals `t` up to case, with
    its position, in path order.
  */
  function FindCommandsByType(cmds: seq<Cmd>, t: char): (r: seq<Found>)
    ensures forall k :: 0 <= k < |r| ==> r[k].index < |cmds| && r[k].command == cmds[r[k].index] && OfType(r[k].command, t)
    ensures forall k, l :: 0 <= k < l < |r| ==> r[k].index < r[l].index
  {
    FindFrom(cmds, t, 0)
  }

  lemma {:induction false} FindFromComplete(cmds: seq<Cmd>, t: char, i: nat, j: nat)
    requires i <= j < |cmds| && OfType(cmds[j], t)
    ensures exists k :: 0 <= k < |FindFrom(cmds, t, i)| && FindFrom(cmds, t, i)[k].index == j
    decreases |cmds| - i
  {
    var r := FindFrom(cmds, t, i);
    if i == j {
      assert r[0].index == j;
    } else {
      FindFromComplete(cmds, t, i + 1, j);
      var r' := FindFrom(cmds, t, i + 1);
      var k :| 0 <= k < |r'| && r'[k].index == j;
      if OfType(cmds[i], t) {
        assert r == [Found(i, cmds[i])] + r';
        assert r[k + 1] == r'[k];
      } else {
        assert r == r';
      }
    }
  }

  /** No command of the type is missed. */
  lemma {:induction false} FindComplete(cmds: seq<Cmd>, t: char, j: nat)
    requires j < |cmds| && OfType(cmds[j], t)
    ensures exists k :: 0 <= k < |FindCommandsByType(cmds, t)| && FindCommandsByType(cmds, t)[k].index == j
  {
    FindFromComplete(cmds, t, 0, j);
    var k :| 0 <= k < |FindFrom(cmds, t, 0)| && FindFrom(cmds, t, 0)[k].index == j;
    assert FindCommandsByType(cmds, t)[k].index == j;
  }

  function Sign(v: int): int {
    if v > 0 then 1 else if v < 0 then -1 else 0
  }

  function Abs(v: int): nat {
    if v < 0 then -v else v
  }

  function Max(a: int, b: int): int {
    if a >= b then a else b
  }

  /**
    adjustValue: grow the magnitude of `v` by `delta` (never below 0) and keep
    the sign of `v`; a zero value takes the sign of `delta`.
  */
  function AdjustValue(v: int, delta: int): int {
    if delta == 0 then v
    else
      var sign := if Sign(v) == 0 then (if Sign(delta) == 0 then 1 else Sign(delta)) else Sign(v);
      sign * Max(0, Abs(v) + delta)
  }

  /** The magnitude becomes |v| + delta, floored at 0. */
  lemma AdjustMagnitude(v: int, delta: int)
    ensures Abs(AdjustValue(v, delta)) == Max(0, Abs(v) + delta)
  {
  }

  /** A nonzero value keeps its sign while its magnitude stays positive. */
  lemma AdjustKeepsSign(v: int, delta: int)
    requires v != 0 && Abs(v) + delta > 0
    ensures Sign(AdjustValue(v, delta)) == Sign(v)
  {
  }

  /** A zero value grows in the direction of delta, and a shrink leaves it at zero. */
  lemma AdjustZero(delta: int)
    ensures delta > 0 ==> AdjustValue(0, delta) == delta
    ensures delta <= 0 ==> AdjustValue(0, delta) == 0
  {
  }

  /** Two adjustments of a nonzero value that stays nonzero add up. */
  lemma AdjustCompose(v: int, a: int, b: int)
    requires v != 0 && Abs(v) + a > 0 && Abs(v) + a + b >= 0
    ensures AdjustValue(AdjustValue(v, a), b) == AdjustValue(v, a + b)
  {
  }

  /** Adjusting back by -delta undoes an adjustment that kept the value nonzero. */
  lemma AdjustInverse(v: int, delta: int)
    requires v != 0 && Abs(v) + delta > 0
    ensures AdjustValue(AdjustValue(v, delta), -delta) == v
  {
    AdjustCompose(v, delta, -delta);
  }

  /** adjustValue on a parsed argument: NaN stays NaN. */
  function AdjustArg(a: Option<int>, delta: int): (r: Option<int>)
    ensures r.Some? <==> a.Some?
  {
    if a.None? then None else Some(AdjustValue(a.value, delta))
  }

  /** The first argument of a command adjusted; a command without arguments is kept. */
  function AdjustFirst(c: Cmd, delta: int): (r: Cmd)
    ensures r.letter == c.letter && |r.args| == |c.args|
    ensures forall j :: 1 <= j < |c.args| ==> r.args[j] == c.args[j]
  {
    if |c.args| > 0 then c.(args := c.args[0 := AdjustArg(c.args[0], delta)]) else c
  }

  /** Found positions that lie inside the command list. */
  predicate FoundIn(found: seq<Found>, n: nat) {
    forall k :: 0 <= k < |found| ==> found[k].index < n
  }

  /** Position `j` is the target of one of the selected indices. */
  predicate Selected(found: seq<Found>, idxs: seq<nat>, j: nat) {
    exists k :: 0 <= k < |idxs| && idxs[k] < |found| && found[idxs[k]].index == j
  }

  /** Adjust the target of one index, if it is in range. */
  function AdjustOne(cmds: seq<Cmd>, found: seq<Found>, idx: nat, delta: int): (r: seq<Cmd>)
    requires FoundIn(found, |cmds|)
    ensures |r| == |cmds|
    ensures forall j :: 0 <= j < |cmds| ==> r[j].letter == cmds[j].letter && |r[j].args| == |cmds[j].args|
    ensures forall j :: 0 <= j < |cmds| && (idx >= |found| || found[idx].index != j) ==> r[j] == cmds[j]
    ensures idx < |found| ==> r[found[idx].index] == AdjustFirst(cmds[found[idx].index], delta)
  {
    if idx < |found| then
      var j := found[idx].index;
      cmds[j := AdjustFirst(cmds[j], delta)]
    else cmds
  }

  /**
    The `forEach` over the selected indices: each in-range index adjusts the
    first argument of the command it selects, in the order of the indices.
  */
  function AdjustSelected(cmds: seq<Cmd>, found: seq<Found>, idxs: seq<nat>, delta: int): (r: seq<Cmd>)
    requires FoundIn(found, |cmds|)
    ensures |r| == |cmds|
    ensures forall j :: 0 <= j < |cmds| ==> r[j].letter == cmds[j].letter && |r[j].args| == |cmds[j].args|
    decreases |idxs|
  {
    if idxs == [] then cmds
    else AdjustSelected(AdjustOne(cmds, found, idxs[0], delta), found, idxs[1..], delta)
  }

  /** Commands that no selected index reaches are left unchanged. */
  lemma {:induction false} AdjustSelectedFrame(cmds: seq<Cmd>, found: seq<Found>, idxs: seq<nat>, delta: int, j: nat)
    requires FoundIn(found, |cmds|) && j < |cmds| && !Selected(found, idxs, j)
    ensures AdjustSelected(cmds, found, idxs, delta)[j] == cmds[j]
    decreases |idxs|
  {
    if idxs != [] {
      var next := AdjustOne(cmds, found, idxs[0], delta);
      forall m | 0 <= m < |idxs[1..]|
        ensures idxs[1..][m] < |found| ==> found[idxs[1..][m]].index != j
      {
        assert idxs[1..][m] == idxs[m + 1];
      }
      assert next[j] == cmds[j] by {
        assert !(idxs[0] < |found| && found[idxs[0]].index == j);
      }
      AdjustSelectedFrame(next, found, idxs[1..], delta, j);
    }
  }

  predicate DistinctNats(s: seq<nat>) {
    forall k, l :: 0 <= k < l < |s| ==> s[k] != s[l]
  }

  predicate Increasing(found: seq<Found>) {
    forall k, l :: 0 <= k < l < |found| ==> found[k].index < found[l].index
  }

  /**
    With distinct indices and strictly increasing positions, every selected
    in-range command has its first argument adjusted exactly once.
  */
  lemma {:induction false} AdjustSelectedHits(cmds: seq<Cmd>, found: seq<Found>, idxs: seq<nat>, delta: int, k: nat)
    requires FoundIn(found, |cmds|) && Increasing(found) && DistinctNats(idxs)
    requires k < |idxs| && idxs[k] < |found|
    ensures var j := found[idxs[k]].index;
      AdjustSelected(cmds, found, idxs, delta)[j] == AdjustFirst(cmds[j], delta)
    decreases |idxs|
  {
    var j := found[idxs[k]].index;
    var next := AdjustOne(cmds, found, idxs[0], delta);
    if k == 0 {
      forall m | 0 <= m < |idxs[1..]|
        ensures idxs[1..][m] < |found| ==> found[idxs[1..][m]].index != j
      {
        assert idxs[1..][m] == idxs[m + 1] && idxs[m + 1] != idxs[0];
      }
      AdjustSelectedFrame(next, found, idxs[1..], delta, j);
    } else {
      assert idxs[1..][k - 1] == idxs[k];
      assert next[j] == cmds[j] by {
        assert idxs[0] != idxs[k];
      }
      AdjustSelectedHits(next, found, idxs[1..], delta, k - 1);
    }
  }

  /** The configuration of a resize: the positions, among the `h` and among the `v` commands, to change. */
  datatype ResizeConfig = ResizeConfig(hIndices: seq<nat>, vIndices: seq<nat>)

  /**
    The command-level part of resizeBlockPath: the selected `h` commands grow
    by `horizontal`, then the selected `v` commands by `vertical`. Both lists of
    found commands are taken from the parsed path before any change.
  */
  function ResizeCommands(cmds: seq<Cmd>, config: ResizeConfig, horizontal: int, vertical: int): (r: seq<Cmd>)
    ensures |r| == |cmds|
    ensures forall j :: 0 <= j < |cmds| ==> r[j].letter == cmds[j].letter && |r[j].args| == |cmds[j].args|
  {
    var hs := FindCommandsByType(cmds, 'h');
    var vs := FindCommandsByType(cmds, 'v');
    var afterH := if horizontal != 0 && |config.hIndices| > 0 then AdjustSelected(cmds, hs, config.hIndices, horizontal) else cmds;
    if vertical != 0 && |config.vIndices| > 0 then AdjustSelected(afterH, vs, config.vIndices, vertical) else afterH
  }

  /** resizeBlockPath: the path unchanged when both deltas are 0, otherwise the rewritten commands written back. */
  function ResizeBlockPath(path: string, config: ResizeConfig, horizontal: int, vertical: int): (r: string)
    ensures horizontal == 0 && vertical == 0 ==> r == path
  {
    if horizontal == 0 && vertical == 0 then path
    else CommandsToPath(ResizeCommands(ParsePath(path), config, horizontal, vertical))
  }

  /**
    For a path with integer arguments, reading the resized path gives the
    resized commands: the string rewrite is exactly the command-level resize.
  */
  lemma {:induction false} ResizeBlockPathParses(path: string, config: ResizeConfig, horizontal: int, vertical: int)
    requires horizontal != 0 || vertical != 0
    requires Writable(ParsePath(path))
    ensures ParsePath(ResizeBlockPath(path, config, horizontal, vertical)) ==
      ResizeCommands(ParsePath(path), config, horizontal, vertical)
  {
    var resized := ResizeCommands(ParsePath(path), config, horizontal, vertical);
    ResizeWritable(ParsePath(path), config, horizontal, vertical);
    ParseCommandsToPath(resized);
  }

  /** Every command ParsePath yields starts with a letter. */
  lemma {:induction false} AdjustSelectedNumbers(cmds: seq<Cmd>, found: seq<Found>, idxs: seq<nat>, delta: int)
    requires FoundIn(found, |cmds|) && Writable(cmds)
    ensures Writable(AdjustSelected(cmds, found, idxs, delta))
    decreases |idxs|
  {
    if idxs != [] {
      var next := AdjustOne(cmds, found, idxs[0], delta);
      assert Writable(next);
      AdjustSelectedNumbers(next, found, idxs[1..], delta);
    }
  }

  /** Resizing keeps integer arguments integers. */
  lemma {:induction false} ResizeWritable(cmds: seq<Cmd>, config: ResizeConfig, horizontal: int, vertical: int)
    requires Writable(cmds)
    ensures Writable(ResizeCommands(cmds, config, horizontal, vertical))
  {
    var hs := FindCommandsByType(cmds, 'h');
    var vs := FindCommandsByType(cmds, 'v');
    AdjustSelectedNumbers(cmds, hs, config.hIndices, horizontal);
    var afterH := if horizontal != 0 && |config.hIndices| > 0 then AdjustSelected(cmds, hs, config.hIndices, horizontal) else cmds;
    AdjustSelectedNumbers(afterH, vs, config.vIndices, vertical);
  }

  /**
    A selected `h` command has its first argument grown by `horizontal`: it is
    an `h`, so no `v` index can reach it.
  */
  lemma {:induction false} ResizeHitsH(cmds: seq<Cmd>, config: ResizeConfig, horizontal: int, vertical: int, k: nat)
    requires DistinctNats(config.hIndices) && horizontal != 0
    requires k < |config.hIndices| && config.hIndices[k] < |FindCommandsByType(cmds, 'h')|
    ensures var j := FindCommandsByType(cmds, 'h')[config.hIndices[k]].index;
      ResizeCommands(cmds, config, horizontal, vertical)[j] == AdjustFirst(cmds[j], horizontal)
  {
    var hs := FindCommandsByType(cmds, 'h');
    var vs := FindCommandsByType(cmds, 'v');
    var j := hs[config.hIndices[k]].index;
    AdjustSelectedHits(cmds, hs, config.hIndices, horizontal, k);
    var afterH := AdjustSelected(cmds, hs, config.hIndices, horizontal);
    if vertical != 0 && |config.vIndices| > 0 {
      forall m | 0 <= m < |config.vIndices| && config.vIndices[m] < |vs|
        ensures vs[config.vIndices[m]].index != j
      {
        assert OfType(vs[config.vIndices[m]].command, 'v');
      }
      AdjustSelectedFrame(afterH, vs, config.vIndices, vertical, j);
    }
  }

  /** A selected `v` command has its first argument grown by `vertical`. */
  lemma {:induction false} ResizeHitsV(cmds: seq<Cmd>, config: ResizeConfig, horizontal: int, vertical: int, k: nat)
    requires DistinctNats(config.vIndices) && vertical != 0
    requires k < |config.vIndices| && config.vIndices[k] < |FindCommandsByType(cmds, 'v')|
    ensures var j := FindCommandsByType(cmds, 'v')[config.vIndices[k]].index;
      ResizeCommands(cmds, config, horizontal, vertical)[j] == AdjustFirst(cmds[j], vertical)
  {
    var hs := FindCommandsByType(cmds, 'h');
    var vs := FindCommandsByType(cmds, 'v');
    var j := vs[config.vIndices[k]].index;
    var afterH := if horizontal != 0 && |config.hIndices| > 0 then AdjustSelected(cmds, hs, config.hIndices, horizontal) else cmds;
    assert afterH[j] == cmds[j] by {
      if horizontal != 0 && |config.hIndices| > 0 {
        forall m | 0 <= m < |config.hIndices| && config.hIndices[m] < |hs|
          ensures hs[config.hIndices[m]].index != j
        {
          assert OfType(hs[config.hIndices[m]].command, 'h');
        }
        AdjustSelectedFrame(cmds, hs, config.hIndices, horizontal, j);
      }
    }
    AdjustSelectedHits(afterH, vs, config.vIndices, vertical, k);
  }

  /** Commands that neither list selects are unchanged. */
  lemma {:induction false} ResizeFrame(cmds: seq<Cmd>, config: ResizeConfig, horizontal: int, vertical: int, j: nat)
    requires j < |cmds|
    requires !Selected(FindCommandsByType(cmds, 'h'), config.hIndices, j)
    requires !Selected(FindCommandsByType(cmds, 'v'), config.vIndices, j)
    ensures ResizeCommands(cmds, config, horizontal, vertical)[j] == cmds[j]
  {
    var hs := FindCommandsByType(cmds, 'h');
    var vs := FindCommandsByType(cmds, 'v');
    AdjustSelectedFrame(cmds, hs, config.hIndices, horizontal, j);
    var afterH := if horizontal != 0 && |config.hIndices| > 0 then AdjustSelected(cmds, hs, config.hIndices, horizontal) else cmds;
    AdjustSelectedFrame(afterH, vs, config.vIndices, vertical, j);
  }

  /**
    getBlockResizeConfig: which `h` and `v` commands each block shape resizes;
    an unknown shape has no configuration.
  */
  function GetBlockResizeConfig(kind: BlockType): (r: Option<ResizeConfig>)
    ensures r.None? <==> kind == UnknownBlock
    ensures r.Some? ==> DistinctNats(r.value.hIndices) && DistinctNats(r.value.vIndices)
    ensures r.Some? ==> (|r.value.vIndices| > 0 <==> kind == CBlock)
  {
    match kind
    case StartBlock => Some(ResizeConfig([0, 1], []))
    case CBlock => Some(ResizeConfig([2, 3, 8, 10], [1, 3]))
    case DefaultBlock => Some(ResizeConfig([2, 3], []))
    case StopBlock => Some(ResizeConfig([2, 3], []))
    case RoundBlock => Some(ResizeConfig([0, 1], []))
    case SharpBlock => Some(ResizeConfig([0, 1], []))
    case UnknownBlock => None
  }
}

=== FILE: position_calculator.dfy ===
/**
  Where a dragged block goes when it snaps to a connector
  (src/ui/drag/BlockPositionCalculator.js). The program distinguishes a single
  block, a chain of blocks of one type and a mixed chain, and each type within
  those cases, but every case uses the same formula: the block keeps the
  target's x, and its y is measured from the target's top for a top
  connection and from the target's bottom socket for a bottom connection.
  Only a block (or a chain of blocks) of unknown type has no position.
*/
module PositionCalculator {
  import opened Model
  import opened BlockChain
  import opened DragHelpers
  import opened Connectors

  /** Every block of the chain has the type of its first block. */
  predicate Homogeneous(ws: Workspace, chain: seq<Id>)
    requires |chain| >= 1 && forall i :: 0 <= i < |chain| ==> 0 <= chain[i] < |ws|
  {
    forall i :: 0 <= i < |chain| ==> ws[chain[i]].kind == ws[chain[0]].kind
  }

  /** The y of a block snapped above `target`: its socket overlaps the target's top connector. */
  function TopY(env: Env, targetY: int, dragged: Block): int {
    targetY + env.topY + env.halfThreshold - (PathHeight(env, dragged) - env.socketHeight)
  }

  /** The y of a block snapped below `target`: at the target's bottom socket. */
  function BottomY(env: Env, targetY: int, target: Block): int {
    targetY + PathHeight(env, target) - env.socketHeight + env.bottomY - env.halfThreshold
  }

  /**
    The type cases of the program for one connection: a single block of a
    known type and a one-type chain of a known type get `y`, a mixed chain
    gets `y` whatever its types, and the unknown type gets nothing.
  */
  function ByShape(ws: Workspace, chain: seq<Id>, y: int): (r: Option<int>)
    requires |chain| >= 1 && forall i :: 0 <= i < |chain| ==> 0 <= chain[i] < |ws|
    ensures r.Some? ==> r.value == y
  {
    if |chain| == 1 then
      (if ws[chain[0]].kind == UnknownBlock then None else Some(y))
    else if Homogeneous(ws, chain) then
      (if ws[chain[0]].kind == UnknownBlock then None else Some(y))
    else Some(y)
  }

  /**
    calculateBlockPosition: nothing for a missing block or a connector other
    than top and bottom; otherwise the target's x and the y of the connection,
    unless the dragged chain is of unknown type throughout.
  */
  function CalculatePosition(ws: Workspace, env: Env, target: Id, dragged: Id, c: ConnectorType): (r: Option<Point>)
    ensures !Resolves(ws, target) || !Resolves(ws, dragged) || (c != Top && c != Bottom) ==> r.None?
    ensures r.Some? ==> r.value.x == ws[target].x
    ensures r.Some? && c == Top ==> r.value.y == TopY(env, ws[target].y, ws[dragged])
    ensures r.Some? && c == Bottom ==> r.value.y == BottomY(env, ws[target].y, ws[target])
  {
    if !Resolves(ws, target) || !Resolves(ws, dragged) then None
    else
      var chain := ChainBlocks(ws, dragged);
      var y := if c == Top then TopY(env, ws[target].y, ws[dragged]) else BottomY(env, ws[target].y, ws[target]);
      if c != Top && c != Bottom then None
      else match ByShape(ws, chain, y)
        case None => None
        case Some(v) => Some(Point(ws[target].x, v))
  }

  /**
    For a top or bottom connection between existing blocks there is a
    position exactly when the dragged block's chain is of unknown type
    throughout; in particular a block of a known type always gets one.
  */
  lemma {:induction false} PositionExistsUnlessUnknown(ws: Workspace, env: Env, target: Id, dragged: Id, c: ConnectorType)
    requires Resolves(ws, target) && Resolves(ws, dragged) && (c == Top || c == Bottom)
    ensures var chain := ChainBlocks(ws, dragged);
      CalculatePosition(ws, env, target, dragged, c).None? <==>
        forall i :: 0 <= i < |chain| ==> ws[chain[i]].kind == UnknownBlock
  {
    var chain := ChainBlocks(ws, dragged);
    assert chain[0] == dragged;
  }

  /**
    The bottom and the top position of the same block on the same target are
    apart by the two heights less the two sockets, corrected by the connector
    offsets and the catch zone.
  */
  lemma TopBottomGap(ws: Workspace, env: Env, target: Id, dragged: Id)
    requires Resolves(ws, target) && Resolves(ws, dragged) && ws[dragged].kind != UnknownBlock
    ensures var top := CalculatePosition(ws, env, target, dragged, Top);
      var bottom := CalculatePosition(ws, env, target, dragged, Bottom);
      && top.Some? && bottom.Some?
      && bottom.value.y - top.value.y ==
           PathHeight(env, ws[target]) + PathHeight(env, ws[dragged]) - 2 * env.socketHeight
           + env.bottomY - env.topY - 2 * env.halfThreshold
  {
    PositionExistsUnlessUnknown(ws, env, target, dragged, Top);
    PositionExistsUnlessUnknown(ws, env, target, dragged, Bottom);
    assert ChainBlocks(ws, dragged)[0] == dragged;
  }
}

=== FILE: special_blocks.dfy ===
/**
  Start and stop blocks (src/blocks/SpecialBlocks.js). A start block has no
  top connector and a stop block no bottom connector, so dropping one into the
  middle of a chain cannot simply splice it in: a start block cuts off the part
  of the chain above it, a stop block the part below it, and the cut-off part
  is moved 50 units right and down to stand on its own.
*/
module SpecialBlocks {
  import opened Model
  import opened BlockChain

  /** How far a cut-off part of a chain is moved, in both directions. */
  const CutOffset: int := 50

  /** getSpecialBlockType: the type of a start or stop block; nothing for any other block or for no block. */
  function SpecialType(ws: Workspace, b: Id): (r: Option<BlockType>)
    ensures r.Some? <==> Resolves(ws, b) && (ws[b].kind == StartBlock || ws[b].kind == StopBlock)
    ensures r.Some? ==> r.value == ws[b].kind
  {
    if Resolves(ws, b) && (ws[b].kind == StartBlock || ws[b].kind == StopBlock) then Some(ws[b].kind) else None
  }

  /** hasTopConnector: every block except a start block can be attached below another. */
  predicate HasTopConnector(b: Block) {
    b.kind != StartBlock
  }

  /** hasBottomConnector: every block except a stop block can have another attached below it. */
  predicate HasBottomConnector(b: Block) {
    b.kind != StopBlock
  }

  /**
    The special types are exactly the blocks that lack a connector: a start
    block lacks the top one, a stop block the bottom one, and every other block
    has both.
  */
  lemma SpecialLacksConnector(ws: Workspace, b: Id)
    requires Resolves(ws, b)
    ensures !HasTopConnector(ws[b]) <==> SpecialType(ws, b) == Some(StartBlock)
    ensures !HasBottomConnector(ws[b]) <==> SpecialType(ws, b) == Some(StopBlock)
    ensures SpecialType(ws, b).None? <==> HasTopConnector(ws[b]) && HasBottomConnector(ws[b])
  {
  }

  /**
    The part of the chain above a start block dropped below `target`: the
    chain of the top-level block over `target`, up to and including `target`.
    When `target` is not on that chain the part is empty.
  */
  function StartCut(ws: Workspace, target: Id): seq<Id>
    requires Resolves(ws, target)
  {
    var upper := ChainBlocks(ws, TopLevelBlock(ws, target).value);
    upper[..IndexOf(upper, target) + 1]
  }

  /** The cut-off part is a prefix of the chain above, ending at `target` whenever `target` is on that chain. */
  lemma StartCutShape(ws: Workspace, target: Id)
    requires Resolves(ws, target)
    ensures var upper := ChainBlocks(ws, TopLevelBlock(ws, target).value); var cut := StartCut(ws, target);
      && |cut| <= |upper| && cut == upper[..|cut|]
      && (target in upper <==> cut != [])
      && (cut != [] ==> cut[|cut| - 1] == target)
  {
  }

  /**
    What the writes of handleStartBlockInsertion, in the program's order, do
    to block `k`: detach `target` from `lower`, move the cut-off part, hang
    `lower` below `start`, and make `start` a chain head. Each write touches
    one block, so applying them block by block keeps their order.
  */
  function StartBlockAfter(b: Block, k: Id, start: Id, target: Id, lower: Id, hasLower: bool, inCut: bool): Block {
    var b1 := if k == target then b.(next := NoId, bottomConnected := false) else b;
    var b2 := if hasLower && k == lower then b1.(parent := NoId, topConnected := false) else b1;
    var b3 := if inCut then b2.(x := b2.x + CutOffset, y := b2.y + CutOffset) else b2;
    var b4 := if hasLower && k == start then b3.(next := lower, bottomConnected := true) else b3;
    var b5 := if hasLower && k == lower then b4.(parent := start, topConnected := true, topLevel := false) else b4;
    if k == start then b5.(topLevel := true, parent := NoId, topConnected := false) else b5
  }

  /** The writes of handleStartBlockInsertion for a given cut-off part `cut`. */
  function StartWrites(ws: Workspace, start: Id, target: Id, lower: Id, cut: seq<Id>): (r: Workspace)
    ensures |r| == |ws|
    ensures forall k :: 0 <= k < |ws| ==> r[k] == StartBlockAfter(ws[k], k, start, target, lower, Resolves(ws, lower), k in cut)
  {
    seq(|ws|, k requires 0 <= k < |ws| => StartBlockAfter(ws[k], k, start, target, lower, Resolves(ws, lower), k in cut))
  }

  /**
    handleStartBlockInsertion: `start` is dropped below `target`, whose next
    block was `lower` (the empty link when there was none). The chain above,
    up to `target`, is cut off and moved; `start` becomes the head of a new
    chain continuing with `lower`.
  */
  function StartInsertion(ws: Workspace, start: Id, target: Id, lower: Id): Workspace
    requires Resolves(ws, start) && Resolves(ws, target)
  {
    StartWrites(ws, start, target, lower, StartCut(ws, target))
  }

  /**
    Cutting a walk at `target`: when no block of the walk before `target`
    changes its `next` and `target`'s `next` no longer leads anywhere, the
    chain from the head ends at `target`.
  */
  lemma {:induction false} SeverAt(ws: Workspace, r: Workspace, upper: seq<Id>, i: nat, start: Id, target: Id)
    requires 1 <= i <= |upper| && IsWalkFrom(ws, Down, upper[0], upper) && upper[i - 1] == target
    requires |r| == |ws| && start !in upper[..i]
    requires forall k :: 0 <= k < |ws| && k != start && k != target ==> r[k].next == ws[k].next
    requires !Resolves(r, r[target].next)
    ensures ChainBlocks(r, upper[0]) == upper[..i]
  {
    forall j | 0 <= j < i - 1
      ensures r[upper[j]].next == ws[upper[j]].next
    {
      DistinctAt(upper, j, i - 1);
      assert upper[j] in upper[..i];
    }
    ChainCut(ws, r, upper, i);
  }

  /**
    The flags the start insertion writes: `start` heads a chain and is joined
    to `lower` when there is one, `target` ends its chain, the cut-off part
    moves by the offset in both directions, and every other block keeps all of
    its fields but its position.
  */
  lemma StartWritesEffect(ws: Workspace, start: Id, target: Id, lower: Id, cut: seq<Id>)
    requires Resolves(ws, start) && Resolves(ws, target) && start != target
    ensures var r := StartWrites(ws, start, target, lower, cut);
      && r[start].topLevel && r[start].parent == NoId && !r[start].topConnected
      && r[target].next == NoId && !r[target].bottomConnected
      && (Resolves(ws, lower) && lower != start && lower != target ==> Joined(r, start, lower))
      && (!Resolves(ws, lower) ==> r[start].next == ws[start].next && r[start].bottomConnected == ws[start].bottomConnected)
      && (forall k :: 0 <= k < |ws| ==>
            if k in cut then r[k].x == ws[k].x + CutOffset && r[k].y == ws[k].y + CutOffset
            else r[k].x == ws[k].x && r[k].y == ws[k].y)
      && (forall k :: 0 <= k < |ws| && k != start && k != target && k != lower ==> r[k] == ws[k].(x := r[k].x, y := r[k].y))
  {
  }

  /** handleStartBlockInsertion's effect, with the cut-off part computed from the chain above `target`. */
  lemma StartInsertionEffect(ws: Workspace, start: Id, target: Id, lower: Id)
    requires Resolves(ws, start) && Resolves(ws, target) && start != target
    ensures var r := StartInsertion(ws, start, target, lower); var cut := StartCut(ws, target);
      && |r| == |ws|
      && r[start].topLevel && r[start].parent == NoId && !r[start].topConnected
      && r[target].next == NoId && !r[target].bottomConnected
      && (Resolves(ws, lower) && lower != start && lower != target ==> Joined(r, start, lower))
      && (!Resolves(ws, lower) ==> r[start].next == ws[start].next)
      && (forall k :: 0 <= k < |ws| ==>
            if k in cut then r[k].x == ws[k].x + CutOffset && r[k].y == ws[k].y + CutOffset
            else r[k].x == ws[k].x && r[k].y == ws[k].y)
      && (forall k :: 0 <= k < |ws| && k != start && k != target && k != lower ==> r[k] == ws[k].(x := r[k].x, y := r[k].y))
  {
    StartWritesEffect(ws, start, target, lower, StartCut(ws, target));
  }

  /** The `next` links the start insertion writes: `target`'s is cleared, `start`'s leads to `lower`, and no other changes. */
  lemma StartNexts(ws: Workspace, start: Id, target: Id, lower: Id, cut: seq<Id>)
    requires Resolves(ws, start) && Resolves(ws, target) && start != target
    ensures var r := StartWrites(ws, start, target, lower, cut);
      && (forall k :: 0 <= k < |ws| && k != start && k != target ==> r[k].next == ws[k].next)
      && r[target].next == NoId
      && (Resolves(ws, lower) ==> r[start].next == lower)
  {
  }

  /** Cutting the walk `upper` at `target` with the start insertion's writes leaves the walk up to `target`. */
  lemma {:induction false} StartSevers(ws: Workspace, start: Id, target: Id, lower: Id, upper: seq<Id>, cut: seq<Id>)
    requires Resolves(ws, start) && Resolves(ws, target) && start != target
    requires |upper| >= 1 && IsWalkFrom(ws, Down, upper[0], upper) && target in upper
    requires cut == upper[..IndexOf(upper, target) + 1] && start !in cut
    ensures ChainBlocks(StartWrites(ws, start, target, lower, cut), upper[0]) == cut
  {
    StartNexts(ws, start, target, lower, cut);
    SeverAt(ws, StartWrites(ws, start, target, lower, cut), upper, |cut|, start, target);
  }

  /**
    After a start block is inserted below `target`, the chain of the old
    top-level block ends at `target`: everything from `lower` down no longer
    hangs from it.
  */
  lemma {:induction false} StartSeversAbove(ws: Workspace, start: Id, target: Id, lower: Id)
    requires Resolves(ws, start) && Resolves(ws, target) && start != target
    requires target in ChainBlocks(ws, TopLevelBlock(ws, target).value)
    requires start !in StartCut(ws, target)
    ensures var top := TopLevelBlock(ws, target).value;
      ChainBlocks(StartInsertion(ws, start, target, lower), top) == StartCut(ws, target)
  {
    var top := TopLevelBlock(ws, target).value;
    var upper := ChainBlocks(ws, top);
    StartCutOf(ws, target, top, upper);
    StartSevers(ws, start, target, lower, upper, StartCut(ws, target));
  }

  lemma {:induction false} StartCutOf(ws: Workspace, target: Id, top: Id, upper: seq<Id>)
    requires Resolves(ws, target) && top == TopLevelBlock(ws, target).value && upper == ChainBlocks(ws, top)
    ensures |upper| >= 1 && upper[0] == top && IsWalkFrom(ws, Down, top, upper)
    ensures StartCut(ws, target) == upper[..IndexOf(upper, target) + 1]
  {
    assert IsWalkFrom(ws, Down, top, upper);
  }

  /**
    Hanging a walk `b` below `start`: when the blocks of `b` keep their `next`
    and `start` now points at its head, the chain from `start` is `start`
    followed by `b`.
  */
  lemma {:induction false} HangBelow(ws: Workspace, r: Workspace, b: seq<Id>, start: Id)
    requires |b| >= 1 && IsWalkFrom(ws, Down, b[0], b) && Resolves(ws, start) && start !in b
    requires |r| == |ws| && r[start].next == b[0]
    requires forall j :: 0 <= j < |b| ==> r[b[j]].next == ws[b[j]].next
    ensures ChainBlocks(r, start) == [start] + b
  {
    var w := r[start := r[start].(next := NoId)];
    WalkKept(ws, w, b);
    assert Distinct([start]) by {
      assert [start][1..] == [];
    }
    assert IsWalkFrom(w, Down, start, [start]);
    ChainSplice(w, r, [start], b);
  }

  /** Hanging the walk `b` below `start` with the start insertion's writes gives `start` followed by `b`. */
  lemma {:induction false} StartHeads(ws: Workspace, start: Id, target: Id, lower: Id, b: seq<Id>, cut: seq<Id>)
    requires Resolves(ws, start) && Resolves(ws, target) && Resolves(ws, lower)
    requires start != target && |b| >= 1 && b[0] == lower && IsWalkFrom(ws, Down, lower, b)
    requires start !in b && target !in b
    ensures ChainBlocks(StartWrites(ws, start, target, lower, cut), start) == [start] + b
  {
    var r := StartWrites(ws, start, target, lower, cut);
    StartNexts(ws, start, target, lower, cut);
    forall j | 0 <= j < |b|
      ensures r[b[j]].next == ws[b[j]].next
    {
      assert b[j] in b;
    }
    HangBelow(ws, r, b, start);
  }

  /**
    After a start block is inserted, its chain is the start block followed by
    the old chain from `lower`, unchanged.
  */
  lemma {:induction false} StartHeadsLower(ws: Workspace, start: Id, target: Id, lower: Id)
    requires Resolves(ws, start) && Resolves(ws, target) && Resolves(ws, lower) && start != target
    requires start !in ChainBlocks(ws, lower) && target !in ChainBlocks(ws, lower)
    ensures ChainBlocks(StartInsertion(ws, start, target, lower), start) == [start] + ChainBlocks(ws, lower)
  {
    StartHeads(ws, start, target, lower, ChainBlocks(ws, lower), StartCut(ws, target));
  }

  /** The writes of handleStopBlockInsertion that attach `stop` below `target`. */
  function StopAttach(ws: Workspace, stop: Id, target: Id): (r: Workspace)
    requires Resolves(ws, stop) && Resolves(ws, target)
    ensures |r| == |ws|
  {
    var w := ws[stop := ws[stop].(parent := target, topConnected := true, topLevel := false)];
    w[target := w[target].(next := stop, bottomConnected := true)]
  }

  /**
    What the writes of handleStopBlockInsertion with a lower part do to block
    `k`, in the program's order: cut `lower` off and make it a chain head, move
    the lower chain, attach `stop` below `target`, and clear `stop`'s bottom
    link.
  */
  function StopBlockAfter(b: Block, k: Id, stop: Id, target: Id, lower: Id, inLower: bool): Block {
    var b1 := if k == target then b.(next := NoId, bottomConnected := false) else b;
    var b2 := if k == lower then b1.(parent := NoId, topConnected := false, topLevel := true) else b1;
    var b3 := if inLower then b2.(x := b2.x + CutOffset, y := b2.y + CutOffset) else b2;
    var b4 := if k == stop then b3.(parent := target, topConnected := true, topLevel := false) else b3;
    var b5 := if k == target then b4.(next := stop, bottomConnected := true) else b4;
    if k == stop then b5.(next := NoId, bottomConnected := false) else b5
  }

  /** The writes of handleStopBlockInsertion with a lower part whose chain is `lowerChain`. */
  function StopWrites(ws: Workspace, stop: Id, target: Id, lower: Id, lowerChain: seq<Id>): (r: Workspace)
    ensures |r| == |ws|
    ensures forall k :: 0 <= k < |ws| ==> r[k] == StopBlockAfter(ws[k], k, stop, target, lower, k in lowerChain)
  {
    seq(|ws|, k requires 0 <= k < |ws| => StopBlockAfter(ws[k], k, stop, target, lower, k in lowerChain))
  }

  /**
    handleStopBlockInsertion: `stop` is dropped below `target`, whose next
    block was `lower`. Without a lower block `stop` is only attached (its own
    `next` is left as it was). Otherwise the chain from `lower` is cut off,
    becomes top-level and is moved, and `stop` ends the chain.
  */
  function StopInsertion(ws: Workspace, stop: Id, target: Id, lower: Id): (r: Workspace)
    requires Resolves(ws, stop) && Resolves(ws, target)
    ensures |r| == |ws|
    ensures !Resolves(ws, lower) && stop != target ==>
      && r[target].next == stop && r[target].bottomConnected
      && r[stop].parent == target && r[stop].topConnected && !r[stop].topLevel && r[stop].next == ws[stop].next
      && forall k :: 0 <= k < |ws| && k != stop && k != target ==> r[k] == ws[k]
  {
    if !Resolves(ws, lower) then StopAttach(ws, stop, target)
    else StopWrites(ws, stop, target, lower, ChainBlocks(ws, lower))
  }

  /** After a stop block is inserted with a lower part, the chain through `target` ends right after `stop`. */
  lemma {:induction false} StopEndsChain(ws: Workspace, stop: Id, target: Id, lower: Id)
    requires Resolves(ws, stop) && Resolves(ws, target) && Resolves(ws, lower) && stop != target
    ensures ChainBlocks(StopInsertion(ws, stop, target, lower), target) == [target, stop]
  {
    var r := StopWrites(ws, stop, target, lower, ChainBlocks(ws, lower));
    EndsAfter(r, target, stop);
  }

  /** A block whose `next` is a block with no `next` starts a chain of two. */
  lemma {:induction false} EndsAfter(r: Workspace, a: Id, b: Id)
    requires Resolves(r, a) && Resolves(r, b) && a != b
    requires r[a].next == b && !Resolves(r, r[b].next)
    ensures ChainBlocks(r, a) == [a, b]
  {
    var p := [a, b];
    assert Linked(r, Down, p[1..]);
    assert Distinct(p[1..]);
    ChainUnique(r, a, p);
  }

  /**
    The flags the stop insertion with a lower part writes: `stop` is joined
    below `target` and ends the chain, `lower` heads a chain of its own, the
    lower chain moves by the offset in both directions, and every other block
    keeps all of its fields but its position.
  */
  lemma StopWritesEffect(ws: Workspace, stop: Id, target: Id, lower: Id, lowerChain: seq<Id>)
    requires Resolves(ws, stop) && Resolves(ws, target) && Resolves(ws, lower)
    requires stop != target && lower != stop && lower != target
    ensures var r := StopWrites(ws, stop, target, lower, lowerChain);
      && Joined(r, target, stop)
      && r[stop].next == NoId && !r[stop].bottomConnected
      && r[lower].parent == NoId && !r[lower].topConnected && r[lower].topLevel
      && (forall k :: 0 <= k < |ws| ==>
            if k in lowerChain then r[k].x == ws[k].x + CutOffset && r[k].y == ws[k].y + CutOffset
            else r[k].x == ws[k].x && r[k].y == ws[k].y)
      && (forall k :: 0 <= k < |ws| && k != stop && k != target && k != lower ==> r[k] == ws[k].(x := r[k].x, y := r[k].y))
  {
  }

  /** handleStopBlockInsertion's effect with a lower part, whose whole chain is the part moved. */
  lemma StopInsertionEffect(ws: Workspace, stop: Id, target: Id, lower: Id)
    requires Resolves(ws, stop) && Resolves(ws, target) && Resolves(ws, lower)
    requires stop != target && lower != stop && lower != target
    ensures var r := StopInsertion(ws, stop, target, lower); var moved := ChainBlocks(ws, lower);
      && Joined(r, target, stop)
      && r[stop].next == NoId && !r[stop].bottomConnected
      && r[lower].parent == NoId && !r[lower].topConnected && r[lower].topLevel
      && (forall k :: 0 <= k < |ws| ==>
            if k in moved then r[k].x == ws[k].x + CutOffset && r[k].y == ws[k].y + CutOffset
            else r[k].x == ws[k].x && r[k].y == ws[k].y)
      && (forall k :: 0 <= k < |ws| && k != stop && k != target && k != lower ==> r[k] == ws[k].(x := r[k].x, y := r[k].y))
  {
    StopWritesEffect(ws, stop, target, lower, ChainBlocks(ws, lower));
  }

  /** The stop insertion's writes keep the `next` links of every block other than `stop` and `target`. */
  lemma StopNexts(ws: Workspace, stop: Id, target: Id, lower: Id, lowerChain: seq<Id>)
    ensures var r := StopWrites(ws, stop, target, lower, lowerChain);
      forall k :: 0 <= k < |ws| && k != stop && k != target ==> r[k].next == ws[k].next
  {
  }

  /** A walk avoiding `stop` and `target` survives the stop insertion's writes. */
  lemma {:induction false} StopKeeps(ws: Workspace, stop: Id, target: Id, lower: Id, b: seq<Id>)
    requires |b| >= 1 && IsWalkFrom(ws, Down, b[0], b) && stop !in b && target !in b
    ensures ChainBlocks(StopWrites(ws, stop, target, lower, b), b[0]) == b
  {
    var r := StopWrites(ws, stop, target, lower, b);
    StopNexts(ws, stop, target, lower, b);
    forall j | 0 <= j < |b|
      ensures r[b[j]].next == ws[b[j]].next
    {
      assert b[j] in b;
    }
    WalkKept(ws, r, b);
  }

  /** The cut-off lower part keeps its links: it is the same chain, now standing on its own. */
  lemma {:induction false} StopKeepsLowerChain(ws: Workspace, stop: Id, target: Id, lower: Id)
    requires Resolves(ws, stop) && Resolves(ws, target) && Resolves(ws, lower)
    requires stop !in ChainBlocks(ws, lower) && target !in ChainBlocks(ws, lower)
    ensures ChainBlocks(StopInsertion(ws, stop, target, lower), lower) == ChainBlocks(ws, lower)
  {
    StopKeeps(ws, stop, target, lower, ChainBlocks(ws, lower));
  }

  /**
    handleSpecialBlockInsertion: a start or stop block gets its special
    treatment and the answer is true; any other block, or no block, is left to
    the caller and nothing changes.
  */
  function HandleSpecial(ws: Workspace, ins: Id, target: Id, lower: Id): (r: (bool, Workspace))
    requires SpecialType(ws, ins).Some? ==> Resolves(ws, target)
    ensures r.0 <==> SpecialType(ws, ins).Some?
    ensures !r.0 ==> r.1 == ws
    ensures |r.1| == |ws|
  {
    match SpecialType(ws, ins)
    case None => (false, ws)
    case Some(t) =>
      if t == StartBlock then (true, StartInsertion(ws, ins, target, lower))
      else (true, StopInsertion(ws, ins, target, lower))
  }

  /** The special treatment is the start insertion for a start block and the stop insertion for a stop block. */
  lemma HandleSpecialDispatch(ws: Workspace, ins: Id, target: Id, lower: Id)
    requires Resolves(ws, ins) && Resolves(ws, target)
    ensures ws[ins].kind == StartBlock ==> HandleSpecial(ws, ins, target, lower).1 == StartInsertion(ws, ins, target, lower)
    ensures ws[ins].kind == StopBlock ==> HandleSpecial(ws, ins, target, lower).1 == StopInsertion(ws, ins, target, lower)
  {
  }
}

=== FILE: workspace_loader.dfy ===
/**
  Loading a saved workspace (src/utils/WorkspaceLoader.js). The saved form is
  a list of entries, each an instance id (its key) with the block's opcode,
  optional position, top-level flag and the keys of its `next`, `parent` and
  first inner block. Loading creates a block for every entry whose opcode
  the block table knows, then restores the links entry by entry, positioning
  each restored `next` block and each restored inner chain, and finally
  brings every c-block's height in line with its inner chain.

  Keys are ids: `NoId` is the empty or absent key, and the block map sends
  the key of each created entry to the arena index of its block.
*/
module Loader {
  import opened Model
  import opened BlockChain
  import opened CBlocks

  /**
    One saved block. `x` and `y` are absent when not saved; `next` and
    `parent` are `NoId` when absent or null; `substack` holds the second
    element of the SUBSTACK input when there is one.
  */
  datatype BlockData = BlockData(
    opcode: Opcode,
    x: Option<int>,
    y: Option<int>,
    topLevel: bool,
    next: Id,
    parent: Id,
    substack: Option<Id>)

  /** One property of the saved `blocks` object: the key it is saved under and its data. */
  datatype Entry = Entry(key: Id, data: BlockData)

  /** The block table: the type of every opcode it knows. */
  type Configs = map<Opcode, BlockType>

  /** The block map: from the key of a created entry to its block. */
  type BlockMap = map<Id, Id>

  predicate DistinctKeys(entries: seq<Entry>) {
    forall i, j :: 0 <= i < j < |entries| ==> entries[i].key != entries[j].key
  }

  /** Every key of the map names a block of the arena. */
  predicate MapInArena(m: BlockMap, ws: Workspace) {
    forall key :: key in m ==> 0 <= m[key] < |ws|
  }

  /** Different keys name different blocks. */
  predicate Injective(m: BlockMap) {
    forall a, b :: a in m && b in m && a != b ==> m[a] != m[b]
  }

  /** A key that is set (non-empty) and names a created block. */
  predicate Found(m: BlockMap, key: Id) {
    key != NoId && key in m
  }

  /** The link written when a block's own key is copied into a neighbour: the empty key links nothing. */
  function IdOf(m: BlockMap, key: Id): Id
    requires key in m
  {
    if key == NoId then NoId else m[key]
  }

  // ----- createBlockFromData -----

  /** A block as it comes from the block factory: no links and no connections, nothing stored. */
  predicate Unlinked(b: Block) {
    && b.next == NoId && b.parent == NoId && b.substack == NoId
    && !b.topConnected && !b.bottomConnected
    && b.height.None? && b.innerHeight.None?
  }

  /**
    createBlockFromData: nothing for an opcode the table does not know;
    otherwise an unlinked block of the table's type at the saved position,
    an unsaved (or zero) coordinate reading as 0, top-level as saved.
  */
  function CreateBlockFromData(configs: Configs, d: BlockData): (r: Option<Block>)
    ensures r.None? <==> d.opcode !in configs
    ensures r.Some? ==>
      && r.value.opcode == d.opcode && r.value.kind == configs[d.opcode]
      && Unlinked(r.value) && !r.value.isGhost
      && r.value.topLevel == d.topLevel
      && r.value.x == (if d.x.Some? then d.x.value else 0)
      && r.value.y == (if d.y.Some? then d.y.value else 0)
  {
    if d.opcode !in configs then None
    else
      Some(Block(d.opcode, configs[d.opcode], NoId, NoId, NoId, false, false, d.topLevel,
                 StoredOr(d.x, 0), StoredOr(d.y, 0), None, None, None, false))
  }

  /** Some entry under `key` has an opcode the table knows. */
  ghost predicate KnownKey(configs: Configs, entries: seq<Entry>, key: Id) {
    exists i :: 0 <= i < |entries| && entries[i].key == key && entries[i].data.opcode in configs
  }

  /**
    The creation pass of loadWorkspaceFromJSON: a block is appended for every
    entry of a known opcode, in entry order, and its key mapped to it; entries
    of unknown opcodes are skipped and stay out of the map.
  */
  method CreateAll(configs: Configs, entries: seq<Entry>) returns (ws: Workspace, m: BlockMap)
    ensures MapInArena(m, ws) && Injective(m)
    ensures forall i :: 0 <= i < |entries| && entries[i].data.opcode in configs ==> entries[i].key in m
    ensures forall key :: key in m ==> KnownKey(configs, entries, key)
    ensures forall k :: 0 <= k < |ws| ==> Unlinked(ws[k])
    ensures DistinctKeys(entries) ==>
      forall i :: 0 <= i < |entries| && entries[i].data.opcode in configs ==>
        ws[m[entries[i].key]] == CreateBlockFromData(configs, entries[i].data).value
  {
    ws, m := [], map[];
    var i := 0;
    while i < |entries|
      invariant 0 <= i <= |entries|
      invariant MapInArena(m, ws) && Injective(m)
      invariant forall j :: 0 <= j < i && entries[j].data.opcode in configs ==> entries[j].key in m
      invariant forall key :: key in m ==> KnownKey(configs, entries[..i], key)
      invariant forall k :: 0 <= k < |ws| ==> Unlinked(ws[k])
      invariant DistinctKeys(entries) ==>
        forall j :: 0 <= j < i && entries[j].data.opcode in configs ==>
          ws[m[entries[j].key]] == CreateBlockFromData(configs, entries[j].data).value
    {
      var e := entries[i];
      var b := CreateBlockFromData(configs, e.data);
      if b.Some? {
        assert forall key :: key in m ==> m[key] != |ws|;
        ws, m := ws + [b.value], m[e.key := |ws|];
      }
      forall key | key in m
        ensures KnownKey(configs, entries[..i + 1], key)
      {
        if key == e.key && b.Some? {
          assert entries[..i + 1][i] == e;
        } else {
          var j :| 0 <= j < i && entries[..i][j].key == key && entries[..i][j].data.opcode in configs;
          assert entries[..i + 1][j] == entries[..i][j];
        }
      }
      i := i + 1;
    }
    assert entries[..i] == entries;
  }

  // ----- restoreConnections -----

  /**
    The step from a block to the block restored below it: the upper block's
    stored height (else its form's path height, else the default height),
    less its bottom offset, plus the lower block's top offset.
  */
  function JoinDelta(env: Env, upper: Block, lower: Block): int {
    StoredOr(upper.height, Or(FormOf(env, upper.kind).pathHeight, env.defaultBlockHeight))
      - FormOf(env, upper.kind).bottomOffset + FormOf(env, lower.kind).topOffset
  }

  /**
    Restoring a `next` link: `b` links down to `n`, `n` links up with `p` (the
    link written from `b`'s key) and is no longer top-level, and `n` moves to
    `b`'s x, one join step below `b`.
  */
  function RestoreNext(env: Env, ws: Workspace, b: Id, n: Id, p: Id): (r: Workspace)
    requires Resolves(ws, b) && Resolves(ws, n)
    ensures |r| == |ws|
    ensures r[b].next == n && r[b].bottomConnected
    ensures r[n].parent == p && r[n].topConnected && !r[n].topLevel
    ensures r[n].x == ws[b].x && r[n].y == ws[b].y + JoinDelta(env, ws[b], ws[n])
    ensures forall k :: 0 <= k < |ws| && k != b && k != n ==> r[k] == ws[k]
    ensures forall k :: 0 <= k < |ws| ==> r[k].kind == ws[k].kind && r[k].opcode == ws[k].opcode && r[k].height == ws[k].height
    ensures forall k :: 0 <= k < |ws| && k != b ==> r[k].next == ws[k].next
  {
    var w1 := ws[b := ws[b].(next := n, bottomConnected := true)];
    var w2 := w1[n := w1[n].(parent := p, topConnected := true, topLevel := false)];
    SetPos(w2, n, ws[b].x, ws[b].y + JoinDelta(env, ws[b], ws[n]))
  }

  /**
    Restoring a link from a block saved under a set key is connecting the two
    chains and then placing the lower block.
  */
  lemma {:induction false} RestoreNextIsConnect(env: Env, ws: Workspace, b: Id, n: Id)
    requires Resolves(ws, b) && Resolves(ws, n)
    ensures RestoreNext(env, ws, b, n, b) ==
      SetPos(ConnectChains(ws, b, n), n, ws[b].x, ws[b].y + JoinDelta(env, ws[b], ws[n]))
  {
    var r := RestoreNext(env, ws, b, n, b);
    var c := SetPos(ConnectChains(ws, b, n), n, ws[b].x, ws[b].y + JoinDelta(env, ws[b], ws[n]));
    assert |r| == |c|;
    forall k | 0 <= k < |ws|
      ensures r[k] == c[k]
    {
    }
  }

  /** Restoring a `parent` link: `b` links up to `p`, is connected at the top and no longer top-level. */
  function RestoreParent(ws: Workspace, b: Id, p: Id): (r: Workspace)
    requires Resolves(ws, b)
    ensures |r| == |ws|
    ensures r[b] == ws[b].(parent := p, topConnected := true, topLevel := false)
    ensures forall k :: 0 <= k < |ws| && k != b ==> r[k] == ws[k]
  {
    ws[b := ws[b].(parent := p, topConnected := true, topLevel := false)]
  }

  /**
    The inner-chain layout of the loader: the first block at (x, y) and each
    later block one join step below the one before it, all at x.
  */
  function StackJoined(env: Env, ws: Workspace, chain: seq<Id>, x: int, y: int): (r: Workspace)
    requires forall i :: 0 <= i < |chain| ==> 0 <= chain[i] < |ws|
    ensures OnlyMoved(ws, r)
    ensures forall k :: 0 <= k < |ws| && k !in chain ==> r[k] == ws[k]
    decreases |chain|
  {
    if chain == [] then ws
    else
      var w := SetPos(ws, chain[0], x, y);
      if |chain| == 1 then w
      else
        var r := StackJoined(env, w, chain[1..], x, y + JoinDelta(env, ws[chain[0]], ws[chain[1]]));
        OnlyMovedTrans(ws, w, r);
        assert forall k :: 0 <= k < |ws| && k !in chain ==> k !in chain[1..] && k != chain[0];
        r
  }

  /** The join step reads no position, so moving blocks keeps it. */
  lemma {:induction false} JoinDeltaMoved(env: Env, ws: Workspace, w: Workspace, a: Id, b: Id)
    requires OnlyMoved(ws, w) && Resolves(ws, a) && Resolves(ws, b)
    ensures JoinDelta(env, w[a], w[b]) == JoinDelta(env, ws[a], ws[b])
  {
    assert w[a].kind == ws[a].kind && w[a].height == ws[a].height;
    assert w[b].kind == ws[b].kind;
  }

  /** The first block of a joined stack of distinct blocks sits at (x, y). */
  lemma {:induction false} StackJoinedHead(env: Env, ws: Workspace, chain: seq<Id>, x: int, y: int)
    requires forall i :: 0 <= i < |chain| ==> 0 <= chain[i] < |ws|
    requires |chain| >= 1 && Distinct(chain)
    ensures var r := StackJoined(env, ws, chain, x, y);
      r[chain[0]].x == x && r[chain[0]].y == y
  {
    if |chain| > 1 {
      assert chain[0] !in chain[1..];
    }
  }

  /**
    In a joined stack of distinct blocks every block after the first sits at
    x, one join step of its upper neighbour below it.
  */
  lemma {:induction false} StackJoinedStep(env: Env, ws: Workspace, chain: seq<Id>, x: int, y: int, i: nat)
    requires forall j :: 0 <= j < |chain| ==> 0 <= chain[j] < |ws|
    requires Distinct(chain) && i + 1 < |chain|
    ensures var r := StackJoined(env, ws, chain, x, y);
      && r[chain[i + 1]].x == x
      && r[chain[i + 1]].y == r[chain[i]].y + JoinDelta(env, ws[chain[i]], ws[chain[i + 1]])
    decreases |chain|
  {
    var w := SetPos(ws, chain[0], x, y);
    var rest := chain[1..];
    var y1 := y + JoinDelta(env, ws[chain[0]], ws[chain[1]]);
    assert Distinct(rest);
    assert StackJoined(env, ws, chain, x, y) == StackJoined(env, w, rest, x, y1);
    if i == 0 {
      StackJoinedHead(env, w, rest, x, y1);
      StackJoinedHead(env, ws, chain, x, y);
    } else {
      StackJoinedStep(env, w, rest, x, y1, i - 1);
      assert rest[i - 1] == chain[i] && rest[i] == chain[i + 1];
      JoinDeltaMoved(env, ws, w, chain[i], chain[i + 1]);
    }
  }

  /** The link writes of restoring SUBSTACK to block `k`: the c-block first, then its first inner block. */
  function SubstackLinkBlock(b: Block, k: Id, c: Id, sb: Id, p: Id): Block {
    var b1 := if k == c then b.(substack := sb) else b;
    if k == sb then b1.(parent := p, topConnected := true, topLevel := false) else b1
  }

  /** The link writes of restoring SUBSTACK, block by block. */
  function SubstackLinks(ws: Workspace, c: Id, sb: Id, p: Id): (r: Workspace)
    ensures |r| == |ws|
    ensures forall k :: 0 <= k < |ws| ==> r[k] == SubstackLinkBlock(ws[k], k, c, sb, p)
    ensures forall k :: 0 <= k < |ws| ==>
      && r[k].next == ws[k].next && r[k].kind == ws[k].kind && r[k].height == ws[k].height
      && r[k].x == ws[k].x && r[k].y == ws[k].y
  {
    seq(|ws|, k requires 0 <= k < |ws| => SubstackLinkBlock(ws[k], k, c, sb, p))
  }

  /** The inner chain hanging from `sb`, laid out as joined blocks from (x, y). */
  function LayoutInner(env: Env, ws: Workspace, sb: Id, x: int, y: int): (r: Workspace)
    requires Resolves(ws, sb)
    ensures OnlyMoved(ws, r)
  {
    StackJoined(env, ws, ChainBlocks(ws, sb), x, y)
  }

  /**
    Restoring SUBSTACK: the c-block `c` links to its first inner block `sb`,
    which links up with `p` (the link written from `c`'s key) and is no longer
    top-level; then the chain from `sb` is stacked from `c`'s insert position.
  */
  function RestoreSubstack(env: Env, ws: Workspace, c: Id, sb: Id, p: Id): (r: Workspace)
    requires Resolves(ws, c) && Resolves(ws, sb)
    ensures |r| == |ws|
    ensures r[c].substack == sb
    ensures r[sb].parent == p && r[sb].topConnected && !r[sb].topLevel
    ensures forall k :: 0 <= k < |ws| ==> r[k].next == ws[k].next && r[k].kind == ws[k].kind && r[k].opcode == ws[k].opcode
    ensures forall k :: 0 <= k < |ws| && k != c && k != sb ==> r[k] == ws[k].(x := r[k].x, y := r[k].y)
  {
    var w := SubstackLinks(ws, c, sb, p);
    var ip := InsertPosition(w, c);
    LayoutInner(env, w, sb, ip.x, ip.y)
  }

  /** The laid-out inner chain starts at (x, y) and steps down by the join step at x. */
  lemma {:induction false} LayoutInnerAt(env: Env, ws: Workspace, sb: Id, x: int, y: int, i: nat)
    requires Resolves(ws, sb)
    ensures var r := LayoutInner(env, ws, sb, x, y);
      var chain := ChainBlocks(ws, sb);
      && r[sb].x == x && r[sb].y == y
      && (i + 1 < |chain| ==>
            && r[chain[i + 1]].x == x
            && r[chain[i + 1]].y == r[chain[i]].y + JoinDelta(env, ws[chain[i]], ws[chain[i + 1]]))
  {
    var chain := ChainBlocks(ws, sb);
    assert chain[0] == sb;
    StackJoinedHead(env, ws, chain, x, y);
    if i + 1 < |chain| {
      StackJoinedStep(env, ws, chain, x, y, i);
    }
  }

  /** After restoring SUBSTACK the c-block's inner blocks are the chain that hangs from `sb`. */
  lemma {:induction false} RestoreSubstackInner(env: Env, ws: Workspace, c: Id, sb: Id, p: Id)
    requires IsCBlockId(ws, c) && Resolves(ws, sb)
    ensures InnerBlocks(RestoreSubstack(env, ws, c, sb, p), c) == ChainBlocks(ws, sb)
  {
    ChainSameNext(ws, RestoreSubstack(env, ws, c, sb, p), sb);
  }

  /**
    After restoring SUBSTACK the first inner block sits at the c-block's
    insert position and every later one at the same x, one join step below
    the one before it.
  */
  lemma {:induction false} RestoreSubstackLayout(env: Env, ws: Workspace, c: Id, sb: Id, p: Id, i: nat)
    requires Resolves(ws, c) && Resolves(ws, sb)
    ensures var r := RestoreSubstack(env, ws, c, sb, p);
      var chain := ChainBlocks(ws, sb);
      var ip := InsertPosition(ws, c);
      && r[sb].x == ip.x && r[sb].y == ip.y
      && (i + 1 < |chain| ==>
            && r[chain[i + 1]].x == ip.x
            && r[chain[i + 1]].y == r[chain[i]].y + JoinDelta(env, ws[chain[i]], ws[chain[i + 1]]))
  {
    var w := SubstackLinks(ws, c, sb, p);
    var ip := InsertPosition(w, c);
    assert ip == InsertPosition(ws, c);
    ChainSameNext(ws, w, sb);
    LayoutInnerAt(env, w, sb, ip.x, ip.y, i);
    var chain := ChainBlocks(ws, sb);
    if i + 1 < |chain| {
      var u, l := chain[i], chain[i + 1];
      assert w[u].kind == ws[u].kind && w[u].height == ws[u].height && w[l].kind == ws[l].kind;
    }
  }

  /**
    An entry fails the load when its own block was not created while its
    `next` or `parent` names a created block: the program then writes to a
    missing block and the load aborts.
  */
  predicate Fails(m: BlockMap, e: Entry) {
    e.key !in m && (Found(m, e.data.next) || Found(m, e.data.parent))
  }

  /** The SUBSTACK of an entry applies: its block is a created c-block and the inner key names a created block. */
  predicate SubstackApplies(m: BlockMap, ws: Workspace, e: Entry)
    requires MapInArena(m, ws)
  {
    && e.data.substack.Some? && e.key in m && ws[m[e.key]].kind == CBlock
    && Found(m, e.data.substack.value)
  }

  /** The `next` step of restoreConnections: restores the link when `next` names a created block. */
  function NextStage(env: Env, m: BlockMap, ws: Workspace, e: Entry): (r: Workspace)
    requires MapInArena(m, ws) && (Found(m, e.data.next) ==> e.key in m)
    ensures |r| == |ws|
    ensures forall k :: 0 <= k < |ws| ==> r[k].kind == ws[k].kind && r[k].opcode == ws[k].opcode
    ensures forall k :: 0 <= k < |ws| && !(e.key in m && k == m[e.key]) ==> r[k].next == ws[k].next
    ensures e.key in m ==> r[m[e.key]].next == (if Found(m, e.data.next) then m[e.data.next] else ws[m[e.key]].next)
    ensures !Found(m, e.data.next) ==> r == ws
  {
    if Found(m, e.data.next) then RestoreNext(env, ws, m[e.key], m[e.data.next], IdOf(m, e.key)) else ws
  }

  /** The `parent` step of restoreConnections: restores the link when `parent` names a created block. */
  function ParentStage(m: BlockMap, ws: Workspace, e: Entry): (r: Workspace)
    requires MapInArena(m, ws) && (Found(m, e.data.parent) ==> e.key in m)
    ensures |r| == |ws|
    ensures forall k :: 0 <= k < |ws| ==> r[k].kind == ws[k].kind && r[k].opcode == ws[k].opcode && r[k].next == ws[k].next
    ensures Found(m, e.data.parent) ==> r[m[e.key]].parent == m[e.data.parent] && r[m[e.key]].topConnected
    ensures !Found(m, e.data.parent) ==> r == ws
  {
    if Found(m, e.data.parent) then RestoreParent(ws, m[e.key], m[e.data.parent]) else ws
  }

  /** The SUBSTACK step of restoreConnections: restores the inner chain when SUBSTACK applies. */
  function SubstackStage(env: Env, m: BlockMap, ws: Workspace, e: Entry): (r: Workspace)
    requires MapInArena(m, ws)
    ensures |r| == |ws|
    ensures forall k :: 0 <= k < |ws| ==> r[k].kind == ws[k].kind && r[k].opcode == ws[k].opcode && r[k].next == ws[k].next
    ensures SubstackApplies(m, ws, e) ==> r[m[e.key]].substack == m[e.data.substack.value]
    ensures !SubstackApplies(m, ws, e) ==> r == ws
  {
    if SubstackApplies(m, ws, e) then RestoreSubstack(env, ws, m[e.key], m[e.data.substack.value], IdOf(m, e.key))
    else ws
  }

  /**
    One step of restoreConnections: the `next` link, then the `parent` link,
    then SUBSTACK, each only when the key it names was created. A missing
    block of the entry itself aborts the load.
  */
  function RestoreEntry(env: Env, m: BlockMap, ws: Workspace, e: Entry): (r: Option<Workspace>)
    requires MapInArena(m, ws)
    ensures r.None? <==> Fails(m, e)
    ensures r.Some? ==> |r.value| == |ws|
    ensures r.Some? ==> forall k :: 0 <= k < |ws| ==> r.value[k].kind == ws[k].kind && r.value[k].opcode == ws[k].opcode
    ensures r.Some? ==> forall k :: 0 <= k < |ws| && !(e.key in m && k == m[e.key]) ==> r.value[k].next == ws[k].next
    ensures r.Some? && e.key in m ==>
      r.value[m[e.key]].next == (if Found(m, e.data.next) then m[e.data.next] else ws[m[e.key]].next)
    ensures !Found(m, e.data.next) && !Found(m, e.data.parent) && !SubstackApplies(m, ws, e) ==> r == Some(ws)
  {
    if Fails(m, e) then None
    else
      var w1 := NextStage(env, m, ws, e);
      var w2 := ParentStage(m, w1, e);
      Some(SubstackStage(env, m, w2, e))
  }

  /** The `next` link of the entry's block once the entry is restored over `ws`. */
  function ExpectedNext(m: BlockMap, ws: Workspace, e: Entry): Id
    requires MapInArena(m, ws) && e.key in m
  {
    if Found(m, e.data.next) then m[e.data.next] else ws[m[e.key]].next
  }

  /**
    restoreConnections: the entries are restored in order. The load fails
    exactly when some entry fails; otherwise, with distinct keys, every
    created block links down to the block its entry names as `next` when that
    was created, and keeps its link otherwise.
  */
  method RestoreConnections(env: Env, entries: seq<Entry>, m: BlockMap, ws: Workspace) returns (r: Option<Workspace>)
    requires MapInArena(m, ws)
    ensures r.None? <==> exists i :: 0 <= i < |entries| && Fails(m, entries[i])
    ensures r.Some? ==> |r.value| == |ws| && forall k :: 0 <= k < |ws| ==> r.value[k].kind == ws[k].kind && r.value[k].opcode == ws[k].opcode
    ensures r.Some? && DistinctKeys(entries) && Injective(m) ==>
      forall i :: 0 <= i < |entries| && entries[i].key in m ==>
        r.value[m[entries[i].key]].next == ExpectedNext(m, ws, entries[i])
  {
    var w := ws;
    var i := 0;
    while i < |entries|
      invariant 0 <= i <= |entries|
      invariant |w| == |ws| && MapInArena(m, w)
      invariant forall k :: 0 <= k < |ws| ==> w[k].kind == ws[k].kind && w[k].opcode == ws[k].opcode
      invariant forall j :: 0 <= j < i ==> !Fails(m, entries[j])
      invariant DistinctKeys(entries) && Injective(m) ==>
        forall j :: 0 <= j < i && entries[j].key in m ==> w[m[entries[j].key]].next == ExpectedNext(m, ws, entries[j])
      invariant DistinctKeys(entries) && Injective(m) ==>
        forall j :: i <= j < |entries| && entries[j].key in m ==> w[m[entries[j].key]].next == ws[m[entries[j].key]].next
    {
      var e := entries[i];
      var s := RestoreEntry(env, m, w, e);
      if s.None? {
        return None;
      }
      if DistinctKeys(entries) && Injective(m) {
        forall j | 0 <= j < |entries| && j != i && entries[j].key in m
          ensures s.value[m[entries[j].key]].next == w[m[entries[j].key]].next
        {
          assert entries[j].key != e.key;
        }
      }
      w := s.value;
      i := i + 1;
    }
    return Some(w);
  }

  /**
    The final pass of loadWorkspaceFromJSON: every c-block, in arena order, has
    its height synced. A sync reads the stored heights of nested c-blocks and
    never resizes the containers around the one it resizes, so a c-block ends
    in sync when every c-block in its inner chain comes before it (NestedFirst);
    a container synced before a nested one is left with a stale height.
  */
  method SyncCBlocks(env: Env, ws: Workspace) returns (r: Workspace)
    ensures OnlyGeometry(ws, r)
    ensures forall c :: 0 <= c < |ws| && !IsCBlockId(ws, c) ==> r[c].height == ws[c].height
    ensures BaseHeight(env) >= 0 ==>
      forall c :: 0 <= c < |ws| && IsCBlockId(ws, c) && NestedFirst(ws, c) ==> InSync(env, r, c)
  {
    r := ws;
    var c := 0;
    while c < |ws|
      invariant 0 <= c <= |ws|
      invariant OnlyGeometry(ws, r)
      invariant forall k :: 0 <= k < |ws| && !IsCBlockId(ws, k) ==> r[k].height == ws[k].height
      invariant SyncedBefore(env, ws, r, c)
    {
      if ws[c].kind == CBlock {
        r := SyncStep(env, ws, r, c);
      } else {
        SyncedBeforeSkip(env, ws, r, c);
      }
      c := c + 1;
    }
  }

  /** Every c-block before `n` whose nested c-blocks come first is in sync in `r`. */
  ghost predicate SyncedBefore(env: Env, ws: Workspace, r: Workspace, n: int)
    requires |r| == |ws|
  {
    BaseHeight(env) >= 0 ==>
      forall k :: 0 <= k < n && IsCBlockId(ws, k) && NestedFirst(ws, k) ==> InSync(env, r, k)
  }

  /** A block that is not a c-block adds nothing to settle. */
  lemma {:induction false} SyncedBeforeSkip(env: Env, ws: Workspace, r: Workspace, c: Id)
    requires |r| == |ws| && 0 <= c < |ws| && !IsCBlockId(ws, c) && SyncedBefore(env, ws, r, c)
    ensures SyncedBefore(env, ws, r, c + 1)
  {
  }

  /** One step of the final pass: syncCBlockHeight on the c-block `c`. */
  method SyncStep(env: Env, ws: Workspace, r: Workspace, c: Id) returns (s: Workspace)
    requires OnlyGeometry(ws, r) && IsCBlockId(ws, c)
    requires forall k :: 0 <= k < |ws| && !IsCBlockId(ws, k) ==> r[k].height == ws[k].height
    requires SyncedBefore(env, ws, r, c)
    ensures OnlyGeometry(ws, s)
    ensures forall k :: 0 <= k < |ws| && !IsCBlockId(ws, k) ==> s[k].height == ws[k].height
    ensures SyncedBefore(env, ws, s, c + 1)
  {
    s := SyncHeight(env, r, c);
    if BaseHeight(env) >= 0 {
      SyncKeepsSynced(env, ws, r, c);
    }
    OnlyGeometryTrans(ws, r, s);
  }

  /**
    One step of the final pass: syncing the c-block `c` settles it when its
    nested c-blocks come first, and keeps every earlier settled container in
    sync, since `c` is not in their inner chains.
  */
  lemma {:induction false} SyncKeepsSynced(env: Env, ws: Workspace, r: Workspace, c: Id)
    requires OnlyGeometry(ws, r) && IsCBlockId(ws, c) && BaseHeight(env) >= 0
    requires forall k :: 0 <= k < c && IsCBlockId(ws, k) && NestedFirst(ws, k) ==> InSync(env, r, k)
    ensures forall k :: 0 <= k <= c && IsCBlockId(ws, k) && NestedFirst(ws, k) ==> InSync(env, SyncHeight(env, r, c), k)
  {
    var s := SyncHeight(env, r, c);
    OnlyGeometrySameLinks(ws, r);
    forall k | 0 <= k <= c && IsCBlockId(ws, k) && NestedFirst(ws, k)
      ensures InSync(env, s, k)
    {
      InnerBlocksSameLinks(ws, r, k);
      if k == c {
        assert c !in InnerBlocks(r, c);
        SyncSettles(env, r, c);
      } else {
        assert c !in InnerBlocks(r, k);
        InSyncKept(env, r, s, k, c);
      }
    }
  }

  /**
    loadWorkspaceFromJSON over a cleared workspace: creates the blocks,
    restores the links and syncs the c-blocks. Nothing (a failed load)
    exactly when some entry's block was not created while a link it restores
    names a created block. With distinct keys every entry of a known opcode
    gets a block of its opcode and type, linked down to the block of its
    saved `next` when that was created and to nothing otherwise.
  */
  method LoadWorkspace(env: Env, configs: Configs, entries: seq<Entry>) returns (r: Option<Workspace>, m: BlockMap)
    ensures forall key :: key in m ==> KnownKey(configs, entries, key)
    ensures forall i :: 0 <= i < |entries| && entries[i].data.opcode in configs ==> entries[i].key in m
    ensures r.None? <==> exists i :: 0 <= i < |entries| && Fails(m, entries[i])
    ensures r.Some? ==> MapInArena(m, r.value)
    ensures r.Some? && DistinctKeys(entries) ==>
      forall i :: 0 <= i < |entries| && entries[i].data.opcode in configs ==>
        var b := r.value[m[entries[i].key]];
        && b.opcode == entries[i].data.opcode && b.kind == configs[entries[i].data.opcode]
        && b.next == (if Found(m, entries[i].data.next) then m[entries[i].data.next] else NoId)
    ensures r.Some? && BaseHeight(env) >= 0 ==>
      forall c :: 0 <= c < |r.value| && IsCBlockId(r.value, c) && NestedFirst(r.value, c) ==> InSync(env, r.value, c)
  {
    var ws;
    ws, m := CreateAll(configs, entries);
    var restored := RestoreConnections(env, entries, m, ws);
    if restored.None? {
      return None, m;
    }
    var synced := SyncCBlocks(env, restored.value);
    OnlyGeometrySameLinks(restored.value, synced);
    r := Some(synced);
    if BaseHeight(env) >= 0 {
      forall c | 0 <= c < |synced| && IsCBlockId(synced, c) && NestedFirst(synced, c)
        ensures InSync(env, synced, c)
      {
        InnerBlocksSameLinks(restored.value, synced, c);
        assert IsCBlockId(restored.value, c) && NestedFirst(restored.value, c);
      }
    }
    if DistinctKeys(entries) {
      forall i | 0 <= i < |entries| && entries[i].data.opcode in configs
        ensures synced[m[entries[i].key]].opcode == entries[i].data.opcode
      {
        var k := m[entries[i].key];
        assert ws[k].opcode == entries[i].data.opcode;
        assert restored.value[k].opcode == ws[k].opcode;
      }
    }
  }
}
